=== FILE: README.md ===
# gfree x86 passes in Dafny

A model of the x86-64 machine passes of gfree. gfree is a compiler
extension that keeps a binary free of unintended return-oriented
gadgets. Its passes fall into two groups:

- **Gadget removal.** These passes remove byte sequences that a processor,
  decoding from the middle of an instruction, would read as a return
  (C2, C3, CA, CB) or as an indirect call or jump (FF followed by a ModRM
  byte of the forms /2 to /5):
  - dangerous immediates and displacements are split into two harmless
    halves and rebuilt at run time. The flags register is saved where
    the inserted code would clobber flags that are still needed;
  - register choices whose ModRM/SIB bytes encode a return are changed,
    or the instruction is wrapped around a scratch register;
  - byte swaps of the registers whose encoding ends in CA/CB go through
    RCX, and non-temporal stores become plain stores.
- **Control-flow integrity.** These passes protect returns and indirect
  branches:
  - the return address is XORed with the stack-protector canary on entry
    and again before every exit;
  - a per-function random cookie is stored on entry and checked before
    every indirect jump or call (jump-control protection);
  - a finalization step splits the block at each indirect branch, moves
    the check right before a `je` to it, and puts a `hlt` block on the
    failure path.

The model works on a small machine-IR of its own:

- instructions are opcode descriptors with operand lists (module
  `Machine`);
- functions are maps from labels to blocks, plus a layout order;
- 64-bit words are eight little-endian bytes (module `Words`);
- the emitted sequences run on an abstract processor (modules `Cpu` and
  `Values`).

Each pass is a pure function. The encoder, the register allocator's
queries and the random source are parameters. Where the source has a
defect, the model has both versions: the code as written, and a corrected
definition with its intended property proved (see "## Findings").

Modules, in dependency order:

| module | what it models |
|---|---|
| `Words` | 64-bit words, byte-wise arithmetic and XOR |
| `Machine` | instructions, opcodes, blocks, functions; the opcode getters and `getRegClassFromSize` of the utilities; `isMove`, `isCompare`, `isTest` and `isIndirectCall` as the predicates `IsMove`, `IsCompare`, `IsTest` and `IsIndirectCall` |
| `Hazard` | `values_to_avoid`, `FFblacklist`, `containsRet` |
| `Split` | `splitInt` |
| `Tables` | the five opcode maps of immediate reconstruction, `getOpcodeFromMaps`, `getSizeFromMaps` |
| `Flags` | `needToSaveEFLAGS`, `pushEFLAGSinline` / `popEFLAGSinline`, and a flow semantics of the flags register |
| `Values` | what the loads, register forms and ADD/copy/SUB rewrites compute |
| `ImmRecon` | the immediate-reconstruction pass: `emitNewInstructionRItoRR` (`EmitRItoRR`), `emitNewInstructionMItoMR`, `emitAddInstSubRegToReg`, `loadImmediateIntoVirtReg` (`Loads`), and `runOnMachineBasicBlock` (`ReconBlock`, which scans a rewritten instruction again; `ReconBlockAsWritten` is the loop as written) |
| `ModRM` | the ModRM/SIB pass: `neverEncodesRetModRmSib` (`NeverEncodesRet`), `allocateNewRegister`, `AssembleMInewMapping`, `MIusesRegister` (`UsesFamily`), `getSafeReg`, `getMOVrrOpcode`, `doCodeTransformation`, and the block and function drivers |
| `Cpu` | a processor for the sequences the control-flow passes emit |
| `Jcp` | `generateSafeRandom`, `insertCookieIndirectJump` (`EntrySeq`), `insertCheckCookieIndirectJump` (`CheckSeq`), the JCP pass |
| `Rap` | `insertPrologueOrEpilogue`, `returnAddressProtection` |
| `Finalize` | `matchCheckCookieRoutine`, `cookieProtectionFinalization` |
| `Bswap` | `handleBSWAP`, `handleMOVNTI`, `instructionTransformation` |
| `GFree` | the main machine pass, `runOnMachineFunction` |

## Definitions

These definitions only compute; what they promise is stated by the
members named in the last column, each of which has a row under
"## Model".

| definition | source | what it is | stated by |
|---|---|---|---|
| `Split.SplitInt` | X86GFree/X86GFreeUtils.cpp:114-139 | `splitInt` | `Split.SplitCases`, `Split.SplitPartition`, `Split.SplitZeroIffSafe`, `Split.SplitHalvesSafe` |
| `Hazard.HasHazard` | X86GFree/X86GFreeUtils.cpp:500-511 | the reference definition of a hazard: a return opcode, or FF followed by a blacklisted ModRM byte, somewhere in the bytes | `Hazard.ContainsRet`, `Hazard.HasHazardCons`, `Hazard.TrailingFFNeverFlagged` |
| `Flags.NeedToSave` | X86GFree/X86GFreeUtils.cpp:443-498 | `needToSaveEFLAGS`, with a bound on the successors followed | `Flags.FirstDecider`, `Flags.WalkWithinBlock`, `Flags.FuelMonotone`, `Flags.NeedToSaveDiverges` |
| `Flags.NeedToSaveBounded` | X86GFree/X86GFreeUtils.cpp:443-498 | the walk bounded by the number of blocks | `Flags.BoundedAgrees` |
| `Flags.FlowStep` | X86GFree/X86GFreeUtils.cpp:344-441 | where the flags, the save registers and the stack slots got their values, one instruction at a time | `Flags.MainStep`, `Flags.PlainRun`, `Flags.SaveKeeps`, `Flags.RestoreBrings`, `Flags.Bracketed`, `Flags.BracketedOverwritten` |
| `ImmRecon.EmitRItoRR` | X86GFree/X86GFreeImmediateRecon.cpp:282-304 | `emitNewInstructionRItoRR` | `ImmRecon.RItoRRReplacesImmediate`, `Values.RegisterFormShape`, `Values.RegisterFormReadsSameValues` |
| `ImmRecon.Place` | X86GFree/X86GFreeImmediateRecon.cpp:530-567 | the corrected placement of the saves and restores | `ImmRecon.PlaceKeepsFlags` |
| `ImmRecon.PlaceAsWritten` | X86GFree/X86GFreeImmediateRecon.cpp:530-567 | the source's placement | `ImmRecon.AsWrittenAgrees`, `ImmRecon.AsWrittenKeepsFlags`, `ImmRecon.AsWrittenLosesFlagsAtSub`, `ImmRecon.AsWrittenLosesReadFlags` |
| `ModRM.NeverEncodesRet` | X86GFree/X86GFreeModRMSIB.cpp:83-95 | `neverEncodesRetModRmSib` | `ModRM.CleanBlockUnchanged` |
| `ModRM.UsesFamily` | X86GFree/X86GFreeModRMSIB.cpp:241-260 | `MIusesRegister` | `ModRM.FirstUnused`, `ModRM.SafeReg` |
| `Finalize.Match` | X86GFree/X86GFree.cpp:261-281 | the corrected `matchCheckCookieRoutine` | `Finalize.MatchIff`, `Finalize.MatchFindsCheck`, `Finalize.MatchAgrees` |
| `Finalize.SearchAsWritten` | X86GFree/X86GFree.cpp:361-380 | the source's backward search | `Finalize.SearchAgrees`, `Finalize.FoldedCallMisread` |
| `Bswap.Rewrite` | X86GFree/X86GFree.cpp:115-142 | one instruction of `instructionTransformation` | `Bswap.RewriteClean`, `GFree.RewriteDirect` |
| `Bswap.TransformBlock` | X86GFree/X86GFree.cpp:115-142 | `instructionTransformation` on one block | `Bswap.Transform`, `Bswap.TransformBlockClean`, `Bswap.AsWrittenKeepsR10D` |
| `Bswap.UnsafeAsWritten` | X86GFree/X86GFree.cpp:63-64 | the source's list of registers to swap through RCX | `Bswap.UnsafeAsWrittenExact64`, `Bswap.UnsafeAsWrittenMissesR10D` |
| `Bswap.Unsafe` | X86GFree/X86GFree.cpp:63-64 | that list with R10D and R11D added | `Bswap.UnsafeExact` |
| `Jcp.EntrySeq` | X86GFree/X86GFreeJCP.cpp:38-79 | `insertCookieIndirectJump` | `Jcp.EntryStoresCookie`, `Jcp.EntryThenCheck` |
| `Jcp.CheckSeq` | X86GFree/X86GFreeJCP.cpp:81-121 | `insertCheckCookieIndirectJump` | `Jcp.CheckMatchesPattern`, `Jcp.CheckComparesCookie`, `Jcp.EntryThenCheck` |

## Model

| member | source | states |
|---|---|---|
| Hazard.PositionInList | X86GFree/X86GFreeUtils.cpp:105-108 | Every ModRM byte that turns a preceding FF into an indirect call or jump (memory forms /2 to /5 through a plain base register, register forms /2 and /4) appears in the source's 40-entry list. |
| Hazard.ValuesToAvoidAreIndirect | X86GFree/X86GFreeUtils.cpp:105-108 | Conversely, every entry of the list is such a ModRM byte. |
| Hazard.FFBlacklistIsList | X86GFree/X86GFreeUtils.cpp:110-112 | `FFblacklist` holds for a byte exactly when the byte is in `values_to_avoid`. |
| Hazard.ContainsRet | X86GFree/X86GFreeUtils.cpp:500-511 | The sentinel scan answers true exactly when some byte, read with its successor (zero past the end), starts a return opcode or FF plus a blacklisted ModRM byte. |
| Hazard.TrailingFFNeverFlagged | X86GFree/X86GFreeUtils.cpp:500-511 | The zero sentinel makes a final FF harmless: appending FF never changes the verdict. |
| Hazard.HasHazardCons | X86GFree/X86GFreeUtils.cpp:500-511 | The verdict on a byte followed by more bytes is that byte paired with the next one, or the verdict on the rest. |
| Hazard.FieldSafeIff | X86GFree/X86GFreeUtils.cpp:114-132 | The byte-by-byte test of the split loop (each byte with the next, zero after the most significant) agrees with the scanner run on the field's little-endian bytes. |
| Split.NibbleMask | X86GFree/X86GFreeUtils.cpp:124-130 | A hazardous byte contributes its low nibble, which is nonzero. A harmless byte contributes nothing. |
| Split.NibbleMaskSafe | X86GFree/X86GFreeUtils.cpp:124-130 | A mask byte is never a return opcode nor FF. |
| Split.RemainderSafe | X86GFree/X86GFreeUtils.cpp:124-137 | What a hazardous byte keeps, its high nibble (C0 or F0), cannot start a hazard whatever follows it. |
| Split.LowIsSafe | X86GFree/X86GFreeUtils.cpp:117-132 | The mask `low`, read as a field of the split width, holds no hazard. |
| Split.RestIsSafe | X86GFree/X86GFreeUtils.cpp:136-137 | `Imm & ~low`, read as a field of the split width, holds no hazard. |
| Split.LowMaskZeroIffSafe | X86GFree/X86GFreeUtils.cpp:133-134 | `low` is zero exactly when the field holds no hazard, which is when the source returns (0, 0). |
| Split.LowMaskIsSubmask | X86GFree/X86GFreeUtils.cpp:128-129 | The mask takes only bits of the immediate. |
| Split.SplitCases | X86GFree/X86GFreeUtils.cpp:133-137 | The split is (0, 0) when the mask is zero. Otherwise it is the mask and the rest, in one order or the other. |
| Split.ArrangePartition | X86GFree/X86GFreeUtils.cpp:136-137 | The signed min/max of a nonzero sub-mask and the rest are disjoint, OR back to the word, and come smaller first. |
| Split.SplitPartition | X86GFree/X86GFreeUtils.cpp:114-139 | A nonzero split is a partition of the immediate: the halves OR to it, AND to zero, and the first is no greater than the second as signed 64-bit integers. |
| Split.SplitZeroIffSafe | X86GFree/X86GFreeUtils.cpp:114-139 | `splitInt` returns (0, 0) exactly when the scanner finds no hazard in the field's bytes. This is the test `generateSafeRandom` and the reconstruction pass rely on. |
| Split.SplitHalvesSafe | X86GFree/X86GFreeUtils.cpp:114-139 | Neither half, as a field of the split width, holds a hazard. |
| Split.MaskByteNibble | X86GFree/X86GFreeUtils.cpp:128-129 | A mask byte is at most 0F, and the byte it came from keeps a nonzero high nibble. |
| Split.SmallHalfBelowSignBit | X86GFree/X86GFreeUtils.cpp:136-137 | When the smaller half fits in 32 bits, its bit 31 is clear. OR64ri32 sign-extends its immediate, so it reproduces that half. |
| Split.SplitExample | X86GFree/X86GFreeUtils.cpp:114-139 | 0x11223344C3556677 at 64 bits splits into 0x03000000 and 0x11223344C0556677. |
| Machine.OrRROpcode | X86GFree/X86GFreeUtils.cpp:18-33 | `getORrrOpcode`: the OR of two registers of 1, 2, 4 or 8 bytes, none for other sizes. |
| Machine.MovRIOpcode | X86GFree/X86GFreeUtils.cpp:35-50 | `getMOVriOpcode`: MOV of an immediate of the size, with a full 64-bit immediate at 8 bytes. |
| Machine.AddRROpcode | X86GFree/X86GFreeUtils.cpp:52-67 | `getADDrrOpcode`: ADD of two registers of the size. |
| Machine.SubRROpcode | X86GFree/X86GFreeUtils.cpp:69-84 | `getSUBrrOpcode`: SUB of two registers of the size. |
| Machine.OrRIOpcode | X86GFree/X86GFreeUtils.cpp:86-102 | `getORriOpcode`: OR with an immediate of the size, OR64ri32 (a sign-extended 32-bit immediate) at 8 bytes. |
| Machine.WidthOfBytes | X86GFree/X86GFreeUtils.cpp:513-528 | `getRegClassFromSize`: only 1, 2, 4 and 8 bytes name a register class, of 8 times as many bits. |
| Tables.Lookup | X86GFree/X86GFreeImmediateRecon.cpp:262-278 | An opcode has an entry exactly when one of the five maps lists it. |
| Tables.OpcodeFromMaps | X86GFree/X86GFreeImmediateRecon.cpp:262-269 | There is a replacement opcode exactly for listed opcodes (opcode 0 otherwise). |
| Tables.SizeFromMaps | X86GFree/X86GFreeImmediateRecon.cpp:271-278 | The split width is 8, 16, 32 or 64, and 0 exactly for an unlisted opcode. |
| Tables.TablesDisjoint | X86GFree/X86GFreeImmediateRecon.cpp:262-278 | No opcode is in two maps, so OR-ing the five lookups gives the one map's entry. |
| Tables.RItoRRShape | X86GFree/X86GFreeImmediateRecon.cpp:61-147 | The register/immediate map keeps operation and width, goes to the register form (`_DB` to `_DB`), and splits at the operand width. |
| Tables.MItoMRShape | X86GFree/X86GFreeImmediateRecon.cpp:149-215 | The memory/immediate map goes to the memory/register form of the same operation and width. |
| Tables.DisplacementTablesKeepOpcode | X86GFree/X86GFreeImmediateRecon.cpp:218-240 | The RM, MR and LEA maps keep the opcode and split displacements at 64 bits. |
| Tables.ListedOperations | X86GFree/X86GFreeImmediateRecon.cpp:61-240 | Every listed opcode is an arithmetic, move, test or address operation, and its replacement performs the same operation. |
| Tables.RegisterRows | X86GFree/X86GFreeImmediateRecon.cpp:61-147 | Sample rows of the register map: ADC8ri, ADD16ri8_DB, TEST8i8 and MOV32ri64. |
| Tables.MemoryRows | X86GFree/X86GFreeImmediateRecon.cpp:149-215 | Sample rows of the memory map: SBB8mi and MOV64mi32. |
| Tables.UnlistedRows | X86GFree/X86GFreeImmediateRecon.cpp:149-215 | ADC8mi and TEST32mi are in no map. |
| Tables.DisplacementRows | X86GFree/X86GFreeImmediateRecon.cpp:218-240 | Sample rows of the displacement maps: MOVSX64rm16 and LEA64_32r. |
| Flags.FirstDecider | X86GFree/X86GFreeUtils.cpp:470-493 | Within a block, the walk stops at the first instruction that reads or writes the flags or is a call or return. |
| Flags.WalkWithinBlock | X86GFree/X86GFreeUtils.cpp:455-493 | The walk's answer is that instruction's: yes only if it reads the flags and is neither a call nor a return. Without one, the walk goes on at the block's end. |
| Flags.FuelMonotone | X86GFree/X86GFreeUtils.cpp:459-463 | An answer found with some number of successor steps stays the same with more steps. |
| Flags.BoundedAgrees | X86GFree/X86GFreeUtils.cpp:443-498 | The bounded walk gives the source's answer whenever the source answers within as many steps as there are blocks. It says no only when the source says no. |
| Flags.SpinLoop | X86GFree/X86GFreeUtils.cpp:459-463 | A function shaped like a compiled `for (;;);`, with a store before it, and successors that stay inside the function. |
| Flags.SpinLoopNeverAnswers | X86GFree/X86GFreeUtils.cpp:459-463 | In the self-loop block the walk follows the single successor forever: no amount of fuel gives an answer. |
| Flags.NeedToSaveDiverges | X86GFree/X86GFreeUtils.cpp:459-463 | Asked after the store, the source's walk never answers, while the bounded walk answers yes. |
| Flags.PlainRun | X86GFree/X86GFreeImmediateRecon.cpp:474-502 | Inserted code that does not touch the stack leaves the stack and the save registers alone. The flags either keep their value or are clobbered. |
| Flags.ClobberedByLast | X86GFree/X86GFreeImmediateRecon.cpp:474-502 | Inserted code ending in a flag-writing instruction (the OR, the SUB) leaves the flags clobbered. |
| Flags.SaveKeeps | X86GFree/X86GFreeUtils.cpp:344-402 | `pushEFLAGSinline` (PUSHF; POP save) copies the flags into the save register and keeps the flags and the stack. |
| Flags.RestoreBrings | X86GFree/X86GFreeUtils.cpp:406-441 | `popEFLAGSinline` (PUSH save; POPF) brings back the saved flags and keeps the stack. |
| Flags.MainStep | X86GFree/X86GFreeImmediateRecon.cpp:474-502 | The rewritten instruction, when it leaves the stack alone, reads the flags it finds and writes its own if it writes any; a save register it does not name keeps its value. |
| Flags.Bracketed | X86GFree/X86GFreeUtils.cpp:344-441 | Stack-neutral code that does not name the save register, between a save and a restore, leaves the flags as they were before the save. |
| Flags.BracketedOverwritten | X86GFree/X86GFreeUtils.cpp:344-441 | If an instruction between the save and the restore names the save register, the restored flags count as clobbered: the save only protects code that leaves its register alone. |
| ImmRecon.SplitWidth | X86GFree/X86GFreeImmediateRecon.cpp:434-438 | The split width is the table's width, except 64 for the displacement (operand 3) of a memory/immediate form and for an unlisted opcode. |
| ImmRecon.FirstCandidate | X86GFree/X86GFreeImmediateRecon.cpp:429-460 | The operand found, if any, comes at or after the start position and within the operand list. |
| ImmRecon.FirstCandidateFound | X86GFree/X86GFreeImmediateRecon.cpp:429-460 | The operand found is an immediate with a hazard at its width that is not postponed. |
| ImmRecon.FirstCandidateSkips | X86GFree/X86GFreeImmediateRecon.cpp:429-460 | No operand before the one found qualifies. If none is found, no operand qualifies. |
| ImmRecon.CandidateListed | X86GFree/X86GFreeImmediateRecon.cpp:449-460 | A rebuilt operand is an immediate of an opcode some map lists (opcode 0 is postponed). |
| ImmRecon.Loads | X86GFree/X86GFreeImmediateRecon.cpp:366-404 | MOV and OR only: two instructions when the small half fits in 32 bits, three otherwise. |
| ImmRecon.LoadsAreSafe | X86GFree/X86GFreeImmediateRecon.cpp:366-404 | No immediate the loads carry holds a hazard at the split width. |
| ImmRecon.LoadsCarryHalves | X86GFree/X86GFreeImmediateRecon.cpp:366-404 | The loads carry no immediate but the two halves. |
| ImmRecon.LoadsEndWithOr | X86GFree/X86GFreeImmediateRecon.cpp:381-399 | The loads end in the OR that assembles the value, which writes the flags. |
| ImmRecon.RItoRRReplacesImmediate | X86GFree/X86GFreeImmediateRecon.cpp:282-304 | MOV, CMP and TEST keep their first register and read the new register. Arithmetic keeps destination and source and reads the new register. An instruction whose only operand is the immediate has no register to read and fails. |
| ImmRecon.EmitMItoMR | X86GFree/X86GFreeImmediateRecon.cpp:308-319 | The memory/register form keeps the five memory operands and appends the new register in place of the immediate. |
| ImmRecon.EmitAddInstSub | X86GFree/X86GFreeImmediateRecon.cpp:327-362 | The rewrite succeeds exactly when the base is a register. The copy has the sum as base and displacement zero, and every other operand is unchanged. |
| ImmRecon.ScaleNeverSplits | X86GFree/X86GFreeImmediateRecon.cpp:429-444 | A scale of 1, 2, 4 or 8 never needs splitting. |
| ImmRecon.EmitImmediate | X86GFree/X86GFreeImmediateRecon.cpp:479-487 | An immediate rewrite uses the replacement opcode and inserts only the loads: no ADD, no SUB. |
| ImmRecon.EmitDisplacement | X86GFree/X86GFreeImmediateRecon.cpp:490-502 | A displacement rewrite keeps the opcode, zeroes the displacement and takes two more fresh registers than the loads. |
| ImmRecon.Emit | X86GFree/X86GFreeImmediateRecon.cpp:474-502 | The rewrite is an immediate one exactly for register/immediate forms and operand 5 of memory/immediate forms. Its loads end in the flag-writing OR. |
| ImmRecon.PreRun | X86GFree/X86GFreeImmediateRecon.cpp:540-567 | Without a save, the code before the rewritten instruction keeps the stack. The instruction still sees the original flags when it reads them. |
| ImmRecon.PlaceKeepsFlags | X86GFree/X86GFreeImmediateRecon.cpp:530-567 | The corrected placement preserves the flags for every rewrite and either answer of the walk. The rewritten instruction reads the original flags, the stack is balanced, and live flags hold what the original would have left. |
| ImmRecon.AsWrittenAgrees | X86GFree/X86GFreeImmediateRecon.cpp:530-567 | The source's placement equals the corrected one except in the two cases of the findings. |
| ImmRecon.AsWrittenKeepsFlags | X86GFree/X86GFreeImmediateRecon.cpp:530-567 | Outside those two cases, the source's placement preserves the flags. |
| ImmRecon.AsWrittenLosesFlagsAtSub | X86GFree/X86GFreeImmediateRecon.cpp:564-567 | For a displacement rewrite of an instruction that reads and writes the flags, with live flags, the source saves nothing around the SUB, and the flags are lost. |
| ImmRecon.AsWrittenLosesReadFlags | X86GFree/X86GFreeImmediateRecon.cpp:530-544 | For an immediate rewrite of an instruction that reads the flags, when the flags are dead afterwards, the instruction reads the OR's flags instead of its own input. |
| ImmRecon.AdcEmits | X86GFree/X86GFreeImmediateRecon.cpp:479-482 | `ADC32ri EAX, EAX, w` becomes `ADC32rr`, which reads the flags. |
| ImmRecon.AdcCarryLost | X86GFree/X86GFreeImmediateRecon.cpp:530-544 | For every immediate of `ADC32ri EAX, EAX` whose flags are dead afterwards, the source's placement loses the carry. |
| ImmRecon.CarryExampleIsCandidate | X86GFree/X86GFreeImmediateRecon.cpp:429-460 | The immediate 0xC3 of `ADC32ri` is rebuilt. |
| ImmRecon.CarryLostExample | X86GFree/X86GFreeImmediateRecon.cpp:530-544 | The concrete instance with 0xC3. |
| ImmRecon.SubExampleIsCandidate | X86GFree/X86GFreeImmediateRecon.cpp:429-460 | The displacement 0xC3 of `ADC32mi8 [RBX + 0xC3], 1` is the first operand rebuilt. |
| ImmRecon.FlagsLostExample | X86GFree/X86GFreeImmediateRecon.cpp:564-567 | For that instruction with live flags, the source's placement loses the flags at the SUB. |
| ImmRecon.WithInstrs | X86GFree/X86GFreeImmediateRecon.cpp:426-515 | Replacing a block's instructions changes no other block, no successor list and no layout. |
| ImmRecon.LiveAfter | X86GFree/X86GFreeImmediateRecon.cpp:530-533 | The corrected query after the rewrite fails exactly when the rewritten code ends a block without successors (the source dereferences the first successor of an empty list). An empty first successor is walked through. |
| ImmRecon.LiveAfterAsWritten | X86GFree/X86GFreeImmediateRecon.cpp:530-533 | The source's query fails exactly when the rewritten code ends its block and that block has no successor or an empty first successor, whose end would be read as an instruction. Otherwise it agrees with the corrected query. |
| ImmRecon.LiveAfterWalksOn | X86GFree/X86GFreeUtils.cpp:455-468 | Where the source's query has no instruction to start at, the corrected one crosses the empty successor as the walk crosses any block end. It answers yes unless that block has one successor. With one successor it gives the walk's answer from there, whenever the walk finds one. |
| ImmRecon.QueryAfterRewrite | X86GFree/X86GFreeImmediateRecon.cpp:530-533 | With an instruction replaced by non-empty code, the source's query after that code fails exactly when the instruction ended a block whose first successor is empty, or when the corrected query fails as well. |
| ImmRecon.RewriteAt | X86GFree/X86GFreeImmediateRecon.cpp:426-567 | An instruction is left alone exactly when no operand qualifies. Otherwise its replacement contains the rewritten instruction and preserves the flags. The code before the rewritten instruction has nothing left to rebuild, the rewritten instruction and what follows it carry fewer nonzero immediates than the original, and every register the replacement uses comes from the fresh counter. |
| ImmRecon.Replace | X86GFree/X86GFreeImmediateRecon.cpp:474-567 | The replacement keeps the flags for the walk's answer, the code before the rewritten instruction has nothing to rebuild, and at most one register (the save) is taken beyond the emitted pieces. |
| ImmRecon.EmitLighter | X86GFree/X86GFreeImmediateRecon.cpp:474-502 | Every rewrite removes a nonzero immediate from the instruction: the new instruction's operands carry fewer of them. |
| ImmRecon.RescanFacts | X86GFree/X86GFreeImmediateRecon.cpp:426-515 | After the instruction is replaced, the block still has its successors inside the function, the counter stays fresh, the code before the rewritten instruction is settled, and the rest of the block carries fewer nonzero immediates: rescanning the rewritten instruction terminates. |
| ImmRecon.ReconBlock | X86GFree/X86GFreeImmediateRecon.cpp:407-571 | The block pass from instruction k changes only block b's instructions. It keeps every label, successor list and the layout, keeps the instructions before k, and the counter of fresh registers grows and stays past every register in use. No instruction from k on has an operand left to rebuild: a rewritten instruction is scanned again. |
| ImmRecon.ReconSkip | X86GFree/X86GFreeImmediateRecon.cpp:426-460 | Going past an instruction with nothing to rebuild gives the same promise as the block pass. |
| ImmRecon.ReconRewrite | X86GFree/X86GFreeImmediateRecon.cpp:474-515 | Going on at the rewritten instruction gives the same promise as the block pass. |
| ImmRecon.ReconBlockIdentity | X86GFree/X86GFreeImmediateRecon.cpp:426-444 | A block with nothing to rebuild is left unchanged. |
| ImmRecon.ReconBlocks | X86GFree/X86GFreeImmediateRecon.cpp:29-33 | The blocks not visited are unchanged, every visited block has nothing left to rebuild, and the counter of fresh registers only grows and stays fresh. |
| ImmRecon.ImmediateRecon | X86GFree/X86GFreeImmediateRecon.cpp:25-35 | The pass over a function keeps its labels and layout, every successor stays a block of the function, the counter of fresh registers never goes back, and no instruction of a block in the layout has an operand left to rebuild. |
| ImmRecon.RewriteAtAsWritten | X86GFree/X86GFreeImmediateRecon.cpp:429-533 | The source's rewrite fails exactly in three cases: a second operand qualifies after the first one is rebuilt (it is read off the erased instruction); the corrected rewrite fails; or the rewritten instruction ends a block whose first successor is empty. Otherwise the two agree. |
| ImmRecon.ReconBlockAsWritten | X86GFree/X86GFreeImmediateRecon.cpp:426-515 | The source's block pass, which goes on after the replacement, changes only block b and keeps the labels and layout. |
| ImmRecon.TwoCandidatesListed | X86GFree/X86GFreeImmediateRecon.cpp:429-460 | In `MOV32mi [RBX + 0xC3], 0xC3` exactly the displacement (operand 3) and the immediate (operand 5) qualify. |
| ImmRecon.TwoCandidatesFound | X86GFree/X86GFreeImmediateRecon.cpp:429-460 | The displacement is the first operand found and the immediate the next one, so the source's loop reads the erased instruction. |
| ImmRecon.ErasedOperandExample | X86GFree/X86GFreeImmediateRecon.cpp:429-515 | For that instruction, wherever it sits, the source's rewrite and block pass fail. |
| ImmRecon.EmptySuccessorExample | X86GFree/X86GFreeImmediateRecon.cpp:530-533 | Take `ADC32ri EAX, EAX, 0xC3` alone in a block that falls through to an empty block. The corrected rewrite succeeds there, and the source's fails. |
| Values.LoadsRebuild | X86GFree/X86GFreeImmediateRecon.cpp:366-404 | After the loads, the result register holds the immediate at the split width. No register but the fresh ones changes. |
| Values.RebuiltValueRead | X86GFree/X86GFreeImmediateRecon.cpp:366-404 | Read at the width of the register form, the rebuilt value is the value the immediate stood for. |
| Values.RegisterFormReadsSameValues | X86GFree/X86GFreeImmediateRecon.cpp:282-304 | After the loads, the register form reads in every operand what the immediate form read before them. |
| Values.MemoryFormReadsSameValues | X86GFree/X86GFreeImmediateRecon.cpp:308-319 | After the loads, the memory/register form has the width of the memory/immediate form, its source register reads the value the immediate stood for, and its address operands address what they addressed before the loads. |
| Values.RegisterFormWidth | X86GFree/X86GFreeImmediateRecon.cpp:61-147 | The register form has the width of the immediate form. |
| Values.RegisterFormShape | X86GFree/X86GFreeImmediateRecon.cpp:282-304 | The register form keeps the register operands before the immediate and reads the new register last. |
| Values.SumAddress | X86GFree/X86GFreeImmediateRecon.cpp:341-353 | The copy with base `sum = base + displacement` and displacement zero addresses the same memory. |
| Values.DisplacementKeepsAddress | X86GFree/X86GFreeImmediateRecon.cpp:327-362 | After the ADD the copy addresses what the original addressed. The SUB leaves the base value in its destination. |
| ModRM.AssembleNewMapping | X86GFree/X86GFreeModRMSIB.cpp:223-239 | The bytes are those of the instruction with the one virtual register rebound, and the binding left behind is the one found. |
| ModRM.ProbeCandidates | X86GFree/X86GFreeModRMSIB.cpp:162-197 | A register found differs from the current one, removes the hazard and is free of interference, and was found with the counter at most 4. When the walk ends without one and the counter stayed at most 4, every candidate either kept a hazard or interfered. |
| ModRM.ScanOperands | X86GFree/X86GFreeModRMSIB.cpp:146-199 | A rebinding targets an unlocked virtual register of the instruction and a different register from its allocation order, one that removes the hazard and is free. Otherwise each virtual operand leaves a counter between 1 and 5, and there are no counters exactly when there is no virtual operand. |
| ModRM.ScanCountersLocked | X86GFree/X86GFreeModRMSIB.cpp:149-155 | A locked virtual operand leaves a counter of 1. |
| ModRM.MinAtLeast | X86GFree/X86GFreeModRMSIB.cpp:209 | The least counter is at least `t` exactly when every counter is. |
| ModRM.AllocateAsWritten | X86GFree/X86GFreeModRMSIB.cpp:136-220 | As written: a result other than a rebinding leaves the allocation unchanged. |
| ModRM.AsWrittenFailsWithoutVirtual | X86GFree/X86GFreeModRMSIB.cpp:209 | As written, the search fails (the least element of an empty list) exactly on instructions without a virtual register. |
| ModRM.AllocateNewRegister | X86GFree/X86GFreeModRMSIB.cpp:136-220 | A result of 1 rebinds one unlocked virtual operand to a free register that removes the hazard, and locks it. Any other result changes nothing, and the set of bound virtual registers never changes. |
| ModRM.AllocateAgrees | X86GFree/X86GFreeModRMSIB.cpp:136-220 | On an instruction with a virtual register, the corrected search and the source agree. |
| ModRM.NothingToDoMeansAllCountersFull | X86GFree/X86GFreeModRMSIB.cpp:209-219 | -1 is answered exactly when every virtual operand's counter reached 4. |
| ModRM.LockedOperandForcesTransform | X86GFree/X86GFreeModRMSIB.cpp:149-155 | An instruction with a locked virtual operand never gets -1. When nothing is rebound, the code transformation is tried. |
| ModRM.FirstUnused | X86GFree/X86GFreeModRMSIB.cpp:276-293 | The first family in the list that the instruction does not use, or none when it uses them all. |
| ModRM.SafeReg | X86GFree/X86GFreeModRMSIB.cpp:274-313 | The scratch register is the first of R13, R15, R14 that the instruction does not use, at the size of the virtual register's largest class. There is none for GR32_ABCD or other classes, and failure when all three are used. |
| ModRM.MovRROpcode | X86GFree/X86GFreeModRMSIB.cpp:315-331 | A register-to-register MOV of the register's width exists for every general-purpose register, not for RIP or FS. |
| ModRM.PickOperand | X86GFree/X86GFreeModRMSIB.cpp:355-376 | The operand picked is a virtual register of the instruction. Its scratch register is one of R13/R15/R14, unused by the instruction, and removes the hazard when standing in for it. |
| ModRM.ImplicitDefs | X86GFree/X86GFreeModRMSIB.cpp:403-425 | IMPLICIT_DEFs only of operands, in order, of other virtual registers bound to the same physical register as the chosen one. |
| ModRM.WrapCode | X86GFree/X86GFreeModRMSIB.cpp:385-452 | PUSH scratch, MOV in (omitted for a COPY that defines the operand), the instruction with every sharing operand renamed, MOV back except for a one-operand COPY, POP scratch. |
| ModRM.CodeTransformation | X86GFree/X86GFreeModRMSIB.cpp:334-462 | When an operand qualifies, the instruction is wrapped around it, the virtual register is locked, the binding is unchanged, and the instruction's encoding with the chosen register rebound to the safe one has no hazard. Otherwise nothing is done. |
| ModRM.BlockPass | X86GFree/X86GFreeModRMSIB.cpp:465-508 | The block walk only locks registers and rebinds unlocked ones, and keeps every instruction's virtual registers bound. |
| ModRM.FunctionPass | X86GFree/X86GFreeModRMSIB.cpp:43-45 | A function pass keeps the layout and block labels, and every virtual register bound. |
| ModRM.Fixpoint | X86GFree/X86GFreeModRMSIB.cpp:38-52 | The loop only locks and rebinds, and keeps the layout. |
| ModRM.QuietBlockPassChangesNothing | X86GFree/X86GFreeModRMSIB.cpp:476-507 | A block walk that asks for no other pass has changed nothing. |
| ModRM.QuietFunctionPassChangesNothing | X86GFree/X86GFreeModRMSIB.cpp:43-45 | A function pass that asks for no other pass has changed nothing. |
| ModRM.FixpointIsFixed | X86GFree/X86GFreeModRMSIB.cpp:38-52 | The loop's result is a fixpoint: one more pass over it changes nothing and asks for no other. |
| ModRM.CleanBlockUnchanged | X86GFree/X86GFreeModRMSIB.cpp:478-487 | A block whose instructions are all skipped or hazard-free is returned as it was. |
| Cpu.Nops | X86GFree/X86GFreeUtils.cpp:262-273 | `emitNop` inserts exactly `n` NOOPs. |
| Cpu.NopsChangeNothing | X86GFree/X86GFreeUtils.cpp:262-273 | A run of NOOPs leaves the processor state unchanged. |
| Cpu.StackIndexAfterPush | X86GFree/X86GFree.cpp:396-399 | After one push, the displacement d + 8 names the cell that d named before. |
| Jcp.GenerateSafeRandom | X86GFree/X86GFreeJCP.cpp:123-135 | The constant returned is accepted, and none of its eight bytes starts a hazard. |
| Jcp.SafeRandomIsFirstAccepted | X86GFree/X86GFreeJCP.cpp:126-130 | The constant is the first candidate `(rand() << 32) \| rand()` that is accepted. |
| Jcp.NoSafeRandom | X86GFree/X86GFreeJCP.cpp:126-130 | Without an accepted candidate, there is no constant. |
| Jcp.AcceptedIsSafe | X86GFree/X86GFreeJCP.cpp:129-130 | Testing only the first half of the split accepts exactly the candidates with no hazard in their eight bytes. |
| Jcp.CheckMatchesPattern | X86GFree/X86GFreeJCP.cpp:81-121 | The check has the five opcodes the finalization looks for. |
| Jcp.EntryStoresCookie | X86GFree/X86GFreeJCP.cpp:38-79 | The entry stores constant XOR canary into the stack object and leaves zero in R11. Nothing else but the zero flag changes. |
| Jcp.CheckComparesCookie | X86GFree/X86GFreeJCP.cpp:81-121 | The check sets the zero flag exactly when the stack object holds constant XOR canary. It restores R11 and the stack. |
| Jcp.EntryThenCheck | X86GFree/X86GFreeJCP.cpp:38-121 | The entry's value passes every later check, whatever ran in between, as long as the object and canary were kept. Any other value fails. |
| Jcp.InstrumentBlock | X86GFree/X86GFreeJCP.cpp:156-179 | Five instructions are added per indirect branch or call. |
| Jcp.InstrumentChecksAll | X86GFree/X86GFreeJCP.cpp:156-179 | Every indirect branch or call is preceded by a check. |
| Jcp.StripInstrument | X86GFree/X86GFreeJCP.cpp:156-179 | Removing the checks gives the block back: only checks are added. |
| Jcp.InstrumentUnguarded | X86GFree/X86GFreeJCP.cpp:156-179 | A block without indirect branches is unchanged. |
| Jcp.FirstNonEmpty | X86GFree/X86GFreeJCP.cpp:183-188 | The first non-empty block in layout order, or none when all are empty. |
| Jcp.FirstNonEmptyAsWritten | X86GFree/X86GFreeJCP.cpp:183-188 | As written, the loop fails exactly when every block is empty. Otherwise it agrees with the corrected one. |
| Jcp.AllEmptyFails | X86GFree/X86GFreeJCP.cpp:183-188 | On a function of empty blocks, the loop as written fails where the corrected one finds nothing. |
| Jcp.JcpPass | X86GFree/X86GFreeJCP.cpp:138-199 | The pass succeeds exactly when a constant is found, that constant is hazard-free, and labels and layout are kept. |
| Jcp.NoGuardedNoChange | X86GFree/X86GFreeJCP.cpp:167-195 | A function without indirect branches or calls is left as it is. |
| Jcp.GuardedGetsEntry | X86GFree/X86GFreeJCP.cpp:183-195 | With an indirect branch, the entry sequence heads the first non-empty block. |
| Jcp.JcpPassUndone | X86GFree/X86GFreeJCP.cpp:138-199 | Removing the entry and the checks gives every block back, and every indirect branch of the result follows a check. |
| Rap.PrologueMasks | X86GFree/X86GFree.cpp:182-190 | The prologue XORs the return address with the canary, leaves the canary in R11, and keeps everything else. |
| Rap.ReturnAddressRestored | X86GFree/X86GFree.cpp:177-190 | If the masked address survives to the exit, the epilogue restores the original return address. |
| Rap.EpilogueDiverts | X86GFree/X86GFree.cpp:177-190 | The epilogue yields address x exactly when the stack held x XOR canary. |
| Rap.EpilogueRun | X86GFree/X86GFree.cpp:177-190 | The nop sled changes nothing: the epilogue computes what the prologue does. |
| Rap.Exits | X86GFree/X86GFree.cpp:227-237 | An indirect branch never exits. A return that is not indirect exits. A direct branch with a block target exits exactly when that block belongs to another function. A failure is possible only for a branch, and a yes is a return or a branch. |
| Rap.WithEpilogue | X86GFree/X86GFree.cpp:226-241 | A block fails exactly when its last instruction's target cannot be read. It stays empty exactly when it was, and keeps its last instruction last. |
| Rap.WithEpilogueEnds | X86GFree/X86GFree.cpp:232-236 | An exiting block ends with the epilogue before its exit. |
| Rap.Protect | X86GFree/X86GFree.cpp:226-251 | The pass fails exactly on an unreadable branch. The prologue block is added exactly when inserted, and the layout is unchanged otherwise. |
| Rap.ReturnAddressProtectionAsWritten | X86GFree/X86GFree.cpp:197-253 | As written, the pass fails on all-empty functions and otherwise equals the protection. |
| Rap.ReturnAddressProtection | X86GFree/X86GFree.cpp:197-253 | An all-empty function is left alone. Otherwise the pass agrees with the source. |
| Rap.AllEmptyProtection | X86GFree/X86GFree.cpp:203-210 | On all-empty blocks the source fails and the corrected pass leaves the function alone. |
| Rap.PrologueStays | X86GFree/X86GFree.cpp:226-237 | The prologue block itself does not exit. |
| Rap.EveryExitUnmasks | X86GFree/X86GFree.cpp:226-241 | Every block of the result that leaves the function has the epilogue right before its exit. |
| Rap.NonExitStays | X86GFree/X86GFree.cpp:226-237 | Conversely, a block of the layout whose last instruction does not leave the function is kept as it was. |
| Rap.IndirectBranchStays | X86GFree/X86GFree.cpp:228-230 | A block of the layout ending in an indirect branch is kept as it was, with no epilogue. |
| Rap.PrologueFirst | X86GFree/X86GFree.cpp:242-251 | The prologue block comes before the first non-empty block, falls through to it, and only empty blocks precede it. |
| Rap.LayoutKept | X86GFree/X86GFree.cpp:151-253 | Old labels keep their blocks and layout membership. |
| Rap.ProtectUndone | X86GFree/X86GFree.cpp:151-253 | Removing the inserted sequences gives back the original function. |
| Finalize.OpcodesArePattern | X86GFree/X86GFree.cpp:273-277 | The five opcode tests on instruction `i` and the four before it hold exactly when the check routine (PUSH, MOV, XOR, CMP, POP) ends at `i`. |
| Finalize.MatchAsWritten | X86GFree/X86GFree.cpp:261-281 | A "keep looking" answer is given only from the fifth instruction on. |
| Finalize.MatchIff | X86GFree/X86GFree.cpp:261-281 | The corrected matcher answers 0 exactly on the routine and -1 exactly before the fifth instruction. |
| Finalize.MatchFindsCheck | X86GFree/X86GFree.cpp:261-281 | It recognizes the check the cookie pass emits. |
| Finalize.MatchAgrees | X86GFree/X86GFree.cpp:266-271 | The source's matcher fails exactly at the third or fourth instruction of a block of five or more. Otherwise it agrees with the corrected one. |
| Finalize.Locate | X86GFree/X86GFree.cpp:355-380 | The routine found, by the shortcut before the `je` or by the search, lies in the block or before it and matches the check pattern where it is said to end. |
| Finalize.Search | X86GFree/X86GFree.cpp:361-380 | The search finds a routine at or before its start. |
| Finalize.SearchNearest | X86GFree/X86GFree.cpp:361-380 | The routine found is the nearest. A failure means none lies before the start. |
| Finalize.SearchAgrees | X86GFree/X86GFree.cpp:363-376 | When the source's loop finds a routine, it is the same one. |
| Finalize.FoldedCallMisread | X86GFree/X86GFree.cpp:363-376 | For a call folded into its own block, the source reads before the block while the corrected search finds the check. |
| Finalize.SplitAt | X86GFree/X86GFree.cpp:334-354 | The split adds two labels, halt then new, after the split block. |
| Finalize.SplitJoins | X86GFree/X86GFree.cpp:334-354 | The halves join to the original block. The new block takes the old successors, and the split block's successors are [hlt, new]. |
| Finalize.SplitHere | X86GFree/X86GFree.cpp:334-354 | The three resulting blocks are: prefix plus `je`, `hlt`, and the rest. |
| Finalize.Adjusted | X86GFree/X86GFree.cpp:382-399 | The adjustment fails exactly when the CMP has no register first operand or the XOR lacks a register base or an immediate displacement. Otherwise the XOR has the routine's opcode and differs only in the displacement; it is unchanged unless its base is RSP, and then the displacement minus 8 is the original one (the PUSH moved RSP down by 8). |
| Finalize.Finished | X86GFree/X86GFree.cpp:401-425 | The moved routine is PUSH, nine NOOPs, MOV, adjusted XOR, CMP, POP. |
| Finalize.Relocate | X86GFree/X86GFree.cpp:401-423 | Moving the routine keeps the layout and labels. |
| Finalize.RelocateBlocks | X86GFree/X86GFree.cpp:401-425 | The destination block gets the finished routine before its `je` (after taking the routine out when both are the same block). The source block loses the routine, and every other block is unchanged. |
| Finalize.Handle | X86GFree/X86GFree.cpp:334-431 | One indirect instruction adds the two labels after its block. |
| Finalize.FinalizeFrom | X86GFree/X86GFree.cpp:312-433 | The loop over the blocks from layout position k keeps the function number. What it guarantees about indirect instructions is `Finalize.FinalizeGuards`. |
| Finalize.Visit | X86GFree/X86GFree.cpp:313-433 | The loop body for one block keeps the function number; `Finalize.FinalizeGuards` states its guard invariant. |
| Finalize.FirstUnchecked | X86GFree/X86GFree.cpp:313-331 | The first indirect position not yet handled, skipping position 0 of a created block. |
| Finalize.CookieProtectionFinalization | X86GFree/X86GFree.cpp:302-434 | The pass keeps the function number. What it guarantees about indirect instructions is `Finalize.FinalizationGuards`. |
| Finalize.FinalizeGuards | X86GFree/X86GFree.cpp:312-433 | Loop invariant: every indirect instruction ends up at the head of a created block. |
| Finalize.FinalizationGuards | X86GFree/X86GFree.cpp:302-434 | When the pass succeeds, every indirect branch or call of the layout is the first instruction of its block, and that block's label is at least `next`, so the pass created it. |
| Finalize.AdjustedRsp | X86GFree/X86GFree.cpp:396-399 | An RSP-based displacement grows by 8. |
| Finalize.MovedCheckCompares | X86GFree/X86GFree.cpp:382-425 | After its own push, the moved routine reads the cell the original displacement named, and sets the zero flag exactly as the original check would. It restores registers and stack. |
| Bswap.BswapBytes | X86GFree/X86GFree.cpp:53-64 | The encoding of BSWAP ends with 0F and C8 plus the register's low three bits. |
| Bswap.LastByteRet | X86GFree/X86GFree.cpp:63-64 | C8 plus the low bits is a return opcode exactly for 2 and 3. |
| Bswap.BswapHazardIff | X86GFree/X86GFree.cpp:63-64 | The scanner flags a BSWAP exactly when the register number ends in 2 or 3. |
| Bswap.UnsafeAsWrittenExact64 | X86GFree/X86GFree.cpp:63-64 | For 64-bit registers, the source's list is exact. |
| Bswap.UnsafeAsWrittenMissesR10D | X86GFree/X86GFree.cpp:63-64 | The list misses R10D, whose BSWAP is flagged. |
| Bswap.UnsafeExact | X86GFree/X86GFree.cpp:63-64 | The extended list is exactly the flagged registers, at both widths. |
| Bswap.HandleBswap | X86GFree/X86GFree.cpp:53-93 | The replacement is produced exactly for listed registers: PUSH RCX, MOV, BSWAP of RCX at the same width, MOV back, POP RCX. |
| Bswap.ReplacementSwaps | X86GFree/X86GFree.cpp:70-91 | The replacement acts like an in-place swap, and RCX is restored. |
| Bswap.ReplacementAgrees | X86GFree/X86GFree.cpp:70-91 | The replacement and the BSWAP leave the same state. |
| Bswap.MovFromMovnti | X86GFree/X86GFree.cpp:95-113 | The plain MOV store of the same width with the same operands, no longer a MOVNTI. |
| Bswap.Transform | X86GFree/X86GFree.cpp:115-142 | The transformation keeps the labels, layout and successors. |
| Bswap.ScratchSwapSafe | X86GFree/X86GFree.cpp:71-85 | The BSWAP of RCX/ECX is hazard-free. |
| Bswap.RewriteClean | X86GFree/X86GFree.cpp:115-142 | With the extended list, the code one instruction is rewritten to holds no flagged BSWAP and no MOVNTI. |
| Bswap.TransformBlockClean | X86GFree/X86GFree.cpp:115-142 | With the extended list, no flagged BSWAP and no MOVNTI remains. |
| Bswap.AsWrittenKeepsR10D | X86GFree/X86GFree.cpp:63-69 | With the source's list, `bswap %r10d` is left as is. |
| GFree.RunOnMachineFunction | X86GFree/X86GFree.cpp:437-447 | An empty function is unchanged. The function number is kept. |
| GFree.ProtectKeepsLabels | X86GFree/X86GFree.cpp:197-253 | Return-address protection uses one new label and introduces no repeat. |
| GFree.RewriteDirect | X86GFree/X86GFree.cpp:115-142 | The transformation never creates or changes an indirect instruction. |
| GFree.TransformKeepsChecked | X86GFree/X86GFree.cpp:115-142 | The transformation keeps the finalization's placement of indirect instructions. |
| GFree.PassGuards | X86GFree/X86GFree.cpp:437-447 | End to end: every indirect instruction of the layout is the first instruction of a block labelled above `next`, one the finalization created, and no block of the layout holds a flagged BSWAP or a MOVNTI. |

## Left out

- I/O, debug output and debug locations, statistics, pass registration and the `DisableGFree` flag are not modelled.
- Kill, undef and implicit-def operand flags, and the live-in bookkeeping (`addLiveIn`, `sortUniqueLiveIns`), are not modelled: they do not change the code the passes emit.
- The assembler (`MachineInstrToBytes`) and the register allocator's queries (allocation order, interference, classes) are parameters of `ModRM`. Live-interval repair is left out.
- The clock and `srand`: the draws of `rand` are a parameter of `Jcp`.
- Jcp.GenerateSafeRandom: the number of draws is bounded by a fuel parameter. The source loops until a draw is accepted.
- ModRM.Fixpoint: the number of passes is bounded by a fuel parameter. The source has no such bound.
- ModRM.BlockPass: the number of wraps in one block walk is bounded by a fuel parameter, and the walk fails when it runs out. The source has no such bound.
- Finalize.CookieProtectionFinalization: the number of visits is bounded by a fuel parameter.
- Flags.NeedToSave: the number of successor steps is bounded by a fuel parameter. The corrected walk uses the number of blocks as the bound.
- The IMPLICIT_DEF of EFLAGS emitted before the save in `pushEFLAGSinline` is not modelled.
- Frame-index lowering is not modelled: a frame object is addressed by its index.
- `alreadyCheckedInstr` is modelled as "position 0 of a block the pass created".
- New labels come from a `next` parameter.
- A stack object never written reads as nothing, so the check lemmas require it to have been written.
- Finalize.MovedCheckCompares: excludes the displacement -8, which after the push names the pushed R11 itself.
- GFree.RunOnMachineFunction: composes the corrected passes rather than the source's. It uses `Rap.ReturnAddressProtection`, which leaves an all-empty function alone; the finalization with the corrected matcher and search; and `Bswap.Transform` with the extended list `Bswap.Unsafe`, which includes R10D and R11D. Its contract and `GFree.PassGuards` therefore promise nothing about the as-written composition.
- Flags.FlowStep: an instruction that names the save register among its operands is taken to overwrite it, whether it reads or writes it. This over-approximates the writes.
- `createVirtualRegister` is modelled by a counter: every register numbered from it on is unused, and every new register takes the next number.

## Findings

| source | as written | input that shows it | evidently intended | confidence | as-written member | corrected member |
|---|---|---|---|---|---|---|
| X86GFree/X86GFreeImmediateRecon.cpp:429-515 | after rebuilding one operand and erasing the instruction, the operand loop goes on over the erased instruction's operands | `MOV32mi [RBX + 0xC3], 0xC3`, whose displacement and immediate both hold C3 | stop after the rewrite and scan the rewritten instruction again | not executed | ImmRecon.ErasedOperandExample | ImmRecon.ReconBlock |
| X86GFree/X86GFreeImmediateRecon.cpp:530-531 | when the rewritten code ends its block, the liveness walk starts at the first instruction of the first successor, which an empty block does not have | `ADC32ri EAX, EAX, 0xC3` alone in a block that falls through to an empty block | walk through the empty block as at any other block end | not executed | ImmRecon.EmptySuccessorExample | ImmRecon.LiveAfterWalksOn |
| X86GFree/X86GFreeImmediateRecon.cpp:564-567 | nothing is saved around the SUB that follows the copy of a flag-reading and flag-writing instruction | `ADC32mi8 [RBX + 0xC3], 1` with the flags live after it | save the flags before the SUB and restore them after | not executed | ImmRecon.AsWrittenLosesFlagsAtSub | ImmRecon.PlaceKeepsFlags |
| X86GFree/X86GFreeImmediateRecon.cpp:530-544 | liveness is asked only after the rewritten instruction, so the OR may clobber the flags it reads | `ADC32ri EAX, EAX, 0xC3` followed by code that writes the flags before reading them | save the flags whenever the rewritten instruction reads them | not executed | ImmRecon.AdcCarryLost | ImmRecon.PlaceKeepsFlags |
| X86GFree/X86GFreeUtils.cpp:459-463 | the walk follows single successors forever | a block that is its own single successor, reached after the instruction | stop after a bounded number of blocks and answer yes | not executed | Flags.NeedToSaveDiverges | Flags.BoundedAgrees |
| X86GFree/X86GFreeModRMSIB.cpp:209 | takes the least element of an empty list | a hazardous instruction with only physical registers, such as `mov %eax, %ebx` (89 C3) | answer -1 (nothing to do) | not executed | ModRM.AsWrittenFailsWithoutVirtual | ModRM.AllocateNewRegister |
| X86GFree/X86GFree.cpp:266-271 | reads before the block at the third or fourth instruction | a call folded into a block of four NOOPs and the `je` | answer -1 before the fifth instruction and continue with the previous block | not executed | Finalize.FoldedCallMisread | Finalize.SearchNearest |
| X86GFree/X86GFree.cpp:63-64 | the list misses R10D and R11D | `bswap %r10d` (41 0F CA) | list every register whose encoding ends in CA or CB | not executed | Bswap.UnsafeAsWrittenMissesR10D | Bswap.UnsafeExact |
| X86GFree/X86GFree.cpp:204-210 | skips empty blocks before testing for the end | a function all of whose blocks are empty | test for the end first and leave the function alone | not executed | Rap.ReturnAddressProtectionAsWritten | Rap.ReturnAddressProtection |
| X86GFree/X86GFreeJCP.cpp:184-188 | the same loop reads past the end | a function all of whose blocks are empty | leave the function alone | not executed | Jcp.FirstNonEmptyAsWritten | Jcp.FirstNonEmpty |

=== FILE: bswap.dfy ===
/**
 The instruction rewrites of the main pass: a byte swap of a register whose
 encoding ends in a return opcode goes through RCX instead, and a
 non-temporal store becomes a plain one.

 `BSWAP r64` is encoded `REX.W 0F C8+rd` and `BSWAP r32` is `0F C8+rd`,
 with `REX.B` for R8 to R15 (the BSWAP entry of chapter 3 of the Intel
 SDM, Volume 2A). The last byte is C8 plus the low three bits of the
 register number, so registers 2 and 3 of either bank give CA and CB, the
 far-return opcodes.
 */
module Bswap {
  import opened Words
  import opened Hazard
  import opened Machine
  import opened Cpu

  // ---------------------------------------------------------------------
  // Encoding.

  /** The hardware register number of a general-purpose family. */
  function RegNum(f: Family): Option<nat> {
    match f
    case RAX => Some(0)  case RCX => Some(1)  case RDX => Some(2)  case RBX => Some(3)
    case RSP => Some(4)  case RBP => Some(5)  case RSI => Some(6)  case RDI => Some(7)
    case R8 => Some(8)   case R9 => Some(9)   case R10 => Some(10) case R11 => Some(11)
    case R12 => Some(12) case R13 => Some(13) case R14 => Some(14) case R15 => Some(15)
    case RIP => None     case FS => None
  }

  /** A register a BSWAP can name: a general-purpose register, 32 or 64
      bits wide. */
  predicate Swappable(r: PhysReg) {
    (r.part == Q || r.part == D) && RegNum(r.family).Some?
  }

  /** The bytes of `BSWAP r`: the REX prefix when needed, 0F, and C8 plus
      the low three bits of the register number. */
  function BswapBytes(r: PhysReg): (bs: seq<byte>)
    requires Swappable(r)
    ensures |bs| >= 2 && bs[|bs| - 2] == 0x0F && bs[|bs| - 1] == 0xC8 + (RegNum(r.family).value % 8) as byte
  {
    var n := RegNum(r.family).value;
    var rex: seq<byte> := if r.part == Q then [if n >= 8 then 0x49 else 0x48] else if n >= 8 then [0x41] else [];
    rex + [0x0F, 0xC8 + (n % 8) as byte]
  }

  /** C8 plus a register's low three bits is a return opcode exactly for
      2 and 3 (CA and CB). */
  lemma LastByteRet(low: nat)
    requires low < 8
    ensures HazardPair(0xC8 + low as byte, 0) <==> low == 2 || low == 3
  {
    if low == 0 {} else if low == 1 {} else if low == 2 {} else if low == 3 {}
    else if low == 4 {} else if low == 5 {} else if low == 6 {} else {}
  }

  /** The scanner flags a BSWAP exactly when the register number ends in 2
      or 3 (in binary, 010 or 011). */
  lemma BswapHazardIff(r: PhysReg)
    requires Swappable(r)
    ensures HasHazard(BswapBytes(r)) <==> RegNum(r.family).value % 8 == 2 || RegNum(r.family).value % 8 == 3
  {
    var n := RegNum(r.family).value;
    var last: byte := 0xC8 + (n % 8) as byte;
    LastByteRet(n % 8);
    HasHazardCons(last, []);
    assert !HasHazard([]);
    assert [last] == [last] + [];
    HasHazardCons(0x0F, [last]);
    assert [0x0F, last] == [0x0F] + [last];
    assert HasHazard([0x0F, last]) <==> HazardPair(last, 0);
    var bs := BswapBytes(r);
    if |bs| == 3 {
      assert bs == [bs[0]] + [0x0F, last];
      assert !HazardPair(bs[0], 0x0F);
      HasHazardCons(bs[0], [0x0F, last]);
    } else {
      assert bs == [0x0F] + [last];
    }
  }

  /** The registers the source rewrites: RDX, RBX, R10, R11, EDX, EBX. */
  const UnsafeAsWritten: set<PhysReg> :=
    {PhysReg(RDX, Q), PhysReg(RBX, Q), PhysReg(R10, Q), PhysReg(R11, Q), PhysReg(RDX, D), PhysReg(RBX, D)}

  /** The list with R10D and R11D, whose encodings 41 0F CA and 41 0F CB
      end in a return opcode too. */
  const Unsafe: set<PhysReg> := UnsafeAsWritten + {PhysReg(R10, D), PhysReg(R11, D)}

  /** For 64-bit registers the source's list is exactly the registers whose
      BSWAP the scanner flags. */
  lemma UnsafeAsWrittenExact64(r: PhysReg)
    requires Swappable(r) && r.part == Q
    ensures r in UnsafeAsWritten <==> HasHazard(BswapBytes(r))
  {
    BswapHazardIff(r);
  }

  /** For 32-bit registers it misses R10D: BSWAP R10D is flagged and left
      alone. */
  lemma UnsafeAsWrittenMissesR10D()
    ensures Swappable(PhysReg(R10, D)) && HasHazard(BswapBytes(PhysReg(R10, D)))
    ensures PhysReg(R10, D) !in UnsafeAsWritten
  {
    BswapHazardIff(PhysReg(R10, D));
  }

  /** The extended list is exactly the registers whose BSWAP the scanner
      flags, at both widths. */
  lemma UnsafeExact(r: PhysReg)
    requires Swappable(r)
    ensures r in Unsafe <==> HasHazard(BswapBytes(r))
  {
    BswapHazardIff(r);
  }

  // ---------------------------------------------------------------------
  // The rewrite.

  /** BSWAP32r or BSWAP64r with its register as operand 0, as the source
      asserts. */
  predicate IsBswap(i: Instr) {
    i.op.mn == BSWAP && i.op.form == R && (i.op.width == 32 || i.op.width == 64)
    && |i.ops| >= 1 && i.ops[0].RegOp?
  }

  /** `push %rcx; mov r, %(e/r)cx; bswap %(e/r)cx; mov %(e/r)cx, r;
      pop %rcx`. */
  function Replacement(r: PhysReg, w: nat): seq<Instr> {
    var safe := RegOp(Phys(PhysReg(RCX, PartOfWidth(w))));
    [Push64(P64(RCX)),
     Instr(Op(MOV, w, RR), [safe, RegOp(Phys(r))]),
     Instr(Op(BSWAP, w, R), [safe, safe]),
     Instr(Op(MOV, w, RR), [RegOp(Phys(r)), safe]),
     Pop64(P64(RCX))]
  }

  /**
   `handleBSWAP`: the replacement when the register is in the list, `None`
   when the instruction stays as it is.
   */
  function HandleBswap(i: Instr, unsafe: set<PhysReg>): (r: Option<seq<Instr>>)
    requires IsBswap(i)
    ensures r.Some? <==> i.ops[0].reg.Phys? && i.ops[0].reg.phys in unsafe
    ensures r.Some? ==> |r.value| == 5 && r.value[0] == Push64(P64(RCX)) && r.value[4] == Pop64(P64(RCX))
                        && r.value[2].op == i.op && |r.value[2].ops| == 2 && r.value[2].ops[0] == RegOp(Phys(PhysReg(RCX, PartOfWidth(i.op.width))))
  {
    var reg := i.ops[0].reg;
    if reg.Phys? && reg.phys in unsafe then Some(Replacement(reg.phys, i.op.width)) else None
  }

  // What the replacement computes, one instruction at a time.

  function SwapOf(w: nat, v: Word): Word { if w == 32 then Bswap32(v) else Bswap64(v) }

  lemma StepPushRcx(s: State)
    ensures Step(Push64(P64(RCX)), s) == Some(s.(stack := [Get(s, RCX)] + s.stack))
  {
    DecodePush(RCX);
  }

  lemma StepCopy(w: nat, d: Family, r: Family, s: State)
    requires w == 32 || w == 64
    ensures Step(Instr(Op(MOV, w, RR), [RegOp(Phys(PhysReg(d, PartOfWidth(w)))), RegOp(Phys(PhysReg(r, PartOfWidth(w))))]), s)
         == Some(WriteReg(s, PhysReg(d, PartOfWidth(w)), ReadReg(s, PhysReg(r, PartOfWidth(w)))))
  {
    DecodeCopy(w, d, r);
  }

  lemma StepSwap(w: nat, d: Family, r: Family, s: State)
    requires w == 32 || w == 64
    ensures Step(Instr(Op(BSWAP, w, R), [RegOp(Phys(PhysReg(d, PartOfWidth(w)))), RegOp(Phys(PhysReg(r, PartOfWidth(w))))]), s)
         == Some(WriteReg(s, PhysReg(d, PartOfWidth(w)), SwapOf(w, ReadReg(s, PhysReg(r, PartOfWidth(w))))))
  {
    DecodeSwap(w, d, r);
  }

  lemma StepPopRcx(s: State)
    requires |s.stack| > 0
    ensures Step(Pop64(P64(RCX)), s) == Some(s.(regs := s.regs[RCX := s.stack[0]], stack := s.stack[1..]))
  {
    DecodePop(RCX);
  }

  /** The states the replacement passes through. */
  function ReplacementAfter(f: Family, w: nat, s: State): State {
    var r, c := PhysReg(f, PartOfWidth(w)), PhysReg(RCX, PartOfWidth(w));
    var s1 := s.(stack := [Get(s, RCX)] + s.stack);
    var s2 := WriteReg(s1, c, ReadReg(s1, r));
    var s3 := WriteReg(s2, c, SwapOf(w, ReadReg(s2, c)));
    var s4 := WriteReg(s3, r, ReadReg(s3, c));
    s4.(regs := s4.regs[RCX := s4.stack[0]], stack := s4.stack[1..])
  }

  lemma ReplacementRun(f: Family, w: nat, s: State)
    requires w == 32 || w == 64
    ensures Run(Replacement(PhysReg(f, PartOfWidth(w)), w), s) == Some(ReplacementAfter(f, w, s))
  {
    var r, c := PhysReg(f, PartOfWidth(w)), PhysReg(RCX, PartOfWidth(w));
    var s1 := s.(stack := [Get(s, RCX)] + s.stack);
    var s2 := WriteReg(s1, c, ReadReg(s1, r));
    var s3 := WriteReg(s2, c, SwapOf(w, ReadReg(s2, c)));
    var s4 := WriteReg(s3, r, ReadReg(s3, c));
    var s5 := s4.(regs := s4.regs[RCX := s4.stack[0]], stack := s4.stack[1..]);
    var code := Replacement(r, w);
    StepPushRcx(s);
    StepCopy(w, RCX, f, s1);
    StepSwap(w, RCX, RCX, s2);
    StepCopy(w, f, RCX, s3);
    StepPopRcx(s4);
    Run5(code[0], code[1], code[2], code[3], code[4], s, s1, s2, s3, s4, s5);
    assert code == [code[0], code[1], code[2], code[3], code[4]];
  }

  /** What writing a 32- or 64-bit name keeps of a value. */
  function Cut(w: nat, v: Word): Word { if w == 32 then Low32(v) else v }

  /** The registers after the replacement, in terms of the registers
      before it. */
  lemma ReplacementRegs(f: Family, w: nat, s: State)
    requires w == 32 || w == 64
    requires f != RCX
    ensures var u := ReplacementAfter(f, w, s);
      Get(u, RCX) == Get(s, RCX) && Get(u, f) == Cut(w, SwapOf(w, Cut(w, Get(s, f))))
      && (forall g :: g != f && g != RCX ==> Get(u, g) == Get(s, g))
      && u.stack == s.stack && u.slots == s.slots && u.canary == s.canary && u.zf == s.zf
  {
    var u := ReplacementAfter(f, w, s);
    var c := PhysReg(RCX, PartOfWidth(w));
    var x := Get(s, f);
    assert Cut(w, Cut(w, x)) == Cut(w, x);
    assert Cut(w, Cut(w, SwapOf(w, Cut(w, x)))) == Cut(w, SwapOf(w, Cut(w, x)));
  }

  /**
   The replacement computes what the BSWAP it replaces would: every
   register, the stack and memory end up the same, RCX included, whenever
   the swapped register is not RCX itself.
   */
  lemma ReplacementSwaps(f: Family, w: nat, s: State)
    requires w == 32 || w == 64
    requires f != RCX
    ensures var r := PhysReg(f, PartOfWidth(w));
      Same(ReplacementAfter(f, w, s), WriteReg(s, r, SwapOf(w, ReadReg(s, r))))
  {
    var r := PhysReg(f, PartOfWidth(w));
    ReplacementRegs(f, w, s);
    var v := WriteReg(s, r, SwapOf(w, ReadReg(s, r)));
    assert Get(v, f) == Cut(w, SwapOf(w, Cut(w, Get(s, f))));
  }

  lemma ReplacementAgrees(f: Family, w: nat, s: State)
    requires w == 32 || w == 64
    requires f != RCX
    ensures var r := PhysReg(f, PartOfWidth(w));
      var u := Run(Replacement(r, w), s);
      var v := Step(Instr(Op(BSWAP, w, R), [RegOp(Phys(r)), RegOp(Phys(r))]), s);
      u.Some? && v.Some? && Same(u.value, v.value)
  {
    ReplacementRun(f, w, s);
    StepSwap(w, f, f, s);
    ReplacementSwaps(f, w, s);
  }

  // ---------------------------------------------------------------------
  // Non-temporal stores.

  /** MOVNTImr and MOVNTI_64mr. */
  predicate IsMovnti(i: Instr) {
    i.op.mn == MOVNTI && i.op.form == MR && (i.op.width == 32 || i.op.width == 64)
  }

  /** `handleMOVNTI`: the plain store of the same width, all operands
      copied. */
  function MovFromMovnti(i: Instr): (r: Instr)
    requires IsMovnti(i)
    ensures r.ops == i.ops && r.op.width == i.op.width && r.op.form == MR && r.op.mn == MOV && !IsMovnti(r)
  {
    Instr(Op(MOV, i.op.width, MR), i.ops)
  }

  // ---------------------------------------------------------------------
  // The whole block.

  /** What an instruction becomes. */
  function Rewrite(i: Instr, unsafe: set<PhysReg>): seq<Instr> {
    if IsBswap(i) then
      match HandleBswap(i, unsafe)
      case Some(code) => code
      case None => [i]
    else if IsMovnti(i) then [MovFromMovnti(i)]
    else [i]
  }

  /** `instructionTransformation` on one block. */
  function TransformBlock(s: seq<Instr>, unsafe: set<PhysReg>): seq<Instr>
    decreases |s|
  {
    if |s| == 0 then [] else Rewrite(s[0], unsafe) + TransformBlock(s[1..], unsafe)
  }

  /** `instructionTransformation` on every block. */
  function Transform(f: Function, unsafe: set<PhysReg>): (g: Function)
    ensures g.layout == f.layout && g.number == f.number && g.blocks.Keys == f.blocks.Keys
    ensures forall l :: l in f.blocks ==> g.blocks[l].succs == f.blocks[l].succs
  {
    f.(blocks := map l | l in f.blocks :: f.blocks[l].(instrs := TransformBlock(f.blocks[l].instrs, unsafe)))
  }

  /** A BSWAP whose encoding the scanner flags. */
  predicate HazardousBswap(i: Instr) {
    IsBswap(i) && i.ops[0].reg.Phys? && var r := i.ops[0].reg.phys;
    r.part == PartOfWidth(i.op.width) && Swappable(r) && HasHazard(BswapBytes(r))
  }

  /** No hazardous BSWAP and no non-temporal store. */
  predicate Clean(t: seq<Instr>) {
    forall k :: 0 <= k < |t| ==> !HazardousBswap(t[k]) && !IsMovnti(t[k])
  }

  /** The scratch register's BSWAP encodes without a hazard. */
  lemma ScratchSwapSafe(w: nat)
    requires w == 32 || w == 64
    ensures !HasHazard(BswapBytes(PhysReg(RCX, PartOfWidth(w))))
  {
    BswapHazardIff(PhysReg(RCX, PartOfWidth(w)));
  }

  lemma ReplacementClean(r: PhysReg, w: nat)
    requires w == 32 || w == 64
    ensures Clean(Replacement(r, w))
  {
    var t := Replacement(r, w);
    ScratchSwapSafe(w);
    forall k | 0 <= k < |t|
      ensures !HazardousBswap(t[k]) && !IsMovnti(t[k])
    {
      if k == 2 {
        assert t[k].ops[0].reg.phys == PhysReg(RCX, PartOfWidth(w));
      }
    }
  }

  lemma RewriteClean(i: Instr)
    ensures Clean(Rewrite(i, Unsafe))
  {
    if IsBswap(i) && HandleBswap(i, Unsafe).Some? {
      ReplacementClean(i.ops[0].reg.phys, i.op.width);
    } else if IsBswap(i) && i.ops[0].reg.Phys? && Swappable(i.ops[0].reg.phys) {
      UnsafeExact(i.ops[0].reg.phys);
    }
  }

  /**
   With the extended list the rewrite leaves no BSWAP the scanner would
   flag and no non-temporal store.
   */
  lemma {:induction false} TransformBlockClean(s: seq<Instr>)
    ensures Clean(TransformBlock(s, Unsafe))
    decreases |s|
  {
    if |s| > 0 {
      var a, b := Rewrite(s[0], Unsafe), TransformBlock(s[1..], Unsafe);
      RewriteClean(s[0]);
      TransformBlockClean(s[1..]);
      forall k | 0 <= k < |a + b|
        ensures !HazardousBswap((a + b)[k]) && !IsMovnti((a + b)[k])
      {
        if k >= |a| {
          assert (a + b)[k] == b[k - |a|];
        }
      }
    }
  }

  /** With the source's list, `bswap %r10d` is left as it is. */
  lemma AsWrittenKeepsR10D()
    ensures var i := Instr(Op(BSWAP, 32, R), [RegOp(Phys(PhysReg(R10, D))), RegOp(Phys(PhysReg(R10, D)))]);
      TransformBlock([i], UnsafeAsWritten) == [i] && HazardousBswap(i)
  {
    var i := Instr(Op(BSWAP, 32, R), [RegOp(Phys(PhysReg(R10, D))), RegOp(Phys(PhysReg(R10, D)))]);
    UnsafeAsWrittenMissesR10D();
    assert TransformBlock([i], UnsafeAsWritten) == Rewrite(i, UnsafeAsWritten) + TransformBlock([], UnsafeAsWritten);
  }
}

=== FILE: cpu.dfy ===
/**
 What the sequences the control-flow passes emit do to the processor.

 These sequences name physical registers only, so the state keys registers
 by family: a 64-bit name reads and writes the whole word, a 32-bit name
 the low four bytes, and a 32-bit write clears the upper four, as the
 processor does. The state also holds the stack (top first, one 64-bit
 word per cell), the stack objects the frame allocates (by frame index),
 the stack-protector canary at `fs:[0x28]`, and the zero flag.

 A memory reference is one of the three kinds the sequences use: the
 canary, a frame object at offset 0, or `[rsp + d]`, which names the stack
 cell `d / 8` from the top.
 */
module Cpu {
  import opened Words
  import opened Machine

  datatype State = State(regs: map<Family, Word>, stack: seq<Word>, slots: map<int, Word>,
                         canary: Word, zf: bool)

  /** A register family's 64-bit value; a family never written reads as zero. */
  function Get(s: State, f: Family): Word {
    if f in s.regs then s.regs[f] else Zero
  }

  /** The low four bytes of a word, the upper four cleared. */
  function Low32(w: Word): Word {
    Word(w.b0, w.b1, w.b2, w.b3, 0, 0, 0, 0)
  }

  /** What a 64- or 32-bit register name reads. */
  function ReadReg(s: State, r: PhysReg): Word {
    if r.part == D then Low32(Get(s, r.family)) else Get(s, r.family)
  }

  /** Writing a 64- or 32-bit register name. */
  function WriteReg(s: State, r: PhysReg, v: Word): State {
    s.(regs := s.regs[r.family := if r.part == D then Low32(v) else v])
  }

  /** `BSWAP` of a 64-bit register: the byte order reversed. */
  function Bswap64(w: Word): Word {
    Word(w.b7, w.b6, w.b5, w.b4, w.b3, w.b2, w.b1, w.b0)
  }

  /** `BSWAP` of a 32-bit register: its four bytes reversed. */
  function Bswap32(w: Word): Word {
    Word(w.b3, w.b2, w.b1, w.b0, 0, 0, 0, 0)
  }

  // ---------------------------------------------------------------------
  // Memory references.

  datatype MemRef = CanaryRef | FrameRef(index: int) | RspRef(disp: Word)

  const Eight: Word := Word(8, 0, 0, 0, 0, 0, 0, 0)

  /** The memory reference of frame object `i`, as the backend adds it
      before frames are laid out. */
  function FrameOps(i: int): seq<Operand> { MemOps(FrameIndex(i), Zero) }

  /** The five operands of a memory reference, read back. */
  function MemOf(m: seq<Operand>): (r: Option<MemRef>)
    requires |m| == 5
    ensures m == CanaryOps ==> r == Some(CanaryRef)
  {
    if m == CanaryOps then Some(CanaryRef)
    else if m[1] == Imm(Word(1, 0, 0, 0, 0, 0, 0, 0)) && m[2] == RegOp(NoReg) && m[4] == RegOp(NoReg)
            && m[3].Imm? then
      if m[0].FrameIndex? && m[3].value == Zero then Some(FrameRef(m[0].slot))
      else if m[0] == RegOp(P64(RSP)) then Some(RspRef(m[3].value))
      else None
    else None
  }

  /** The displacement of the `k`-th stack cell from the top: 8 k. */
  function CellDisp(k: nat): Word {
    if k == 0 then Zero else Add(CellDisp(k - 1), Eight)
  }

  /** The stack cell a displacement from the stack pointer names, looking
      from cell `k` down. */
  function StackIndex(d: Word, stack: seq<Word>, k: nat): (r: Option<nat>)
    ensures r.Some? ==> k <= r.value < |stack| && CellDisp(r.value) == d
    decreases |stack| - k
  {
    if k >= |stack| then None
    else if CellDisp(k) == d then Some(k)
    else StackIndex(d, stack, k + 1)
  }

  datatype Cell = CanaryCell | SlotCell(index: int) | StackCell(depth: nat)

  function Resolve(m: MemRef, s: State): Option<Cell> {
    match m
    case CanaryRef => Some(CanaryCell)
    case FrameRef(i) => Some(SlotCell(i))
    case RspRef(d) =>
      match StackIndex(d, s.stack, 0)
      case None => None
      case Some(k) => Some(StackCell(k))
  }

  /** A frame object nobody has written holds no known value. */
  function Load(c: Cell, s: State): Option<Word> {
    match c
    case CanaryCell => Some(s.canary)
    case SlotCell(i) => if i in s.slots then Some(s.slots[i]) else None
    case StackCell(k) => if k < |s.stack| then Some(s.stack[k]) else None
  }

  /** The canary is read-only. */
  function Store(c: Cell, v: Word, s: State): Option<State> {
    match c
    case CanaryCell => None
    case SlotCell(i) => Some(s.(slots := s.slots[i := v]))
    case StackCell(k) => if k < |s.stack| then Some(s.(stack := s.stack[k := v])) else None
  }

  function LoadRef(m: MemRef, s: State): Option<Word> {
    match Resolve(m, s)
    case None => None
    case Some(c) => Load(c, s)
  }

  // ---------------------------------------------------------------------
  // Instructions.

  /** The instructions the sequences are made of, decoded. */
  datatype Action =
    | Push(f: Family)
    | Pop(f: Family)
    | SetImm(f: Family, v: Word)
    | Copy(to: PhysReg, from: PhysReg)
    | LoadTo(f: Family, m: MemRef)
    | StoreFrom(m: MemRef, f: Family)
    | XorLoad(f: Family, g: Family, m: MemRef)
    | XorRegs(f: Family, g: Family, h: Family)
    | XorStore(m: MemRef, f: Family)
    | CmpLoad(f: Family, m: MemRef)
    | Swap(to: PhysReg, from: PhysReg)
    | Skip

  /** The family of a 64-bit register operand. */
  function Q64(o: Operand): Option<Family> {
    if o.RegOp? && o.reg.Phys? && o.reg.phys.part == Q then Some(o.reg.phys.family) else None
  }

  /** A register operand of the given width, 32 or 64 bits. */
  function RegOfWidth(o: Operand, w: nat): Option<PhysReg> {
    if o.RegOp? && o.reg.Phys? && ((w == 64 && o.reg.phys.part == Q) || (w == 32 && o.reg.phys.part == D))
    then Some(o.reg.phys) else None
  }

  /**
   PUSH64r, POP64r, MOV64ri, MOV32rr/MOV64rr, MOV64rm, MOV64mr, XOR64rm,
   XOR64rr, XOR64mr, CMP64rm, BSWAP32r/BSWAP64r and NOOP, with their
   operands in the backend's order (a tied source follows the
   destination); `None` for anything else.
   */
  function Decode(i: Instr): Option<Action> {
    var op, o := i.op, i.ops;
    if op == Op(PUSH, 64, R) && |o| == 1 && Q64(o[0]).Some? then Some(Push(Q64(o[0]).value))
    else if op == Op(POP, 64, R) && |o| == 1 && Q64(o[0]).Some? then Some(Pop(Q64(o[0]).value))
    else if op == Op(MOV, 64, RI) && |o| == 2 && Q64(o[0]).Some? && o[1].Imm? then
      Some(SetImm(Q64(o[0]).value, o[1].value))
    else if op.mn == MOV && op.form == RR && op.width in {32, 64} && |o| == 2
            && RegOfWidth(o[0], op.width).Some? && RegOfWidth(o[1], op.width).Some? then
      Some(Copy(RegOfWidth(o[0], op.width).value, RegOfWidth(o[1], op.width).value))
    else if op == Op(MOV, 64, RM) && |o| == 6 && Q64(o[0]).Some? && MemOf(o[1..]).Some? then
      Some(LoadTo(Q64(o[0]).value, MemOf(o[1..]).value))
    else if op == Op(MOV, 64, MR) && |o| == 6 && Q64(o[5]).Some? && MemOf(o[..5]).Some? then
      Some(StoreFrom(MemOf(o[..5]).value, Q64(o[5]).value))
    else if op == Op(XOR, 64, RM) && |o| == 7 && Q64(o[0]).Some? && Q64(o[1]).Some? && MemOf(o[2..]).Some? then
      Some(XorLoad(Q64(o[0]).value, Q64(o[1]).value, MemOf(o[2..]).value))
    else if op == Op(XOR, 64, RR) && |o| == 3 && Q64(o[0]).Some? && Q64(o[1]).Some? && Q64(o[2]).Some? then
      Some(XorRegs(Q64(o[0]).value, Q64(o[1]).value, Q64(o[2]).value))
    else if op == Op(XOR, 64, MR) && |o| == 6 && Q64(o[5]).Some? && MemOf(o[..5]).Some? then
      Some(XorStore(MemOf(o[..5]).value, Q64(o[5]).value))
    else if op == Op(CMP, 64, RM) && |o| == 6 && Q64(o[0]).Some? && MemOf(o[1..]).Some? then
      Some(CmpLoad(Q64(o[0]).value, MemOf(o[1..]).value))
    else if op.mn == BSWAP && op.form == R && op.width in {32, 64} && |o| == 2
            && RegOfWidth(o[0], op.width).Some? && RegOfWidth(o[1], op.width).Some? then
      Some(Swap(RegOfWidth(o[0], op.width).value, RegOfWidth(o[1], op.width).value))
    else if op == Op(NOOP, 0, NoForm) && |o| == 0 then Some(Skip)
    else None
  }

  /** The effect of an action; `None` when it pops an empty stack, reads a
      frame object never written, or names a stack cell the stack does not
      have. XOR sets the zero flag from its result, CMP from the equality
      of its operands. */
  function Exec(a: Action, s: State): Option<State> {
    match a
    case Push(f) => Some(s.(stack := [Get(s, f)] + s.stack))
    case Pop(f) =>
      if |s.stack| == 0 then None
      else Some(s.(regs := s.regs[f := s.stack[0]], stack := s.stack[1..]))
    case SetImm(f, v) => Some(s.(regs := s.regs[f := v]))
    case Copy(d, r) => Some(WriteReg(s, d, ReadReg(s, r)))
    case LoadTo(f, m) =>
      var v := LoadRef(m, s);
      if v.None? then None else Some(s.(regs := s.regs[f := v.value]))
    case StoreFrom(m, f) =>
      var c := Resolve(m, s);
      if c.None? then None else Store(c.value, Get(s, f), s)
    case XorLoad(f, g, m) =>
      var v := LoadRef(m, s);
      if v.None? then None
      else
        var x := Xor(Get(s, g), v.value);
        Some(s.(regs := s.regs[f := x], zf := x == Zero))
    case XorRegs(f, g, h) =>
      var x := Xor(Get(s, g), Get(s, h));
      Some(s.(regs := s.regs[f := x], zf := x == Zero))
    case XorStore(m, f) =>
      var c := Resolve(m, s);
      if c.None? || Load(c.value, s).None? then None
      else
        var x := Xor(Load(c.value, s).value, Get(s, f));
        var t := Store(c.value, x, s);
        if t.None? then None else Some(t.value.(zf := x == Zero))
    case CmpLoad(f, m) =>
      var v := LoadRef(m, s);
      if v.None? then None else Some(s.(zf := Get(s, f) == v.value))
    case Swap(d, r) =>
      var v := ReadReg(s, r);
      Some(WriteReg(s, d, if d.part == D then Bswap32(v) else Bswap64(v)))
    case Skip => Some(s)
  }

  function Step(i: Instr, s: State): Option<State> {
    match Decode(i)
    case None => None
    case Some(a) => Exec(a, s)
  }

  // What the shapes the passes emit decode to.

  lemma MemOfFrame(i: int)
    ensures MemOf(FrameOps(i)) == Some(FrameRef(i))
  {
  }

  lemma MemOfRsp(d: Word)
    ensures MemOf(MemOps(RegOp(P64(RSP)), d)) == Some(RspRef(d))
  {
  }

  lemma DecodePush(f: Family)
    ensures Decode(Push64(P64(f))) == Some(Push(f))
  {
  }

  lemma DecodePop(f: Family)
    ensures Decode(Pop64(P64(f))) == Some(Pop(f))
  {
  }

  lemma DecodeSetImm(f: Family, v: Word)
    ensures Decode(Instr(Op(MOV, 64, RI), [RegOp(P64(f)), Imm(v)])) == Some(SetImm(f, v))
  {
  }

  lemma DecodeLoadTo(f: Family, m: seq<Operand>)
    requires |m| == 5 && MemOf(m).Some?
    ensures Decode(Instr(Op(MOV, 64, RM), [RegOp(P64(f))] + m)) == Some(LoadTo(f, MemOf(m).value))
  {
    assert ([RegOp(P64(f))] + m)[1..] == m;
  }

  lemma DecodeStoreFrom(m: seq<Operand>, f: Family)
    requires |m| == 5 && MemOf(m).Some?
    ensures Decode(Instr(Op(MOV, 64, MR), m + [RegOp(P64(f))])) == Some(StoreFrom(MemOf(m).value, f))
  {
    assert (m + [RegOp(P64(f))])[..5] == m;
  }

  lemma DecodeXorLoad(f: Family, g: Family, m: seq<Operand>)
    requires |m| == 5 && MemOf(m).Some?
    ensures Decode(Instr(Op(XOR, 64, RM), [RegOp(P64(f)), RegOp(P64(g))] + m))
         == Some(XorLoad(f, g, MemOf(m).value))
  {
    assert ([RegOp(P64(f)), RegOp(P64(g))] + m)[2..] == m;
  }

  lemma DecodeXorRegs(f: Family, g: Family, h: Family)
    ensures Decode(Instr(Op(XOR, 64, RR), [RegOp(P64(f)), RegOp(P64(g)), RegOp(P64(h))]))
         == Some(XorRegs(f, g, h))
  {
  }

  lemma DecodeXorStore(m: seq<Operand>, f: Family)
    requires |m| == 5 && MemOf(m).Some?
    ensures Decode(Instr(Op(XOR, 64, MR), m + [RegOp(P64(f))])) == Some(XorStore(MemOf(m).value, f))
  {
    assert (m + [RegOp(P64(f))])[..5] == m;
  }

  lemma DecodeCmpLoad(f: Family, m: seq<Operand>)
    requires |m| == 5 && MemOf(m).Some?
    ensures Decode(Instr(Op(CMP, 64, RM), [RegOp(P64(f))] + m)) == Some(CmpLoad(f, MemOf(m).value))
  {
    assert ([RegOp(P64(f))] + m)[1..] == m;
  }

  /** The part a 32- or 64-bit register name of a family denotes. */
  function PartOfWidth(w: nat): Part { if w == 32 then D else Q }

  lemma DecodeCopy(w: nat, d: Family, r: Family)
    requires w == 32 || w == 64
    ensures Decode(Instr(Op(MOV, w, RR), [RegOp(Phys(PhysReg(d, PartOfWidth(w)))), RegOp(Phys(PhysReg(r, PartOfWidth(w))))]))
         == Some(Copy(PhysReg(d, PartOfWidth(w)), PhysReg(r, PartOfWidth(w))))
  {
  }

  lemma DecodeSwap(w: nat, d: Family, r: Family)
    requires w == 32 || w == 64
    ensures Decode(Instr(Op(BSWAP, w, R), [RegOp(Phys(PhysReg(d, PartOfWidth(w)))), RegOp(Phys(PhysReg(r, PartOfWidth(w))))]))
         == Some(Swap(PhysReg(d, PartOfWidth(w)), PhysReg(r, PartOfWidth(w))))
  {
  }

  /** A sequence run from `s`; `None` as soon as one instruction has no
      modelled effect. */
  function Run(code: seq<Instr>, s: State): Option<State>
    decreases |code|
  {
    if |code| == 0 then Some(s)
    else match Step(code[0], s)
      case None => None
      case Some(t) => Run(code[1..], t)
  }

  /** Running a sequence whose first instruction has an effect. */
  lemma RunStep(x: Instr, rest: seq<Instr>, s: State, t: State)
    requires Step(x, s) == Some(t)
    ensures Run([x] + rest, s) == Run(rest, t)
  {
    RunCons(x, rest, s);
  }

  /** A sequence whose every instruction takes one state of a chain to the
      next runs from the first state of the chain to the last. */
  lemma {:induction false} RunChain(code: seq<Instr>, states: seq<State>)
    requires |states| == |code| + 1
    requires forall k :: 0 <= k < |code| ==> Step(code[k], states[k]) == Some(states[k + 1])
    ensures Run(code, states[0]) == Some(states[|code|])
    decreases |code|
  {
    if |code| > 0 {
      RunChain(code[1..], states[1..]);
    }
  }

  /** The chain for two, four and five instructions. */
  lemma Run2(i0: Instr, i1: Instr, s0: State, s1: State, s2: State)
    requires Step(i0, s0) == Some(s1) && Step(i1, s1) == Some(s2)
    ensures Run([i0, i1], s0) == Some(s2)
  {
    RunChain([i0, i1], [s0, s1, s2]);
  }

  lemma Run4(i0: Instr, i1: Instr, i2: Instr, i3: Instr, s0: State, s1: State, s2: State, s3: State, s4: State)
    requires Step(i0, s0) == Some(s1) && Step(i1, s1) == Some(s2) && Step(i2, s2) == Some(s3) && Step(i3, s3) == Some(s4)
    ensures Run([i0, i1, i2, i3], s0) == Some(s4)
  {
    RunChain([i0, i1, i2, i3], [s0, s1, s2, s3, s4]);
  }

  lemma Run5(i0: Instr, i1: Instr, i2: Instr, i3: Instr, i4: Instr,
              s0: State, s1: State, s2: State, s3: State, s4: State, s5: State)
    requires Step(i0, s0) == Some(s1) && Step(i1, s1) == Some(s2) && Step(i2, s2) == Some(s3)
    requires Step(i3, s3) == Some(s4) && Step(i4, s4) == Some(s5)
    ensures Run([i0, i1, i2, i3, i4], s0) == Some(s5)
  {
    RunChain([i0, i1, i2, i3, i4], [s0, s1, s2, s3, s4, s5]);
  }

  /** Running two sequences one after the other. */
  lemma {:induction false} RunAppend(a: seq<Instr>, b: seq<Instr>, s: State)
    ensures Run(a + b, s) == match Run(a, s) { case None => None case Some(t) => Run(b, t) }
    decreases |a|
  {
    if |a| > 0 {
      assert (a + b)[0] == a[0] && (a + b)[1..] == a[1..] + b;
      match Step(a[0], s) {
        case None =>
        case Some(t) => RunAppend(a[1..], b, t);
      }
    } else {
      assert a + b == b;
    }
  }

  /** Two runs one after the other. */
  lemma RunThen(a: seq<Instr>, b: seq<Instr>, s: State, t: State, u: State)
    requires Run(a, s) == Some(t) && Run(b, t) == Some(u)
    ensures Run(a + b, s) == Some(u)
  {
    RunAppend(a, b, s);
  }

  lemma RunCons(x: Instr, rest: seq<Instr>, s: State)
    ensures Run([x] + rest, s) == match Step(x, s) { case None => None case Some(t) => Run(rest, t) }
  {
    assert ([x] + rest)[0] == x && ([x] + rest)[1..] == rest;
  }

  /** Two states agree on everything the sequences can observe. */
  predicate Same(s: State, t: State) {
    (forall f :: Get(s, f) == Get(t, f)) && s.stack == t.stack && s.slots == t.slots
    && s.canary == t.canary && s.zf == t.zf
  }

  // ---------------------------------------------------------------------
  // No-operations.

  /** `n` NOOPs, as the source's `emitNop` inserts them. */
  function Nops(n: nat): (r: seq<Instr>)
    ensures |r| == n && forall k :: 0 <= k < n ==> r[k] == Nop()
  {
    seq(n, k => Nop())
  }

  /** A run of NOOPs changes nothing. */
  lemma {:induction false} NopsChangeNothing(n: nat, s: State)
    ensures Run(Nops(n), s) == Some(s)
    decreases n
  {
    if n > 0 {
      assert Nops(n) == [Nop()] + Nops(n - 1);
      RunCons(Nop(), Nops(n - 1), s);
      assert Decode(Nop()) == Some(Skip);
      NopsChangeNothing(n - 1, s);
    }
  }

  // ---------------------------------------------------------------------
  // Stack cells below a push.

  /** Adding eight is injective: subtraction undoes it. */
  lemma AddEightInjective(x: Word, y: Word)
    ensures Add(x, Eight) == Add(y, Eight) <==> x == y
  {
    SubAdd(x, Eight);
    SubAdd(y, Eight);
  }

  /**
   After one push, the displacement `d + 8` names the cell that `d` named
   before it: the pushed word is the new top, so every other cell is one
   further from the stack pointer. (The displacement `-8` would name the
   new top itself, hence the exclusion.)
   */
  lemma {:induction false} StackIndexAfterPush(d: Word, v: Word, stack: seq<Word>, k: nat)
    requires Add(d, Eight) != Zero
    ensures StackIndex(Add(d, Eight), [v] + stack, k + 1)
         == match StackIndex(d, stack, k) { case None => None case Some(j) => Some(j + 1) }
    decreases |stack| - k
  {
    AddEightInjective(CellDisp(k), d);
    if k < |stack| && CellDisp(k) != d {
      StackIndexAfterPush(d, v, stack, k + 1);
    }
  }

  lemma StackIndexFromTop(d: Word, v: Word, stack: seq<Word>)
    requires Add(d, Eight) != Zero
    ensures StackIndex(Add(d, Eight), [v] + stack, 0)
         == match StackIndex(d, stack, 0) { case None => None case Some(j) => Some(j + 1) }
  {
    StackIndexAfterPush(d, v, stack, 0);
  }
}

=== FILE: finalize.dfy ===
/**
 Finalization of the jump-control checks.

 For every indirect jump and indirect call the block is split at the
 instruction: the part before it ends in `je` to a new block that starts
 with the instruction, and a block holding `hlt` sits in between, so a
 failed check falls into the halt. The check routine the cookie pass put
 before the instruction (PUSH, MOV, XOR, CMP, POP) is then looked for
 backwards, from the end of the block, through earlier blocks if the
 backend moved the instruction away from its check, and moved right
 before the `je`, with nine NOOPs after its PUSH. When the XOR reads the
 stack object relative to RSP, its displacement grows by 8, the size of
 the pushed R11.
 */
module Finalize {
  import opened Words
  import opened Machine
  import opened Cpu
  import Jcp

  /** `jmp*` or `call*`. */
  predicate IsIndirect(i: Instr) { IsIndirectBranch(i) || IsIndirectCall(i) }

  function Halt(): Instr { Instr(Op(HLT, 0, NoForm), []) }

  /** `JE_1` to block `target` of function `number`. */
  function JumpIfEqual(target: nat, number: nat): Instr { Instr(Op(JE, 8, Rel), [BlockRef(target, number)]) }

  /** The instructions of the block at layout position `k`; a label with
      no block reads as an empty block. */
  function BlockAt(g: Function, k: nat): seq<Instr>
    requires k < |g.layout|
  {
    if g.layout[k] in g.blocks then g.blocks[g.layout[k]].instrs else []
  }

  // ---------------------------------------------------------------------
  // Recognizing the check routine.

  /** The check routine's opcodes end at position `i`. */
  predicate PatternAt(s: seq<Instr>, i: int) {
    4 <= i < |s| && forall k :: 0 <= k < 5 ==> s[i - 4 + k].op == Jcp.CheckOpcodes[k]
  }

  /** The five opcode tests of `matchCheckCookieRoutine`, one by one. */
  predicate OpcodesAt(s: seq<Instr>, i: int)
    requires 4 <= i < |s|
  {
    s[i - 4].op == Op(PUSH, 64, R) && s[i - 3].op == Op(MOV, 64, RI) && s[i - 2].op == Op(XOR, 64, RM)
    && s[i - 1].op == Op(CMP, 64, RM) && s[i].op == Op(POP, 64, R)
  }

  lemma OpcodesArePattern(s: seq<Instr>, i: int)
    requires 4 <= i < |s|
    ensures OpcodesAt(s, i) <==> PatternAt(s, i)
  {
    if OpcodesAt(s, i) {
      forall k | 0 <= k < 5
        ensures s[i - 4 + k].op == Jcp.CheckOpcodes[k]
      {
      }
    }
    if PatternAt(s, i) {
      assert s[i - 4 + 0].op == Jcp.CheckOpcodes[0] && s[i - 4 + 1].op == Jcp.CheckOpcodes[1];
      assert s[i - 4 + 2].op == Jcp.CheckOpcodes[2] && s[i - 4 + 3].op == Jcp.CheckOpcodes[3];
      assert s[i - 4 + 4].op == Jcp.CheckOpcodes[4];
    }
  }

  /**
   `matchCheckCookieRoutine` as written: -1 when the block has fewer than
   five instructions or `i` is its first or second one, 0 on the routine,
   1 otherwise. At the third and fourth instruction it reads before the
   first one, which is `Fail` here.
   */
  function MatchAsWritten(s: seq<Instr>, i: int): (r: Result<int>)
    requires 0 <= i < |s|
    ensures r == Ok(1) ==> i >= 4
  {
    if |s| < 5 then Ok(-1)
    else if i == 0 || i == 1 then Ok(-1)
    else if i < 4 then Fail("reads before the first instruction of the block")
    else if OpcodesAt(s, i) then Ok(0)
    else Ok(1)
  }

  /** With the guard the routine needs: -1 before the fifth instruction.
      Position -1 stands for the end of an empty block. */
  function Match(s: seq<Instr>, i: int): (r: int)
    requires -1 <= i < |s|
  {
    if |s| < 5 || i < 4 then -1
    else if OpcodesAt(s, i) then 0
    else 1
  }

  /** The corrected matcher says 0 exactly on the routine, and -1 exactly
      where no routine can end. */
  lemma MatchIff(s: seq<Instr>, i: int)
    requires -1 <= i < |s|
    ensures Match(s, i) == 0 <==> PatternAt(s, i)
    ensures Match(s, i) == -1 <==> i < 4
    ensures Match(s, i) in {-1, 0, 1}
  {
    if 4 <= i {
      OpcodesArePattern(s, i);
    }
  }

  /** It recognizes what the cookie pass emits. */
  lemma MatchFindsCheck(pre: seq<Instr>, c: Word, slot: int, post: seq<Instr>)
    ensures Match(pre + Jcp.CheckSeq(c, slot) + post, |pre| + 4) == 0
  {
    var s := pre + Jcp.CheckSeq(c, slot) + post;
    Jcp.CheckMatchesPattern(c, slot);
    forall k | 0 <= k < 5
      ensures s[|pre| + 4 - 4 + k].op == Jcp.CheckOpcodes[k]
    {
      assert s[|pre| + k] == Jcp.CheckSeq(c, slot)[k];
    }
    MatchIff(s, |pre| + 4);
  }

  /** Where the matcher as written answers, it answers as the corrected
      one; it fails exactly at the third and fourth instruction of a block
      of five or more. */
  lemma MatchAgrees(s: seq<Instr>, i: int)
    requires 0 <= i < |s|
    ensures MatchAsWritten(s, i).Fail? <==> |s| >= 5 && (i == 2 || i == 3)
    ensures MatchAsWritten(s, i).Ok? ==> MatchAsWritten(s, i).value == Match(s, i)
  {
  }

  // ---------------------------------------------------------------------
  // The backward search.

  /** Position `(k2, i2)` comes after `(k1, i1)`: layout position first. */
  predicate Before(k1: nat, i1: int, k2: nat, i2: int) {
    k1 < k2 || (k1 == k2 && i1 < i2)
  }

  /** No routine ends at a position from `(k1, i1)` (excluded) up to
      `(k2, i2)` (included). */
  ghost predicate NoneBetween(g: Function, k1: nat, i1: int, k2: nat, i2: int) {
    forall k, i :: 0 <= k < |g.layout| && 0 <= i && Before(k1, i1, k, i) && !Before(k2, i2, k, i)
                   ==> !PatternAt(BlockAt(g, k), i)
  }

  /**
   The search loop with the corrected matcher: from instruction `i` of the
   block at position `k` back to the first routine, moving to the end of
   the previous block when the matcher says -1. `Fail` when it runs out of
   blocks.
   */
  function Search(g: Function, k: nat, i: int): (r: Result<(nat, nat)>)
    requires k < |g.layout| && -1 <= i < |BlockAt(g, k)|
    ensures r.Ok? ==> r.value.0 < |g.layout| && PatternAt(BlockAt(g, r.value.0), r.value.1)
    ensures r.Ok? ==> !Before(k, i, r.value.0, r.value.1)
    decreases k, i + 1
  {
    var m := Match(BlockAt(g, k), i);
    MatchIff(BlockAt(g, k), i);
    if m == 0 then Ok((k, i))
    else if m == 1 then Search(g, k, i - 1)
    else if k == 0 then Fail("no check routine before the indirect branch")
    else Search(g, k - 1, |BlockAt(g, k - 1)| - 1)
  }

  /**
   The search finds the nearest routine: none ends between it and the
   start. When it fails, no routine ends at or before the start.
   */
  lemma {:induction false} SearchNearest(g: Function, k: nat, i: int)
    requires k < |g.layout| && -1 <= i < |BlockAt(g, k)|
    ensures Search(g, k, i).Ok? ==> NoneBetween(g, Search(g, k, i).value.0, Search(g, k, i).value.1, k, i)
    ensures Search(g, k, i).Fail? ==> NoneBetween(g, 0, -1, k, i)
    decreases k, i + 1
  {
    var s := BlockAt(g, k);
    var m := Match(s, i);
    MatchIff(s, i);
    if m == 1 {
      SearchNearest(g, k, i - 1);
    } else if m == -1 && k > 0 {
      SearchNearest(g, k - 1, |BlockAt(g, k - 1)| - 1);
    }
  }

  /**
   The loop as written: the matcher may read before a block, and moving to
   a previous block that is empty, or before the first block, reads past a
   list's end.
   */
  function SearchAsWritten(g: Function, k: nat, i: int): (r: Result<(nat, nat)>)
    requires k < |g.layout| && 0 <= i < |BlockAt(g, k)|
    decreases k, i
  {
    match MatchAsWritten(BlockAt(g, k), i)
    case Fail(e) => Fail(e)
    case Ok(m) =>
      if m == 0 then Ok((k, i))
      else if m == 1 then SearchAsWritten(g, k, i - 1)
      else if k == 0 then Fail("reads before the first block")
      else if |BlockAt(g, k - 1)| == 0 then Fail("reads the end of an empty block")
      else SearchAsWritten(g, k - 1, |BlockAt(g, k - 1)| - 1)
  }

  /** Where the loop as written finds a routine, it is the one the
      corrected loop finds. */
  lemma {:induction false} SearchAgrees(g: Function, k: nat, i: int)
    requires k < |g.layout| && 0 <= i < |BlockAt(g, k)|
    requires SearchAsWritten(g, k, i).Ok?
    ensures Search(g, k, i) == SearchAsWritten(g, k, i)
    decreases k, i
  {
    var s := BlockAt(g, k);
    MatchAgrees(s, i);
    var m := Match(s, i);
    if m == 1 {
      SearchAgrees(g, k, i - 1);
    } else if m == -1 && k > 0 {
      SearchAgrees(g, k - 1, |BlockAt(g, k - 1)| - 1);
    }
  }

  /** A folded call: the check sits alone in the block before the one
      holding four instructions and the call. */
  function Folded(): Function {
    var check := Jcp.CheckSeq(Zero, 0);
    var call := Instr(Op(CALL, 64, R), [RegOp(P64(RAX))]);
    Function(0, [0, 1], map[0 := Block(check, [1]), 1 := Block([Nop(), Nop(), Nop(), Nop(), call], [])])
  }

  /** After the split the block reads four NOOPs and the `je`; the loop as
      written steps back from the `je` to the fourth NOOP and reads before
      the block, where the corrected loop moves on and finds the check in
      the block before. */
  lemma FoldedCallMisread()
    ensures SearchAsWritten(Folded().(blocks := Folded().blocks[1 := Block([Nop(), Nop(), Nop(), Nop(), JumpIfEqual(2, 0)], [3, 2])]), 1, 4).Fail?
    ensures Search(Folded().(blocks := Folded().blocks[1 := Block([Nop(), Nop(), Nop(), Nop(), JumpIfEqual(2, 0)], [3, 2])]), 1, 4) == Ok((0, 4))
  {
    var g := Folded().(blocks := Folded().blocks[1 := Block([Nop(), Nop(), Nop(), Nop(), JumpIfEqual(2, 0)], [3, 2])]);
    var s1 := BlockAt(g, 1);
    assert s1 == [Nop(), Nop(), Nop(), Nop(), JumpIfEqual(2, 0)];
    assert MatchAsWritten(s1, 4) == Ok(1);
    assert MatchAsWritten(s1, 3).Fail?;
    assert Match(s1, 3) == -1;
    var s0 := BlockAt(g, 0);
    assert s0 == Jcp.CheckSeq(Zero, 0);
    MatchFindsCheck([], Zero, 0, []);
    assert [] + Jcp.CheckSeq(Zero, 0) + [] == s0;
  }

  // ---------------------------------------------------------------------
  // Splitting at the indirect instruction.

  /** Each label appears once in the layout, as in the source's block
      list. */
  predicate Distinct(layout: seq<nat>) {
    forall p, q :: 0 <= p < q < |layout| ==> layout[p] != layout[q]
  }

  /** Every label of the function, in the map or in the layout, is below
      `next`: the labels from `next` on are free. */
  predicate Below(g: Function, next: nat) {
    (forall l :: l in g.blocks ==> l < next) && (forall p :: 0 <= p < |g.layout| ==> g.layout[p] < next)
  }

  /**
   The split at instruction `j` of the block at position `k`: the block
   keeps what comes before `j` and ends in `je` to the new block `nw`,
   which holds the rest and takes over the successors; the halt block `hlt`
   and then `nw` follow it in the layout.
   */
  function SplitAt(g: Function, k: nat, j: nat, hlt: nat, nw: nat): (h: Function)
    requires k < |g.layout| && g.layout[k] in g.blocks && j < |BlockAt(g, k)|
    requires hlt != nw && hlt !in g.blocks && nw !in g.blocks
    ensures h.number == g.number && h.blocks.Keys == g.blocks.Keys + {hlt, nw}
    ensures h.layout == g.layout[..k + 1] + [hlt, nw] + g.layout[k + 1..]
  {
    var l := g.layout[k];
    var b := g.blocks[l];
    g.(layout := g.layout[..k + 1] + [hlt, nw] + g.layout[k + 1..],
       blocks := g.blocks[l := Block(b.instrs[..j] + [JumpIfEqual(nw, g.number)], [hlt, nw])]
                         [hlt := Block([Halt()], [])]
                         [nw := Block(b.instrs[j..], b.succs)])
  }

  /** The three blocks the split leaves at positions `k` to `k + 2`. */
  lemma SplitHere(g: Function, k: nat, j: nat, hlt: nat, nw: nat, next: nat)
    requires k < |g.layout| && g.layout[k] in g.blocks && j < |BlockAt(g, k)|
    requires Below(g, next) && hlt >= next && nw >= next && hlt != nw
    ensures var h, s := SplitAt(g, k, j, hlt, nw), BlockAt(g, k);
      |h.layout| == |g.layout| + 2
      && h.layout[k] == g.layout[k] && BlockAt(h, k) == s[..j] + [JumpIfEqual(nw, g.number)]
      && h.layout[k + 1] == hlt && BlockAt(h, k + 1) == [Halt()]
      && h.layout[k + 2] == nw && BlockAt(h, k + 2) == s[j..]
  {
    var h := SplitAt(g, k, j, hlt, nw);
    assert h.layout[k] == g.layout[..k + 1][k];
    assert g.layout[k] != hlt && g.layout[k] != nw;
  }

  /** The block that was split ends in the new `je`. */
  lemma SplitEndsInJump(g: Function, k: nat, j: nat, hlt: nat, nw: nat, next: nat)
    requires k < |g.layout| && g.layout[k] in g.blocks && j < |BlockAt(g, k)|
    requires Below(g, next) && hlt >= next && nw >= next && hlt != nw
    ensures var h := SplitAt(g, k, j, hlt, nw);
      |BlockAt(h, k)| == j + 1 && LastOf(BlockAt(h, k)).op.mn == JE
  {
    SplitHere(g, k, j, hlt, nw, next);
  }

  /** The other blocks after the split, by layout position. */
  lemma SplitBlocks(g: Function, k: nat, j: nat, hlt: nat, nw: nat, next: nat)
    requires k < |g.layout| && g.layout[k] in g.blocks && j < |BlockAt(g, k)| && Distinct(g.layout)
    requires Below(g, next) && hlt >= next && nw >= next && hlt != nw
    ensures var h, s := SplitAt(g, k, j, hlt, nw), BlockAt(g, k);
      (forall p :: 0 <= p < k ==> h.layout[p] == g.layout[p] && BlockAt(h, p) == BlockAt(g, p))
      && (forall p :: k + 2 < p < |h.layout| ==> h.layout[p] == g.layout[p - 2] && BlockAt(h, p) == BlockAt(g, p - 2))
  {
    var h := SplitAt(g, k, j, hlt, nw);
    var l := g.layout[k];
    forall p | 0 <= p < k
      ensures h.layout[p] == g.layout[p] && BlockAt(h, p) == BlockAt(g, p)
    {
      assert h.layout[p] == g.layout[..k + 1][p];
      assert g.layout[p] != hlt && g.layout[p] != nw;
    }
    forall p | k + 2 < p < |h.layout|
      ensures h.layout[p] == g.layout[p - 2] && BlockAt(h, p) == BlockAt(g, p - 2)
    {
      assert h.layout[p] == g.layout[k + 1..][p - k - 3];
      assert g.layout[p - 2] != hlt && g.layout[p - 2] != nw;
    }
  }

  /** Nothing is lost: the two halves put together are the block. */
  lemma SplitJoins(g: Function, k: nat, j: nat, hlt: nat, nw: nat, next: nat)
    requires k < |g.layout| && g.layout[k] in g.blocks && j < |BlockAt(g, k)|
    requires Below(g, next) && hlt >= next && nw >= next && hlt != nw
    ensures var h := SplitAt(g, k, j, hlt, nw);
      BlockAt(h, k)[..j] + BlockAt(h, k + 2) == BlockAt(g, k)
      && h.blocks[nw].succs == g.blocks[g.layout[k]].succs
      && h.blocks[g.layout[k]].succs == [hlt, nw]
  {
    SplitHere(g, k, j, hlt, nw, next);
    var s := BlockAt(g, k);
    assert (s[..j] + [JumpIfEqual(nw, g.number)])[..j] == s[..j];
    assert s[..j] + s[j..] == s;
  }

  // ---------------------------------------------------------------------
  // Moving the routine down.

  /**
   The XOR of the routine with the displacement the move needs: 8 more
   when its base is RSP, which the PUSH moved down by 8, and unchanged
   otherwise. `Fail` where the source's assertions fail: the
   compare has no destination register, or the XOR's base is not a
   register or its displacement not an immediate.
   */
  function Adjusted(x: Instr, cmp: Instr): (r: Result<Instr>)
    ensures r.Fail? <==> |cmp.ops| == 0 || !cmp.ops[0].RegOp? || |x.ops| < 6 || !x.ops[2].RegOp? || !x.ops[5].Imm?
    ensures r.Ok? ==> r.value.op == x.op && |x.ops| >= 6 && |r.value.ops| == |x.ops|
    ensures r.Ok? ==> forall q :: 0 <= q < |x.ops| && q != 5 ==> r.value.ops[q] == x.ops[q]
    ensures r.Ok? && x.ops[2] != RegOp(P64(RSP)) ==> r.value == x
    ensures r.Ok? && x.ops[2] == RegOp(P64(RSP)) ==>
      r.value.ops[5].Imm? && Sub(r.value.ops[5].value, Eight) == x.ops[5].value
  {
    if |cmp.ops| == 0 || !cmp.ops[0].RegOp? then Fail("compare without a destination register")
    else if |x.ops| < 6 || !x.ops[2].RegOp? || !x.ops[5].Imm? then Fail("displacement is not immediate")
    else
      var d := x.ops[5].value;
      SubAdd(d, Eight);
      assert x.ops[5 := Imm(d)] == x.ops;
      Ok(x.(ops := x.ops[5 := Imm(if x.ops[2] == RegOp(P64(RSP)) then Add(d, Eight) else d)]))
  }

  /** The routine as it ends up before the `je`: the nop sled after the
      PUSH. */
  function Finished(p: seq<Instr>, x: Instr): (r: seq<Instr>)
    requires |p| == 5
    ensures |r| == 14 && r[0] == p[0] && r[10] == p[1] && r[11] == x && r[12] == p[3] && r[13] == p[4]
    ensures forall q :: 1 <= q < 10 ==> r[q] == Nop()
  {
    [p[0]] + Nops(9) + [p[1], x, p[3], p[4]]
  }

  function LastOf(s: seq<Instr>): Instr
    requires |s| > 0
  {
    s[|s| - 1]
  }

  /** A block without the routine ending at `i`. */
  function Moved(src: seq<Instr>, i: nat): (r: seq<Instr>)
    requires 4 <= i < |src|
    ensures |r| == |src| - 5
  {
    src[..i - 4] + src[i + 1..]
  }

  /** A block with the finished routine before its last instruction. */
  function Placed(m: seq<Instr>, p: seq<Instr>, x: Instr): (r: seq<Instr>)
    requires |m| > 0 && |p| == 5
    ensures |r| == |m| + 14 && LastOf(r) == LastOf(m) && r[..|m| - 1] == m[..|m| - 1]
  {
    m[..|m| - 1] + Finished(p, x) + [LastOf(m)]
  }

  /**
   The routine ending at instruction `i` of the block at position `k2`
   taken out of its block and put, finished, before the `je` that ends the
   block at position `k`.
   */
  function Relocate(g: Function, k: nat, k2: nat, i: nat): (r: Result<Function>)
    requires k < |g.layout| && k2 < |g.layout| && PatternAt(BlockAt(g, k2), i)
    requires |BlockAt(g, k)| > 0 && LastOf(BlockAt(g, k)).op.mn == JE
    ensures r.Ok? ==> r.value.layout == g.layout && r.value.number == g.number && r.value.blocks.Keys == g.blocks.Keys
  {
    var src := BlockAt(g, k2);
    var p := src[i - 4..i + 1];
    match Adjusted(p[2], p[3])
    case Fail(e) => Fail(e)
    case Ok(x) =>
      var l, l2 := g.layout[k], g.layout[k2];
      var rest := Moved(src, i);
      assert src[i - 4 + 4].op == Jcp.CheckOpcodes[4];
      var m := if l2 == l then rest else BlockAt(g, k);
      var g1 := g.(blocks := g.blocks[l2 := g.blocks[l2].(instrs := rest)]);
      Ok(g1.(blocks := g1.blocks[l := g1.blocks[l].(instrs := Placed(m, p, x))]))
  }

  /** Where the routine is, and whether the search found it. The shortcut
      takes the instruction before the `je` when the routine ends there. */
  function Locate(h: Function, k: nat): (r: Result<(nat, nat)>)
    requires k < |h.layout| && |BlockAt(h, k)| > 0
    ensures r.Ok? ==> r.value.0 <= k && PatternAt(BlockAt(h, r.value.0), r.value.1)
  {
    var m := BlockAt(h, k);
    var j := |m| - 1;
    MatchIff(m, j - 1);
    if |m| >= 6 && Match(m, j - 1) == 0 then Ok((k, j - 1)) else Search(h, k, j)
  }

  function LocateAsWritten(h: Function, k: nat): (r: Result<(nat, nat)>)
    requires k < |h.layout| && |BlockAt(h, k)| > 0
  {
    var m := BlockAt(h, k);
    var j := |m| - 1;
    if |m| >= 6 && MatchAsWritten(m, j - 1) == Ok(0) then Ok((k, j - 1)) else SearchAsWritten(h, k, j)
  }

  /** One indirect instruction: split, find the routine, move it down. */
  function Handle(g: Function, k: nat, j: nat, next: nat): (r: Result<Function>)
    requires k < |g.layout| && g.layout[k] in g.blocks && j < |BlockAt(g, k)| && Below(g, next)
    ensures r.Ok? ==> r.value.number == g.number && r.value.blocks.Keys == g.blocks.Keys + {next, next + 1}
    ensures r.Ok? ==> r.value.layout == g.layout[..k + 1] + [next, next + 1] + g.layout[k + 1..]
  {
    var h := SplitAt(g, k, j, next, next + 1);
    SplitEndsInJump(g, k, j, next, next + 1, next);
    match Locate(h, k)
    case Fail(e) => Fail(e)
    case Ok(pos) => Relocate(h, k, pos.0, pos.1)
  }

  // ---------------------------------------------------------------------
  // The pass over the function.

  /** Which instructions of a block are indirect branches or calls. */
  function IndirectMarks(s: seq<Instr>): (r: seq<bool>)
    ensures |r| == |s| && forall q :: 0 <= q < |s| ==> (r[q] <==> IsIndirect(s[q]))
  {
    seq(|s|, q requires 0 <= q < |s| => IsIndirect(s[q]))
  }

  /** The first marked position from `j` on, passing over position 0 of a
      block the pass created (its indirect instruction is already handled). */
  function FirstUnchecked(marks: seq<bool>, created: bool, j: nat): (r: Option<nat>)
    ensures r.Some? ==> j <= r.value < |marks| && marks[r.value] && !(created && r.value == 0)
    ensures r.Some? ==> forall q :: j <= q < r.value && marks[q] ==> created && q == 0
    ensures r.None? ==> forall q :: j <= q < |marks| && marks[q] ==> created && q == 0
    decreases |marks| - j
  {
    if j >= |marks| then None
    else if marks[j] && !(created && j == 0) then Some(j)
    else FirstUnchecked(marks, created, j + 1)
  }

  /** Two fresh labels inserted after position `k` keep the labels below the
      next free one, and distinct. */
  lemma InsertTwo(a: seq<nat>, k: nat, next: nat)
    requires k < |a| && forall p :: 0 <= p < |a| ==> a[p] < next
    ensures var b := a[..k + 1] + [next, next + 1] + a[k + 1..];
      (forall p :: 0 <= p < |b| ==> b[p] < next + 2) && (Distinct(a) ==> Distinct(b))
  {
    var b := a[..k + 1] + [next, next + 1] + a[k + 1..];
    assert forall p :: 0 <= p <= k ==> b[p] == a[p];
    assert forall p :: k + 3 <= p < |b| ==> b[p] == a[p - 2];
  }

  lemma HandleBelow(g: Function, k: nat, j: nat, next: nat)
    requires k < |g.layout| && g.layout[k] in g.blocks && j < |BlockAt(g, k)| && Below(g, next)
    requires Handle(g, k, j, next).Ok?
    ensures Below(Handle(g, k, j, next).value, next + 2)
  {
    InsertTwo(g.layout, k, next);
  }

  lemma HandleDistinct(g: Function, k: nat, j: nat, next: nat)
    requires k < |g.layout| && g.layout[k] in g.blocks && j < |BlockAt(g, k)| && Below(g, next)
    requires Handle(g, k, j, next).Ok? && Distinct(g.layout)
    ensures Distinct(Handle(g, k, j, next).value.layout)
  {
    InsertTwo(g.layout, k, next);
  }

  /** What the move does to the blocks, by layout position. */
  lemma RelocateBlocks(g: Function, k: nat, k2: nat, i: nat)
    requires k < |g.layout| && k2 < |g.layout| && PatternAt(BlockAt(g, k2), i) && Distinct(g.layout)
    requires |BlockAt(g, k)| > 0 && LastOf(BlockAt(g, k)).op.mn == JE
    requires Relocate(g, k, k2, i).Ok?
    ensures var src := BlockAt(g, k2);
      var p := src[i - 4..i + 1];
      Adjusted(p[2], p[3]).Ok? && (k2 == k ==> |Moved(src, i)| > 0)
      && BlockAt(Relocate(g, k, k2, i).value, k)
         == Placed(if k2 == k then Moved(src, i) else BlockAt(g, k), p, Adjusted(p[2], p[3]).value)
      && (k2 != k ==> BlockAt(Relocate(g, k, k2, i).value, k2) == Moved(src, i))
      && (forall q :: 0 <= q < |g.layout| && q != k && q != k2 ==>
            BlockAt(Relocate(g, k, k2, i).value, q) == BlockAt(g, q))
  {
    var src := BlockAt(g, k2);
    assert src[i - 4 + 4].op == Jcp.CheckOpcodes[4];
    var r := Relocate(g, k, k2, i).value;
    forall q | 0 <= q < |g.layout| && q != k && q != k2
      ensures BlockAt(r, q) == BlockAt(g, q)
    {
      assert g.layout[q] != g.layout[k] && g.layout[q] != g.layout[k2];
    }
  }

  // ---------------------------------------------------------------------
  // What the pass guarantees: no indirect branch or call is left anywhere
  // but at the head of a block the pass created, right after its check.

  /** Indirect instructions of `s` appear only at its head, and only when
      the block is one the pass created. */
  predicate CheckedBlock(s: seq<Instr>, created: bool) {
    forall q :: 0 <= q < |s| && IsIndirect(s[q]) ==> q == 0 && created
  }

  /** The blocks at layout positions below `k` are checked. */
  predicate Checked(g: Function, k: nat, created: set<int>) {
    forall p :: 0 <= p < k && p < |g.layout| ==> CheckedBlock(BlockAt(g, p), g.layout[p] in created)
  }

  lemma MovedChecked(src: seq<Instr>, i: nat, c: bool)
    requires PatternAt(src, i) && CheckedBlock(src, c)
    ensures CheckedBlock(Moved(src, i), c)
  {
    var rest := Moved(src, i);
    forall q | 0 <= q < |rest|
      ensures IsIndirect(rest[q]) ==> q == 0 && c
    {
      if q < i - 4 {
        assert rest[q] == src[q];
      } else {
        assert rest[q] == src[q + 5];
      }
    }
  }

  /** None of the routine's instructions is indirect. */
  lemma FinishedDirect(p: seq<Instr>, x: Instr)
    requires |p| == 5 && PatternAt(p, 4) && x.op == p[2].op
    ensures forall q :: 0 <= q < 14 ==> !IsIndirect(Finished(p, x)[q])
  {
    var f := Finished(p, x);
    assert p[4 - 4 + 0].op == Jcp.CheckOpcodes[0];
    assert p[4 - 4 + 1].op == Jcp.CheckOpcodes[1];
    assert p[4 - 4 + 2].op == Jcp.CheckOpcodes[2];
    assert p[4 - 4 + 3].op == Jcp.CheckOpcodes[3];
    assert p[4 - 4 + 4].op == Jcp.CheckOpcodes[4];
  }

  lemma PlacedChecked(m: seq<Instr>, p: seq<Instr>, x: Instr, c: bool)
    requires |m| > 0 && !IsIndirect(LastOf(m)) && CheckedBlock(m, c)
    requires |p| == 5 && PatternAt(p, 4) && x.op == p[2].op
    ensures CheckedBlock(Placed(m, p, x), c)
  {
    var t := Placed(m, p, x);
    FinishedDirect(p, x);
    forall q | |m| - 1 <= q < |t|
      ensures !IsIndirect(t[q])
    {
      if q < |m| + 13 {
        assert t[q] == Finished(p, x)[q - |m| + 1];
      }
    }
    forall q | 0 <= q < |m| - 1
      ensures t[q] == m[q]
    {
    }
  }

  /** The block the routine moves into stays checked. */
  lemma RelocatedHead(g: Function, k: nat, k2: nat, i: nat, created: set<int>)
    requires k < |g.layout| && k2 < |g.layout| && PatternAt(BlockAt(g, k2), i) && Distinct(g.layout)
    requires |BlockAt(g, k)| > 0 && LastOf(BlockAt(g, k)).op.mn == JE
    requires CheckedBlock(BlockAt(g, k), g.layout[k] in created)
    requires CheckedBlock(BlockAt(g, k2), g.layout[k2] in created)
    requires Relocate(g, k, k2, i).Ok?
    ensures CheckedBlock(BlockAt(Relocate(g, k, k2, i).value, k), g.layout[k] in created)
  {
    var src := BlockAt(g, k2);
    var p := src[i - 4..i + 1];
    RelocateBlocks(g, k, k2, i);
    var x := Adjusted(p[2], p[3]).value;
    var m := if k2 == k then Moved(src, i) else BlockAt(g, k);
    MovedChecked(src, i, g.layout[k2] in created);
    assert src[i - 4 + 4].op == Jcp.CheckOpcodes[4];
    assert LastOf(m).op.mn == JE by {
      if k2 == k {
        assert LastOf(m) == src[|src| - 1];
      }
    }
    assert PatternAt(p, 4) by {
      forall q | 0 <= q < 5
        ensures p[4 - 4 + q].op == Jcp.CheckOpcodes[q]
      {
        assert p[q] == src[i - 4 + q];
      }
    }
    PlacedChecked(m, p, x, g.layout[k] in created);
  }

  /** Moving the routine keeps the blocks below `n` checked. */
  lemma RelocateKeepsChecked(g: Function, k: nat, k2: nat, i: nat, n: nat, created: set<int>)
    requires k < n <= |g.layout| && k2 <= k && PatternAt(BlockAt(g, k2), i) && Distinct(g.layout)
    requires |BlockAt(g, k)| > 0 && LastOf(BlockAt(g, k)).op.mn == JE
    requires Checked(g, n, created) && Relocate(g, k, k2, i).Ok?
    ensures Checked(Relocate(g, k, k2, i).value, n, created)
  {
    var r := Relocate(g, k, k2, i).value;
    RelocateBlocks(g, k, k2, i);
    forall q | 0 <= q < n && q < |r.layout|
      ensures CheckedBlock(BlockAt(r, q), r.layout[q] in created)
    {
      if q == k {
        RelocatedHead(g, k, k2, i, created);
      } else if q == k2 {
        MovedChecked(BlockAt(g, k2), i, g.layout[k2] in created);
      }
    }
  }

  /** The part of a block before the indirect instruction the pass handles
      next is checked. */
  lemma UncheckedPrefix(s: seq<Instr>, c: bool, j: nat)
    requires FirstUnchecked(IndirectMarks(s), c, 0) == Some(j)
    ensures CheckedBlock(s[..j], c)
  {
    var m := IndirectMarks(s);
    forall e | 0 <= e < j && IsIndirect(s[..j][e])
      ensures e == 0 && c
    {
      assert m[e];
    }
  }

  lemma CutChecked(s: seq<Instr>, j: nat, c: bool, jump: Instr)
    requires j <= |s| && CheckedBlock(s[..j], c) && !IsIndirect(jump)
    ensures CheckedBlock(s[..j] + [jump], c)
  {
    var t := s[..j] + [jump];
    assert t[..j] == s[..j];
  }

  lemma HaltChecked(c: bool)
    ensures CheckedBlock([Halt()], c)
  {
  }

  lemma CheckedWider(s: seq<Instr>, a: bool, b: bool)
    requires CheckedBlock(s, a) && (a ==> b)
    ensures CheckedBlock(s, b)
  {
  }

  /** A function shaped like the split of `g` at position `k` is checked
      below `k + 2`. */
  lemma ShapeChecked(g: Function, h: Function, k: nat, j: nat, created: set<int>, c: set<int>, jump: Instr)
    requires k < |g.layout| && |h.layout| == |g.layout| + 2 && created <= c && !IsIndirect(jump)
    requires forall p :: 0 <= p < k ==> h.layout[p] == g.layout[p] && BlockAt(h, p) == BlockAt(g, p)
    requires j <= |BlockAt(g, k)| && h.layout[k] == g.layout[k] && BlockAt(h, k) == BlockAt(g, k)[..j] + [jump]
    requires BlockAt(h, k + 1) == [Halt()]
    requires Checked(g, k, created)
    requires CheckedBlock(BlockAt(g, k)[..j], g.layout[k] in created)
    ensures Checked(h, k + 2, c)
  {
    forall q | 0 <= q < k + 2 && q < |h.layout|
      ensures CheckedBlock(BlockAt(h, q), h.layout[q] in c)
    {
      if q < k {
        assert h.layout[q] == g.layout[q] && BlockAt(h, q) == BlockAt(g, q);
        CheckedWider(BlockAt(g, q), g.layout[q] in created, h.layout[q] in c);
      } else if q == k {
        CutChecked(BlockAt(g, k), j, g.layout[k] in created, jump);
        CheckedWider(BlockAt(h, k), g.layout[k] in created, h.layout[k] in c);
      } else {
        HaltChecked(h.layout[q] in c);
      }
    }
  }

  /** The split leaves the block it cut, and the halt block after it,
      checked. */
  lemma SplitChecked(g: Function, k: nat, j: nat, created: set<int>, next: nat)
    requires k < |g.layout| && g.layout[k] in g.blocks && j < |BlockAt(g, k)| && Below(g, next)
    requires Distinct(g.layout) && Checked(g, k, created)
    requires CheckedBlock(BlockAt(g, k)[..j], g.layout[k] in created)
    ensures Checked(SplitAt(g, k, j, next, next + 1), k + 2, created + {next + 1})
  {
    SplitHere(g, k, j, next, next + 1, next);
    SplitBlocks(g, k, j, next, next + 1, next);
    ShapeChecked(g, SplitAt(g, k, j, next, next + 1), k, j, created, created + {next + 1},
                 JumpIfEqual(next + 1, g.number));
  }

  /** One step of the pass leaves the block it split, and the halt block
      after it, checked. */
  lemma HandleChecked(g: Function, k: nat, j: nat, created: set<int>, next: nat)
    requires k < |g.layout| && g.layout[k] in g.blocks && j < |BlockAt(g, k)| && Below(g, next)
    requires Distinct(g.layout) && Checked(g, k, created)
    requires CheckedBlock(BlockAt(g, k)[..j], g.layout[k] in created)
    requires Handle(g, k, j, next).Ok?
    ensures Checked(Handle(g, k, j, next).value, k + 2, created + {next + 1})
  {
    var h := SplitAt(g, k, j, next, next + 1);
    SplitReady(g, k, j, created, next);
    var pos := Locate(h, k).value;
    RelocateKeepsChecked(h, k, pos.0, pos.1, k + 2, created + {next + 1});
  }

  /** What the relocation needs of the split function. */
  lemma SplitReady(g: Function, k: nat, j: nat, created: set<int>, next: nat)
    requires k < |g.layout| && g.layout[k] in g.blocks && j < |BlockAt(g, k)| && Below(g, next)
    requires Distinct(g.layout) && Checked(g, k, created)
    requires CheckedBlock(BlockAt(g, k)[..j], g.layout[k] in created)
    ensures var h := SplitAt(g, k, j, next, next + 1);
      k + 2 < |h.layout| && |BlockAt(h, k)| > 0 && LastOf(BlockAt(h, k)).op.mn == JE
      && Distinct(h.layout) && Checked(h, k + 2, created + {next + 1})
  {
    SplitHere(g, k, j, next, next + 1, next);
    SplitChecked(g, k, j, created, next);
    InsertTwo(g.layout, k, next);
  }

  /**
   `cookieProtectionFinalization` from layout position `k`: every block in
   turn, its first unhandled indirect instruction split off; the layout
   grows as the loop goes, and the loop visits the new blocks too. The
   labels from `next` on are free; `created` holds the blocks the splits
   created. `Fail` when a step fails or the fuel runs out.
   */
  function FinalizeFrom(g: Function, k: nat, created: set<int>, next: nat, fuel: nat): (r: Result<Function>)
    requires Below(g, next)
    ensures r.Ok? ==> r.value.number == g.number
    decreases fuel, 0
  {
    if k >= |g.layout| then Ok(g)
    else if fuel == 0 then Fail("out of fuel")
    else Visit(g, k, created, next, fuel - 1)
  }

  /** The loop body for the block at position `k`. */
  function Visit(g: Function, k: nat, created: set<int>, next: nat, fuel: nat): (r: Result<Function>)
    requires Below(g, next) && k < |g.layout|
    ensures r.Ok? ==> r.value.number == g.number
    decreases fuel, 1
  {
    match FirstUnchecked(IndirectMarks(BlockAt(g, k)), g.layout[k] in created, 0)
    case None => FinalizeFrom(g, k + 1, created, next, fuel)
    case Some(j) =>
      match Handle(g, k, j, next)
      case Fail(e) => Fail(e)
      case Ok(h) =>
        HandleBelow(g, k, j, next);
        FinalizeFrom(h, k + 1, created + {next + 1}, next + 2, fuel)
  }

  /** The whole pass; the labels from `next` on are free. */
  function CookieProtectionFinalization(f: Function, next: nat, fuel: nat): (r: Result<Function>)
    requires Below(f, next)
    ensures r.Ok? ==> r.value.number == f.number
  {
    FinalizeFrom(f, 0, {}, next, fuel)
  }

  /** Every indirect instruction of `h` heads a block that is in `created`
      or has a label from `next` on. */
  predicate Guarded(h: Function, created: set<int>, next: nat) {
    forall p, q :: 0 <= p < |h.layout| && 0 <= q < |BlockAt(h, p)| && IsIndirect(BlockAt(h, p)[q]) ==>
      q == 0 && (h.layout[p] in created || h.layout[p] >= next)
  }

  lemma NoneChecked(s: seq<Instr>, c: bool)
    requires FirstUnchecked(IndirectMarks(s), c, 0) == None
    ensures CheckedBlock(s, c)
  {
    var m := IndirectMarks(s);
    forall e | 0 <= e < |s| && IsIndirect(s[e])
      ensures e == 0 && c
    {
      assert m[e];
    }
  }

  lemma CheckedGuarded(g: Function, k: nat, created: set<int>, next: nat)
    requires k >= |g.layout| && Checked(g, k, created)
    ensures Guarded(g, created, next)
  {
    forall p, q | 0 <= p < |g.layout| && 0 <= q < |BlockAt(g, p)| && IsIndirect(BlockAt(g, p)[q])
      ensures q == 0 && (g.layout[p] in created || g.layout[p] >= next)
    {
      assert CheckedBlock(BlockAt(g, p), g.layout[p] in created);
    }
  }

  lemma GuardedWider(h: Function, c1: set<int>, n1: nat, c2: set<int>, n2: nat)
    requires Guarded(h, c1, n1) && n2 <= n1 && forall l :: l in c1 ==> l in c2 || l >= n2
    ensures Guarded(h, c2, n2)
  {
  }

  /** A block without an unhandled indirect instruction: the loop moves on. */
  lemma StepOver(g: Function, k: nat, created: set<int>, next: nat, fuel: nat)
    requires Below(g, next) && k < |g.layout| && Checked(g, k, created)
    requires FirstUnchecked(IndirectMarks(BlockAt(g, k)), g.layout[k] in created, 0) == None
    ensures Checked(g, k + 1, created)
    ensures Visit(g, k, created, next, fuel) == FinalizeFrom(g, k + 1, created, next, fuel)
  {
    NoneChecked(BlockAt(g, k), g.layout[k] in created);
  }

  /** Visiting a block with an unchecked indirect instruction handles it
      and goes on with the next block. */
  lemma VisitSplits(g: Function, k: nat, j: nat, created: set<int>, next: nat, fuel: nat)
    requires Below(g, next) && k < |g.layout|
    requires FirstUnchecked(IndirectMarks(BlockAt(g, k)), g.layout[k] in created, 0) == Some(j)
    requires Handle(g, k, j, next).Ok?
    ensures Below(Handle(g, k, j, next).value, next + 2)
    ensures Visit(g, k, created, next, fuel) == FinalizeFrom(Handle(g, k, j, next).value, k + 1, created + {next + 1}, next + 2, fuel)
  {
    HandleBelow(g, k, j, next);
  }

  lemma StepSplit(g: Function, k: nat, j: nat, created: set<int>, next: nat) returns (h: Function)
    requires Below(g, next) && Distinct(g.layout) && k < |g.layout| && Checked(g, k, created)
    requires FirstUnchecked(IndirectMarks(BlockAt(g, k)), g.layout[k] in created, 0) == Some(j)
    requires Handle(g, k, j, next).Ok?
    ensures h == Handle(g, k, j, next).value
    ensures Below(h, next + 2) && Distinct(h.layout) && Checked(h, k + 1, created + {next + 1})
  {
    h := Handle(g, k, j, next).value;
    UncheckedPrefix(BlockAt(g, k), g.layout[k] in created, j);
    HandleChecked(g, k, j, created, next);
    HandleBelow(g, k, j, next);
    HandleDistinct(g, k, j, next);
  }

  /** The loop invariant: from position `k` on, the pass leaves every
      indirect instruction at the head of a block it created. */
  lemma {:induction false} FinalizeGuards(g: Function, k: nat, created: set<int>, next: nat, fuel: nat)
    requires Below(g, next) && Distinct(g.layout) && Checked(g, k, created)
    requires FinalizeFrom(g, k, created, next, fuel).Ok?
    ensures Guarded(FinalizeFrom(g, k, created, next, fuel).value, created, next)
    decreases fuel, 0
  {
    if k >= |g.layout| {
      CheckedGuarded(g, k, created, next);
    } else {
      VisitGuards(g, k, created, next, fuel - 1);
    }
  }

  lemma {:induction false} VisitGuards(g: Function, k: nat, created: set<int>, next: nat, fuel: nat)
    requires Below(g, next) && Distinct(g.layout) && k < |g.layout| && Checked(g, k, created)
    requires Visit(g, k, created, next, fuel).Ok?
    ensures Guarded(Visit(g, k, created, next, fuel).value, created, next)
    decreases fuel, 2
  {
    match FirstUnchecked(IndirectMarks(BlockAt(g, k)), g.layout[k] in created, 0)
    case None =>
      StepOver(g, k, created, next, fuel);
      FinalizeGuards(g, k + 1, created, next, fuel);
    case Some(j) =>
      VisitSplits(g, k, j, created, next, fuel);
      var h := StepSplit(g, k, j, created, next);
      SplitGuards(h, k + 1, created, next, fuel);
  }

  /** After a split, with the two new labels. */
  lemma {:induction false} SplitGuards(h: Function, k: nat, created: set<int>, next: nat, fuel: nat)
    requires Below(h, next + 2) && Distinct(h.layout) && Checked(h, k, created + {next + 1})
    requires FinalizeFrom(h, k, created + {next + 1}, next + 2, fuel).Ok?
    ensures Guarded(FinalizeFrom(h, k, created + {next + 1}, next + 2, fuel).value, created, next)
    decreases fuel, 1
  {
    FinalizeGuards(h, k, created + {next + 1}, next + 2, fuel);
    GuardedWider(FinalizeFrom(h, k, created + {next + 1}, next + 2, fuel).value,
                 created + {next + 1}, next + 2, created, next);
  }

  /** What the pass is for: once it succeeds, every indirect branch or call
      of the function is the first instruction of a block the pass created,
      numbered from `next` on. */
  lemma FinalizationGuards(f: Function, next: nat, fuel: nat)
    requires Below(f, next) && Distinct(f.layout) && CookieProtectionFinalization(f, next, fuel).Ok?
    ensures var h := CookieProtectionFinalization(f, next, fuel).value;
      forall p, q :: 0 <= p < |h.layout| && 0 <= q < |BlockAt(h, p)| && IsIndirect(BlockAt(h, p)[q]) ==>
        q == 0 && h.layout[p] >= next
  {
    FinalizeGuards(f, 0, {}, next, fuel);
  }

  // ---------------------------------------------------------------------
  // What the moved routine reads.

  /** The XOR of the check once frames are laid out: the stack object at
      displacement `d` from the stack pointer. */
  function XorRsp(d: Word): Instr {
    Instr(Op(XOR, 64, RM), [Jcp.R11Op, Jcp.R11Op] + MemOps(RegOp(P64(RSP)), d))
  }

  /** The check with its stack object at displacement `d`. */
  function LoweredCheck(c: Word, d: Word): seq<Instr> {
    [Push64(P64(R11)), Jcp.MovCookie(c), XorRsp(d), Instr(Op(CMP, 64, RM), [Jcp.R11Op] + CanaryOps),
     Pop64(P64(R11))]
  }

  /** The move adds 8 to an RSP-based displacement. */
  lemma AdjustedRsp(c: Word, d: Word)
    ensures Adjusted(LoweredCheck(c, d)[2], LoweredCheck(c, d)[3]) == Ok(XorRsp(Add(d, Eight)))
  {
    var o := [Jcp.R11Op, Jcp.R11Op] + MemOps(RegOp(P64(RSP)), d);
    assert o[5 := Imm(Add(d, Eight))] == [Jcp.R11Op, Jcp.R11Op] + MemOps(RegOp(P64(RSP)), Add(d, Eight));
  }

  lemma StepXorRsp(e: Word, s: State)
    requires StackIndex(e, s.stack, 0).Some?
    ensures var v := s.stack[StackIndex(e, s.stack, 0).value];
      Step(XorRsp(e), s) == Some(s.(regs := s.regs[R11 := Xor(Get(s, R11), v)], zf := Xor(Get(s, R11), v) == Zero))
  {
    MemOfRsp(e);
    DecodeXorLoad(R11, R11, MemOps(RegOp(P64(RSP)), e));
  }

  /** The routine after its push and its nops. */
  function CheckTail(c: Word, e: Word): seq<Instr> {
    [Jcp.MovCookie(c), XorRsp(e), Instr(Op(CMP, 64, RM), [Jcp.R11Op] + CanaryOps), Pop64(P64(R11))]
  }

  /** The state that tail leaves, instruction by instruction. */
  function TailAfter(c: Word, e: Word, s: State): State
    requires StackIndex(e, s.stack, 0).Some? && |s.stack| > 0
  {
    var x := Xor(c, s.stack[StackIndex(e, s.stack, 0).value]);
    var s2 := s.(regs := s.regs[R11 := c]);
    var s3 := s2.(regs := s2.regs[R11 := x], zf := x == Zero);
    var s4 := s3.(zf := x == s.canary);
    s4.(regs := s4.regs[R11 := s4.stack[0]], stack := s4.stack[1..])
  }

  /** What the tail leaves: the flag from the cell, R11 popped, the rest
      kept. */
  lemma TailKeeps(c: Word, e: Word, s: State)
    requires StackIndex(e, s.stack, 0).Some? && |s.stack| > 0
    ensures var t := TailAfter(c, e, s);
      t.zf == (Xor(c, s.stack[StackIndex(e, s.stack, 0).value]) == s.canary)
      && Get(t, R11) == s.stack[0] && (forall g :: g != R11 ==> Get(t, g) == Get(s, g))
      && t.stack == s.stack[1..] && t.slots == s.slots && t.canary == s.canary
  {
    TailFlag(c, e, s);
    TailRegs(c, e, s);
  }

  lemma TailFlag(c: Word, e: Word, s: State)
    requires StackIndex(e, s.stack, 0).Some? && |s.stack| > 0
    ensures var t := TailAfter(c, e, s);
      t.zf == (Xor(c, s.stack[StackIndex(e, s.stack, 0).value]) == s.canary)
      && t.stack == s.stack[1..] && t.slots == s.slots && t.canary == s.canary
  {
  }

  lemma TailRegs(c: Word, e: Word, s: State)
    requires StackIndex(e, s.stack, 0).Some? && |s.stack| > 0
    ensures var t := TailAfter(c, e, s);
      Get(t, R11) == s.stack[0] && (forall g :: g != R11 ==> Get(t, g) == Get(s, g))
  {
  }

  lemma TailRun(c: Word, e: Word, s: State)
    requires StackIndex(e, s.stack, 0).Some? && |s.stack| > 0
    ensures Run(CheckTail(c, e), s) == Some(TailAfter(c, e, s))
  {
    var x := Xor(c, s.stack[StackIndex(e, s.stack, 0).value]);
    var s2 := s.(regs := s.regs[R11 := c]);
    var s3 := s2.(regs := s2.regs[R11 := x], zf := x == Zero);
    var s4 := s3.(zf := x == s.canary);
    var s5 := s4.(regs := s4.regs[R11 := s4.stack[0]], stack := s4.stack[1..]);
    var t := CheckTail(c, e);
    Jcp.StepMovCookie(c, s);
    StepXorRsp(e, s2);
    Jcp.StepCmpCanary(s3);
    Jcp.StepPopR11(s4);
    Run4(t[0], t[1], t[2], t[3], s, s2, s3, s4, s5);
    assert t == [t[0], t[1], t[2], t[3]];
  }

  lemma FinishedParts(p: seq<Instr>, x: Instr)
    requires |p| == 5
    ensures Finished(p, x) == ([p[0]] + Nops(9)) + [p[1], x, p[3], p[4]]
  {
  }

  /** The push and the nops after it. */
  lemma PushNopsRun(s: State)
    ensures Run([Push64(P64(R11))] + Nops(9), s) == Some(s.(stack := [Get(s, R11)] + s.stack))
  {
    var s1 := s.(stack := [Get(s, R11)] + s.stack);
    Jcp.StepPushR11(s);
    RunStep(Push64(P64(R11)), Nops(9), s, s1);
    NopsChangeNothing(9, s1);
  }

  /** The moved routine runs as its tail does after the push. */
  lemma FinishedRun(c: Word, d: Word, s: State)
    requires Add(d, Eight) != Zero && StackIndex(d, s.stack, 0).Some?
    ensures var s1 := s.(stack := [Get(s, R11)] + s.stack);
      StackIndex(Add(d, Eight), s1.stack, 0) == Some(StackIndex(d, s.stack, 0).value + 1)
      && Run(Finished(LoweredCheck(c, d), XorRsp(Add(d, Eight))), s) == Some(TailAfter(c, Add(d, Eight), s1))
  {
    var p := LoweredCheck(c, d);
    var e := Add(d, Eight);
    var s1 := s.(stack := [Get(s, R11)] + s.stack);
    PushNopsRun(s);
    StackIndexFromTop(d, Get(s, R11), s.stack);
    TailRun(c, e, s1);
    RunThen([p[0]] + Nops(9), CheckTail(c, e), s, s1, TailAfter(c, e, s1));
    FinishedParts(p, XorRsp(e));
    assert [p[1], XorRsp(e), p[3], p[4]] == CheckTail(c, e);
  }

  /**
   Why the move adds 8: run where the `je` now is, after its own push, the
   adjusted routine reads the very stack cell that the displacement named
   before the push, so it sets the zero flag exactly when that cell holds
   the constant XORed with the canary; R11 and the stack come back as they
   were. (A displacement of -8, which would name the pushed word itself,
   is excluded.)
   */
  lemma MovedCheckCompares(c: Word, d: Word, s: State)
    requires Add(d, Eight) != Zero && StackIndex(d, s.stack, 0).Some?
    ensures var p := LoweredCheck(c, d);
      Adjusted(p[2], p[3]).Ok? && Run(Finished(p, Adjusted(p[2], p[3]).value), s).Some?
    ensures var p := LoweredCheck(c, d);
      var t := Run(Finished(p, Adjusted(p[2], p[3]).value), s).value;
      (t.zf <==> s.stack[StackIndex(d, s.stack, 0).value] == Xor(c, s.canary))
      && (forall g :: Get(t, g) == Get(s, g)) && t.stack == s.stack && t.slots == s.slots
      && t.canary == s.canary
  {
    AdjustedRsp(c, d);
    FinishedRun(c, d, s);
    var s1 := s.(stack := [Get(s, R11)] + s.stack);
    var v := s.stack[StackIndex(d, s.stack, 0).value];
    assert s1.stack[StackIndex(d, s.stack, 0).value + 1] == v;
    Jcp.CheckFlag(c, v, s.canary);
    TailKeeps(c, Add(d, Eight), s1);
    var t := TailAfter(c, Add(d, Eight), s1);
    assert t.stack == s.stack;
    forall g
      ensures Get(t, g) == Get(s, g)
    {
    }
  }
}

=== FILE: flags.dfy ===
/**
 Liveness of the flags register, and saving it around inserted code.

 Before the immediate-reconstruction pass inserts flag-clobbering code
 (an OR that rebuilds an immediate, the ADD and SUB around a memory access)
 it asks whether the flags are still needed. The walk starts at an
 instruction and goes forward: an instruction that reads the flags says
 yes, one that only writes them says no, a call or a return says no. At the
 end of a block the walk follows the successor when there is exactly one
 and says yes when there are several or none.

 A save is the pair PUSHF; POP save, and the matching restore PUSH save;
 POPF, with `save` a fresh 64-bit virtual register.
 */
module Flags {
  import opened Machine

  /** Whether an instruction ends the walk, and with which answer. */
  predicate Decides(i: Instr) {
    IsReturn(i) || IsCall(i) || ReadsFlags(i) || WritesFlags(i)
  }

  /** The answer an instruction that ends the walk gives. */
  predicate Answer(i: Instr) {
    !IsReturn(i) && !IsCall(i) && ReadsFlags(i)
  }

  /**
   The walk of the source from instruction `k` of block `b`. It follows
   single successors without bound; here each such step costs one unit of
   `fuel`, and `None` means the fuel ran out before the walk found an
   answer.
   */
  function NeedToSave(f: Function, b: nat, k: nat, fuel: nat): Option<bool>
    requires b in f.blocks && SuccsClosed(f)
    decreases fuel, |f.blocks[b].instrs| - k
  {
    var blk := f.blocks[b];
    if k >= |blk.instrs| then
      if |blk.succs| == 1 then
        if fuel == 0 then None else NeedToSave(f, blk.succs[0], 0, fuel - 1)
      else Some(true)
    else if Decides(blk.instrs[k]) then Some(Answer(blk.instrs[k]))
    else NeedToSave(f, b, k + 1, fuel)
  }

  /** The first instruction at or after `k` that ends the walk, or the end
      of the block. */
  function FirstDecider(s: seq<Instr>, k: nat): (j: nat)
    requires k <= |s|
    ensures k <= j <= |s|
    ensures j < |s| ==> Decides(s[j])
    ensures forall m :: k <= m < j ==> !Decides(s[m])
    decreases |s| - k
  {
    if k == |s| || Decides(s[k]) then k else FirstDecider(s, k + 1)
  }

  /** Inside a block the walk answers with the first instruction that
      decides, and without one it continues at the end of the block. */
  lemma {:induction false} WalkWithinBlock(f: Function, b: nat, k: nat, fuel: nat)
    requires b in f.blocks && SuccsClosed(f)
    requires k <= |f.blocks[b].instrs|
    ensures var s := f.blocks[b].instrs; var j := FirstDecider(s, k);
      NeedToSave(f, b, k, fuel)
      == if j < |s| then Some(Answer(s[j])) else NeedToSave(f, b, |s|, fuel)
    decreases |f.blocks[b].instrs| - k
  {
    var s := f.blocks[b].instrs;
    if k < |s| && !Decides(s[k]) {
      WalkWithinBlock(f, b, k + 1, fuel);
    }
  }

  /** More fuel never changes an answer already found. */
  lemma {:induction false} FuelMonotone(f: Function, b: nat, k: nat, fuel: nat, more: nat)
    requires b in f.blocks && SuccsClosed(f)
    requires fuel <= more && NeedToSave(f, b, k, fuel).Some?
    ensures NeedToSave(f, b, k, more) == NeedToSave(f, b, k, fuel)
    decreases fuel, |f.blocks[b].instrs| - k
  {
    var blk := f.blocks[b];
    if k >= |blk.instrs| {
      if |blk.succs| == 1 {
        FuelMonotone(f, blk.succs[0], 0, fuel - 1, more - 1);
      }
    } else if !Decides(blk.instrs[k]) {
      FuelMonotone(f, b, k + 1, fuel, more);
    }
  }

  /**
   The walk with the loop closed: it may follow as many single successors as
   the function has blocks, and answers yes (save the flags) if it has not
   decided by then. Saving flags that are dead costs a few instructions;
   not saving live ones changes the program.
   */
  function NeedToSaveBounded(f: Function, b: nat, k: nat): bool
    requires b in f.blocks && SuccsClosed(f)
  {
    match NeedToSave(f, b, k, |f.blocks|)
    case Some(v) => v
    case None => true
  }

  /** The bounded walk gives the source's answer whenever the source
      finds it within that many successors, and it says no only when the
      source says no. */
  lemma BoundedAgrees(f: Function, b: nat, k: nat, fuel: nat)
    requires b in f.blocks && SuccsClosed(f)
    requires fuel <= |f.blocks| && NeedToSave(f, b, k, fuel).Some?
    ensures NeedToSaveBounded(f, b, k) == NeedToSave(f, b, k, fuel).value
    ensures !NeedToSaveBounded(f, b, k) ==> NeedToSave(f, b, k, |f.blocks|) == Some(false)
  {
    FuelMonotone(f, b, k, fuel, |f.blocks|);
  }

  /** A block that is its own only successor and holds a single direct
      jump, as `for (;;);` compiles; before it, a block whose instruction 0
      is a store of an immediate. */
  function SpinLoop(): (f: Function)
    ensures f.blocks.Keys == {0, 1} && SuccsClosed(f)
  {
    var store := Instr(Op(MOV, 32, MI), MemOps(RegOp(P64(RSP)), Words.Zero) + [Imm(Words.Zero)]);
    var jmp := Instr(Op(JMP, 0, Rel), [BlockRef(1, 0)]);
    Function(0, [0, 1], map[0 := Block([store], [1]), 1 := Block([jmp], [1])])
  }

  lemma {:induction false} SpinLoopNeverAnswers(fuel: nat)
    ensures NeedToSave(SpinLoop(), 1, 0, fuel) == None
    decreases fuel
  {
    var f := SpinLoop();
    assert NeedToSave(f, 1, 0, fuel) == NeedToSave(f, 1, 1, fuel);
    if fuel > 0 {
      SpinLoopNeverAnswers(fuel - 1);
    }
  }

  /** After the store, the source's walk runs forever, however much fuel it
      is given; the bounded walk answers yes. */
  lemma NeedToSaveDiverges(fuel: nat)
    ensures NeedToSave(SpinLoop(), 0, 1, fuel) == None
    ensures NeedToSaveBounded(SpinLoop(), 0, 1)
  {
    var f := SpinLoop();
    if fuel > 0 {
      SpinLoopNeverAnswers(fuel - 1);
    }
    SpinLoopNeverAnswers(|f.blocks| - 1);
  }

  // ---------------------------------------------------------------------
  // Saving and restoring the flags.

  function PushFlags(): Instr { Instr(Op(PUSHF, 64, NoForm), []) }
  function PopFlags(): Instr { Instr(Op(POPF, 64, NoForm), []) }

  /** PUSHF; POP save. */
  function SaveFlags(save: Reg): seq<Instr> { [PushFlags(), Pop64(save)] }

  /** PUSH save; POPF. */
  function RestoreFlags(save: Reg): seq<Instr> { [Push64(save), PopFlags()] }

  /**
   Where the value in the flags register came from, as seen by one
   rewritten instruction: the value it had before the rewrite, a value left
   by inserted code, or the value the rewritten instruction produced.
   */
  datatype Provenance = Original | Clobbered | Produced

  /** The flags, the save registers and the stack, by provenance; `seen` is
      what the rewritten instruction read. */
  datatype Flow = Flow(cur: Provenance, saved: map<Reg, Provenance>, stack: seq<Provenance>, seen: Provenance)

  const Start := Flow(Original, map[], [], Original)

  /** Whether an instruction names a register among its operands. The
      model takes any register an instruction names as one it may write. */
  predicate Names(i: Instr, r: Reg) {
    RegOp(r) in i.ops
  }

  /** No instruction of `s` names `r`. */
  predicate Avoids(s: seq<Instr>, r: Reg) {
    forall k :: 0 <= k < |s| ==> !Names(s[k], r)
  }

  /** The save registers after an instruction: the ones it names hold
      whatever it left there. */
  function Clobber(saved: map<Reg, Provenance>, i: Instr): map<Reg, Provenance> {
    map r | r in saved :: if Names(i, r) then Clobbered else saved[r]
  }

  /** One instruction; `main` says whether it is the rewritten one. */
  function FlowStep(i: Instr, main: bool, st: Flow): Flow {
    var n := |st.stack|;
    match i.op.mn
    case PUSHF => st.(stack := st.stack + [st.cur])
    case POPF =>
      if n == 0 then st.(cur := Clobbered)
      else st.(cur := st.stack[n - 1], stack := st.stack[..n - 1])
    case POP =>
      if |i.ops| != 1 || !i.ops[0].RegOp? then st
      else if n == 0 then st.(saved := st.saved[i.ops[0].reg := Clobbered])
      else st.(saved := st.saved[i.ops[0].reg := st.stack[n - 1]], stack := st.stack[..n - 1])
    case PUSH =>
      if |i.ops| != 1 || !i.ops[0].RegOp? then st
      else
        var r := i.ops[0].reg;
        st.(stack := st.stack + [if r in st.saved then st.saved[r] else Clobbered])
    case _ =>
      var kept := st.(saved := Clobber(st.saved, i));
      if main then kept.(seen := st.cur, cur := if WritesFlags(i) then Produced else st.cur)
      else if WritesFlags(i) && i.op.mn != IMPLICIT_DEF then kept.(cur := Clobbered)
      else kept
  }

  /** The rewritten instruction, when it leaves the stack alone, reads the
      flags it finds and writes its own if it writes any; a save register
      it does not name keeps its value. */
  lemma MainStep(i: Instr, st: Flow)
    requires PlainInstr(i)
    ensures var out := FlowStep(i, true, st);
      out.seen == st.cur && out.stack == st.stack
      && out.cur == (if WritesFlags(i) then Produced else st.cur)
      && out.saved.Keys == st.saved.Keys
      && forall r :: r in st.saved && !Names(i, r) ==> out.saved[r] == st.saved[r]
  {
  }

  /** A sequence run through a step function, in which instruction `main`
      is the rewritten one. */
  function Run(s: seq<Instr>, main: int, st: Flow, step: (Instr, bool, Flow) -> Flow): Flow
    decreases |s|
  {
    if |s| == 0 then st else Run(s[1..], main - 1, step(s[0], main == 0, st), step)
  }

  function FlowRun(s: seq<Instr>, main: int, st: Flow): Flow {
    Run(s, main, st, FlowStep)
  }

  /** One instruction alone. */
  lemma FlowRunSingle(x: Instr, main: int, st: Flow)
    ensures FlowRun([x], main, st) == FlowStep(x, main == 0, st)
  {
    assert [x][1..] == [];
    assert Run([x], main, st, FlowStep) == Run([], main - 1, FlowStep(x, main == 0, st), FlowStep);
  }

  /** Two instructions in a row. */
  lemma FlowRunPair(x: Instr, y: Instr, main: int, st: Flow)
    ensures FlowRun([x, y], main, st) == FlowStep(y, main == 1, FlowStep(x, main == 0, st))
  {
    var st1 := FlowStep(x, main == 0, st);
    assert [x, y][1..] == [y] && [y][1..] == [];
    assert FlowRun([x, y], main, st) == FlowRun([y], main - 1, st1);
    assert FlowRun([y], main - 1, st1) == FlowRun([], main - 2, FlowStep(y, main - 1 == 0, st1));
  }

  lemma {:induction false} RunAppend(a: seq<Instr>, b: seq<Instr>, main: int, st: Flow,
                                     step: (Instr, bool, Flow) -> Flow)
    ensures Run(a + b, main, st, step) == Run(b, main - |a|, Run(a, main, st, step), step)
    decreases |a|
  {
    if |a| == 0 {
      assert a + b == b;
    } else {
      assert (a + b)[0] == a[0] && (a + b)[1..] == a[1..] + b;
      RunAppend(a[1..], b, main - 1, step(a[0], main == 0, st), step);
    }
  }

  /** Running two pieces of code one after the other. */
  lemma FlowRunAppend(a: seq<Instr>, b: seq<Instr>, main: int, st: Flow)
    ensures FlowRun(a + b, main, st) == FlowRun(b, main - |a|, FlowRun(a, main, st))
  {
    RunAppend(a, b, main, st, FlowStep);
  }

  /**
   A rewrite keeps the flags when the rewritten instruction reads the
   flags it would have read in place of the original, the stack is as it
   was, and, if the flags are live afterwards, they hold what the original
   instruction would have left: its own result when it writes them, the
   earlier value when it does not.
   */
  predicate KeepsFlags(s: seq<Instr>, main: nat, liveAfter: bool)
    requires main < |s|
  {
    var out := FlowRun(s, main, Start);
    (ReadsFlags(s[main]) ==> out.seen == Original)
    && |out.stack| == 0
    && (liveAfter ==> out.cur == if WritesFlags(s[main]) then Produced else Original)
  }

  /** An instruction that does not touch the stack: no PUSH, POP, PUSHF
      or POPF. */
  predicate PlainInstr(i: Instr) {
    i.op.mn !in {PUSH, POP, PUSHF, POPF}
  }

  predicate Plain(s: seq<Instr>) {
    forall k :: 0 <= k < |s| ==> PlainInstr(s[k])
  }

  /** Inserted code that does not touch the stack leaves the stack, what
      the rewritten instruction read, and every save register the code
      does not name as they were; the flags keep their value or are
      clobbered. */
  lemma {:induction false} PlainRun(s: seq<Instr>, main: int, st: Flow)
    requires Plain(s) && (main < 0 || main >= |s|)
    ensures var out := FlowRun(s, main, st);
      out.stack == st.stack && out.seen == st.seen && out.saved.Keys == st.saved.Keys
      && (out.cur == st.cur || out.cur == Clobbered)
      && forall r :: r in st.saved && Avoids(s, r) ==> out.saved[r] == st.saved[r]
    decreases |s|
  {
    if |s| > 0 {
      var st1 := FlowStep(s[0], main == 0, st);
      assert PlainInstr(s[0]);
      assert Plain(s[1..]) by {
        forall k | 0 <= k < |s[1..]| ensures PlainInstr(s[1..][k]) {
          assert s[1..][k] == s[k + 1];
        }
      }
      PlainRun(s[1..], main - 1, st1);
      forall r | r in st.saved && Avoids(s, r)
        ensures FlowRun(s, main, st).saved[r] == st.saved[r]
      {
        assert !Names(s[0], r);
        assert Avoids(s[1..], r) by {
          forall k | 0 <= k < |s[1..]| ensures !Names(s[1..][k], r) {
            assert s[1..][k] == s[k + 1];
          }
        }
      }
    }
  }

  /** Inserted code that ends with an instruction writing the flags leaves
      them clobbered. */
  lemma ClobberedByLast(s: seq<Instr>, main: int, st: Flow)
    requires Plain(s) && |s| > 0 && (main < 0 || main >= |s|)
    requires WritesFlags(s[|s| - 1]) && s[|s| - 1].op.mn != IMPLICIT_DEF
    ensures FlowRun(s, main, st).cur == Clobbered
  {
    var init, last := s[..|s| - 1], s[|s| - 1];
    assert s == init + [last];
    assert Plain(init) by {
      forall k | 0 <= k < |init| ensures PlainInstr(init[k]) {
        assert init[k] == s[k];
      }
    }
    FlowRunAppend(init, [last], main, st);
    FlowRunSingle(last, main - |init|, FlowRun(init, main, st));
    assert PlainInstr(last);
  }

  /** The run of code around the rewritten instruction splits into the code
      before it, the instruction, and the code after it. */
  lemma AroundMain(pre: seq<Instr>, m: Instr, post: seq<Instr>, st: Flow)
    ensures FlowRun(pre + [m] + post, |pre|, st)
         == FlowRun(post, -1, FlowStep(m, true, FlowRun(pre, |pre|, st)))
  {
    FlowRunAppend(pre + [m], post, |pre|, st);
    FlowRunAppend(pre, [m], |pre|, st);
    FlowRunSingle(m, 0, FlowRun(pre, |pre|, st));
  }

  /** A save copies the flags into the save register and leaves the
      flags and the stack as they were. */
  lemma SaveKeeps(save: Reg, main: int, st: Flow)
    requires main < 0 || main >= 2
    ensures var out := FlowRun(SaveFlags(save), main, st);
      out.stack == st.stack && out.cur == st.cur && out.seen == st.seen
      && save in out.saved && out.saved[save] == st.cur
  {
    FlowRunPair(PushFlags(), Pop64(save), main, st);
    var m1 := FlowStep(PushFlags(), false, st);
    assert m1.stack[..|m1.stack| - 1] == st.stack;
  }

  /** A restore brings back the flags saved in the register and leaves the
      stack and the save registers as they were. */
  lemma RestoreBrings(save: Reg, main: int, st: Flow)
    requires save in st.saved && (main < 0 || main >= 2)
    ensures var out := FlowRun(RestoreFlags(save), main, st);
      out.cur == st.saved[save] && out.stack == st.stack && out.seen == st.seen
      && out.saved == st.saved
  {
    FlowRunPair(Push64(save), PopFlags(), main, st);
    var m1 := FlowStep(Push64(save), false, st);
    assert m1.stack[..|m1.stack| - 1] == st.stack;
  }

  /** Code that does not touch the stack, after a save: the save register
      holds the flags as they were before. */
  lemma OpenSave(x: seq<Instr>, save: Reg, main: int, st: Flow)
    requires Plain(x) && Avoids(x, save) && (main < 0 || main >= |x| + 2)
    ensures var out := FlowRun(SaveFlags(save) + x, main, st);
      out.stack == st.stack && out.seen == st.seen && save in out.saved && out.saved[save] == st.cur
  {
    FlowRunAppend(SaveFlags(save), x, main, st);
    SaveKeeps(save, main, st);
    PlainRun(x, main - 2, FlowRun(SaveFlags(save), main, st));
  }

  /** Code that does not touch the stack, before a restore: the flags are
      those of the save register. */
  lemma CloseRestore(x: seq<Instr>, save: Reg, main: int, st: Flow)
    requires Plain(x) && Avoids(x, save) && save in st.saved && (main < 0 || main >= |x| + 2)
    ensures var out := FlowRun(x + RestoreFlags(save), main, st);
      out.stack == st.stack && out.seen == st.seen && out.cur == st.saved[save]
  {
    FlowRunAppend(x, RestoreFlags(save), main, st);
    PlainRun(x, main, st);
    RestoreBrings(save, main - |x|, FlowRun(x, main, st));
  }

  /** Code that does not touch the stack or name the save register,
      between a save and a restore, leaves the flags as they were. */
  lemma Bracketed(x: seq<Instr>, save: Reg, main: int, st: Flow)
    requires Plain(x) && Avoids(x, save) && (main < 0 || main >= |x| + 4)
    ensures var out := FlowRun(SaveFlags(save) + x + RestoreFlags(save), main, st);
      out.stack == st.stack && out.seen == st.seen && out.cur == st.cur
  {
    FlowRunAppend(SaveFlags(save) + x, RestoreFlags(save), main, st);
    OpenSave(x, save, main, st);
    RestoreBrings(save, main - |x| - 2, FlowRun(SaveFlags(save) + x, main, st));
  }

  /** An instruction other than a PUSH or a POP that names a save
      register leaves it clobbered. */
  lemma NamedClobbered(i: Instr, r: Reg, st: Flow)
    requires PlainInstr(i) && Names(i, r) && r in st.saved
    ensures var out := FlowStep(i, false, st); r in out.saved && out.saved[r] == Clobbered
  {
  }

  /** A bracketed instruction that names the save register loses the
      flags: the restore brings back what the register then holds, whatever
      the flags were before. */
  lemma BracketedOverwritten(save: Reg, x: Instr, st: Flow)
    requires PlainInstr(x) && Names(x, save)
    ensures FlowRun(SaveFlags(save) + [x] + RestoreFlags(save), -1, st).cur == Clobbered
  {
    FlowRunAppend(SaveFlags(save) + [x], RestoreFlags(save), -1, st);
    FlowRunAppend(SaveFlags(save), [x], -1, st);
    SaveKeeps(save, -1, st);
    var m := FlowRun(SaveFlags(save), -1, st);
    FlowRunSingle(x, -3, m);
    NamedClobbered(x, save, m);
    RestoreBrings(save, -4, FlowStep(x, false, m));
  }

}

=== FILE: gfree.dfy ===
/**
 The machine pass as a whole.

 On a function with at least one block it runs, in order, return-address
 protection, the finalization of the jump-control checks and the
 instruction transformation (BSWAP and MOVNTI). The labels from `next` on
 are free: the prologue block takes `next`, the splits the labels after
 it.
 */
module GFree {
  import opened Machine
  import Rap
  import Finalize
  import Bswap
  import Jcp

  /** `runOnMachineFunction`; an empty function is left alone. */
  function RunOnMachineFunction(f: Function, next: nat, fuel: nat): (r: Result<Function>)
    requires Finalize.Below(f, next)
    ensures |f.layout| == 0 ==> r == Ok(f)
    ensures r.Ok? ==> r.value.number == f.number
  {
    if |f.layout| == 0 then Ok(f)
    else
      match Rap.ReturnAddressProtection(f, next)
      case Fail(e) => Fail(e)
      case Ok(g) =>
        ProtectKeepsLabels(f, next);
        match Finalize.CookieProtectionFinalization(g, next + 1, fuel)
        case Fail(e) => Fail(e)
        case Ok(h) => Ok(Bswap.Transform(h, Bswap.Unsafe))
  }

  /** Return-address protection uses one new label, `next`, and keeps the
      layout free of repeats. */
  lemma ProtectKeepsLabels(f: Function, next: nat)
    requires Finalize.Below(f, next) && Rap.ReturnAddressProtection(f, next).Ok?
    ensures Finalize.Below(Rap.ReturnAddressProtection(f, next).value, next + 1)
    ensures Finalize.Distinct(f.layout) ==> Finalize.Distinct(Rap.ReturnAddressProtection(f, next).value.layout)
  {
    var g := Rap.ReturnAddressProtection(f, next).value;
    if g != f {
      Rap.ProtectIs(f, next);
      if Rap.Inserted(f) {
        var i := Jcp.FirstNonEmpty(f, 0).value;
        assert g.layout == f.layout[..i] + [next] + f.layout[i..];
        InsertOne(f.layout, i, next);
      }
    }
  }

  /** A label from `next` on inserted at position `i`. */
  lemma InsertOne(a: seq<nat>, i: nat, next: nat)
    requires i <= |a| && forall p :: 0 <= p < |a| ==> a[p] < next
    ensures var b := a[..i] + [next] + a[i..];
      (forall p :: 0 <= p < |b| ==> b[p] < next + 1) && (Finalize.Distinct(a) ==> Finalize.Distinct(b))
  {
    var b := a[..i] + [next] + a[i..];
    assert forall p :: 0 <= p < i ==> b[p] == a[p];
    assert forall p :: i < p < |b| ==> b[p] == a[p - 1];
  }

  // ---------------------------------------------------------------------
  // The transformation leaves the checked indirect instructions in place.

  /** BSWAP and MOVNTI are not indirect, and neither is anything they
      become: an indirect instruction stays as it is, and no other
      instruction turns into one. */
  lemma RewriteDirect(i: Instr)
    ensures Finalize.IsIndirect(i) ==> Bswap.Rewrite(i, Bswap.Unsafe) == [i]
    ensures !Finalize.IsIndirect(i) ==> forall q :: 0 <= q < |Bswap.Rewrite(i, Bswap.Unsafe)| ==>
      !Finalize.IsIndirect(Bswap.Rewrite(i, Bswap.Unsafe)[q])
  {
    if Bswap.IsBswap(i) {
      var reg := i.ops[0].reg;
      if reg.Phys? && reg.phys in Bswap.Unsafe {
        ReplacementDirect(reg.phys, i.op.width);
      }
    }
  }

  lemma ReplacementDirect(r: PhysReg, w: nat)
    ensures forall q :: 0 <= q < |Bswap.Replacement(r, w)| ==> !Finalize.IsIndirect(Bswap.Replacement(r, w)[q])
  {
    var t := Bswap.Replacement(r, w);
    assert !Finalize.IsIndirect(t[0]) && !Finalize.IsIndirect(t[1]) && !Finalize.IsIndirect(t[2]);
    assert !Finalize.IsIndirect(t[3]) && !Finalize.IsIndirect(t[4]);
  }

  lemma {:induction false} TransformKeepsChecked(s: seq<Instr>, c: bool)
    requires Finalize.CheckedBlock(s, c)
    ensures Finalize.CheckedBlock(Bswap.TransformBlock(s, Bswap.Unsafe), c)
    decreases |s|
  {
    if |s| > 0 {
      var a, b := Bswap.Rewrite(s[0], Bswap.Unsafe), Bswap.TransformBlock(s[1..], Bswap.Unsafe);
      forall q | 0 <= q < |s[1..]|
        ensures !Finalize.IsIndirect(s[1..][q])
      {
        assert s[1..][q] == s[q + 1];
      }
      TransformKeepsChecked(s[1..], false);
      RewriteDirect(s[0]);
      forall q | |a| <= q < |a + b|
        ensures !Finalize.IsIndirect((a + b)[q])
      {
        assert (a + b)[q] == b[q - |a|];
      }
      forall q | 0 <= q < |a|
        ensures (a + b)[q] == a[q]
      {
      }
    }
  }

  /**
   What the pass guarantees end to end: every indirect branch or call of
   the result is the first instruction of a block the finalization
   created, numbered above `next`, and no block of the layout holds a
   BSWAP whose encoding hides a return opcode, or a MOVNTI.
   */
  lemma PassGuards(f: Function, next: nat, fuel: nat)
    requires Finalize.Below(f, next) && Finalize.Distinct(f.layout)
    requires RunOnMachineFunction(f, next, fuel).Ok?
    ensures var h := RunOnMachineFunction(f, next, fuel).value;
      forall p, q ::
        (0 <= p < |h.layout| && 0 <= q < |Finalize.BlockAt(h, p)| && Finalize.IsIndirect(Finalize.BlockAt(h, p)[q]))
        ==> q == 0 && h.layout[p] > next
    ensures var h := RunOnMachineFunction(f, next, fuel).value;
      forall p :: 0 <= p < |h.layout| ==> Bswap.Clean(Finalize.BlockAt(h, p))
  {
    if |f.layout| > 0 {
      var g := Rap.ReturnAddressProtection(f, next).value;
      ProtectKeepsLabels(f, next);
      var h := Finalize.CookieProtectionFinalization(g, next + 1, fuel).value;
      Finalize.FinalizationGuards(g, next + 1, fuel);
      var t := Bswap.Transform(h, Bswap.Unsafe);
      forall p | 0 <= p < |t.layout|
        ensures Finalize.BlockAt(t, p) == Bswap.TransformBlock(Finalize.BlockAt(h, p), Bswap.Unsafe)
      {
      }
      forall p, q | 0 <= p < |t.layout| && 0 <= q < |Finalize.BlockAt(t, p)|
          && Finalize.IsIndirect(Finalize.BlockAt(t, p)[q])
        ensures q == 0 && t.layout[p] > next
      {
        var s := Finalize.BlockAt(h, p);
        assert Finalize.CheckedBlock(s, h.layout[p] > next);
        TransformKeepsChecked(s, h.layout[p] > next);
      }
      forall p | 0 <= p < |t.layout|
        ensures Bswap.Clean(Finalize.BlockAt(t, p))
      {
        Bswap.TransformBlockClean(Finalize.BlockAt(h, p));
      }
    }
  }
}

=== FILE: hazard.dfy ===
/**
 The hazard scanner.

 A byte sequence is hazardous when a processor that starts decoding inside it
 could find a near or far return (opcodes C2, C3, CA, CB) or an indirect call
 or jump through a register or memory (opcode FF followed by a ModRM byte that
 selects one of the forms /2, /3, /4 or /5). The scanner looks at each byte
 together with the byte after it; the byte after the last one is taken to be
 zero, which is not a dangerous ModRM byte, so a trailing FF alone is safe.
 */
module Hazard {
  import opened Words

  /** The 40 ModRM bytes that make a preceding FF an indirect call or jump. */
  const ValuesToAvoid: seq<byte> :=
    [0x10, 0x11, 0x12, 0x13, 0x16, 0x17, 0x18, 0x19, 0x1a, 0x1b, 0x1e,
     0x1f, 0x20, 0x21, 0x22, 0x23, 0x26, 0x27, 0x28, 0x29, 0x2a, 0x2b,
     0x2e, 0x2f, 0xd0, 0xd1, 0xd2, 0xd3, 0xd4, 0xd5, 0xd6, 0xd7, 0xe0,
     0xe1, 0xe2, 0xe3, 0xe4, 0xe5, 0xe6, 0xe7]

  /** Whether a byte after FF makes it an indirect call or jump: one of
      the listed bytes (`FFBlacklistIsList`), characterised by its ModRM
      fields. */
  predicate FFBlacklist(b: byte) {
    IndirectBranchModRM(b)
  }

  /** The return opcodes: RET imm16, RET, RETF imm16, RETF. */
  predicate IsRetOpcode(b: byte) {
    b == 0xC2 || b == 0xC3 || b == 0xCA || b == 0xCB
  }

  /** Whether a byte `cur`, followed by `next`, starts a return or an
      indirect call/jump. */
  predicate HazardPair(cur: byte, next: byte) {
    IsRetOpcode(cur) || (cur == 0xFF && FFBlacklist(next))
  }

  /** The byte after position `i`, or zero past the end. */
  function NextOrZero(bs: seq<byte>, i: nat): byte
    requires i < |bs|
  {
    if i + 1 < |bs| then bs[i + 1] else 0
  }

  predicate HazardAt(bs: seq<byte>, i: nat)
    requires i < |bs|
  {
    HazardPair(bs[i], NextOrZero(bs, i))
  }

  /** Some position of `bs` starts a hazard. */
  predicate HasHazard(bs: seq<byte>) {
    exists i :: 0 <= i < |bs| && HazardAt(bs, i)
  }

  /** The fields of a ModRM byte, as laid out in the operand-addressing
      tables of the Intel architecture manual. */
  function ModOf(b: byte): bv8 { b >> 6 }
  function RegOf(b: byte): bv8 { (b >> 3) & 7 }
  function RmOf(b: byte): bv8 { b & 7 }

  /** An FF ModRM byte that names an indirect CALL (/2), far CALL (/3),
      JMP (/4) or far JMP (/5) through memory addressed by a plain base
      register (mod 00 without SIB or RIP-relative forms), or an indirect
      CALL/JMP through a register (mod 11, /2 and /4). */
  predicate IndirectBranchModRM(b: byte) {
    (ModOf(b) == 0 && 2 <= RegOf(b) <= 5 && RmOf(b) != 4 && RmOf(b) != 5)
    || (ModOf(b) == 3 && (RegOf(b) == 2 || RegOf(b) == 4))
  }

  /** Every listed byte is such a ModRM byte. */
  lemma ValuesToAvoidAreIndirect()
    ensures forall i :: 0 <= i < |ValuesToAvoid| ==> IndirectBranchModRM(ValuesToAvoid[i])
  {
    forall i | 0 <= i < |ValuesToAvoid| ensures IndirectBranchModRM(ValuesToAvoid[i]) {
      if i < 5 {} else if i < 10 {} else if i < 15 {} else if i < 20 {}
      else if i < 25 {} else if i < 30 {} else if i < 35 {} else {}
    }
  }

  /** Where a ModRM byte of the description above sits in the list: the
      memory forms come first, by reg and then rm, then /2 and /4 through
      a register. */
  function PositionInList(b: byte): (i: nat)
    requires IndirectBranchModRM(b)
    ensures i < |ValuesToAvoid| && ValuesToAvoid[i] == b
  {
    if ModOf(b) == 0 then
      var r := (RegOf(b) - 2) as nat;
      var m := RmOf(b) as nat;
      r * 6 + (if m < 4 then m else m - 2)
    else if RegOf(b) == 2 then 24 + RmOf(b) as nat
    else 32 + RmOf(b) as nat
  }

  /** The blacklist is exactly the list of the source. */
  lemma FFBlacklistIsList(b: byte)
    ensures FFBlacklist(b) <==> b in ValuesToAvoid
  {
    if IndirectBranchModRM(b) {
      var i := PositionInList(b);
    }
    if b in ValuesToAvoid {
      ValuesToAvoidAreIndirect();
    }
  }

  /**
   The scanner of the source: append a zero sentinel and look at every byte
   but the sentinel, together with its successor.
   */
  method ContainsRet(bytes: seq<byte>) returns (r: bool)
    ensures r <==> HasHazard(bytes)
  {
    var padded := bytes + [0];
    var i := 0;
    while i != |padded| - 1
      invariant 0 <= i <= |bytes|
      invariant forall j :: 0 <= j < i ==> !HazardAt(bytes, j)
    {
      assert padded[i] == bytes[i];
      assert padded[i + 1] == NextOrZero(bytes, i);
      if padded[i] == 0xC2 || padded[i] == 0xC3 || padded[i] == 0xCA || padded[i] == 0xCB
         || (padded[i] == 0xFF && FFBlacklist(padded[i + 1])) {
        assert HazardAt(bytes, i);
        return true;
      }
      i := i + 1;
    }
    return false;
  }

  /** An FF at the very end is never flagged: appending one changes nothing. */
  lemma TrailingFFNeverFlagged(bs: seq<byte>)
    ensures HasHazard(bs + [0xFF]) <==> HasHazard(bs)
  {
    var t := bs + [0xFF];
    if HasHazard(t) {
      var i :| 0 <= i < |t| && HazardAt(t, i);
      assert i < |bs|;
      assert HazardAt(bs, i);
    }
    if HasHazard(bs) {
      var i :| 0 <= i < |bs| && HazardAt(bs, i);
      assert HazardAt(t, i);
    }
  }

  /** The scanner's verdict on a byte followed by more bytes: the first byte
      with its successor (zero when there is none), or some later position. */
  lemma HasHazardCons(b: byte, s: seq<byte>)
    ensures HasHazard([b] + s)
        <==> HazardPair(b, if |s| > 0 then s[0] else 0) || HasHazard(s)
  {
    var t := [b] + s;
    assert HazardAt(t, 0) <==> HazardPair(b, if |s| > 0 then s[0] else 0);
    if HasHazard(s) {
      var i :| 0 <= i < |s| && HazardAt(s, i);
      assert t[i + 1] == s[i] && NextOrZero(t, i + 1) == NextOrZero(s, i);
      assert HazardAt(t, i + 1);
    }
    if HasHazard(t) {
      var i :| 0 <= i < |t| && HazardAt(t, i);
      if i > 0 {
        assert t[i] == s[i - 1] && NextOrZero(t, i) == NextOrZero(s, i - 1);
        assert HazardAt(s, i - 1);
      }
    }
  }

  // ---------------------------------------------------------------------
  // Immediate fields.

  /**
   The loop of the source over an `n`-byte field: the least significant
   byte, with the byte after it (zero when it is the most significant byte
   of the field), starts no hazard, and neither does the rest of the field,
   which is the word shifted right by eight bits.
   */
  predicate FieldSafe(w: Word, n: nat)
    requires n <= 8
    decreases n
  {
    n == 0 || (!HazardPair(w.b0, if n > 1 then w.b1 else 0) && FieldSafe(Shift(w), n - 1))
  }

  /** A field is safe exactly when the scanner finds nothing in its bytes. */
  lemma {:induction false} FieldSafeIff(w: Word, n: nat)
    requires n <= 8
    ensures FieldSafe(w, n) <==> !HasHazard(LeBytes(w, n))
    decreases n
  {
    if n > 0 {
      FieldSafeIff(Shift(w), n - 1);
      HasHazardCons(w.b0, LeBytes(Shift(w), n - 1));
    }
  }
}

=== FILE: immrecon.dfy ===
/**
 Immediate and displacement reconstruction.

 An instruction whose immediate (or memory displacement) would encode a
 return or an indirect branch is rewritten so that the dangerous value
 never appears in the instruction stream:

 - the value is split into two harmless halves (`Split.SplitInt`) and
   rebuilt in a fresh virtual register: MOV the larger half, then OR in the
   smaller one, either as an immediate when it fits in 32 bits or through a
   second MOV;
 - a register/immediate instruction becomes its register/register form
   reading that register, and a memory/immediate instruction its
   memory/register form;
 - for a dangerous displacement the base register is first increased by
   the value (ADD), the instruction is repeated with displacement 0, and
   the sum is then decreased again (SUB).

 The OR, the ADD and the SUB write the flags; when the flags are live the
 inserted code is bracketed by saves and restores of the flags.

 Fresh virtual registers are numbered from a counter, in the order the
 source creates them.
 */
module ImmRecon {
  import opened Words
  import opened Hazard
  import opened Split
  import opened Machine
  import opened Tables
  import opened Flags

  /** The width at which operand `i` is split: the table's width, 64 for a
      memory displacement and for an unlisted opcode. */
  function SplitWidth(op: Opcode, i: nat): (size: nat)
    ensures size in {8, 16, 32, 64}
    ensures IsMI(op) && i == 3 ==> size == 64
    ensures Lookup(op).None? ==> size == 64
  {
    var size := if IsMI(op) && i == 3 then 64 else SizeFromMaps(op);
    if size == 0 then 64 else size
  }

  /**
   The cases the source leaves for later: displacements off a frame slot
   (its offset is not known yet), displacements with no base register, and
   unlisted opcodes. The LEA row reads a register out of operand 1, which
   fails when that operand holds none.
   */
  function Postponed(mi: Instr, i: nat): Result<bool>
    requires i < |mi.ops|
  {
    var op, ops := mi.op, mi.ops;
    if (IsMI(op) && ops[0].FrameIndex? && i == 3)
       || (IsMI(op) && i == 3 && ops[0] == RegOp(NoReg))
       || (IsRM(op) && |ops| > 1 && ops[1].FrameIndex?)
       || (IsMR(op) && ops[0].FrameIndex?)
       || (IsLEA(op) && |ops| > 1 && ops[1].FrameIndex?)
    then Ok(true)
    else if IsLEA(op) && (|ops| <= 1 || !ops[1].RegOp?) then Fail("register of a non-register operand")
    else Ok((IsLEA(op) && ops[1] == RegOp(NoReg)) || OpcodeFromMaps(op).None?)
  }

  /** Whether the `size`-bit field holding `v` contains a hazard; the
      source asks whether the split of `v` is not (0, 0), which is the same
      (`Split.SplitZeroIffSafe`). */
  predicate Dangerous(v: Word, size: nat)
    requires size in {8, 16, 32, 64}
  {
    HasHazard(LeBytes(v, FieldBytes(size)))
  }

  /** Operand `i` is an immediate that must be rebuilt. */
  function Candidate(mi: Instr, i: nat): Result<bool>
    requires i < |mi.ops|
  {
    if !mi.ops[i].Imm? || !Dangerous(mi.ops[i].value, SplitWidth(mi.op, i)) then Ok(false)
    else match Postponed(mi, i)
      case Fail(why) => Fail(why)
      case Ok(p) => Ok(!p)
  }

  /** What `Candidate` answers for each operand, in order. */
  function Candidates(mi: Instr): (c: seq<Result<bool>>)
    ensures |c| == |mi.ops| && forall j :: 0 <= j < |c| ==> c[j] == Candidate(mi, j)
  {
    seq(|mi.ops|, j requires 0 <= j < |mi.ops| => Candidate(mi, j))
  }

  /** The first position from `i` on that answers yes; the walk stops at
      the first failure. */
  function FirstIn(c: seq<Result<bool>>, i: nat): (r: Result<Option<nat>>)
    requires i <= |c|
    ensures r.Ok? && r.value.Some? ==> i <= r.value.value < |c|
    decreases |c| - i
  {
    if i == |c| then Ok(None)
    else match c[i]
      case Fail(why) => Fail(why)
      case Ok(true) => Ok(Some(i))
      case Ok(false) => FirstIn(c, i + 1)
  }

  /** The first operand from `i` on that must be rebuilt. */
  function FirstCandidate(mi: Instr, i: nat): (r: Result<Option<nat>>)
    requires i <= |mi.ops|
    ensures r.Ok? && r.value.Some? ==> i <= r.value.value < |mi.ops|
  {
    FirstIn(Candidates(mi), i)
  }

  lemma {:induction false} FirstInFound(c: seq<Result<bool>>, i: nat)
    requires i <= |c| && FirstIn(c, i).Ok? && FirstIn(c, i).value.Some?
    ensures c[FirstIn(c, i).value.value] == Ok(true)
    decreases |c| - i
  {
    if c[i] != Ok(true) {
      FirstInFound(c, i + 1);
    }
  }

  lemma {:induction false} FirstInSkips(c: seq<Result<bool>>, i: nat, j: nat)
    requires i <= j < |c| && FirstIn(c, i).Ok?
    requires FirstIn(c, i).value.None? || j < FirstIn(c, i).value.value
    ensures c[j] == Ok(false)
    decreases |c| - i
  {
    if i < j {
      FirstInSkips(c, i + 1, j);
    }
  }

  /** The operand found is a candidate. */
  lemma FirstCandidateFound(mi: Instr, i: nat)
    requires i <= |mi.ops| && FirstCandidate(mi, i).Ok? && FirstCandidate(mi, i).value.Some?
    ensures Candidate(mi, FirstCandidate(mi, i).value.value) == Ok(true)
  {
    FirstInFound(Candidates(mi), i);
  }

  /** No operand before the one found is a candidate; when none is found,
      no operand is. */
  lemma FirstCandidateSkips(mi: Instr, i: nat, j: nat)
    requires i <= j < |mi.ops| && FirstCandidate(mi, i).Ok?
    requires FirstCandidate(mi, i).value.None? || j < FirstCandidate(mi, i).value.value
    ensures Candidate(mi, j) == Ok(false)
  {
    FirstInSkips(Candidates(mi), i, j);
  }

  // ---------------------------------------------------------------------
  // Rebuilding the value.

  /**
   The loads into `imm` (register `n + 1`), with `n` and, for a small part
   that does not fit in 32 bits, `n + 2` as scratch. `size` is in bits.
   */
  function Loads(halves: SplitPair, size: nat, n: nat): (s: seq<Instr>)
    requires size in {8, 16, 32, 64}
    ensures |s| == if Fits32(halves.first) then 2 else 3
    ensures forall k :: 0 <= k < |s| ==> s[k].op.mn in {MOV, OR}
  {
    var bytes := size / 8;
    var mov := Instr(MovRIOpcode(bytes).value, [RegOp(Virt(n)), Imm(halves.second)]);
    if Fits32(halves.first) then
      [mov, Instr(OrRIOpcode(bytes).value, [RegOp(Virt(n + 1)), RegOp(Virt(n)), Imm(halves.first)])]
    else
      [mov, Instr(MovRIOpcode(bytes).value, [RegOp(Virt(n + 2)), Imm(halves.first)]),
       Instr(OrRROpcode(bytes).value, [RegOp(Virt(n + 1)), RegOp(Virt(n)), RegOp(Virt(n + 2))])]
  }

  /** Every immediate the loads carry is one of the two harmless halves. */
  lemma LoadsAreSafe(imm: Word, size: nat, n: nat)
    requires size in {8, 16, 32, 64}
    ensures var s := Loads(SplitInt(imm, size), size, n);
      forall k, j :: 0 <= k < |s| && 0 <= j < |s[k].ops| && s[k].ops[j].Imm? ==>
        !HasHazard(LeBytes(s[k].ops[j].value, FieldBytes(size)))
  {
    SplitHalvesSafe(imm, size);
    LoadsCarryHalves(SplitInt(imm, size), size, n);
  }

  /** The loads carry no immediate but the two halves. */
  lemma LoadsCarryHalves(halves: SplitPair, size: nat, n: nat)
    requires size in {8, 16, 32, 64}
    requires !HasHazard(LeBytes(halves.first, FieldBytes(size)))
    requires !HasHazard(LeBytes(halves.second, FieldBytes(size)))
    ensures var s := Loads(halves, size, n);
      forall k, j :: 0 <= k < |s| && 0 <= j < |s[k].ops| && s[k].ops[j].Imm? ==>
        !HasHazard(LeBytes(s[k].ops[j].value, FieldBytes(size)))
  {
    var s := Loads(halves, size, n);
    forall k, j | 0 <= k < |s| && 0 <= j < |s[k].ops| && s[k].ops[j].Imm?
      ensures s[k].ops[j].value == halves.first || s[k].ops[j].value == halves.second
    {
    }
  }

  /** The loads end with the OR that assembles the value, which writes
      the flags. */
  lemma LoadsEndWithOr(halves: SplitPair, size: nat, n: nat)
    requires size in {8, 16, 32, 64}
    ensures var s := Loads(halves, size, n);
      Plain(s) && s[|s| - 1].op.mn == OR && WritesFlags(s[|s| - 1])
  {
  }

  /** The register/register form: MOV, CMP and TEST take the first
      operand and the new register, the others the destination, the first
      source and the new register. The registers are read out of the
      operands, which fails when an operand holds no register. */
  function EmitRItoRR(mi: Instr, newOp: Opcode, immReg: Reg): Result<Instr> {
    var moveCompareTest := IsMove(mi) || IsCompare(mi) || IsTest(mi);
    var src := if moveCompareTest then 0 else 1;
    if |mi.ops| <= src || !mi.ops[0].RegOp? || !mi.ops[src].RegOp? then
      Fail("register of a non-register operand")
    else if moveCompareTest then Ok(Instr(newOp, [mi.ops[0], RegOp(immReg)]))
    else Ok(Instr(newOp, [mi.ops[0], mi.ops[1], RegOp(immReg)]))
  }

  /** The register form reads the rebuilt value where the original read the
      immediate, with the same registers around it; an instruction whose
      destination is implicit has no register to read and fails. */
  lemma RItoRRReplacesImmediate(mi: Instr, newOp: Opcode, immReg: Reg)
    ensures |mi.ops| == 3 && mi.ops[0].RegOp? && mi.ops[1].RegOp?
            && !(IsMove(mi) || IsCompare(mi) || IsTest(mi))
            ==> EmitRItoRR(mi, newOp, immReg) == Ok(Instr(newOp, mi.ops[..2] + [RegOp(immReg)]))
    ensures |mi.ops| == 2 && mi.ops[0].RegOp? && (IsMove(mi) || IsCompare(mi) || IsTest(mi))
            ==> EmitRItoRR(mi, newOp, immReg) == Ok(Instr(newOp, mi.ops[..1] + [RegOp(immReg)]))
    ensures |mi.ops| == 1 && mi.ops[0].Imm? ==> EmitRItoRR(mi, newOp, immReg).Fail?
  {
    if |mi.ops| == 3 {
      assert mi.ops[..2] + [RegOp(immReg)] == [mi.ops[0], mi.ops[1], RegOp(immReg)];
    } else if |mi.ops| == 2 {
      assert mi.ops[..1] + [RegOp(immReg)] == [mi.ops[0], RegOp(immReg)];
    }
  }

  /** The memory/register form: the immediate (operand 5) is removed and
      the new register appended after the remaining operands. */
  function EmitMItoMR(mi: Instr, newOp: Opcode, immReg: Reg): (r: Instr)
    requires |mi.ops| > 5
    ensures r.op == newOp && |r.ops| == |mi.ops|
    ensures r.ops[..5] == mi.ops[..5] && r.ops[|r.ops| - 1] == RegOp(immReg)
    ensures forall k :: 6 <= k < |mi.ops| ==> r.ops[k - 1] == mi.ops[k]
  {
    Instr(newOp, mi.ops[..5] + mi.ops[6..] + [RegOp(immReg)])
  }

  /**
   The displacement rewrite: `sum` (register `n`) becomes base plus the
   rebuilt value, the instruction is repeated with `sum` as its base and
   operand `i` zero, and `n + 1` receives `sum` minus the value again.
   */
  function EmitAddInstSub(mi: Instr, immReg: Reg, base: nat, i: nat, n: nat)
    : (r: Result<(Instr, Instr, Instr)>)
    requires i < |mi.ops| && mi.ops[i].Imm?
    ensures r.Ok? <==> base < |mi.ops| && mi.ops[base].RegOp?
    ensures r.Ok? ==> r.value.1.op == mi.op && |r.value.1.ops| == |mi.ops|
    ensures r.Ok? ==> r.value.1.ops[base] == RegOp(Virt(n)) && r.value.1.ops[i] == Imm(Zero)
    ensures r.Ok? ==> forall j :: 0 <= j < |mi.ops| && j != base && j != i ==> r.value.1.ops[j] == mi.ops[j]
  {
    if base >= |mi.ops| || !mi.ops[base].RegOp? then Fail("register of a non-register operand")
    else
      var sum := Virt(n);
      var add := Instr(AddRROpcode(8).value, [RegOp(sum), mi.ops[base], RegOp(immReg)]);
      var clone := Instr(mi.op, mi.ops[base := RegOp(sum)][i := Imm(Zero)]);
      var sub := Instr(SubRROpcode(8).value, [RegOp(Virt(n + 1)), RegOp(sum), RegOp(immReg)]);
      Ok((add, clone, sub))
  }

  /** A scale factor of a memory reference never needs splitting. */
  lemma ScaleNeverSplits(s: byte)
    requires s in {1, 2, 4, 8}
    ensures SplitInt(Word(s, 0, 0, 0, 0, 0, 0, 0), 64) == NoSplit
  {
    assert LowMask(Word(s, 0, 0, 0, 0, 0, 0, 0), 8) == Zero;
  }

  // ---------------------------------------------------------------------
  // The rewrite of one instruction, before the flags are considered.

  /**
   The code that replaces an instruction: the loads, then (for a
   displacement) the ADD, the rewritten instruction, then (for a
   displacement) the SUB. `used` counts the fresh registers taken.
   */
  datatype Pieces = Pieces(loads: seq<Instr>, add: seq<Instr>, newMI: Instr, sub: seq<Instr>,
                           immediate: bool, used: nat)

  /** None of the pieces touches the stack, and an immediate rewrite has
      no ADD and no SUB. */
  predicate WellShaped(p: Pieces) {
    Plain(p.loads) && Plain(p.add) && Plain(p.sub) && PlainInstr(p.newMI)
    && (p.immediate ==> p.add == [] && p.sub == [])
  }

  /** The pieces laid out with no flag save. */
  function Unsaved(p: Pieces): seq<Instr> { p.loads + p.add + [p.newMI] + p.sub }

  /** The immediate operand `i` of a register/immediate instruction, or
      operand 5 of a memory/immediate one: the instruction becomes its
      register form reading `imm` (register `n + 1`). */
  function EmitImmediate(mi: Instr, i: nat, newOp: Opcode, loads: seq<Instr>, n: nat): (r: Result<Pieces>)
    requires newOp.mn in {ADC, ADD, SBB, SUB, OR, XOR, AND, CMP, MOV, TEST}
    requires IsRI(mi.op) || (i == 5 && |mi.ops| > 5)
    requires Plain(loads)
    ensures r.Ok? ==> WellShaped(r.value)
    ensures r.Ok? ==> r.value.immediate && r.value.newMI.op == newOp
    ensures r.Ok? ==> r.value.loads == loads && r.value.add == [] && r.value.sub == []
    ensures r.Ok? ==> r.value.used == |loads|
  {
    if IsRI(mi.op) then
      match EmitRItoRR(mi, newOp, Virt(n + 1))
      case Fail(why) => Fail(why)
      case Ok(newMI) => Ok(Pieces(loads, [], newMI, [], true, |loads|))
    else Ok(Pieces(loads, [], EmitMItoMR(mi, newOp, Virt(n + 1)), [], true, |loads|))
  }

  /** A displacement: ADD, copy, SUB, with the sum in register
      `n + |loads|` and the base register at operand `base`. */
  function EmitDisplacement(mi: Instr, i: nat, base: nat, loads: seq<Instr>, n: nat): (r: Result<Pieces>)
    requires i < |mi.ops| && mi.ops[i].Imm?
    requires mi.op.mn in {ADC, ADD, SBB, SUB, OR, XOR, AND, CMP, MOV, TEST, MOVSX, MOVZX, LEA, LEA64_32}
    requires Plain(loads)
    ensures r.Ok? ==> WellShaped(r.value)
    ensures r.Ok? ==> !r.value.immediate && r.value.newMI.op == mi.op && |r.value.newMI.ops| == |mi.ops|
    ensures r.Ok? ==> r.value.newMI.ops[i] == Imm(Zero)
    ensures r.Ok? ==> r.value.loads == loads && Plain(r.value.add) && Plain(r.value.sub)
    ensures r.Ok? ==> NoImms(r.value.add) && NoImms(r.value.sub)
    ensures r.Ok? ==> r.value.used == |loads| + 2
    ensures r.Ok? ==> base < |mi.ops| && mi.ops[base].RegOp? && r.value.newMI.ops[base] == RegOp(Virt(n + |loads|))
    ensures r.Ok? ==> forall j :: 0 <= j < |mi.ops| && j != base && j != i ==> r.value.newMI.ops[j] == mi.ops[j]
  {
    match EmitAddInstSub(mi, Virt(n + 1), base, i, n + |loads|)
    case Fail(why) => Fail(why)
    case Ok(parts) => Ok(Pieces(loads, [parts.0], parts.1, [parts.2], false, |loads| + 2))
  }

  /** The operations of a listed opcode, and of its replacement when it
      has an immediate form. */
  lemma ListedFacts(op: Opcode)
    requires Lookup(op).Some?
    ensures op.mn in {ADC, ADD, SBB, SUB, OR, XOR, AND, CMP, MOV, TEST, MOVSX, MOVZX, LEA, LEA64_32}
    ensures IsRI(op) || IsMI(op) ==> OpcodeFromMaps(op).value.mn in {ADC, ADD, SBB, SUB, OR, XOR, AND, CMP, MOV, TEST}
  {
    ListedOperations(op);
    TablesDisjoint(op);
  }

  /** A candidate is an immediate of a listed opcode. */
  lemma CandidateListed(mi: Instr, i: nat)
    requires i < |mi.ops| && Candidate(mi, i) == Ok(true)
    ensures mi.ops[i].Imm? && Lookup(mi.op).Some?
  {
  }

  /** The last load is the OR that completes the value. */
  predicate EndsInOr(s: seq<Instr>) {
    |s| >= 2 && s[|s| - 1].op.mn == OR
  }

  /** The loads of the halves of operand `i`, split at its width. */
  function OperandLoads(mi: Instr, i: nat, n: nat): (s: seq<Instr>)
    requires i < |mi.ops| && mi.ops[i].Imm?
    ensures Plain(s) && EndsInOr(s)
  {
    var size := SplitWidth(mi.op, i);
    LoadsEndWithOr(SplitInt(mi.ops[i].value, size), size, n);
    Loads(SplitInt(mi.ops[i].value, size), size, n)
  }

  /**
   The rewrite of candidate operand `i`, with fresh registers numbered from
   `n`: register forms for immediates, ADD, copy, SUB for displacements,
   with the base register at operand 0 for memory/immediate and store
   forms and at operand 1 for loads and address computations. Operands of
   a memory/immediate instruction other than the displacement (3) and the
   immediate (5) are never rewritten (`ScaleNeverSplits`).
   */
  function Emit(mi: Instr, i: nat, n: nat): (r: Result<Pieces>)
    requires i < |mi.ops| && mi.ops[i].Imm? && Lookup(mi.op).Some?
    ensures r.Ok? ==> WellShaped(r.value)
    ensures r.Ok? ==> (r.value.immediate <==> IsRI(mi.op) || (IsMI(mi.op) && i == 5))
    ensures r.Ok? && r.value.immediate ==> r.value.newMI.op == OpcodeFromMaps(mi.op).value
    ensures r.Ok? && !r.value.immediate ==> r.value.newMI.op == mi.op && |r.value.newMI.ops| == |mi.ops|
    ensures r.Ok? && !r.value.immediate ==> r.value.newMI.ops[i] == Imm(Zero)
    ensures r.Ok? ==> EndsInOr(r.value.loads)
  {
    ListedFacts(mi.op);
    var op := mi.op;
    var loads := OperandLoads(mi, i, n);
    if IsRI(op) || (IsMI(op) && i == 5) then
      EmitImmediate(mi, i, OpcodeFromMaps(op).value, loads, n)
    else if IsMI(op) && i != 3 then
      Fail("no rewrite for this operand")
    else
      EmitDisplacement(mi, i, if IsMI(op) || IsMR(op) then 0 else 1, loads, n)
  }

  // ---------------------------------------------------------------------
  // Where the flags are saved.

  /** The code around the rewritten instruction: `pre`, then the
      instruction, then `post`. */
  datatype Placement = Placement(pre: seq<Instr>, post: seq<Instr>)

  function Layout(p: Placement, newMI: Instr): seq<Instr> { p.pre + [newMI] + p.post }

  /**
   The source's placement. `live` is the walk's answer from the
   instruction after the rewritten code. An immediate rewrite saves around
   the loads; a displacement rewrite saves according to whether the
   rewritten instruction reads and writes the flags.
   */
  function PlaceAsWritten(p: Pieces, live: bool, save: Reg): Placement {
    var d, u := WritesFlags(p.newMI), ReadsFlags(p.newMI);
    var x := p.loads + p.add;
    if !live then Placement(x, p.sub)
    else if p.immediate then Placement(SaveFlags(save) + x + RestoreFlags(save), [])
    else if !d && !u then Placement(SaveFlags(save) + x, p.sub + RestoreFlags(save))
    else if !d && u then
      Placement(SaveFlags(save) + x + RestoreFlags(save), SaveFlags(save) + p.sub + RestoreFlags(save))
    else if d && !u then Placement(x, SaveFlags(save) + p.sub + RestoreFlags(save))
    else Placement(SaveFlags(save) + x + RestoreFlags(save), p.sub)
  }

  /**
   The placement with both gaps closed: flags the rewritten instruction
   reads are saved around the inserted code before it whether or not they
   are live afterwards, and live flags are saved around the SUB whatever
   the instruction does with them.
   */
  function Place(p: Pieces, live: bool, save: Reg): Placement {
    var d, u := WritesFlags(p.newMI), ReadsFlags(p.newMI);
    var x := p.loads + p.add;
    var pre :=
      if u || (p.immediate && live) then SaveFlags(save) + x + RestoreFlags(save)
      else if live && !d then SaveFlags(save) + x
      else x;
    var post :=
      if p.immediate || !live then p.sub
      else if !d && !u then p.sub + RestoreFlags(save)
      else SaveFlags(save) + p.sub + RestoreFlags(save);
    Placement(pre, post)
  }

  /** Whether the placement needs a save register. */
  predicate NeedsSave(p: Pieces, live: bool) { live || ReadsFlags(p.newMI) }

  /** No piece of the rewrite names the save register. */
  lemma UnsavedAvoids(p: Pieces, save: Reg)
    requires Avoids(Unsaved(p), save)
    ensures Avoids(p.loads + p.add, save) && !Names(p.newMI, save) && Avoids(p.sub, save)
  {
    var x := p.loads + p.add;
    assert Unsaved(p) == x + [p.newMI] + p.sub;
    assert Unsaved(p)[|x|] == p.newMI;
    forall k | 0 <= k < |x| ensures !Names(x[k], save) {
      assert Unsaved(p)[k] == x[k];
    }
    forall k | 0 <= k < |p.sub| ensures !Names(p.sub[k], save) {
      assert Unsaved(p)[|x| + 1 + k] == p.sub[k];
    }
  }

  /** The flags after the code before the rewritten instruction, when they
      were not saved: the stack is untouched. */
  lemma PreRun(p: Pieces, live: bool, save: Reg)
    requires WellShaped(p) && Avoids(p.loads + p.add, save)
    ensures var pre := Place(p, live, save).pre;
      var out := FlowRun(pre, |pre|, Start);
      out.stack == [] && out.seen == Original
      && (ReadsFlags(p.newMI) || (p.immediate && live) ==> out.cur == Original)
      && (live && !WritesFlags(p.newMI) && !ReadsFlags(p.newMI) && !p.immediate
          ==> save in out.saved && out.saved[save] == Original)
  {
    var x := p.loads + p.add;
    assert Plain(x) by {
      forall k | 0 <= k < |x| ensures PlainInstr(x[k]) {
        if k < |p.loads| { assert x[k] == p.loads[k]; } else { assert x[k] == p.add[k - |p.loads|]; }
      }
    }
    var pre := Place(p, live, save).pre;
    var d, u := WritesFlags(p.newMI), ReadsFlags(p.newMI);
    if u || (p.immediate && live) {
      Bracketed(x, save, |pre|, Start);
    } else if live && !d {
      OpenSave(x, save, |pre|, Start);
    } else {
      PlainRun(x, |pre|, Start);
    }
  }

  /** The corrected placement keeps the flags, for every rewrite and
      either answer of the walk, when the save register is one the rewrite
      does not name. */
  lemma PlaceKeepsFlags(p: Pieces, live: bool, save: Reg)
    requires WellShaped(p) && Avoids(Unsaved(p), save)
    ensures var pl := Place(p, live, save);
      KeepsFlags(Layout(pl, p.newMI), |pl.pre|, live)
  {
    var pl := Place(p, live, save);
    var s := Layout(pl, p.newMI);
    var d, u := WritesFlags(p.newMI), ReadsFlags(p.newMI);
    assert s[|pl.pre|] == p.newMI;
    UnsavedAvoids(p, save);
    AroundMain(pl.pre, p.newMI, pl.post, Start);
    PreRun(p, live, save);
    MainStep(p.newMI, FlowRun(pl.pre, |pl.pre|, Start));
    var mid := FlowStep(p.newMI, true, FlowRun(pl.pre, |pl.pre|, Start));
    if p.immediate || !live {
      PlainRun(p.sub, -1, mid);
    } else if !d && !u {
      CloseRestore(p.sub, save, -1, mid);
    } else {
      Bracketed(p.sub, save, -1, mid);
    }
  }

  /** The source's placement is the corrected one except where the
      rewritten instruction reads flags that are dead afterwards, and where
      a displacement rewrite of an instruction that reads and writes the
      flags leaves them live. */
  lemma AsWrittenAgrees(p: Pieces, live: bool, save: Reg)
    requires WellShaped(p)
    requires ReadsFlags(p.newMI) ==> live
    requires !(!p.immediate && live && ReadsFlags(p.newMI) && WritesFlags(p.newMI))
    ensures PlaceAsWritten(p, live, save) == Place(p, live, save)
  {
    if p.immediate {
      assert p.loads + p.add == p.loads;
    }
  }

  /** Outside those two cases, and with a save register the rewrite does
      not name, the source's placement keeps the flags. */
  lemma AsWrittenKeepsFlags(p: Pieces, live: bool, save: Reg)
    requires WellShaped(p) && Avoids(Unsaved(p), save)
    requires ReadsFlags(p.newMI) ==> live
    requires !(!p.immediate && live && ReadsFlags(p.newMI) && WritesFlags(p.newMI))
    ensures var pl := PlaceAsWritten(p, live, save);
      KeepsFlags(Layout(pl, p.newMI), |pl.pre|, live)
  {
    AsWrittenAgrees(p, live, save);
    PlaceKeepsFlags(p, live, save);
  }

  /** The source's placement loses the flags around the SUB when a
      displacement is rebuilt for an instruction that both reads and
      writes the flags and they are live afterwards: nothing is saved
      around the SUB, which clobbers the flags the instruction produced. */
  lemma AsWrittenLosesFlagsAtSub(p: Pieces, save: Reg)
    requires WellShaped(p) && !p.immediate
    requires ReadsFlags(p.newMI) && WritesFlags(p.newMI)
    requires |p.sub| > 0 && WritesFlags(p.sub[|p.sub| - 1]) && p.sub[|p.sub| - 1].op.mn != IMPLICIT_DEF
    ensures var pl := PlaceAsWritten(p, true, save);
      !KeepsFlags(Layout(pl, p.newMI), |pl.pre|, true)
  {
    var pl := PlaceAsWritten(p, true, save);
    AroundMain(pl.pre, p.newMI, pl.post, Start);
    var mid := FlowStep(p.newMI, true, FlowRun(pl.pre, |pl.pre|, Start));
    ClobberedByLast(p.sub, -1, mid);
    assert Layout(pl, p.newMI)[|pl.pre|] == p.newMI;
  }

  /** The source's placement loses the carry of an ADC or SBB whose
      immediate is rebuilt when the flags are dead after it: the walk is
      asked only about the code after the instruction, so nothing is saved
      and the OR that rebuilds the immediate clobbers the flags the
      instruction reads. */
  lemma AsWrittenLosesReadFlags(p: Pieces, save: Reg)
    requires WellShaped(p) && p.immediate && ReadsFlags(p.newMI)
    requires |p.loads| > 0 && WritesFlags(p.loads[|p.loads| - 1]) && p.loads[|p.loads| - 1].op.mn != IMPLICIT_DEF
    ensures var pl := PlaceAsWritten(p, false, save);
      !KeepsFlags(Layout(pl, p.newMI), |pl.pre|, false)
  {
    var pl := PlaceAsWritten(p, false, save);
    assert pl.pre == p.loads && pl.post == [];
    AroundMain(pl.pre, p.newMI, pl.post, Start);
    ClobberedByLast(p.loads, |p.loads|, Start);
    MainStep(p.newMI, FlowRun(pl.pre, |pl.pre|, Start));
    assert Layout(pl, p.newMI)[|pl.pre|] == p.newMI;
  }

  /** The instance of `CarryLostExample`: the immediate holds a return
      opcode, so it is a candidate. */
  lemma CarryExampleIsCandidate()
    ensures var eax := RegOp(Phys(PhysReg(RAX, D)));
      Candidate(Instr(Op(ADC, 32, RI), [eax, eax, Imm(Word(0xC3, 0, 0, 0, 0, 0, 0, 0))]), 2) == Ok(true)
  {
    assert HazardAt(LeBytes(Word(0xC3, 0, 0, 0, 0, 0, 0, 0), 4), 0);
  }

  /** An instance: `ADC32ri EAX, EAX, 0xC3` (the immediate holds a return
      opcode) followed by code that writes the flags before reading them.
      The source rebuilds the immediate with an OR right before the ADC and
      saves nothing, so the ADC adds the OR's carry, not the one it was
      meant to read. */
  lemma CarryLostExample()
    ensures var eax := RegOp(Phys(PhysReg(RAX, D)));
      var mi := Instr(Op(ADC, 32, RI), [eax, eax, Imm(Word(0xC3, 0, 0, 0, 0, 0, 0, 0))]);
      Emit(mi, 2, 0).Ok?
      && var p := Emit(mi, 2, 0).value;
         var pl := PlaceAsWritten(p, false, Virt(p.used));
         ReadsFlags(p.newMI) && !KeepsFlags(Layout(pl, p.newMI), |pl.pre|, false)
  {
    AdcCarryLost(Word(0xC3, 0, 0, 0, 0, 0, 0, 0));
  }

  /** The same for any immediate of `ADC32ri EAX, EAX`. */
  lemma AdcCarryLost(w: Word)
    ensures var eax := RegOp(Phys(PhysReg(RAX, D)));
      var mi := Instr(Op(ADC, 32, RI), [eax, eax, Imm(w)]);
      Emit(mi, 2, 0).Ok?
      && var p := Emit(mi, 2, 0).value;
         var pl := PlaceAsWritten(p, false, Virt(p.used));
         ReadsFlags(p.newMI) && !KeepsFlags(Layout(pl, p.newMI), |pl.pre|, false)
  {
    var eax := RegOp(Phys(PhysReg(RAX, D)));
    var mi := Instr(Op(ADC, 32, RI), [eax, eax, Imm(w)]);
    AdcEmits(w);
    var p := Emit(mi, 2, 0).value;
    assert p.loads[|p.loads| - 1].op.mn == OR;
    AsWrittenLosesReadFlags(p, Virt(p.used));
  }

  /** `ADC32ri EAX, EAX` is rewritten into its register form, which reads
      the flags. */
  lemma AdcEmits(w: Word)
    ensures var eax := RegOp(Phys(PhysReg(RAX, D)));
      var r := Emit(Instr(Op(ADC, 32, RI), [eax, eax, Imm(w)]), 2, 0);
      r.Ok? && r.value.immediate && r.value.newMI.op == Op(ADC, 32, RR) && ReadsFlags(r.value.newMI)
  {
    var eax := RegOp(Phys(PhysReg(RAX, D)));
    var mi := Instr(Op(ADC, 32, RI), [eax, eax, Imm(w)]);
    assert IsRI(mi.op) && OpcodeFromMaps(mi.op) == Some(Op(ADC, 32, RR));
    assert EmitRItoRR(mi, Op(ADC, 32, RR), Virt(1)).Ok?;
  }

  /** The memory operands of `FlagsLostExample`: base RBX, scale 1, and
      the displacement 0xC3, a return opcode. */
  function SubExampleOps(): seq<Operand> {
    MemOps(RegOp(P64(RBX)), Word(0xC3, 0, 0, 0, 0, 0, 0, 0)) + [Imm(Word(1, 0, 0, 0, 0, 0, 0, 0))]
  }

  /** The scale and the immediate of the instance, 1, hold no hazard. */
  lemma OneIsHarmless(size: nat)
    requires size in {8, 16, 32, 64}
    ensures !Dangerous(Word(1, 0, 0, 0, 0, 0, 0, 0), size)
  {
    var bs := LeBytes(Word(1, 0, 0, 0, 0, 0, 0, 0), FieldBytes(size));
    forall k | 0 <= k < |bs| ensures !HazardAt(bs, k) {
      assert bs[k] == 0 || bs[k] == 1;
    }
  }

  /** The displacement of the instance is dangerous and not postponed. */
  lemma SubExampleDisplacement()
    ensures Candidate(Instr(Op(ADC, 32, MI8), SubExampleOps()), 3) == Ok(true)
  {
    var mi := Instr(Op(ADC, 32, MI8), SubExampleOps());
    AdcListed();
    assert mi.ops[3] == Imm(Word(0xC3, 0, 0, 0, 0, 0, 0, 0));
    ReturnByteDangerous();
    SubExampleNotPostponed();
  }

  /** `ADC32mi8` is listed, in the memory/immediate table only. */
  lemma AdcListed()
    ensures IsMI(Op(ADC, 32, MI8)) && !IsRM(Op(ADC, 32, MI8)) && !IsMR(Op(ADC, 32, MI8))
    ensures !IsLEA(Op(ADC, 32, MI8)) && OpcodeFromMaps(Op(ADC, 32, MI8)).Some?
  {
  }

  /** The displacement of the instance has a base register, so it is not
      left for later. */
  lemma SubExampleNotPostponed()
    ensures Postponed(Instr(Op(ADC, 32, MI8), SubExampleOps()), 3) == Ok(false)
  {
    AdcListed();
  }

  /** A displacement of 0xC3 holds a return opcode. */
  lemma ReturnByteDangerous()
    ensures Dangerous(Word(0xC3, 0, 0, 0, 0, 0, 0, 0), 64)
  {
    assert HazardAt(LeBytes(Word(0xC3, 0, 0, 0, 0, 0, 0, 0), 8), 0);
  }

  /** The displacement of the instance is its first candidate. */
  lemma SubExampleIsCandidate()
    ensures FirstCandidate(Instr(Op(ADC, 32, MI8), SubExampleOps()), 0) == Ok(Some(3))
  {
    var mi := Instr(Op(ADC, 32, MI8), SubExampleOps());
    var c := Candidates(mi);
    SubExampleDisplacement();
    assert FirstIn(c, 3) == Ok(Some(3));
    assert FirstIn(c, 2) == Ok(Some(3));
    assert c[1] == Ok(false) by {
      OneIsHarmless(SplitWidth(mi.op, 1));
    }
    assert FirstIn(c, 1) == Ok(Some(3));
  }

  /** An instance: `ADC32mi8 [RBX + 0xC3], 1` with the flags live after
      it. The source places nothing around the SUB that follows the ADC, so
      the flags the ADC produced are replaced by the SUB's. */
  lemma FlagsLostExample()
    ensures var mi := Instr(Op(ADC, 32, MI8), SubExampleOps());
      Emit(mi, 3, 0).Ok?
      && var p := Emit(mi, 3, 0).value;
         var pl := PlaceAsWritten(p, true, Virt(p.used));
         !p.immediate && !KeepsFlags(Layout(pl, p.newMI), |pl.pre|, true)
  {
    var mi := Instr(Op(ADC, 32, MI8), SubExampleOps());
    assert IsMI(mi.op);
    TablesDisjoint(mi.op);
    var r := Emit(mi, 3, 0);
    var p := r.value;
    AsWrittenLosesFlagsAtSub(p, Virt(p.used));
  }

  // ---------------------------------------------------------------------
  // Fresh registers.

  /** Every virtual register the instruction names is numbered below
      `n`. */
  predicate InstrBelow(i: Instr, n: nat) {
    forall j :: 0 <= j < |i.ops| && i.ops[j].RegOp? && i.ops[j].reg.Virt? ==> i.ops[j].reg.vreg < n
  }

  predicate CodeBelow(s: seq<Instr>, n: nat) {
    forall k :: 0 <= k < |s| ==> InstrBelow(s[k], n)
  }

  /** `n` is past every virtual register of the function, so a register
      numbered from `n` on is a new one, as the source's
      `createVirtualRegister` hands out. */
  predicate Fresh(f: Function, n: nat) {
    forall c :: c in f.blocks ==> CodeBelow(f.blocks[c].instrs, n)
  }

  lemma CodeBelowAppend(a: seq<Instr>, b: seq<Instr>, n: nat)
    ensures CodeBelow(a + b, n) <==> CodeBelow(a, n) && CodeBelow(b, n)
  {
    if CodeBelow(a, n) && CodeBelow(b, n) {
      forall k | 0 <= k < |a + b| ensures InstrBelow((a + b)[k], n) {
        if k < |a| { assert (a + b)[k] == a[k]; } else { assert (a + b)[k] == b[k - |a|]; }
      }
    }
    if CodeBelow(a + b, n) {
      forall k | 0 <= k < |a| ensures InstrBelow(a[k], n) {
        assert (a + b)[k] == a[k];
      }
      forall k | 0 <= k < |b| ensures InstrBelow(b[k], n) {
        assert (a + b)[k + |a|] == b[k];
      }
    }
  }

  lemma CodeBelowMore(s: seq<Instr>, n: nat, m: nat)
    requires CodeBelow(s, n) && n <= m
    ensures CodeBelow(s, m)
  {
    forall k | 0 <= k < |s| ensures InstrBelow(s[k], m) {
      assert InstrBelow(s[k], n);
    }
  }

  /** A register numbered from the bound on is named nowhere below it. */
  lemma BelowAvoids(s: seq<Instr>, n: nat, m: nat)
    requires CodeBelow(s, n) && n <= m
    ensures Avoids(s, Virt(m))
  {
    forall k | 0 <= k < |s| ensures !Names(s[k], Virt(m)) {
      assert InstrBelow(s[k], n);
      forall j | 0 <= j < |s[k].ops| ensures s[k].ops[j] != RegOp(Virt(m)) {
      }
    }
  }

  /** The loads name registers `n` to `n + |loads| - 1` only. */
  lemma LoadsBelow(halves: SplitPair, size: nat, n: nat)
    requires size in {8, 16, 32, 64}
    ensures var s := Loads(halves, size, n); CodeBelow(s, n + |s|)
  {
    var s := Loads(halves, size, n);
    forall k | 0 <= k < |s| ensures InstrBelow(s[k], n + |s|) {
      assert forall j :: 0 <= j < |s[k].ops| && s[k].ops[j].RegOp? ==>
        s[k].ops[j].reg in {Virt(n), Virt(n + 1), Virt(n + 2)};
    }
  }

  /** The register form names the registers of the instruction and the
      rebuilt value. */
  lemma ImmediateFormBelow(mi: Instr, i: nat, n: nat, m: nat)
    requires IsRI(mi.op) || (IsMI(mi.op) && i == 5 && |mi.ops| > 5)
    requires InstrBelow(mi, n) && n + 1 < m
    requires OpcodeFromMaps(mi.op).Some?
    requires IsRI(mi.op) ==> EmitRItoRR(mi, OpcodeFromMaps(mi.op).value, Virt(n + 1)).Ok?
    ensures IsRI(mi.op) ==> InstrBelow(EmitRItoRR(mi, OpcodeFromMaps(mi.op).value, Virt(n + 1)).value, m)
    ensures !IsRI(mi.op) ==> InstrBelow(EmitMItoMR(mi, OpcodeFromMaps(mi.op).value, Virt(n + 1)), m)
  {
    if !IsRI(mi.op) {
      var r := EmitMItoMR(mi, OpcodeFromMaps(mi.op).value, Virt(n + 1));
      forall j | 0 <= j < |r.ops| && r.ops[j].RegOp? && r.ops[j].reg.Virt?
        ensures r.ops[j].reg.vreg < m
      {
        if j < 5 {
          assert r.ops[..5][j] == mi.ops[..5][j];
        } else if j < |r.ops| - 1 {
          assert r.ops[j] == mi.ops[j + 1];
        }
      }
    }
  }

  lemma UnsavedBelow(p: Pieces, m: nat)
    requires CodeBelow(p.loads, m) && CodeBelow(p.add, m) && InstrBelow(p.newMI, m) && CodeBelow(p.sub, m)
    ensures CodeBelow(Unsaved(p), m)
  {
    assert CodeBelow([p.newMI], m);
    CodeBelowAppend(p.loads, p.add, m);
    CodeBelowAppend(p.loads + p.add, [p.newMI], m);
    CodeBelowAppend(p.loads + p.add + [p.newMI], p.sub, m);
  }

  /** The ADD, the rewritten instruction and the SUB of a displacement
      rewrite name the instruction's registers and the two it takes. */
  lemma DisplacementBelow(mi: Instr, i: nat, base: nat, loads: seq<Instr>, n: nat)
    requires i < |mi.ops| && mi.ops[i].Imm? && InstrBelow(mi, n) && Plain(loads)
    requires mi.op.mn in {ADC, ADD, SBB, SUB, OR, XOR, AND, CMP, MOV, TEST, MOVSX, MOVZX, LEA, LEA64_32}
    requires EmitDisplacement(mi, i, base, loads, n).Ok?
    ensures var p := EmitDisplacement(mi, i, base, loads, n).value; var m := n + p.used;
      CodeBelow(p.add, m) && InstrBelow(p.newMI, m) && CodeBelow(p.sub, m)
  {
    var p := EmitDisplacement(mi, i, base, loads, n).value;
    var m := n + p.used;
    var sum := Virt(n + |loads|);
    assert p.add == [Instr(AddRROpcode(8).value, [RegOp(sum), mi.ops[base], RegOp(Virt(n + 1))])];
    assert p.newMI == Instr(mi.op, mi.ops[base := RegOp(sum)][i := Imm(Zero)]);
    assert p.sub == [Instr(SubRROpcode(8).value, [RegOp(Virt(n + |loads| + 1)), RegOp(sum), RegOp(Virt(n + 1))])];
    assert InstrBelow(p.add[0], m);
    assert InstrBelow(p.sub[0], m);
  }

  /** The rewrite names the registers of the instruction and its own,
      numbered from `n` below `n + used`. */
  lemma EmitBelow(mi: Instr, i: nat, n: nat)
    requires i < |mi.ops| && mi.ops[i].Imm? && Lookup(mi.op).Some? && InstrBelow(mi, n)
    requires Emit(mi, i, n).Ok?
    ensures var p := Emit(mi, i, n).value; CodeBelow(Unsaved(p), n + p.used)
  {
    ListedFacts(mi.op);
    var p := Emit(mi, i, n).value;
    var m := n + p.used;
    var size := SplitWidth(mi.op, i);
    var loads := OperandLoads(mi, i, n);
    LoadsBelow(SplitInt(mi.ops[i].value, size), size, n);
    assert p.loads == loads;
    CodeBelowMore(loads, n + |loads|, m);
    if p.immediate {
      assert p == EmitImmediate(mi, i, OpcodeFromMaps(mi.op).value, loads, n).value;
      ImmediateFormBelow(mi, i, n, m);
    } else {
      var base := if IsMI(mi.op) || IsMR(mi.op) then 0 else 1;
      assert p == EmitDisplacement(mi, i, base, loads, n).value;
      DisplacementBelow(mi, i, base, loads, n);
    }
    UnsavedBelow(p, m);
  }

  /** The placed code names the save register, `m`, only when it needs
      one. */
  lemma PlaceBelow(p: Pieces, live: bool, m: nat)
    requires CodeBelow(Unsaved(p), m)
    ensures var pl := Place(p, live, Virt(m));
      CodeBelow(Layout(pl, p.newMI), m + if NeedsSave(p, live) then 1 else 0)
  {
    var m' := m + if NeedsSave(p, live) then 1 else 0;
    var x := p.loads + p.add;
    var pl := Place(p, live, Virt(m));
    CodeBelowMore(Unsaved(p), m, m');
    CodeBelowAppend(x + [p.newMI], p.sub, m');
    CodeBelowAppend(x, [p.newMI], m');
    if NeedsSave(p, live) {
      assert CodeBelow(SaveFlags(Virt(m)), m') && CodeBelow(RestoreFlags(Virt(m)), m');
      CodeBelowAppend(SaveFlags(Virt(m)), x, m');
      CodeBelowAppend(SaveFlags(Virt(m)) + x, RestoreFlags(Virt(m)), m');
      CodeBelowAppend(SaveFlags(Virt(m)), p.sub, m');
      CodeBelowAppend(p.sub, RestoreFlags(Virt(m)), m');
      CodeBelowAppend(SaveFlags(Virt(m)) + p.sub, RestoreFlags(Virt(m)), m');
    }
    assert CodeBelow(pl.pre, m') && CodeBelow(pl.post, m');
    CodeBelowAppend(pl.pre, [p.newMI], m');
    CodeBelowAppend(pl.pre + [p.newMI], pl.post, m');
  }

  // ---------------------------------------------------------------------
  // What is left to rebuild.

  /** No operand of the instruction needs rebuilding. */
  predicate Settled(i: Instr) {
    FirstCandidate(i, 0) == Ok(None)
  }

  predicate AllSettled(s: seq<Instr>) {
    forall k :: 0 <= k < |s| ==> Settled(s[k])
  }

  /** The instruction carries no immediate. */
  predicate NoImm(i: Instr) {
    forall j :: 0 <= j < |i.ops| ==> !i.ops[j].Imm?
  }

  predicate NoImms(s: seq<Instr>) {
    forall k :: 0 <= k < |s| ==> NoImm(s[k])
  }

  lemma {:induction false} FirstInNone(c: seq<Result<bool>>, i: nat)
    requires i <= |c| && forall j :: i <= j < |c| ==> c[j] == Ok(false)
    ensures FirstIn(c, i) == Ok(None)
    decreases |c| - i
  {
    if i < |c| {
      FirstInNone(c, i + 1);
    }
  }

  /** An instruction none of whose operands is a candidate is settled, the
      converse of `FirstCandidateSkips`. */
  lemma SettledWhenNoCandidate(mi: Instr)
    requires forall j :: 0 <= j < |mi.ops| ==> Candidate(mi, j) == Ok(false)
    ensures Settled(mi)
  {
    FirstInNone(Candidates(mi), 0);
  }

  lemma NoImmsSettled(s: seq<Instr>)
    requires NoImms(s)
    ensures AllSettled(s)
  {
    forall k | 0 <= k < |s| ensures Settled(s[k]) {
      assert NoImm(s[k]);
      SettledWhenNoCandidate(s[k]);
    }
  }

  lemma AllSettledAppend(a: seq<Instr>, b: seq<Instr>)
    requires AllSettled(a) && AllSettled(b)
    ensures AllSettled(a + b)
  {
    forall k | 0 <= k < |a + b| ensures Settled((a + b)[k]) {
      if k < |a| { assert (a + b)[k] == a[k]; } else { assert (a + b)[k] == b[k - |a|]; }
    }
  }

  lemma NoImmsAppend(a: seq<Instr>, b: seq<Instr>)
    requires NoImms(a) && NoImms(b)
    ensures NoImms(a + b)
  {
    forall k | 0 <= k < |a + b| ensures NoImm((a + b)[k]) {
      if k < |a| { assert (a + b)[k] == a[k]; } else { assert (a + b)[k] == b[k - |a|]; }
    }
  }

  /** The opcodes of the loads are listed at the width they load. */
  lemma LoadOpcodesListed(size: nat)
    requires size in {8, 16, 32, 64}
    ensures SplitWidth(MovRIOpcode(size / 8).value, 1) == size
    ensures SplitWidth(OrRIOpcode(size / 8).value, 2) == size
  {
    TablesDisjoint(MovRIOpcode(size / 8).value);
    TablesDisjoint(OrRIOpcode(size / 8).value);
  }

  /** An instruction whose one immediate, operand `j`, holds no hazard at
      the width the pass splits it at is settled. */
  lemma OneImmSettled(x: Instr, j: nat, size: nat)
    requires size in {8, 16, 32, 64} && j < |x.ops| && SplitWidth(x.op, j) == size
    requires forall q :: 0 <= q < |x.ops| && q != j ==> !x.ops[q].Imm?
    requires x.ops[j].Imm? && !Dangerous(x.ops[j].value, size)
    ensures Settled(x)
  {
    SettledWhenNoCandidate(x);
  }

  /** The loads hold the halves of the split, which carry no hazard at the
      width of the load: the pass finds nothing in them to rebuild. */
  lemma LoadsSettled(halves: SplitPair, size: nat, n: nat)
    requires size in {8, 16, 32, 64}
    requires !Dangerous(halves.first, size) && !Dangerous(halves.second, size)
    ensures AllSettled(Loads(halves, size, n))
  {
    var s := Loads(halves, size, n);
    LoadOpcodesListed(size);
    OneImmSettled(s[0], 1, size);
    if Fits32(halves.first) {
      OneImmSettled(s[1], 2, size);
    } else {
      OneImmSettled(s[1], 1, size);
      assert NoImm(s[2]);
      SettledWhenNoCandidate(s[2]);
    }
  }

  /** The rewrite's loads are those of the operand, and its ADD and SUB
      carry no immediate. */
  lemma EmitShape(mi: Instr, i: nat, n: nat)
    requires i < |mi.ops| && mi.ops[i].Imm? && Lookup(mi.op).Some? && Emit(mi, i, n).Ok?
    ensures var p := Emit(mi, i, n).value;
      p.loads == OperandLoads(mi, i, n) && NoImms(p.add) && NoImms(p.sub)
  {
    ListedFacts(mi.op);
    var loads := OperandLoads(mi, i, n);
    if IsRI(mi.op) || (IsMI(mi.op) && i == 5) {
      assert Emit(mi, i, n) == EmitImmediate(mi, i, OpcodeFromMaps(mi.op).value, loads, n);
    } else {
      var base := if IsMI(mi.op) || IsMR(mi.op) then 0 else 1;
      assert Emit(mi, i, n) == EmitDisplacement(mi, i, base, loads, n);
    }
  }

  /** Around the rewritten instruction: the pass finds nothing to rebuild in
      the code before it, and the code after it carries no immediate. */
  lemma PlaceShape(p: Pieces, live: bool, save: Reg)
    requires AllSettled(p.loads) && NoImms(p.add) && NoImms(p.sub)
    ensures var pl := Place(p, live, save); AllSettled(pl.pre) && NoImms(pl.post)
  {
    var x := p.loads + p.add;
    var sv, rs := SaveFlags(save), RestoreFlags(save);
    assert NoImms(sv) && NoImms(rs);
    NoImmsSettled(p.add);
    NoImmsSettled(sv);
    NoImmsSettled(rs);
    AllSettledAppend(p.loads, p.add);
    AllSettledAppend(sv, x);
    AllSettledAppend(sv + x, rs);
    NoImmsAppend(p.sub, rs);
    NoImmsAppend(sv, p.sub);
    NoImmsAppend(sv + p.sub, rs);
  }

  /** 1 for an immediate operand that is not zero. */
  function Heavy(o: Operand): nat {
    if o.Imm? && o.value != Zero then 1 else 0
  }

  function OpsWeight(ops: seq<Operand>): nat
    decreases |ops|
  {
    if |ops| == 0 then 0 else Heavy(ops[0]) + OpsWeight(ops[1..])
  }

  /** The nonzero immediates of a piece of code. Every rewrite lowers it,
      which bounds how often the block pass looks at the same
      instruction. */
  function Weight(s: seq<Instr>): nat
    decreases |s|
  {
    if |s| == 0 then 0 else OpsWeight(s[0].ops) + Weight(s[1..])
  }

  lemma {:induction false} OpsWeightAppend(a: seq<Operand>, b: seq<Operand>)
    ensures OpsWeight(a + b) == OpsWeight(a) + OpsWeight(b)
    decreases |a|
  {
    if |a| == 0 {
      assert a + b == b;
    } else {
      assert (a + b)[0] == a[0] && (a + b)[1..] == a[1..] + b;
      OpsWeightAppend(a[1..], b);
    }
  }

  lemma {:induction false} WeightAppend(a: seq<Instr>, b: seq<Instr>)
    ensures Weight(a + b) == Weight(a) + Weight(b)
    decreases |a|
  {
    if |a| == 0 {
      assert a + b == b;
    } else {
      assert (a + b)[0] == a[0] && (a + b)[1..] == a[1..] + b;
      WeightAppend(a[1..], b);
    }
  }

  /** Replacing one operand changes the weight by the difference. */
  lemma OpsWeightUpdate(ops: seq<Operand>, j: nat, x: Operand)
    requires j < |ops|
    ensures OpsWeight(ops[j := x]) + Heavy(ops[j]) == OpsWeight(ops) + Heavy(x)
  {
    assert ops == ops[..j] + [ops[j]] + ops[j + 1..];
    assert ops[j := x] == ops[..j] + [x] + ops[j + 1..];
    OpsWeightAppend(ops[..j] + [ops[j]], ops[j + 1..]);
    OpsWeightAppend(ops[..j], [ops[j]]);
    OpsWeightAppend(ops[..j] + [x], ops[j + 1..]);
    OpsWeightAppend(ops[..j], [x]);
    assert [x][1..] == [] && [ops[j]][1..] == [];
  }

  lemma {:induction false} LightOps(ops: seq<Operand>)
    requires forall j :: 0 <= j < |ops| ==> !ops[j].Imm?
    ensures OpsWeight(ops) == 0
    decreases |ops|
  {
    if |ops| > 0 {
      assert forall j :: 0 <= j < |ops[1..]| ==> ops[1..][j] == ops[j + 1];
      LightOps(ops[1..]);
    }
  }

  lemma {:induction false} NoImmsWeightless(s: seq<Instr>)
    requires NoImms(s)
    ensures Weight(s) == 0
    decreases |s|
  {
    if |s| > 0 {
      assert NoImm(s[0]);
      LightOps(s[0].ops);
      assert NoImms(s[1..]) by {
        forall k | 0 <= k < |s[1..]| ensures NoImm(s[1..][k]) {
          assert s[1..][k] == s[k + 1];
        }
      }
      NoImmsWeightless(s[1..]);
    }
  }

  /** Zero holds no hazard at any width. */
  lemma ZeroHarmless(size: nat)
    requires size in {8, 16, 32, 64}
    ensures !Dangerous(Zero, size)
  {
    ZeroIsSafe(FieldBytes(size));
    FieldSafeIff(Zero, FieldBytes(size));
  }

  /** The register/register form carries no immediate. */
  lemma RegisterFormLight(mi: Instr, newOp: Opcode, immReg: Reg)
    requires EmitRItoRR(mi, newOp, immReg).Ok?
    ensures OpsWeight(EmitRItoRR(mi, newOp, immReg).value.ops) == 0
  {
    LightOps(EmitRItoRR(mi, newOp, immReg).value.ops);
  }

  /** The memory/register form drops the immediate. */
  lemma MemoryFormLighter(mi: Instr, newOp: Opcode, immReg: Reg)
    requires |mi.ops| > 5
    ensures OpsWeight(EmitMItoMR(mi, newOp, immReg).ops) + Heavy(mi.ops[5]) == OpsWeight(mi.ops)
  {
    var ops := mi.ops;
    var tail := [RegOp(immReg)];
    assert ops == ops[..5] + [ops[5]] + ops[6..];
    assert EmitMItoMR(mi, newOp, immReg).ops == ops[..5] + ops[6..] + tail;
    OpsWeightAppend(ops[..5] + [ops[5]], ops[6..]);
    OpsWeightAppend(ops[..5], [ops[5]]);
    OpsWeightAppend(ops[..5] + ops[6..], tail);
    OpsWeightAppend(ops[..5], ops[6..]);
    assert [ops[5]][1..] == [] && tail[1..] == [];
  }

  /** The displacement rewrite replaces a register by a register and the
      displacement by zero. */
  lemma DisplacementFormLighter(ops: seq<Operand>, ops': seq<Operand>, base: nat, i: nat)
    requires base < |ops| && i < |ops| && ops[base].RegOp? && ops[i].Imm?
    requires |ops'| == |ops| && ops'[base].RegOp? && ops'[i] == Imm(Zero)
    requires forall j :: 0 <= j < |ops| && j != base && j != i ==> ops'[j] == ops[j]
    ensures OpsWeight(ops') + Heavy(ops[i]) == OpsWeight(ops)
  {
    assert ops' == ops[base := ops'[base]][i := Imm(Zero)];
    OpsWeightUpdate(ops, base, ops'[base]);
    OpsWeightUpdate(ops[base := ops'[base]], i, Imm(Zero));
  }

  /** The rewritten instruction has one nonzero immediate fewer than the
      original: the register forms have none left or lose the immediate,
      and a displacement becomes zero. */
  lemma EmitLighter(mi: Instr, i: nat, n: nat)
    requires i < |mi.ops| && Candidate(mi, i) == Ok(true) && Emit(mi, i, n).Ok?
    ensures OpsWeight(Emit(mi, i, n).value.newMI.ops) < OpsWeight(mi.ops)
  {
    ListedFacts(mi.op);
    var p := Emit(mi, i, n).value;
    ZeroHarmless(SplitWidth(mi.op, i));
    assert Heavy(mi.ops[i]) == 1;
    OpsWeightUpdate(mi.ops, i, RegOp(NoReg));
    var newOp := OpcodeFromMaps(mi.op).value;
    if IsRI(mi.op) {
      assert p.newMI == EmitRItoRR(mi, newOp, Virt(n + 1)).value;
      RegisterFormLight(mi, newOp, Virt(n + 1));
    } else if IsMI(mi.op) && i == 5 {
      assert p.newMI == EmitMItoMR(mi, newOp, Virt(n + 1));
      MemoryFormLighter(mi, newOp, Virt(n + 1));
    } else {
      var base := if IsMI(mi.op) || IsMR(mi.op) then 0 else 1;
      var loads := OperandLoads(mi, i, n);
      assert p == EmitDisplacement(mi, i, base, loads, n).value;
      DisplacementFormLighter(mi.ops, p.newMI.ops, base, i);
    }
  }

  /** What the rewrite of candidate `i` yields: pieces that name no
      register past the ones they take, loads the pass finds nothing in,
      an ADD and a SUB with no immediate, and a rewritten instruction with
      fewer nonzero immediates than the original. */
  lemma EmitFacts(mi: Instr, i: nat, n: nat)
    requires i < |mi.ops| && Candidate(mi, i) == Ok(true) && InstrBelow(mi, n) && Emit(mi, i, n).Ok?
    ensures var p := Emit(mi, i, n).value;
      WellShaped(p) && CodeBelow(Unsaved(p), n + p.used) && AllSettled(p.loads)
      && NoImms(p.add) && NoImms(p.sub) && OpsWeight(p.newMI.ops) < OpsWeight(mi.ops)
  {
    EmitBelow(mi, i, n);
    EmitShape(mi, i, n);
    var size := SplitWidth(mi.op, i);
    SplitHalvesSafe(mi.ops[i].value, size);
    LoadsSettled(SplitInt(mi.ops[i].value, size), size, n);
    EmitLighter(mi, i, n);
  }

  /** Laid out, the code before the instruction is `pre` and the rest
      weighs what the instruction weighs when `post` has no immediates. */
  lemma LayoutWeight(pl: Placement, newMI: Instr, w: nat)
    requires NoImms(pl.post) && OpsWeight(newMI.ops) < w
    ensures var code := Layout(pl, newMI); code[..|pl.pre|] == pl.pre && Weight(code[|pl.pre|..]) < w
  {
    var code := Layout(pl, newMI);
    assert code[..|pl.pre|] == pl.pre;
    assert code[|pl.pre|..] == [newMI] + pl.post;
    WeightAppend([newMI], pl.post);
    NoImmsWeightless(pl.post);
    assert [newMI][1..] == [];
  }

  // ---------------------------------------------------------------------
  // The pass over a function.

  /** Block `b` of `f` with its instructions replaced. */
  function WithInstrs(f: Function, b: nat, s: seq<Instr>): (g: Function)
    requires b in f.blocks
    ensures g.blocks.Keys == f.blocks.Keys && g.layout == f.layout
    ensures b in g.blocks && g.blocks[b].instrs == s && g.blocks[b].succs == f.blocks[b].succs
    ensures forall c :: c in f.blocks && c != b ==> g.blocks[c] == f.blocks[c]
    ensures SuccsClosed(f) ==> SuccsClosed(g)
  {
    f.(blocks := f.blocks[b := Block(s, f.blocks[b].succs)])
  }

  /**
   The walk's answer for the code after the rewrite, which ends at
   position `at` of block `b`: from there, or from the start of the first
   successor when the rewritten code ends the block. The source takes the
   first successor whatever their number, and there is none to take when
   the block has no successor.
   */
  function LiveAfter(f: Function, b: nat, at: nat): (r: Result<bool>)
    requires b in f.blocks && SuccsClosed(f) && at <= |f.blocks[b].instrs|
    ensures r.Fail? <==> at == |f.blocks[b].instrs| && |f.blocks[b].succs| == 0
  {
    var blk := f.blocks[b];
    if at < |blk.instrs| then Ok(NeedToSaveBounded(f, b, at))
    else if |blk.succs| == 0 then Fail("no successor to continue the walk in")
    else Ok(NeedToSaveBounded(f, blk.succs[0], 0))
  }

  /** The code replacing one instruction, the position of the rewritten
      instruction in it, the number of fresh registers it takes, and the
      walk's answer it was placed for. */
  datatype Replacement = Replacement(code: seq<Instr>, main: nat, used: nat, live: bool)

  /**
   The source's query after the rewrite: when the rewritten code ends the
   block, the walk starts at the first instruction of the first successor,
   and when that block is empty there is no instruction to start at (the
   end of the block is read as one). Both that case and a block without
   successors are failures here; otherwise the query is `LiveAfter`'s.
   */
  function LiveAfterAsWritten(f: Function, b: nat, at: nat): (r: Result<bool>)
    requires b in f.blocks && SuccsClosed(f) && at <= |f.blocks[b].instrs|
    ensures r.Fail? <==> (at == |f.blocks[b].instrs|
                          && (|f.blocks[b].succs| == 0 || |f.blocks[f.blocks[b].succs[0]].instrs| == 0))
    ensures r.Ok? ==> r == LiveAfter(f, b, at)
  {
    var blk := f.blocks[b];
    if at < |blk.instrs| then Ok(NeedToSaveBounded(f, b, at))
    else if |blk.succs| == 0 then Fail("no successor to continue the walk in")
    else if |f.blocks[blk.succs[0]].instrs| == 0 then Fail("the end of an empty block read as an instruction")
    else Ok(NeedToSaveBounded(f, blk.succs[0], 0))
  }

  /** Where the source has no instruction to start at, the corrected query
      crosses the empty first successor as the walk crosses any block end:
      it answers yes unless that block has a single successor, and then it
      gives the walk's answer from there whenever the walk finds one. */
  lemma {:induction false} LiveAfterWalksOn(f: Function, b: nat)
    requires b in f.blocks && SuccsClosed(f)
    requires |f.blocks[b].succs| > 0 && |f.blocks[f.blocks[b].succs[0]].instrs| == 0
    ensures LiveAfterAsWritten(f, b, |f.blocks[b].instrs|).Fail?
    ensures var c := f.blocks[f.blocks[b].succs[0]];
      |c.succs| != 1 ==> LiveAfter(f, b, |f.blocks[b].instrs|) == Ok(true)
    ensures var c := f.blocks[f.blocks[b].succs[0]];
      |c.succs| == 1 && NeedToSave(f, c.succs[0], 0, |f.blocks| - 1).Some? ==>
        LiveAfter(f, b, |f.blocks[b].instrs|) == Ok(NeedToSave(f, c.succs[0], 0, |f.blocks| - 1).value)
  {
    var c := f.blocks[b].succs[0];
    assert c in f.blocks;
    if |f.blocks[c].succs| == 1 {
      var d := f.blocks[c].succs[0];
      assert d in f.blocks;
      assert |f.blocks| > 0 by { assert b in f.blocks.Keys; }
      assert NeedToSave(f, c, 0, |f.blocks|) == NeedToSave(f, d, 0, |f.blocks| - 1);
    }
  }

  /** The code that takes the rewritten instruction's place: the pieces
      laid out around it with the flags saved as `live` demands, in a
      virtual register of its own when they are. */
  function Replace(p: Pieces, live: bool, n: nat, w: nat): (rp: Replacement)
    requires WellShaped(p) && CodeBelow(Unsaved(p), n + p.used) && AllSettled(p.loads)
    requires NoImms(p.add) && NoImms(p.sub) && OpsWeight(p.newMI.ops) < w
    ensures rp.live == live && rp.main < |rp.code| && KeepsFlags(rp.code, rp.main, live)
    ensures AllSettled(rp.code[..rp.main]) && Weight(rp.code[rp.main..]) < w
    ensures CodeBelow(rp.code, n + rp.used) && p.used <= rp.used <= p.used + 1
  {
    var m := n + p.used;
    var pl := Place(p, live, Virt(m));
    BelowAvoids(Unsaved(p), m, m);
    PlaceKeepsFlags(p, live, Virt(m));
    PlaceBelow(p, live, m);
    PlaceShape(p, live, Virt(m));
    LayoutWeight(pl, p.newMI, w);
    Replacement(Layout(pl, p.newMI), |pl.pre|, p.used + (if NeedsSave(p, live) then 1 else 0), live)
  }

  /**
   The rewrite of instruction `k` of block `b`, with fresh registers from
   `n`; `None` when no operand needs rebuilding. The first operand that
   qualifies is rebuilt. The walk is asked about the function with the
   rewritten code in place and no flag save yet.
   */
  function RewriteAt(f: Function, b: nat, k: nat, n: nat): (r: Result<Option<Replacement>>)
    requires b in f.blocks && SuccsClosed(f) && k < |f.blocks[b].instrs|
    requires InstrBelow(f.blocks[b].instrs[k], n)
    ensures r.Ok? && r.value.None? <==> Settled(f.blocks[b].instrs[k])
    ensures r.Ok? && r.value.Some? ==> var rp := r.value.value;
      rp.main < |rp.code| && KeepsFlags(rp.code, rp.main, rp.live)
    ensures r.Ok? && r.value.Some? ==> var rp := r.value.value;
      rp.main < |rp.code| && AllSettled(rp.code[..rp.main])
      && Weight(rp.code[rp.main..]) < OpsWeight(f.blocks[b].instrs[k].ops)
    ensures r.Ok? && r.value.Some? ==> CodeBelow(r.value.value.code, n + r.value.value.used)
  {
    var s := f.blocks[b].instrs;
    var mi := s[k];
    match FirstCandidate(mi, 0)
    case Fail(why) => Fail(why)
    case Ok(None) => Ok(None)
    case Ok(Some(i)) =>
      FirstCandidateFound(mi, 0);
      CandidateListed(mi, i);
      match Emit(mi, i, n)
      case Fail(why) => Fail(why)
      case Ok(p) =>
        var mid := WithInstrs(f, b, s[..k] + Unsaved(p) + s[k + 1..]);
        match LiveAfter(mid, b, k + |Unsaved(p)|)
        case Fail(why) => Fail(why)
        case Ok(live) =>
          EmitFacts(mi, i, n);
          Ok(Some(Replace(p, live, n, OpsWeight(mi.ops))))
  }

  /** Replacing instruction `k` by code that names no register past `m`
      keeps the function fresh at `m`. */
  lemma ReplaceFresh(f: Function, b: nat, k: nat, code: seq<Instr>, n: nat, m: nat)
    requires b in f.blocks && k < |f.blocks[b].instrs| && Fresh(f, n) && n <= m && CodeBelow(code, m)
    ensures var s := f.blocks[b].instrs; Fresh(WithInstrs(f, b, s[..k] + code + s[k + 1..]), m)
  {
    var s := f.blocks[b].instrs;
    var g := WithInstrs(f, b, s[..k] + code + s[k + 1..]);
    assert s == s[..k] + [s[k]] + s[k + 1..];
    CodeBelowMore(s, n, m);
    CodeBelowAppend(s[..k] + [s[k]], s[k + 1..], m);
    CodeBelowAppend(s[..k], [s[k]], m);
    CodeBelowAppend(s[..k], code, m);
    CodeBelowAppend(s[..k] + code, s[k + 1..], m);
    forall c | c in g.blocks ensures CodeBelow(g.blocks[c].instrs, m) {
      if c != b {
        CodeBelowMore(f.blocks[c].instrs, n, m);
      }
    }
  }

  /** Going on after an instruction left as it is: the nonzero immediates
      from there on are no more than before. */
  lemma SkipLighter(s: seq<Instr>, k: nat)
    requires k < |s|
    ensures Weight(s[k + 1..]) <= Weight(s[k..])
  {
    assert s[k..][0] == s[k] && s[k..][1..] == s[k + 1..];
  }

  /** Going on at the rewritten instruction: the instructions before `k`
      are kept, the code before the rewritten instruction is settled when
      the replacement's is, and the nonzero immediates from the rewritten
      instruction on are fewer than from the original instruction on. */
  lemma RescanStep(s: seq<Instr>, k: nat, code: seq<Instr>, main: nat, t: seq<Instr>)
    requires k < |s| && main < |code| && Weight(code[main..]) < OpsWeight(s[k].ops)
    requires AllSettled(code[..main]) && t == s[..k] + code + s[k + 1..]
    ensures k + main < |t| && t[..k] == s[..k] && Weight(t[k + main..]) < Weight(s[k..])
    ensures AllSettled(t[k..k + main])
  {
    assert t[k + main..] == code[main..] + s[k + 1..];
    WeightAppend(code[main..], s[k + 1..]);
    assert s[k..][0] == s[k] && s[k..][1..] == s[k + 1..];
    assert t[k..k + main] == code[..main];
  }

  /** An instruction left as it is, then everything after it settled:
      everything from it on is settled. */
  lemma SkipSettled(s: seq<Instr>, u: seq<Instr>, k: nat)
    requires k < |s| && Settled(s[k])
    requires k + 1 <= |u| && u[..k + 1] == s[..k + 1] && AllSettled(u[k + 1..])
    ensures k <= |u| && u[..k] == s[..k] && AllSettled(u[k..])
  {
    assert s[k..k + 1] == [s[k]];
    SettledJoin(s, s, u, k, k + 1);
  }

  /** The prefix before `k` kept, the code from `k` to `j` settled and
      everything from `j` on settled give everything from `k` on settled. */
  lemma SettledJoin(s: seq<Instr>, t: seq<Instr>, u: seq<Instr>, k: nat, j: nat)
    requires k <= j <= |t| && k <= |s| && t[..k] == s[..k] && AllSettled(t[k..j])
    requires j <= |u| && u[..j] == t[..j] && AllSettled(u[j..])
    ensures k <= |u| && u[..k] == s[..k] && AllSettled(u[k..])
  {
    assert u[..k] == u[..j][..k];
    forall m | 0 <= m < |u[k..]| ensures Settled(u[k..][m]) {
      if k + m < j {
        assert u[k..][m] == u[..j][k + m] == t[k..j][m];
      } else {
        assert u[k..][m] == u[j..][k + m - j];
      }
    }
  }

  /** Instruction `k` of block `b` replaced by `rp`'s code leaves a
      function the pass can go on with at the main instruction. */
  predicate Rescannable(f: Function, b: nat, k: nat, n: nat, rp: Replacement)
    requires b in f.blocks && k < |f.blocks[b].instrs|
  {
    var s := f.blocks[b].instrs;
    var g := WithInstrs(f, b, s[..k] + rp.code + s[k + 1..]);
    var t := g.blocks[b].instrs;
    SuccsClosed(g) && k + rp.main <= |t| && Fresh(g, n + rp.used)
    && Weight(t[k + rp.main..]) < Weight(s[k..])
    && t[..k] == s[..k] && AllSettled(t[k..k + rp.main])
  }

  /** What the rescan needs after a rewrite at `k`: the spliced block is
      still closed and fresh above the registers the rewrite used, its
      prefix is kept, the code before the main instruction is settled, and
      what is left to scan weighs less than before. */
  lemma RescanFacts(f: Function, b: nat, k: nat, n: nat, rp: Replacement)
    requires b in f.blocks && SuccsClosed(f) && k < |f.blocks[b].instrs| && Fresh(f, n)
    requires rp.main < |rp.code| && AllSettled(rp.code[..rp.main]) && CodeBelow(rp.code, n + rp.used)
    requires Weight(rp.code[rp.main..]) < OpsWeight(f.blocks[b].instrs[k].ops)
    ensures Rescannable(f, b, k, n, rp)
  {
    var s := f.blocks[b].instrs;
    var g := WithInstrs(f, b, s[..k] + rp.code + s[k + 1..]);
    var t := g.blocks[b].instrs;
    RescanStep(s, k, rp.code, rp.main, t);
    ReplaceFresh(f, b, k, rp.code, n, n + rp.used);
  }

  /** What the pass over block `b` from instruction `k` promises of the
      function `g` and counter `m` it returns: only block `b`'s
      instructions change, the counter has only grown and is past every
      virtual register of `g`, the instructions before `k` are kept, and
      nothing from `k` on has an operand left to rebuild. */
  predicate Rebuilt(f: Function, b: nat, k: nat, n: nat, g: Function, m: nat)
    requires b in f.blocks
  {
    g.blocks.Keys == f.blocks.Keys && g.layout == f.layout && SuccsClosed(g)
    && g.blocks[b].succs == f.blocks[b].succs
    && (forall c :: c in f.blocks && c != b ==> g.blocks[c] == f.blocks[c])
    && n <= m && Fresh(g, m)
    && k <= |f.blocks[b].instrs| && k <= |g.blocks[b].instrs| && g.blocks[b].instrs[..k] == f.blocks[b].instrs[..k]
    && AllSettled(g.blocks[b].instrs[k..])
  }

  lemma RebuiltDone(f: Function, b: nat, n: nat)
    requires b in f.blocks && SuccsClosed(f) && Fresh(f, n)
    ensures Rebuilt(f, b, |f.blocks[b].instrs|, n, f, n)
  {
    var s := f.blocks[b].instrs;
    assert s[|s|..] == [];
  }

  /** An instruction left as it is extends the promise back over it. */
  lemma RebuiltSkip(f: Function, b: nat, k: nat, n: nat, h: Function, m: nat)
    requires b in f.blocks && k < |f.blocks[b].instrs| && Settled(f.blocks[b].instrs[k])
    requires Rebuilt(f, b, k + 1, n, h, m)
    ensures Rebuilt(f, b, k, n, h, m)
  {
    SkipSettled(f.blocks[b].instrs, h.blocks[b].instrs, k);
  }

  /** The pass over the spliced block from the main instruction on
      extends the promise back over the rewritten instruction. */
  lemma RebuiltRewrite(f: Function, b: nat, k: nat, n: nat, rp: Replacement, h: Function, m: nat)
    requires b in f.blocks && k < |f.blocks[b].instrs| && Rescannable(f, b, k, n, rp)
    requires var s := f.blocks[b].instrs;
      Rebuilt(WithInstrs(f, b, s[..k] + rp.code + s[k + 1..]), b, k + rp.main, n + rp.used, h, m)
    ensures Rebuilt(f, b, k, n, h, m)
  {
    var s := f.blocks[b].instrs;
    var g := WithInstrs(f, b, s[..k] + rp.code + s[k + 1..]);
    SettledJoin(s, g.blocks[b].instrs, h.blocks[b].instrs, k, k + rp.main);
  }

  /**
   The pass over block `b` from instruction `k`. An instruction with an
   operand to rebuild is replaced, and the pass goes on at the rewritten
   instruction, so that an operand after the one rebuilt is looked at too;
   every rewrite removes a nonzero immediate, which bounds the rescans.
   */
  function ReconBlock(f: Function, b: nat, k: nat, n: nat): (r: Result<(Function, nat)>)
    requires b in f.blocks && SuccsClosed(f) && k <= |f.blocks[b].instrs| && Fresh(f, n)
    ensures r.Ok? ==> Rebuilt(f, b, k, n, r.value.0, r.value.1)
    decreases Weight(f.blocks[b].instrs[k..]), |f.blocks[b].instrs| - k, 1
  {
    if k == |f.blocks[b].instrs| then
      RebuiltDone(f, b, n);
      Ok((f, n))
    else match RewriteAt(f, b, k, n)
      case Fail(why) => Fail(why)
      case Ok(None) => ReconSkip(f, b, k, n)
      case Ok(Some(rp)) =>
        RescanFacts(f, b, k, n, rp);
        ReconRewrite(f, b, k, n, rp)
  }

  /** Instruction `k`, with nothing to rebuild, kept; the pass goes on at
      the next one. */
  function ReconSkip(f: Function, b: nat, k: nat, n: nat): (r: Result<(Function, nat)>)
    requires b in f.blocks && SuccsClosed(f) && k < |f.blocks[b].instrs| && Fresh(f, n)
    requires Settled(f.blocks[b].instrs[k])
    ensures r.Ok? ==> Rebuilt(f, b, k, n, r.value.0, r.value.1)
    decreases Weight(f.blocks[b].instrs[k..]), |f.blocks[b].instrs| - k, 0
  {
    SkipLighter(f.blocks[b].instrs, k);
    var r := ReconBlock(f, b, k + 1, n);
    if r.Fail? then r
    else
      RebuiltSkip(f, b, k, n, r.value.0, r.value.1);
      r
  }

  /** Instruction `k` replaced by the code `rp` holds; the pass goes on
      at the main instruction, so that the rewritten instruction is looked
      at again. */
  function ReconRewrite(f: Function, b: nat, k: nat, n: nat, rp: Replacement): (r: Result<(Function, nat)>)
    requires b in f.blocks && k < |f.blocks[b].instrs|
    requires Rescannable(f, b, k, n, rp)
    ensures r.Ok? ==> Rebuilt(f, b, k, n, r.value.0, r.value.1)
    decreases Weight(f.blocks[b].instrs[k..]), |f.blocks[b].instrs| - k, 0
  {
    var s := f.blocks[b].instrs;
    var g := WithInstrs(f, b, s[..k] + rp.code + s[k + 1..]);
    var r := ReconBlock(g, b, k + rp.main, n + rp.used);
    if r.Fail? then r
    else
      RebuiltRewrite(f, b, k, n, rp, r.value.0, r.value.1);
      r
  }

  /** A block none of whose instructions from `k` on has an operand to
      rebuild is left as it is. */
  lemma {:induction false} ReconBlockIdentity(f: Function, b: nat, k: nat, n: nat)
    requires b in f.blocks && SuccsClosed(f) && k <= |f.blocks[b].instrs| && Fresh(f, n)
    requires forall j :: k <= j < |f.blocks[b].instrs| ==> FirstCandidate(f.blocks[b].instrs[j], 0) == Ok(None)
    ensures ReconBlock(f, b, k, n) == Ok((f, n))
    decreases |f.blocks[b].instrs| - k
  {
    if k < |f.blocks[b].instrs| {
      ReconBlockIdentity(f, b, k + 1, n);
    }
  }

  /** The pass over the blocks of `order`, threading the counter of fresh
      registers; labels that name no block are skipped. */
  function ReconBlocks(f: Function, order: seq<nat>, n: nat): (r: Result<(Function, nat)>)
    requires SuccsClosed(f) && Fresh(f, n)
    ensures r.Ok? ==> r.value.0.blocks.Keys == f.blocks.Keys && r.value.0.layout == f.layout
    ensures r.Ok? ==> SuccsClosed(r.value.0) && n <= r.value.1 && Fresh(r.value.0, r.value.1)
    ensures r.Ok? ==> forall c :: c in f.blocks && c !in order ==> r.value.0.blocks[c] == f.blocks[c]
    ensures r.Ok? ==> forall c :: c in f.blocks && c in order ==> AllSettled(r.value.0.blocks[c].instrs)
    decreases |order|
  {
    if |order| == 0 then Ok((f, n))
    else if order[0] !in f.blocks then ReconBlocks(f, order[1..], n)
    else match ReconBlock(f, order[0], 0, n)
      case Fail(why) => Fail(why)
      case Ok(res) =>
        assert res.0.blocks[order[0]].instrs[0..] == res.0.blocks[order[0]].instrs;
        ReconBlocks(res.0, order[1..], res.1)
  }

  /** The pass over a function, its blocks in layout order, with fresh
      registers numbered from `n`. On success no instruction of a block in
      the layout has an operand left to rebuild. */
  function ImmediateRecon(f: Function, n: nat): (r: Result<(Function, nat)>)
    requires SuccsClosed(f) && Fresh(f, n)
    ensures r.Ok? ==> r.value.0.blocks.Keys == f.blocks.Keys && r.value.0.layout == f.layout
    ensures r.Ok? ==> SuccsClosed(r.value.0) && n <= r.value.1
    ensures r.Ok? ==> forall c :: c in f.blocks && c in f.layout ==> AllSettled(r.value.0.blocks[c].instrs)
  {
    ReconBlocks(f, f.layout, n)
  }

  // ---------------------------------------------------------------------
  // The source's operand loop.

  /** After rebuilding the first operand that qualifies, the source's loop
      goes on over the operands after it, of the instruction it has just
      erased, and meets one that qualifies too, or one it cannot judge. */
  predicate RereadsErased(mi: Instr) {
    match FirstCandidate(mi, 0)
    case Ok(Some(i)) => FirstCandidate(mi, i + 1) != Ok(None)
    case _ => false
  }

  /** Instruction `k` is the last of its block, and the block's first
      successor is empty. */
  predicate EndsBeforeEmpty(f: Function, b: nat, k: nat)
    requires b in f.blocks && SuccsClosed(f)
  {
    var blk := f.blocks[b];
    k + 1 == |blk.instrs| && |blk.succs| > 0 && |f.blocks[blk.succs[0]].instrs| == 0
  }

  /** With instruction `k` replaced by non-empty code, the source's query
      after that code fails exactly when `k` ended a block whose first
      successor is empty or the corrected query fails too. */
  lemma QueryAfterRewrite(f: Function, b: nat, k: nat, code: seq<Instr>)
    requires b in f.blocks && SuccsClosed(f) && k < |f.blocks[b].instrs| && |code| > 0
    ensures var s := f.blocks[b].instrs;
      var mid := WithInstrs(f, b, s[..k] + code + s[k + 1..]);
      k + |code| <= |mid.blocks[b].instrs|
      && (LiveAfterAsWritten(mid, b, k + |code|).Fail?
          <==> EndsBeforeEmpty(f, b, k) || LiveAfter(mid, b, k + |code|).Fail?)
  {
    var s := f.blocks[b].instrs;
    var mid := WithInstrs(f, b, s[..k] + code + s[k + 1..]);
    var at := k + |code|;
    assert |mid.blocks[b].instrs| == at + (|s| - k - 1);
    assert mid.blocks[b].succs == f.blocks[b].succs;
    if |f.blocks[b].succs| > 0 {
      var c := f.blocks[b].succs[0];
      assert c in f.blocks;
      if c == b {
        assert |mid.blocks[c].instrs| > 0 && |f.blocks[c].instrs| > 0;
      } else {
        assert mid.blocks[c] == f.blocks[c];
      }
    }
  }

  /**
   The source's rewrite of instruction `k`: its loop over the operands has
   no exit after a rewrite, so a second operand that qualifies is rebuilt
   off an instruction that is no longer in the block. That case is a
   failure here, and so is a rewritten instruction that ends a block whose
   first successor is empty, where the source's walk has no instruction to
   start at. Otherwise the rewrite is `RewriteAt`'s.
   */
  function RewriteAtAsWritten(f: Function, b: nat, k: nat, n: nat): (r: Result<Option<Replacement>>)
    requires b in f.blocks && SuccsClosed(f) && k < |f.blocks[b].instrs|
    requires InstrBelow(f.blocks[b].instrs[k], n)
    ensures r.Fail? <==> (RereadsErased(f.blocks[b].instrs[k]) || RewriteAt(f, b, k, n).Fail?
                          || (RewriteAt(f, b, k, n).Ok? && RewriteAt(f, b, k, n).value.Some? && EndsBeforeEmpty(f, b, k)))
    ensures r.Ok? ==> r == RewriteAt(f, b, k, n)
  {
    if RereadsErased(f.blocks[b].instrs[k]) then Fail("operand of an erased instruction")
    else match RewriteAt(f, b, k, n)
    case Ok(Some(rp)) =>
      if EndsBeforeEmpty(f, b, k) then Fail("the end of an empty block read as an instruction")
      else Ok(Some(rp))
    case r => r
  }

  /** The source's pass over block `b` from instruction `k`: it goes on
      after the code that replaced an instruction. */
  function ReconBlockAsWritten(f: Function, b: nat, k: nat, n: nat): (r: Result<(Function, nat)>)
    requires b in f.blocks && SuccsClosed(f) && k <= |f.blocks[b].instrs| && Fresh(f, n)
    ensures r.Ok? ==> r.value.0.blocks.Keys == f.blocks.Keys && r.value.0.layout == f.layout
    ensures r.Ok? ==> forall c :: c in f.blocks && c != b ==> r.value.0.blocks[c] == f.blocks[c]
    ensures r.Ok? ==> n <= r.value.1
    decreases |f.blocks[b].instrs| - k
  {
    var s := f.blocks[b].instrs;
    if k == |s| then Ok((f, n))
    else match RewriteAtAsWritten(f, b, k, n)
      case Fail(why) => Fail(why)
      case Ok(None) => ReconBlockAsWritten(f, b, k + 1, n)
      case Ok(Some(rp)) =>
        var t := s[..k] + rp.code + s[k + 1..];
        ReplaceFresh(f, b, k, rp.code, n, n + rp.used);
        ReconBlockAsWritten(WithInstrs(f, b, t), b, k + |rp.code|, n + rp.used)
  }

  /** A block of the single instruction `ADC32ri EAX, EAX, 0xC3`, falling
      through to an empty block. */
  function EmptySuccessorFunction(): (f: Function)
    ensures f.blocks.Keys == {0, 1} && SuccsClosed(f) && EndsBeforeEmpty(f, 0, 0)
  {
    var eax := RegOp(Phys(PhysReg(RAX, D)));
    var adc := Instr(Op(ADC, 32, RI), [eax, eax, Imm(Word(0xC3, 0, 0, 0, 0, 0, 0, 0))]);
    Function(0, [0, 1], map[0 := Block([adc], [1]), 1 := Block([], [])])
  }

  /** On that function the corrected rewrite of the ADC succeeds, and the
      source's fails: its walk would start at the end of the empty block. */
  lemma EmptySuccessorExample()
    ensures var f := EmptySuccessorFunction();
      RewriteAt(f, 0, 0, 0).Ok? && RewriteAt(f, 0, 0, 0).value.Some?
      && RewriteAtAsWritten(f, 0, 0, 0).Fail?
  {
    var f := EmptySuccessorFunction();
    var mi := f.blocks[0].instrs[0];
    var c := Candidates(mi);
    CarryExampleIsCandidate();
    AdcEmits(Word(0xC3, 0, 0, 0, 0, 0, 0, 0));
    assert c[0] == Ok(false) && c[1] == Ok(false) && c[2] == Ok(true);
    assert FirstIn(c, 3) == Ok(None);
    assert FirstIn(c, 2) == Ok(Some(2));
    assert FirstIn(c, 1) == Ok(Some(2));
    assert FirstIn(c, 0) == Ok(Some(2));
    assert !RereadsErased(mi);
  }

  /** `MOV32mi [RBX + 0xC3], 0xC3`: both the displacement and the immediate
      hold a return opcode. */
  function TwoCandidates(): Instr {
    Instr(Op(MOV, 32, MI), MemOps(RegOp(P64(RBX)), Word(0xC3, 0, 0, 0, 0, 0, 0, 0)) + [Imm(Word(0xC3, 0, 0, 0, 0, 0, 0, 0))])
  }

  /** The displacement (operand 3) is the first candidate of the instance,
      and the immediate (operand 5) the next. */
  lemma TwoCandidatesFound()
    ensures FirstCandidate(TwoCandidates(), 0) == Ok(Some(3))
    ensures FirstCandidate(TwoCandidates(), 4) == Ok(Some(5))
    ensures RereadsErased(TwoCandidates())
  {
    var c := Candidates(TwoCandidates());
    TwoCandidatesListed();
    assert FirstIn(c, 5) == Ok(Some(5));
    assert FirstIn(c, 4) == Ok(Some(5));
    assert FirstIn(c, 3) == Ok(Some(3));
    assert FirstIn(c, 2) == Ok(Some(3));
    assert FirstIn(c, 1) == Ok(Some(3));
  }

  /** Of the instance's operands, the displacement and the immediate
      qualify and the scale does not. */
  lemma TwoCandidatesListed()
    ensures var c := Candidates(TwoCandidates());
      |c| == 6 && c[0] == Ok(false) && c[1] == Ok(false) && c[2] == Ok(false)
      && c[3] == Ok(true) && c[4] == Ok(false) && c[5] == Ok(true)
  {
    var mi := TwoCandidates();
    var c := Candidates(mi);
    var v := Word(0xC3, 0, 0, 0, 0, 0, 0, 0);
    assert IsMI(mi.op) && OpcodeFromMaps(mi.op).Some?;
    TablesDisjoint(mi.op);
    assert HazardAt(LeBytes(v, 4), 0) && HazardAt(LeBytes(v, 8), 0);
    assert c[5] == Ok(true) && c[3] == Ok(true);
    assert c[1] == Ok(false) by {
      OneIsHarmless(SplitWidth(mi.op, 1));
    }
  }

  /** Wherever the instance stands, the source's pass stops at it, having
      rebuilt the displacement and then read the immediate of the erased
      instruction. */
  lemma ErasedOperandExample(f: Function, b: nat, k: nat, n: nat)
    requires b in f.blocks && SuccsClosed(f) && k < |f.blocks[b].instrs| && Fresh(f, n)
    requires f.blocks[b].instrs[k] == TwoCandidates()
    ensures RewriteAtAsWritten(f, b, k, n).Fail? && ReconBlockAsWritten(f, b, k, n).Fail?
  {
    TwoCandidatesFound();
  }
}

=== FILE: jcp.dfy ===
/**
 Jump control protection: a per-function cookie checked before every
 indirect jump and indirect call.

 Each function gets a random 64-bit constant whose eight bytes hold no
 hazard. On entry the function stores the constant XORed with the
 stack-protector canary into a stack object of its own; before each
 indirect branch it recomputes the same value and compares it with the
 canary, leaving the answer in the zero flag (the jump on it is added by
 the finalization, module `Finalize`). R11 is the scratch register: free on
 entry, saved around each check.
 */
module Jcp {
  import opened Words
  import opened Hazard
  import opened Split
  import opened Machine
  import opened Cpu

  // ---------------------------------------------------------------------
  // The random constant.

  /** One value of the C library's `rand`: four bytes, least significant
      first. */
  datatype Rand32 = Rand32(c0: byte, c1: byte, c2: byte, c3: byte)

  /** `(hi << 32) | lo` for two non-negative values of `rand`. */
  function Combine(hi: Rand32, lo: Rand32): Word {
    Word(lo.c0, lo.c1, lo.c2, lo.c3, hi.c0, hi.c1, hi.c2, hi.c3)
  }

  /** The `j`-th candidate: the high half is drawn first. */
  function Draw(rand: nat -> Rand32, j: nat): Word {
    Combine(rand(2 * j), rand(2 * j + 1))
  }

  /** The source's test of a candidate: its 64-bit split has a zero first
      half. */
  predicate Accepted(w: Word) { SplitInt(w, 64).first == Zero }

  /** The first candidate from the `j`-th on that passes `test`, within
      `fuel` candidates. */
  function FirstDraw(test: Word -> bool, rand: nat -> Rand32, j: nat, fuel: nat): (r: Option<Word>)
    ensures r.Some? ==> test(r.value)
    decreases fuel
  {
    if fuel == 0 then None
    else if test(Draw(rand, j)) then Some(Draw(rand, j))
    else FirstDraw(test, rand, j + 1, fuel - 1)
  }

  lemma {:induction false} FirstDrawIsFirst(test: Word -> bool, rand: nat -> Rand32, j: nat, fuel: nat, m: nat)
    requires j <= m < j + fuel && test(Draw(rand, m))
    requires forall n :: j <= n < m ==> !test(Draw(rand, n))
    ensures FirstDraw(test, rand, j, fuel) == Some(Draw(rand, m))
    decreases fuel
  {
    if m > j {
      FirstDrawIsFirst(test, rand, j + 1, fuel - 1, m);
    }
  }

  lemma {:induction false} FirstDrawNone(test: Word -> bool, rand: nat -> Rand32, j: nat, fuel: nat)
    requires forall n :: j <= n < j + fuel ==> !test(Draw(rand, n))
    ensures FirstDraw(test, rand, j, fuel) == None
    decreases fuel
  {
    if fuel > 0 {
      FirstDrawNone(test, rand, j + 1, fuel - 1);
    }
  }

  /**
   `generateSafeRandom`: candidates are drawn until one is accepted. The
   draws come from `rand` (whose seeding with the clock is outside the
   model); `fuel` bounds the number of candidates, the source having no
   such bound.
   */
  function GenerateSafeRandom(rand: nat -> Rand32, fuel: nat): (r: Option<Word>)
    ensures r.Some? ==> Accepted(r.value) && !HasHazard(LeBytes(r.value, 8))
  {
    var r := FirstDraw(Accepted, rand, 0, fuel);
    if r.None? then r else AcceptedIsSafe(r.value); r
  }

  /** The constant is the first accepted candidate, found as soon as the
      fuel reaches it. */
  lemma SafeRandomIsFirstAccepted(rand: nat -> Rand32, fuel: nat, m: nat)
    requires m < fuel && Accepted(Draw(rand, m))
    requires forall n :: 0 <= n < m ==> !Accepted(Draw(rand, n))
    ensures GenerateSafeRandom(rand, fuel) == Some(Draw(rand, m))
  {
    FirstDrawIsFirst(Accepted, rand, 0, fuel, m);
  }

  /** Without an accepted candidate within the fuel there is no constant. */
  lemma NoSafeRandom(rand: nat -> Rand32, fuel: nat)
    requires forall n :: 0 <= n < fuel ==> !Accepted(Draw(rand, n))
    ensures GenerateSafeRandom(rand, fuel) == None
  {
    FirstDrawNone(Accepted, rand, 0, fuel);
  }

  /** When some byte is hazardous both halves of the split are nonzero. */
  lemma RestNonZero(imm: Word, n: nat)
    requires n <= 8 && LowMask(imm, n) != Zero
    ensures Rest(imm, n) != Zero
  {
    MaskByteNibble(imm.b0, imm.b1, 0, n);
    MaskByteNibble(imm.b1, imm.b2, 1, n);
    MaskByteNibble(imm.b2, imm.b3, 2, n);
    MaskByteNibble(imm.b3, imm.b4, 3, n);
    MaskByteNibble(imm.b4, imm.b5, 4, n);
    MaskByteNibble(imm.b5, imm.b6, 5, n);
    MaskByteNibble(imm.b6, imm.b7, 6, n);
    MaskByteNibble(imm.b7, 0, 7, n);
  }

  /** Testing the first half only is enough: it is zero exactly when the
      candidate's eight bytes hold no hazard. */
  lemma AcceptedIsSafe(w: Word)
    ensures Accepted(w) <==> !HasHazard(LeBytes(w, 8))
  {
    SplitZeroIffSafe(w, 64);
    SplitCases(w, 64);
    if LowMask(w, 8) != Zero {
      RestNonZero(w, 8);
    }
  }

  // ---------------------------------------------------------------------
  // The emitted sequences.

  const R11Op: Operand := RegOp(P64(R11))

  /** `mov $c, %r11`. */
  function MovCookie(c: Word): Instr { Instr(Op(MOV, 64, RI), [R11Op, Imm(c)]) }

  /** The entry sequence: `mov $c, %r11; xor %fs:0x28, %r11;
      mov %r11, slot; xor %r11, %r11`. */
  function EntrySeq(c: Word, slot: int): seq<Instr> {
    [MovCookie(c),
     Instr(Op(XOR, 64, RM), [R11Op, R11Op] + CanaryOps),
     Instr(Op(MOV, 64, MR), FrameOps(slot) + [R11Op]),
     Instr(Op(XOR, 64, RR), [R11Op, R11Op, R11Op])]
  }

  /** The check: `push %r11; mov $c, %r11; xor slot, %r11;
      cmp %fs:0x28, %r11; pop %r11`. */
  function CheckSeq(c: Word, slot: int): seq<Instr> {
    [Push64(P64(R11)),
     MovCookie(c),
     Instr(Op(XOR, 64, RM), [R11Op, R11Op] + FrameOps(slot)),
     Instr(Op(CMP, 64, RM), [R11Op] + CanaryOps),
     Pop64(P64(R11))]
  }

  /** The opcodes the finalization looks for: PUSH64r, MOV64ri, XOR64rm,
      CMP64rm, POP64r. */
  const CheckOpcodes: seq<Opcode> :=
    [Op(PUSH, 64, R), Op(MOV, 64, RI), Op(XOR, 64, RM), Op(CMP, 64, RM), Op(POP, 64, R)]

  /** The check is made of exactly the opcodes the finalization matches. */
  lemma CheckMatchesPattern(c: Word, slot: int)
    ensures |CheckSeq(c, slot)| == |CheckOpcodes|
    ensures forall k :: 0 <= k < 5 ==> CheckSeq(c, slot)[k].op == CheckOpcodes[k]
  {
  }

  // ---------------------------------------------------------------------
  // What the sequences compute.

  /** Every family other than `f` reads the same in both states. */
  predicate OthersKept(s: State, t: State, f: Family) {
    forall g :: g != f ==> Get(t, g) == Get(s, g)
  }

  /** The state the entry sequence leaves, instruction by instruction. */
  function EntryAfter(c: Word, slot: int, s: State): State {
    var x := Xor(c, s.canary);
    var s1 := s.(regs := s.regs[R11 := c]);
    var s2 := s1.(regs := s1.regs[R11 := x], zf := x == Zero);
    var s3 := s2.(slots := s2.slots[slot := x]);
    s3.(regs := s3.regs[R11 := Zero], zf := true)
  }

  // One lemma per emitted instruction.

  lemma StepMovCookie(c: Word, s: State)
    ensures Step(MovCookie(c), s) == Some(s.(regs := s.regs[R11 := c]))
  {
    DecodeSetImm(R11, c);
  }

  lemma StepXorCanary(s: State)
    ensures Step(Instr(Op(XOR, 64, RM), [R11Op, R11Op] + CanaryOps), s)
         == Some(s.(regs := s.regs[R11 := Xor(Get(s, R11), s.canary)], zf := Xor(Get(s, R11), s.canary) == Zero))
  {
    DecodeXorLoad(R11, R11, CanaryOps);
  }

  lemma StepStoreSlot(slot: int, s: State)
    ensures Step(Instr(Op(MOV, 64, MR), FrameOps(slot) + [R11Op]), s)
         == Some(s.(slots := s.slots[slot := Get(s, R11)]))
  {
    MemOfFrame(slot);
    DecodeStoreFrom(FrameOps(slot), R11);
  }

  lemma StepClear(s: State)
    ensures Step(Instr(Op(XOR, 64, RR), [R11Op, R11Op, R11Op]), s)
         == Some(s.(regs := s.regs[R11 := Zero], zf := true))
  {
    DecodeXorRegs(R11, R11, R11);
    XorCancel(Get(s, R11));
  }

  lemma StepPushR11(s: State)
    ensures Step(Push64(P64(R11)), s) == Some(s.(stack := [Get(s, R11)] + s.stack))
  {
    DecodePush(R11);
  }

  lemma StepXorSlot(slot: int, s: State)
    requires slot in s.slots
    ensures Step(Instr(Op(XOR, 64, RM), [R11Op, R11Op] + FrameOps(slot)), s)
         == Some(s.(regs := s.regs[R11 := Xor(Get(s, R11), s.slots[slot])],
                    zf := Xor(Get(s, R11), s.slots[slot]) == Zero))
  {
    MemOfFrame(slot);
    DecodeXorLoad(R11, R11, FrameOps(slot));
  }

  lemma StepCmpCanary(s: State)
    ensures Step(Instr(Op(CMP, 64, RM), [R11Op] + CanaryOps), s) == Some(s.(zf := Get(s, R11) == s.canary))
  {
    DecodeCmpLoad(R11, CanaryOps);
  }

  lemma StepPopR11(s: State)
    requires |s.stack| > 0
    ensures Step(Pop64(P64(R11)), s) == Some(s.(regs := s.regs[R11 := s.stack[0]], stack := s.stack[1..]))
  {
    DecodePop(R11);
  }

  lemma EntryRun(c: Word, slot: int, s: State)
    ensures Run(EntrySeq(c, slot), s) == Some(EntryAfter(c, slot, s))
  {
    var i0, i1, i2, i3 := MovCookie(c), Instr(Op(XOR, 64, RM), [R11Op, R11Op] + CanaryOps),
      Instr(Op(MOV, 64, MR), FrameOps(slot) + [R11Op]), Instr(Op(XOR, 64, RR), [R11Op, R11Op, R11Op]);
    var x := Xor(c, s.canary);
    var s1 := s.(regs := s.regs[R11 := c]);
    var s2 := s1.(regs := s1.regs[R11 := x], zf := x == Zero);
    var s3 := s2.(slots := s2.slots[slot := x]);
    var s4 := s3.(regs := s3.regs[R11 := Zero], zf := true);
    StepMovCookie(c, s);
    StepXorCanary(s1);
    StepStoreSlot(slot, s2);
    StepClear(s3);
    Run4(i0, i1, i2, i3, s, s1, s2, s3, s4);
    assert EntrySeq(c, slot) == [i0, i1, i2, i3];
  }

  /**
   The entry sequence stores the constant XORed with the canary into the
   stack object and leaves zero in R11; nothing else but the zero flag
   changes.
   */
  lemma EntryStoresCookie(c: Word, slot: int, s: State)
    ensures Run(EntrySeq(c, slot), s).Some?
    ensures var t := Run(EntrySeq(c, slot), s).value;
      t.slots == s.slots[slot := Xor(c, s.canary)] && Get(t, R11) == Zero
      && OthersKept(s, t, R11) && t.stack == s.stack && t.canary == s.canary
  {
    EntryRun(c, slot, s);
  }

  lemma XorCancel(x: Word)
    ensures Xor(x, x) == Zero
  {
    XorZeroIffEqual(x, x);
  }

  /** The state the check leaves, instruction by instruction. */
  function CheckAfter(c: Word, slot: int, s: State): State
    requires slot in s.slots
  {
    var x := Xor(c, s.slots[slot]);
    var s1 := s.(stack := [Get(s, R11)] + s.stack);
    var s2 := s1.(regs := s1.regs[R11 := c]);
    var s3 := s2.(regs := s2.regs[R11 := x], zf := x == Zero);
    var s4 := s3.(zf := x == s.canary);
    s4.(regs := s4.regs[R11 := s4.stack[0]], stack := s4.stack[1..])
  }

  lemma CheckRun(c: Word, slot: int, s: State)
    requires slot in s.slots
    ensures Run(CheckSeq(c, slot), s) == Some(CheckAfter(c, slot, s))
  {
    var i0, i1, i2, i3, i4 := Push64(P64(R11)), MovCookie(c),
      Instr(Op(XOR, 64, RM), [R11Op, R11Op] + FrameOps(slot)),
      Instr(Op(CMP, 64, RM), [R11Op] + CanaryOps), Pop64(P64(R11));
    var x := Xor(c, s.slots[slot]);
    var s1 := s.(stack := [Get(s, R11)] + s.stack);
    var s2 := s1.(regs := s1.regs[R11 := c]);
    var s3 := s2.(regs := s2.regs[R11 := x], zf := x == Zero);
    var s4 := s3.(zf := x == s.canary);
    var s5 := s4.(regs := s4.regs[R11 := s4.stack[0]], stack := s4.stack[1..]);
    StepPushR11(s);
    StepMovCookie(c, s1);
    StepXorSlot(slot, s2);
    StepCmpCanary(s3);
    StepPopR11(s4);
    Run5(i0, i1, i2, i3, i4, s, s1, s2, s3, s4, s5);
    assert CheckSeq(c, slot) == [i0, i1, i2, i3, i4];
  }

  /**
   The check sets the zero flag exactly when the stack object holds the
   constant XORed with the canary, and restores R11 and the stack.
   Reading a stack object nobody wrote is outside the model.
   */
  lemma CheckComparesCookie(c: Word, slot: int, s: State)
    requires slot in s.slots
    ensures Run(CheckSeq(c, slot), s).Some?
    ensures var t := Run(CheckSeq(c, slot), s).value;
      (t.zf <==> s.slots[slot] == Xor(c, s.canary))
      && (forall g :: Get(t, g) == Get(s, g)) && t.stack == s.stack && t.slots == s.slots
      && t.canary == s.canary
  {
    CheckRun(c, slot, s);
    var t := CheckAfter(c, slot, s);
    CheckFlag(c, s.slots[slot], s.canary);
    assert t.zf == (Xor(c, s.slots[slot]) == s.canary);
    assert t.stack == s.stack;
    forall g
      ensures Get(t, g) == Get(s, g)
    {
    }
  }

  /** The flag the comparison leaves: `c ^ v == canary` exactly when
      `v == c ^ canary`. */
  lemma CheckFlag(c: Word, v: Word, canary: Word)
    ensures Xor(c, v) == canary <==> v == Xor(c, canary)
  {
    XorComm(c, v);
    XorComm(canary, c);
    XorSolve(v, c, canary);
  }

  /** The value the entry stores passes every later check, whatever else
      ran in between, as long as the stack object and the canary were left
      alone; any other value fails. */
  lemma EntryThenCheck(c: Word, slot: int, s: State, u: State)
    requires slot in u.slots && u.canary == s.canary
    ensures Run(EntrySeq(c, slot), s) == Some(EntryAfter(c, slot, s))
    ensures slot in EntryAfter(c, slot, s).slots
    ensures Run(CheckSeq(c, slot), u) == Some(CheckAfter(c, slot, u))
    ensures CheckAfter(c, slot, u).zf <==> u.slots[slot] == EntryAfter(c, slot, s).slots[slot]
  {
    EntryRun(c, slot, s);
    EntryStoresCookie(c, slot, s);
    var stored := EntryAfter(c, slot, s).slots[slot];
    assert stored == Xor(c, s.canary);
    CheckRun(c, slot, u);
    CheckFlag(c, u.slots[slot], u.canary);
  }

  // ---------------------------------------------------------------------
  // Where the sequences go.

  /** Indirect jumps and indirect calls are guarded. */
  predicate Guarded(i: Instr) { IsIndirectBranch(i) || IsIndirectCall(i) }

  function CountGuarded(s: seq<Instr>): nat
    decreases |s|
  {
    if |s| == 0 then 0 else (if Guarded(s[0]) then 1 else 0) + CountGuarded(s[1..])
  }

  /** One check in front of each guarded instruction of a block. */
  function InstrumentBlock(s: seq<Instr>, c: Word, slot: int): (r: seq<Instr>)
    ensures |r| == |s| + 5 * CountGuarded(s)
    decreases |s|
  {
    if |s| == 0 then []
    else if Guarded(s[0]) then CheckSeq(c, slot) + [s[0]] + InstrumentBlock(s[1..], c, slot)
    else [s[0]] + InstrumentBlock(s[1..], c, slot)
  }

  /** Every guarded instruction of a block, once instrumented, is preceded
      by a full check. */
  predicate ChecksPrecede(r: seq<Instr>, c: Word, slot: int) {
    forall k :: 0 <= k < |r| && Guarded(r[k]) ==> 5 <= k && r[k - 5..k] == CheckSeq(c, slot)
  }

  lemma CheckNotGuarded(c: Word, slot: int)
    ensures forall k :: 0 <= k < 5 ==> !Guarded(CheckSeq(c, slot)[k])
  {
  }

  /** A check stays in front of its instruction when code is put before or
      after both. */
  lemma ChecksPrecedeJoin(a: seq<Instr>, b: seq<Instr>, c: Word, slot: int)
    requires ChecksPrecede(a, c, slot) && ChecksPrecede(b, c, slot)
    ensures ChecksPrecede(a + b, c, slot)
  {
    var r := a + b;
    forall k | 0 <= k < |r| && Guarded(r[k])
      ensures 5 <= k && r[k - 5..k] == CheckSeq(c, slot)
    {
      if k < |a| {
        assert a[k] == r[k];
        assert r[k - 5..k] == a[k - 5..k];
      } else {
        var j := k - |a|;
        assert b[j] == r[k];
        assert r[k - 5..k] == b[j - 5..j];
      }
    }
  }

  /** The instrumentation leaves no guarded instruction unchecked. */
  lemma {:induction false} InstrumentChecksAll(s: seq<Instr>, c: Word, slot: int)
    ensures ChecksPrecede(InstrumentBlock(s, c, slot), c, slot)
    decreases |s|
  {
    if |s| > 0 {
      var rest := InstrumentBlock(s[1..], c, slot);
      InstrumentChecksAll(s[1..], c, slot);
      var head := if Guarded(s[0]) then CheckSeq(c, slot) + [s[0]] else [s[0]];
      assert head + rest == InstrumentBlock(s, c, slot);
      CheckNotGuarded(c, slot);
      assert head[..|head| - 1] == if Guarded(s[0]) then CheckSeq(c, slot) else [];
      ChecksPrecedeJoin(head, rest, c, slot);
    }
  }

  /** Whether a check sits at position `k` in front of a guarded
      instruction. */
  predicate CheckAt(t: seq<Instr>, k: nat, c: Word, slot: int) {
    k + 5 < |t| && t[k..k + 5] == CheckSeq(c, slot) && Guarded(t[k + 5])
  }

  /** The inverse of the instrumentation: every check in front of a guarded
      instruction removed. */
  function Strip(t: seq<Instr>, c: Word, slot: int): seq<Instr>
    decreases |t|
  {
    if |t| == 0 then []
    else if CheckAt(t, 0, c, slot) then [t[5]] + Strip(t[6..], c, slot)
    else [t[0]] + Strip(t[1..], c, slot)
  }

  /** Removing the checks gives the block back: the instrumentation adds
      the checks and nothing else. */
  lemma {:induction false} StripInstrument(s: seq<Instr>, c: Word, slot: int)
    ensures Strip(InstrumentBlock(s, c, slot), c, slot) == s
    decreases |s|
  {
    if |s| > 0 {
      var rest := InstrumentBlock(s[1..], c, slot);
      var t := InstrumentBlock(s, c, slot);
      StripInstrument(s[1..], c, slot);
      if Guarded(s[0]) {
        assert t == CheckSeq(c, slot) + [s[0]] + rest;
        assert CheckAt(t, 0, c, slot);
        assert t[6..] == rest;
      } else {
        assert t == [s[0]] + rest;
        if CheckAt(t, 0, c, slot) {
          assert t[0] == Push64(P64(R11));
          assert t[5] == rest[4];
          InstrumentChecksAll(s[1..], c, slot);
        }
        assert t[1..] == rest;
      }
    } else {
      assert InstrumentBlock(s, c, slot) == [];
    }
  }

  /** A block holds a guarded instruction. */
  predicate HasGuarded(s: seq<Instr>) { exists k :: 0 <= k < |s| && Guarded(s[k]) }

  lemma CountGuardedPositive(s: seq<Instr>)
    ensures CountGuarded(s) > 0 <==> HasGuarded(s)
    decreases |s|
  {
    if |s| > 0 {
      CountGuardedPositive(s[1..]);
      if HasGuarded(s[1..]) {
        var k :| 0 <= k < |s[1..]| && Guarded(s[1..][k]);
        assert Guarded(s[k + 1]);
      }
      if HasGuarded(s) && !Guarded(s[0]) {
        var k :| 0 <= k < |s| && Guarded(s[k]);
        assert Guarded(s[1..][k - 1]);
      }
    }
  }

  /** Every block instrumented. */
  function InstrumentAll(f: Function, c: Word, slot: int): (g: Function)
    ensures g.layout == f.layout && g.number == f.number && g.blocks.Keys == f.blocks.Keys
  {
    f.(blocks := map l | l in f.blocks :: f.blocks[l].(instrs := InstrumentBlock(f.blocks[l].instrs, c, slot)))
  }

  /** Some block holds a guarded instruction. */
  predicate AnyGuarded(f: Function) {
    exists l :: l in f.blocks && HasGuarded(f.blocks[l].instrs)
  }

  /** The first layout position from `i` on with a non-empty block. */
  function FirstNonEmpty(f: Function, i: nat): (r: Option<nat>)
    ensures r.Some? ==> i <= r.value < |f.layout| && f.layout[r.value] in f.blocks
                        && |f.blocks[f.layout[r.value]].instrs| > 0
    ensures r.Some? ==> forall j :: i <= j < r.value && f.layout[j] in f.blocks ==> |f.blocks[f.layout[j]].instrs| == 0
    ensures r.None? ==> forall j :: i <= j < |f.layout| && f.layout[j] in f.blocks ==> |f.blocks[f.layout[j]].instrs| == 0
    decreases |f.layout| - i
  {
    if i >= |f.layout| then None
    else if f.layout[i] in f.blocks && |f.blocks[f.layout[i]].instrs| > 0 then Some(i)
    else FirstNonEmpty(f, i + 1)
  }

  /**
   The source's loop over the leading empty blocks: it stops at the first
   non-empty block, but when there is none it reads past the last block
   before the test meant to catch that; that is `Fail` here.
   */
  function FirstNonEmptyAsWritten(f: Function): (r: Result<nat>)
    ensures r.Fail? <==> FirstNonEmpty(f, 0).None?
    ensures r.Ok? ==> Some(r.value) == FirstNonEmpty(f, 0)
  {
    match FirstNonEmpty(f, 0)
    case None => Fail("read past the last block")
    case Some(i) => Ok(i)
  }

  /** A function whose only block is empty. */
  function AllEmpty(): Function {
    Function(0, [0], map[0 := Block([], [])])
  }

  /** The loop as written fails on a function whose blocks are all empty,
      where the evident intent is to leave the function alone. */
  lemma AllEmptyFails()
    ensures FirstNonEmptyAsWritten(AllEmpty()).Fail?
    ensures FirstNonEmpty(AllEmpty(), 0) == None
  {
  }

  /** Where the entry sequence goes: the first non-empty block in layout
      order, if a check was placed. */
  function EntryLabel(f: Function): Option<nat> {
    if !AnyGuarded(f) then None
    else match FirstNonEmpty(f, 0)
      case None => None
      case Some(i) => Some(f.layout[i])
  }

  /**
   The pass over a function: a check before every guarded instruction, all
   against one new stack object `slot` (the one the frame creates on the
   first check), and, if any check was placed, the entry sequence at the
   head of the first non-empty block. A function with no non-empty block
   is left as it is. `None` when no constant was found within the fuel.
   */
  function JcpPass(f: Function, rand: nat -> Rand32, fuel: nat, slot: int): (r: Option<(Function, Word)>)
    ensures r.Some? <==> GenerateSafeRandom(rand, fuel).Some?
    ensures r.Some? ==> r.value.1 == GenerateSafeRandom(rand, fuel).value && !HasHazard(LeBytes(r.value.1, 8))
    ensures r.Some? ==> r.value.0.layout == f.layout && r.value.0.number == f.number
                        && r.value.0.blocks.Keys == f.blocks.Keys
  {
    match GenerateSafeRandom(rand, fuel)
    case None => None
    case Some(c) =>
      var g := InstrumentAll(f, c, slot);
      match EntryLabel(f)
      case None => Some((g, c))
      case Some(l) =>
        var b := g.blocks[l];
        Some((g.(blocks := g.blocks[l := b.(instrs := EntrySeq(c, slot) + b.instrs)]), c))
  }

  /** A block without guarded instructions is left as it is. */
  lemma {:induction false} InstrumentUnguarded(s: seq<Instr>, c: Word, slot: int)
    requires !HasGuarded(s)
    ensures InstrumentBlock(s, c, slot) == s
    decreases |s|
  {
    if |s| > 0 {
      assert !Guarded(s[0]);
      assert !HasGuarded(s[1..]) by {
        forall k | 0 <= k < |s[1..]| ensures !Guarded(s[1..][k]) {
          assert s[1..][k] == s[k + 1];
        }
      }
      InstrumentUnguarded(s[1..], c, slot);
    }
  }

  /** A function without indirect jumps or calls is left as it is. */
  lemma NoGuardedNoChange(f: Function, rand: nat -> Rand32, fuel: nat, slot: int)
    requires !AnyGuarded(f)
    ensures JcpPass(f, rand, fuel, slot).Some? ==> JcpPass(f, rand, fuel, slot).value.0 == f
  {
    var r := JcpPass(f, rand, fuel, slot);
    if r.Some? {
      var c := r.value.1;
      var g := InstrumentAll(f, c, slot);
      forall l | l in f.blocks ensures g.blocks[l] == f.blocks[l] {
        InstrumentUnguarded(f.blocks[l].instrs, c, slot);
      }
      assert g.blocks == f.blocks;
    }
  }

  /** In a well-formed function with an indirect jump or call, the entry
      sequence heads the first non-empty block in layout order. */
  lemma GuardedGetsEntry(f: Function, rand: nat -> Rand32, fuel: nat, slot: int)
    requires WellFormed(f) && AnyGuarded(f)
    requires JcpPass(f, rand, fuel, slot).Some?
    ensures FirstNonEmpty(f, 0).Some?
    ensures var g := JcpPass(f, rand, fuel, slot).value.0;
            var l := f.layout[FirstNonEmpty(f, 0).value];
            |g.blocks[l].instrs| >= 4 && g.blocks[l].instrs[..4] == EntrySeq(JcpPass(f, rand, fuel, slot).value.1, slot)
  {
    var l :| l in f.blocks && HasGuarded(f.blocks[l].instrs);
    var i :| 0 <= i < |f.layout| && f.layout[i] == l;
  }

  /** Removes the entry sequence from the head of block `l`. */
  function DropEntry(t: seq<Instr>, c: Word, slot: int): seq<Instr> {
    if |t| >= 4 && t[..4] == EntrySeq(c, slot) then t[4..] else t
  }

  /**
   Undoing the pass: the entry sequence taken off the block that received
   it and every check stripped gives the original blocks back, and each
   guarded instruction of the result is preceded by a check.
   */
  lemma JcpPassUndone(f: Function, rand: nat -> Rand32, fuel: nat, slot: int, l: nat)
    requires JcpPass(f, rand, fuel, slot).Some? && l in f.blocks
    ensures var (g, c) := JcpPass(f, rand, fuel, slot).value;
      var t := g.blocks[l].instrs;
      var body := if EntryLabel(f) == Some(l) then DropEntry(t, c, slot) else t;
      Strip(body, c, slot) == f.blocks[l].instrs && ChecksPrecede(body, c, slot)
      && g.blocks[l].succs == f.blocks[l].succs
  {
    var (g, c) := JcpPass(f, rand, fuel, slot).value;
    var s := f.blocks[l].instrs;
    StripInstrument(s, c, slot);
    InstrumentChecksAll(s, c, slot);
    if EntryLabel(f) == Some(l) {
      var t := g.blocks[l].instrs;
      assert t == EntrySeq(c, slot) + InstrumentBlock(s, c, slot);
      assert t[..4] == EntrySeq(c, slot) && t[4..] == InstrumentBlock(s, c, slot);
    }
  }
}

=== FILE: machine.dfy ===
/**
 Machine code as the passes see it.

 An instruction is an opcode with a list of explicit operands, in the order
 of the backend's instruction descriptions: a memory reference takes five
 consecutive operands (base, scale, index, displacement, segment), so in a
 `*mi` instruction the displacement sits at index 3 and the immediate at
 index 5. Implicit operands (the flags register, the stack pointer of a
 push) are not stored in the operand list; what an opcode reads or writes
 implicitly is given by predicates on its descriptor (`ReadsFlags`,
 `IsReturn`, ...).

 Opcodes are structured: the backend's `ADD16ri8_DB` is
 `Op(ADD, 16, RI8_DB)`, its `MOV64rm` is `Op(MOV, 64, RM)`.
 */
module Machine {
  import opened Words

  /** The general-purpose register families, the instruction pointer and
      the FS segment register. */
  datatype Family = RAX | RBX | RCX | RDX | RSI | RDI | RBP | RSP
                  | R8 | R9 | R10 | R11 | R12 | R13 | R14 | R15 | RIP | FS

  /** Which part of a family a register name denotes: all 64 bits (RAX),
      the low 32 (EAX), the low 16 (AX), the low byte (AL) or the second
      byte (AH). */
  datatype Part = Q | D | W | L | H

  datatype PhysReg = PhysReg(family: Family, part: Part)

  /** A register operand: no register (the backend's register 0), a
      physical register, a virtual register awaiting allocation, or the
      flags register (which appears explicitly only as the destination of
      an IMPLICIT_DEF). */
  datatype Reg = NoReg | Phys(phys: PhysReg) | Virt(vreg: nat) | EFlags

  /** A block reference names the block and the number of the function
      that contains it. */
  datatype Operand =
    | RegOp(reg: Reg)
    | Imm(value: Word)
    | FrameIndex(slot: int)
    | BlockRef(target: nat, owner: nat)
    | Symbol(name: string)

  /** What the backend's instruction description says about an opcode. */
  datatype Desc = Desc(readsFlags: bool, writesFlags: bool, isCall: bool,
                       isReturn: bool, isBranch: bool, isIndirectBranch: bool)

  datatype Mnemonic =
    | ADC | ADD | SBB | SUB | OR | XOR | AND | CMP | MOV | TEST
    | MOVSX | MOVZX | LEA | LEA64_32 | CMOVE
    | PUSH | POP | PUSHF | POPF | BSWAP | MOVNTI
    | NOOP | HLT | JE | JMP | RET | CALL | FARCALL | TAILJMP | TCRETURN
    | COPY | IMPLICIT_DEF
    | Other(id: nat, desc: Desc)

  /** The operand form, after the backend's opcode suffixes: `ri` register
      and immediate of the operand width, `ri8`/`ri32` a sign-extended
      8/32-bit immediate, `ri64` (MOV32ri64), `_DB` the disjoint-bits ADD
      variants, `AI` the accumulator forms (TEST8i8), `mr`/`rm` memory
      destination/source, `rm8`/`rm16` a narrower memory source, `R`/`M` a
      single register or memory operand, `Rel` a relative (direct) target. */
  datatype Form =
    | RI | RI8 | RI32 | RI64 | RI_DB | RI8_DB | RI32_DB | AI
    | RR | RR_DB | MI | MI8 | MI32 | MR | RM | RM8 | RM16
    | R | M | Rel | NoForm

  datatype Opcode = Op(mn: Mnemonic, width: nat, form: Form)

  datatype Instr = Instr(op: Opcode, ops: seq<Operand>)

  /** A basic block: its instructions and its successors, by label. */
  datatype Block = Block(instrs: seq<Instr>, succs: seq<nat>)

  /** A machine function: its number, the layout order of its blocks, and
      the blocks by label. */
  datatype Function = Function(number: nat, layout: seq<nat>, blocks: map<nat, Block>)

  datatype Option<T> = None | Some(value: T)

  /** The outcome of a step that the source may not be able to take: it
      would read a register out of an operand that holds none, or follow a
      successor that a block does not have. */
  datatype Result<T> = Ok(value: T) | Fail(reason: string)

  /**
   What the x86 backend's instruction descriptions say about an opcode,
   one property at a time; an `Other` opcode carries its own description.
   */
  predicate ReadsFlags(i: Instr) {
    var mn := i.op.mn;
    mn == ADC || mn == SBB || mn == CMOVE || mn == PUSHF || mn == JE
    || (mn.Other? && mn.desc.readsFlags)
  }

  /** An IMPLICIT_DEF of the flags register marks the flags as defined. */
  predicate WritesFlags(i: Instr) {
    var mn := i.op.mn;
    mn == ADC || mn == SBB || mn == ADD || mn == SUB || mn == OR || mn == XOR
    || mn == AND || mn == CMP || mn == TEST || mn == POPF
    || (mn.Other? && mn.desc.writesFlags)
    || (mn == IMPLICIT_DEF && i.ops == [RegOp(EFlags)])
  }

  predicate IsReturn(i: Instr) {
    var mn := i.op.mn;
    mn == RET || mn == TAILJMP || mn == TCRETURN || (mn.Other? && mn.desc.isReturn)
  }

  predicate IsCall(i: Instr) {
    var mn := i.op.mn;
    mn == CALL || mn == FARCALL || mn == TAILJMP || mn == TCRETURN || (mn.Other? && mn.desc.isCall)
  }

  predicate IsBranch(i: Instr) {
    var mn := i.op.mn;
    mn == JE || mn == JMP || (mn.Other? && mn.desc.isBranch)
  }

  /** JMP16r .. JMP64m: a jump through a register or memory. */
  predicate IsIndirectBranch(i: Instr) {
    var mn := i.op.mn;
    (mn == JMP && (i.op.form == R || i.op.form == M)) || (mn.Other? && mn.desc.isIndirectBranch)
  }

  /** The source's list of indirect calls: CALL16r/32r/64r, CALL16m/32m/64m,
      FARCALL16m/32m, FARCALL64, TAILJMPr64, TAILJMPm64, TCRETURNri64 and
      TCRETURNmi64. */
  predicate IsIndirectCall(i: Instr) {
    var op := i.op;
    (op.mn == CALL && op.width in {16, 32, 64} && op.form in {R, M})
    || (op.mn == FARCALL && op.width in {16, 32} && op.form == M)
    || (op.mn == FARCALL && op.width == 64 && op.form == NoForm)
    || (op.mn == TAILJMP && op.width == 64 && op.form in {R, M})
    || (op.mn == TCRETURN && op.width == 64 && op.form in {RI, MI})
  }

  /** MOV8ri .. MOV64ri, MOV32ri64, MOV64ri32, MOV8mi .. MOV32mi, MOV64mi32. */
  predicate IsMove(i: Instr) {
    var op := i.op;
    op.mn == MOV
    && ((op.form == RI && op.width in {8, 16, 32, 64})
        || (op.form == RI64 && op.width == 32)
        || (op.form == RI32 && op.width == 64)
        || (op.form == MI && op.width in {8, 16, 32})
        || (op.form == MI32 && op.width == 64))
  }

  /** TEST8i8, TEST16i16, TEST32i32, TEST64i32 and TEST8ri .. TEST64ri32. */
  predicate IsTest(i: Instr) {
    var op := i.op;
    op.mn == TEST
    && ((op.form == AI && op.width in {8, 16, 32, 64})
        || (op.form == RI && op.width in {8, 16, 32})
        || (op.form == RI32 && op.width == 64))
  }

  /** CMP with a register or memory destination and an immediate source. */
  predicate IsCompare(i: Instr) {
    var op := i.op;
    op.mn == CMP
    && ((op.form == RI && op.width in {8, 16, 32})
        || (op.form == RI8 && op.width in {16, 32, 64})
        || (op.form == RI32 && op.width == 64)
        || (op.form == MI && op.width in {8, 16, 32})
        || (op.form == MI8 && op.width in {16, 32, 64})
        || (op.form == MI32 && op.width == 64))
  }

  // ---------------------------------------------------------------------
  // Opcodes chosen by operand size in bytes. Any other size is a failed
  // assertion in the source, which returns opcode 0; here it is `None`.

  function WidthOfBytes(size: nat): (w: Option<nat>)
    ensures w.Some? <==> size in {1, 2, 4, 8}
    ensures w.Some? ==> w.value == 8 * size
  {
    if size == 1 then Some(8) else if size == 2 then Some(16)
    else if size == 4 then Some(32) else if size == 8 then Some(64) else None
  }

  function OrRROpcode(size: nat): (op: Option<Opcode>)
    ensures op.Some? <==> size in {1, 2, 4, 8}
    ensures op.Some? ==> op.value == Op(OR, 8 * size, RR)
  {
    match WidthOfBytes(size)
    case None => None
    case Some(w) => Some(Op(OR, w, RR))
  }

  /** MOV8ri, MOV16ri, MOV32ri and, for eight bytes, MOV64ri with its
      full 64-bit immediate. */
  function MovRIOpcode(size: nat): (op: Option<Opcode>)
    ensures op.Some? <==> size in {1, 2, 4, 8}
    ensures op.Some? ==> op.value == Op(MOV, 8 * size, RI)
  {
    match WidthOfBytes(size)
    case None => None
    case Some(w) => Some(Op(MOV, w, RI))
  }

  function AddRROpcode(size: nat): (op: Option<Opcode>)
    ensures op.Some? <==> size in {1, 2, 4, 8}
    ensures op.Some? ==> op.value == Op(ADD, 8 * size, RR)
  {
    match WidthOfBytes(size)
    case None => None
    case Some(w) => Some(Op(ADD, w, RR))
  }

  function SubRROpcode(size: nat): (op: Option<Opcode>)
    ensures op.Some? <==> size in {1, 2, 4, 8}
    ensures op.Some? ==> op.value == Op(SUB, 8 * size, RR)
  {
    match WidthOfBytes(size)
    case None => None
    case Some(w) => Some(Op(SUB, w, RR))
  }

  /** OR8ri, OR16ri, OR32ri and, for eight bytes, OR64ri32, whose 32-bit
      immediate the processor sign-extends. */
  function OrRIOpcode(size: nat): (op: Option<Opcode>)
    ensures op.Some? <==> size in {1, 2, 4, 8}
    ensures op.Some? && size < 8 ==> op.value == Op(OR, 8 * size, RI)
    ensures op.Some? && size == 8 ==> op.value == Op(OR, 64, RI32)
  {
    match WidthOfBytes(size)
    case None => None
    case Some(w) => Some(if w == 64 then Op(OR, 64, RI32) else Op(OR, w, RI))
  }

  // ---------------------------------------------------------------------
  // Instruction builders for the sequences the passes emit.

  function P64(f: Family): Reg { Phys(PhysReg(f, Q)) }

  function Push64(r: Reg): Instr { Instr(Op(PUSH, 64, R), [RegOp(r)]) }
  function Pop64(r: Reg): Instr { Instr(Op(POP, 64, R), [RegOp(r)]) }
  function Nop(): Instr { Instr(Op(NOOP, 0, NoForm), []) }

  /** The memory reference `[base + disp]` with no index and no segment. */
  function MemOps(base: Operand, disp: Word): seq<Operand> {
    [base, Imm(Word(1, 0, 0, 0, 0, 0, 0, 0)), RegOp(NoReg), Imm(disp), RegOp(NoReg)]
  }

  /** The memory reference `fs:[0x28]`, where the C library keeps the
      stack-protector canary. */
  const CanaryOps: seq<Operand> :=
    [RegOp(NoReg), Imm(Word(1, 0, 0, 0, 0, 0, 0, 0)), RegOp(NoReg), Imm(Word(0x28, 0, 0, 0, 0, 0, 0, 0)),
     RegOp(P64(FS))]

  // ---------------------------------------------------------------------
  // Function structure.

  /** Whether a label names a block of the function. */
  predicate HasBlock(f: Function, b: nat) { b in f.blocks }

  /** Every successor of every block is a block of the function. */
  predicate SuccsClosed(f: Function) {
    forall b :: b in f.blocks ==> forall k :: 0 <= k < |f.blocks[b].succs| ==> f.blocks[b].succs[k] in f.blocks
  }

  /** Besides, the layout lists every block, and each once. */
  predicate WellFormed(f: Function) {
    SuccsClosed(f)
    && (forall i :: 0 <= i < |f.layout| ==> f.layout[i] in f.blocks)
    && (forall b :: b in f.blocks ==> b in f.layout)
    && (forall i, j :: 0 <= i < j < |f.layout| ==> f.layout[i] != f.layout[j])
  }
}

=== FILE: modrm.dfy ===
/**
 The ModRM/SIB pass: instructions whose encoding holds a hazard because of
 the registers chosen for them.

 The pass asks the encoder for the bytes of an instruction under the
 current binding of virtual to physical registers. When the bytes hold a
 hazard, it first tries to bind one of the instruction's virtual registers
 to another physical register (`AllocateNewRegister`); when no register
 helps, it wraps the instruction so that a scratch register stands in for
 one virtual register (`CodeTransformation`). Whole-function passes repeat
 until one of them changes nothing (`Fixpoint`).

 The encoder, the allocation order, the interference check and the
 register classes belong to the register allocator and the assembler: they
 are parameters (`Oracles`), about which nothing is assumed.
 */
module ModRM {
  import opened Words
  import opened Hazard
  import opened Machine

  /** The binding of virtual registers to physical registers. */
  type Binding = map<nat, PhysReg>

  /** The register classes the pass distinguishes. */
  datatype RegClass = GR8 | GR16 | GR32 | GR64 | GR32_ABCD | OtherClass

  /**
   What the pass consults and does not compute: the bytes of an
   instruction under a binding, the allocation order of a virtual
   register, whether binding it to a physical register interferes with
   nothing, its register class, and the largest legal super-class of a
   class.
   */
  datatype Oracles = Oracles(
    encode: (Instr, Binding) -> seq<byte>,
    order: nat -> seq<PhysReg>,
    free: (nat, PhysReg) -> bool,
    classOf: nat -> RegClass,
    largest: RegClass -> RegClass)

  /** The allocator's state as the pass sees it: the binding, and the
      virtual registers already rebound or wrapped once, which are never
      rebound again. The set lives in the pass object and is never
      cleared, so it carries over from one block, pass and function to the
      next. */
  datatype Alloc = Alloc(binding: Binding, locked: set<nat>)

  predicate IsVirtOperand(o: Operand) { o.RegOp? && o.reg.Virt? }

  /** Every virtual register of `mi` has a physical register, which the
      source asserts before reading it. */
  predicate Bound(mi: Instr, b: Binding) {
    forall j :: 0 <= j < |mi.ops| && IsVirtOperand(mi.ops[j]) ==> mi.ops[j].reg.vreg in b
  }

  predicate AllBound(s: seq<Instr>, b: Binding) {
    forall k :: 0 <= k < |s| ==> Bound(s[k], b)
  }

  /** Returns, calls, indirect branches and instructions with an operand
      that is neither a register nor an immediate are left alone. */
  predicate NeverEncodesRet(mi: Instr) {
    IsReturn(mi) || IsCall(mi) || IsIndirectBranch(mi)
    || exists j :: 0 <= j < |mi.ops| && !(mi.ops[j].RegOp? || mi.ops[j].Imm?)
  }

  // ---------------------------------------------------------------------
  // Re-encoding under a hypothetical binding.

  /**
   The bytes of `mi` with `v` bound to `p`. The source rebinds `v`,
   encodes, and binds `v` back to its previous register; the binding it
   leaves behind is the one it found.
   */
  function AssembleNewMapping(mi: Instr, v: nat, p: PhysReg, b: Binding, o: Oracles)
    : (r: (seq<byte>, Binding))
    requires v in b
    ensures r.1 == b
    ensures r.0 == o.encode(mi, b[v := p])
  {
    var prev := b[v];
    var hypothetical := b[v := p];
    var bytes := o.encode(mi, hypothetical);
    (bytes, hypothetical[v := prev])
  }

  // ---------------------------------------------------------------------
  // Rebinding one virtual register.

  /** The walk along one register's allocation order: a register that
      helps, or the final value of the register's counter. */
  datatype Probe = Found(phys: PhysReg) | Exhausted(count: nat)

  /**
   The candidates for `v` in allocation order, the current register
   skipped. The counter starts at 1 and grows by one for each candidate
   under which the instruction still holds a hazard; once it is above 4
   the walk stops. The first candidate that removes the hazard and
   interferes with nothing is taken.
   */
  function ProbeCandidates(mi: Instr, v: nat, prev: PhysReg, cands: seq<PhysReg>, count: nat,
                           b: Binding, o: Oracles): (r: Probe)
    requires v in b
    ensures r.Found? ==> r.phys in cands && r.phys != prev && count <= 4
                         && !HasHazard(o.encode(mi, b[v := r.phys])) && o.free(v, r.phys)
    ensures r.Exhausted? ==> count <= r.count && (count <= 5 ==> r.count <= 5)
    ensures r.Exhausted? && r.count <= 4 ==>
              forall q :: q in cands && q != prev ==> HasHazard(o.encode(mi, b[v := q])) || !o.free(v, q)
    decreases |cands|
  {
    if |cands| == 0 then Exhausted(count)
    else
      var p := cands[0];
      if p == prev then ProbeCandidates(mi, v, prev, cands[1..], count, b, o)
      else if count > 4 then Exhausted(count)
      else if HasHazard(AssembleNewMapping(mi, v, p, b, o).0) then
        ProbeCandidates(mi, v, prev, cands[1..], count + 1, b, o)
      else if o.free(v, p) then Found(p)
      else ProbeCandidates(mi, v, prev, cands[1..], count, b, o)
  }

  /** The walk over the operands: a register to rebind, or the counters of
      all virtual-register operands, the latest first. */
  datatype Search = Rebind(index: nat, v: nat, phys: PhysReg) | Counters(counts: seq<nat>)

  predicate VirtFrom(mi: Instr, j: nat) {
    exists k :: j <= k < |mi.ops| && IsVirtOperand(mi.ops[k])
  }

  predicate LockedFrom(mi: Instr, j: nat, locked: set<nat>) {
    exists k :: j <= k < |mi.ops| && IsVirtOperand(mi.ops[k]) && mi.ops[k].reg.vreg in locked
  }

  /**
   Each virtual-register operand from `j` on pushes a counter before its
   lock is looked at, so a locked register leaves a 1 behind; an unlocked
   one walks its allocation order. The first register that helps ends the
   walk. The counters come out latest first, as the source pushes them at
   the front of its list: the walk over the remaining operands puts its
   counters before this operand's.
   */
  function ScanOperands(mi: Instr, j: nat, a: Alloc, o: Oracles): (r: Search)
    requires Bound(mi, a.binding) && j <= |mi.ops|
    ensures r.Rebind? ==> r.v !in a.locked && r.v in a.binding && r.phys != a.binding[r.v]
                          && r.phys in o.order(r.v)
                          && !HasHazard(o.encode(mi, a.binding[r.v := r.phys])) && o.free(r.v, r.phys)
                          && j <= r.index < |mi.ops| && mi.ops[r.index] == RegOp(Virt(r.v))
    ensures r.Counters? ==> forall i :: 0 <= i < |r.counts| ==> 1 <= r.counts[i] <= 5
    ensures r.Counters? ==> (|r.counts| == 0 <==> !VirtFrom(mi, j))
    decreases |mi.ops| - j
  {
    if j == |mi.ops| then Counters([])
    else if !IsVirtOperand(mi.ops[j]) then
      var r := ScanOperands(mi, j + 1, a, o);
      assert VirtFrom(mi, j) ==> VirtFrom(mi, j + 1);
      r
    else
      var v := mi.ops[j].reg.vreg;
      var probe := if v in a.locked then Exhausted(1)
                   else ProbeCandidates(mi, v, a.binding[v], o.order(v), 1, a.binding, o);
      match probe
      case Found(p) => Rebind(j, v, p)
      case Exhausted(c) =>
        match ScanOperands(mi, j + 1, a, o)
        case Rebind(k, w, p) => Rebind(k, w, p)
        case Counters(cs) => assert VirtFrom(mi, j); Counters(cs + [c])
  }

  /** A locked virtual-register operand ahead leaves a counter of 1. */
  lemma {:induction false} ScanCountersLocked(mi: Instr, j: nat, a: Alloc, o: Oracles)
    requires Bound(mi, a.binding) && j <= |mi.ops|
    requires ScanOperands(mi, j, a, o).Counters? && LockedFrom(mi, j, a.locked)
    ensures 1 in ScanOperands(mi, j, a, o).counts
    decreases |mi.ops| - j
  {
    if !IsVirtOperand(mi.ops[j]) || mi.ops[j].reg.vreg !in a.locked {
      assert LockedFrom(mi, j + 1, a.locked);
      ScanCountersLocked(mi, j + 1, a, o);
    }
  }

  /** The least of a non-empty list of counters. */
  function MinOf(s: seq<nat>): nat
    requires |s| > 0
  {
    if |s| == 1 then s[0]
    else var m := MinOf(s[1..]); if s[0] < m then s[0] else m
  }

  /** The least counter is at least `t` exactly when every counter is. */
  lemma {:induction false} MinAtLeast(s: seq<nat>, t: nat)
    requires |s| > 0
    ensures MinOf(s) >= t <==> forall i :: 0 <= i < |s| ==> s[i] >= t
  {
    if |s| > 1 {
      MinAtLeast(s[1..], t);
      assert forall i :: 1 <= i < |s| ==> s[i] == s[1..][i - 1];
    }
  }

  /** The three outcomes: 1 (a register was rebound), -1 (nothing helps)
      and 0 (try the code transformation). */
  datatype Allocation = Reallocated | NothingToDo | TryTransform

  /**
   The register search as written: when the instruction has no virtual
   register the list of counters is empty and the source takes the least
   element of an empty list, which reads past its end; that is `Fail`
   here.
   */
  function AllocateAsWritten(mi: Instr, a: Alloc, o: Oracles): (r: Result<(Allocation, Alloc)>)
    requires Bound(mi, a.binding)
    ensures r.Ok? && r.value.0 != Reallocated ==> r.value.1 == a
  {
    match ScanOperands(mi, 0, a, o)
    case Rebind(_, v, p) => Ok((Reallocated, Alloc(a.binding[v := p], a.locked + {v})))
    case Counters(cs) =>
      if |cs| == 0 then Fail("least element of an empty list")
      else if MinOf(cs) >= 4 then Ok((NothingToDo, a))
      else Ok((TryTransform, a))
  }

  /** The search as written fails exactly on the instructions without a
      virtual register. */
  lemma AsWrittenFailsWithoutVirtual(mi: Instr, a: Alloc, o: Oracles)
    requires Bound(mi, a.binding)
    ensures AllocateAsWritten(mi, a, o).Fail? <==> !VirtFrom(mi, 0)
  {
    var s := ScanOperands(mi, 0, a, o);
    if s.Rebind? {
      assert IsVirtOperand(mi.ops[s.index]);
    }
  }

  /**
   `allocateNewRegister`, with an instruction without virtual registers
   answering -1, as nothing can be done for it. A rebinding changes the
   binding of one unlocked virtual register of the instruction, to a
   different register from its allocation order under which the
   instruction has no hazard and which interferes with nothing, and locks
   it; no other binding changes, and the other outcomes change nothing.
   */
  function AllocateNewRegister(mi: Instr, a: Alloc, o: Oracles): (r: (Allocation, Alloc))
    requires Bound(mi, a.binding)
    ensures r.0 == Reallocated <==> ScanOperands(mi, 0, a, o).Rebind?
    ensures r.0 == Reallocated ==>
      var s := ScanOperands(mi, 0, a, o);
      s.v !in a.locked && s.v in a.binding && s.phys != a.binding[s.v]
      && r.1 == Alloc(a.binding[s.v := s.phys], a.locked + {s.v})
      && !HasHazard(o.encode(mi, r.1.binding)) && o.free(s.v, s.phys)
      && s.index < |mi.ops| && mi.ops[s.index] == RegOp(Virt(s.v))
    ensures r.0 != Reallocated ==> r.1 == a
    ensures r.1.binding.Keys == a.binding.Keys
  {
    match AllocateAsWritten(mi, a, o)
    case Ok(x) => x
    case Fail(_) => (NothingToDo, a)
  }

  /** The two agree whenever the instruction has a virtual register. */
  lemma AllocateAgrees(mi: Instr, a: Alloc, o: Oracles)
    requires Bound(mi, a.binding) && VirtFrom(mi, 0)
    ensures AllocateAsWritten(mi, a, o) == Ok(AllocateNewRegister(mi, a, o))
  {
    AsWrittenFailsWithoutVirtual(mi, a, o);
  }

  /** -1 means that every virtual-register operand's counter reached 4. */
  lemma NothingToDoMeansAllCountersFull(mi: Instr, a: Alloc, o: Oracles)
    requires Bound(mi, a.binding) && VirtFrom(mi, 0)
    ensures var s := ScanOperands(mi, 0, a, o);
      AllocateNewRegister(mi, a, o).0 == NothingToDo <==>
        s.Counters? && forall i :: 0 <= i < |s.counts| ==> s.counts[i] >= 4
  {
    var s := ScanOperands(mi, 0, a, o);
    if s.Counters? {
      MinAtLeast(s.counts, 4);
    }
  }

  /**
   A locked virtual register still pushes a counter of 1, so an
   instruction with one never gets -1: when nothing is rebound, the code
   transformation is tried.
   */
  lemma LockedOperandForcesTransform(mi: Instr, a: Alloc, o: Oracles)
    requires Bound(mi, a.binding) && LockedFrom(mi, 0, a.locked)
    ensures AllocateNewRegister(mi, a, o).0 != NothingToDo
  {
    var s := ScanOperands(mi, 0, a, o);
    if s.Counters? {
      ScanCountersLocked(mi, 0, a, o);
      var i :| 0 <= i < |s.counts| && s.counts[i] == 1;
      MinAtLeast(s.counts, 4);
    }
  }

  // ---------------------------------------------------------------------
  // The scratch register.

  /** The physical register a register operand stands for under `b`. */
  function PhysOf(r: Reg, b: Binding): Option<PhysReg> {
    match r
    case Phys(p) => Some(p)
    case Virt(v) => if v in b then Some(b[v]) else None
    case _ => None
  }

  /** `MIusesRegister`: some register operand of `mi` is a register of
      the family (its 64-, 32-, 16- or 8-bit name). */
  predicate UsesFamily(mi: Instr, b: Binding, fam: Family) {
    exists j :: 0 <= j < |mi.ops| && mi.ops[j].RegOp?
      && PhysOf(mi.ops[j].reg, b).Some? && PhysOf(mi.ops[j].reg, b).value.family == fam
  }

  /** The scratch candidates, in order of preference. */
  const SafeFamilies: seq<Family> := [R13, R15, R14]

  /** The position in `fams` of the first family that `mi` does not use. */
  function FirstUnused(mi: Instr, b: Binding, fams: seq<Family>): (r: Option<nat>)
    ensures r.Some? ==> r.value < |fams| && !UsesFamily(mi, b, fams[r.value])
                        && forall k :: 0 <= k < r.value ==> UsesFamily(mi, b, fams[k])
    ensures r.None? <==> forall k :: 0 <= k < |fams| ==> UsesFamily(mi, b, fams[k])
    decreases |fams|
  {
    if |fams| == 0 then None
    else if !UsesFamily(mi, b, fams[0]) then Some(0)
    else match FirstUnused(mi, b, fams[1..])
      case None => None
      case Some(i) => Some(i + 1)
  }

  /** The part of a family that a register of the class is. */
  function PartOfClass(c: RegClass): Option<Part> {
    match c
    case GR8 => Some(L)
    case GR16 => Some(W)
    case GR32 => Some(D)
    case GR64 => Some(Q)
    case _ => None
  }

  /**
   `getSafeReg`: the first of R13, R15 and R14 that the instruction does
   not use, at the size of the largest class containing the virtual
   register's class; no register (0 in the source) for GR32_ABCD and for
   classes other than the four general-purpose ones. When all three are
   used the source fails an assertion.
   */
  function SafeReg(mi: Instr, v: nat, b: Binding, o: Oracles): (r: Result<Option<PhysReg>>)
    ensures r.Fail? <==> (UsesFamily(mi, b, R13) && UsesFamily(mi, b, R15) && UsesFamily(mi, b, R14))
    ensures r.Ok? && r.value.Some? ==>
      var fam := r.value.value.family;
      !UsesFamily(mi, b, fam)
      && (fam == R13 || (UsesFamily(mi, b, R13) && (fam == R15 || (UsesFamily(mi, b, R15) && fam == R14))))
    ensures r.Ok? && r.value.Some? ==> o.classOf(v) != GR32_ABCD && PartOfClass(o.largest(o.classOf(v))) == Some(r.value.value.part)
    ensures r.Ok? && r.value.None? ==> o.classOf(v) == GR32_ABCD || PartOfClass(o.largest(o.classOf(v))).None?
  {
    match FirstUnused(mi, b, SafeFamilies)
    case None => Fail("no scratch register left")
    case Some(i) =>
      var fam := SafeFamilies[i];
      var c := o.classOf(v);
      if c == GR32_ABCD then Ok(None)
      else match PartOfClass(o.largest(c))
        case None => Ok(None)
        case Some(part) => Ok(Some(PhysReg(fam, part)))
  }

  /** The width in bits of a part of a register family. */
  function PartWidth(p: Part): nat {
    match p
    case Q => 64
    case D => 32
    case W => 16
    case _ => 8
  }

  /** `getMOVrrOpcode`: the register-to-register MOV of the width of a
      general-purpose register; none (0 in the source) for the instruction
      pointer and the segment register, which are in no such class. */
  function MovRROpcode(p: PhysReg): (r: Option<Opcode>)
    ensures r.Some? <==> p.family !in {RIP, FS}
    ensures r.Some? ==> r.value.mn == MOV && r.value.form == RR && r.value.width in {8, 16, 32, 64}
  {
    if p.family in {RIP, FS} then None else Some(Op(MOV, PartWidth(p.part), RR))
  }

  // ---------------------------------------------------------------------
  // The code transformation.

  /** The operand chosen for the transformation and what goes with it. */
  datatype Pick = Pick(index: nat, v: nat, safe: PhysReg, mov: Opcode)

  /**
   The first virtual-register operand from `j` on whose scratch register
   removes the hazard when standing in for it. An operand without a
   scratch register or without a MOV opcode ends the search with nothing.
   */
  function PickOperand(mi: Instr, j: nat, a: Alloc, o: Oracles): (r: Result<Option<Pick>>)
    requires Bound(mi, a.binding) && j <= |mi.ops|
    ensures r.Ok? && r.value.Some? ==>
      var p := r.value.value;
      j <= p.index < |mi.ops| && mi.ops[p.index] == RegOp(Virt(p.v)) && p.v in a.binding
      && p.safe.family in {R13, R15, R14} && !UsesFamily(mi, a.binding, p.safe.family)
      && MovRROpcode(a.binding[p.v]) == Some(p.mov)
      && !HasHazard(o.encode(mi, a.binding[p.v := p.safe]))
    decreases |mi.ops| - j
  {
    if j == |mi.ops| then Ok(None)
    else if !IsVirtOperand(mi.ops[j]) then PickOperand(mi, j + 1, a, o)
    else
      var v := mi.ops[j].reg.vreg;
      match SafeReg(mi, v, a.binding, o)
      case Fail(e) => Fail(e)
      case Ok(safe) =>
        var mov := MovRROpcode(a.binding[v]);
        if safe.None? || mov.None? then Ok(None)
        else if !HasHazard(AssembleNewMapping(mi, v, safe.value, a.binding, o).0) then
          Ok(Some(Pick(j, v, safe.value, mov.value)))
        else PickOperand(mi, j + 1, a, o)
  }

  /** Whether an operand is a virtual register bound where `v` is. */
  predicate SharesWith(op: Operand, v: nat, b: Binding)
    requires v in b
  {
    IsVirtOperand(op) && op.reg.vreg in b && b[op.reg.vreg] == b[v]
  }

  /** The operands with `v`, and every virtual register bound where `v`
      is, replaced by the scratch register. */
  function Rename(ops: seq<Operand>, v: nat, safe: PhysReg, b: Binding): (r: seq<Operand>)
    requires v in b
    ensures |r| == |ops|
  {
    seq(|ops|, k requires 0 <= k < |ops| => if SharesWith(ops[k], v, b) then RegOp(Phys(safe)) else ops[k])
  }

  /** An IMPLICIT_DEF for each operand of another virtual register bound
      where `v` is, in operand order. */
  function ImplicitDefs(ops: seq<Operand>, v: nat, b: Binding): (r: seq<Instr>)
    requires v in b
    ensures |r| <= |ops|
    ensures forall k :: 0 <= k < |r| ==>
              (r[k].op.mn == IMPLICIT_DEF && |r[k].ops| == 1 && r[k].ops[0] in ops
               && SharesWith(r[k].ops[0], v, b) && r[k].ops[0] != RegOp(Virt(v)))
    decreases |ops|
  {
    if |ops| == 0 then []
    else
      var rest := ImplicitDefs(ops[1..], v, b);
      if SharesWith(ops[0], v, b) && ops[0] != RegOp(Virt(v))
      then [Instr(Op(IMPLICIT_DEF, 0, NoForm), [ops[0]])] + rest
      else rest
  }

  /**
   The code that replaces the instruction for a pick: PUSH of the scratch
   register's 64-bit name, MOV of the virtual register into the scratch
   register (left out for a COPY whose chosen operand is its first), the
   IMPLICIT_DEFs, the instruction with the scratch register in place of
   the virtual register and of every virtual register bound with it, MOV
   back, POP. The test that would leave out the MOV back for a COPY reads
   the operand index after the renaming loop has run it up to the operand
   count, so it never holds. The second component is where the rewritten
   instruction sits.
   */
  function WrapCode(mi: Instr, p: Pick, b: Binding): (r: (seq<Instr>, nat))
    requires Bound(mi, b) && p.v in b
    ensures var (code, at) := r; var fam := p.safe.family;
      1 <= at < |code| && code[0] == Push64(P64(fam)) && code[|code| - 1] == Pop64(P64(fam))
      && (|code| == at + 2 <==> mi.op.mn == COPY && |mi.ops| == 1)
      && (|code| == at + 3 ==> code[at + 1] == Instr(p.mov, [RegOp(Virt(p.v)), RegOp(Phys(p.safe))]))
      && (mi.op.mn != COPY || p.index != 0 ==> code[1] == Instr(p.mov, [RegOp(Phys(p.safe)), RegOp(Virt(p.v))]))
    ensures var (code, at) := r;
      code[at].op == mi.op && |code[at].ops| == |mi.ops|
      && (forall k :: 0 <= k < |mi.ops| ==>
            code[at].ops[k] == (if SharesWith(mi.ops[k], p.v, b) then RegOp(Phys(p.safe)) else mi.ops[k]))
    ensures AllBound(r.0, b)
  {
    var super := P64(p.safe.family);
    var isCopy := mi.op.mn == COPY;
    var movIn := if isCopy && p.index == 0 then []
                 else [Instr(p.mov, [RegOp(Phys(p.safe)), RegOp(Virt(p.v))])];
    var defs := ImplicitDefs(mi.ops, p.v, b);
    var newMI := Instr(mi.op, Rename(mi.ops, p.v, p.safe, b));
    var virtIndex := |mi.ops|;
    var movOut := if isCopy && virtIndex == 1 then []
                  else [Instr(p.mov, [RegOp(Virt(p.v)), RegOp(Phys(p.safe))])];
    var before := [Push64(super)] + movIn + defs;
    WrapBound(mi, p.v, p.safe, p.mov, before, newMI, movOut, b);
    (before + [newMI] + movOut + [Pop64(super)], |before|)
  }

  lemma WrapBound(mi: Instr, v: nat, safe: PhysReg, mov: Opcode, before: seq<Instr>, newMI: Instr,
                  movOut: seq<Instr>, b: Binding)
    requires Bound(mi, b) && v in b && |before| >= 1 && before[0] == Push64(P64(safe.family))
    requires forall k :: 1 <= k < |before| ==>
      before[k] == Instr(mov, [RegOp(Phys(safe)), RegOp(Virt(v))])
      || (|before[k].ops| == 1 && before[k].ops[0] in mi.ops && SharesWith(before[k].ops[0], v, b))
    requires newMI == Instr(mi.op, Rename(mi.ops, v, safe, b))
    requires movOut == [] || movOut == [Instr(mov, [RegOp(Virt(v)), RegOp(Phys(safe))])]
    ensures AllBound(before + [newMI] + movOut + [Pop64(P64(safe.family))], b)
  {
    var code := before + [newMI] + movOut + [Pop64(P64(safe.family))];
    forall k | 0 <= k < |code|
      ensures Bound(code[k], b)
    {
      if k < |before| {
        if k >= 1 && before[k] != Instr(mov, [RegOp(Phys(safe)), RegOp(Virt(v))]) {
          var op := before[k].ops[0];
          assert op.reg.vreg in b;
        }
      }
    }
  }

  /** The code that replaces an instruction, the position of the rewritten
      instruction in it, and the allocator's state after. */
  datatype Wrapped = Wrapped(code: seq<Instr>, at: nat, alloc: Alloc)

  /**
   `doCodeTransformation`: the first operand whose scratch register removes
   the hazard is wrapped and locked; the binding does not change. Nothing
   is done when no operand qualifies.
   */
  function CodeTransformation(mi: Instr, a: Alloc, o: Oracles): (r: Result<Option<Wrapped>>)
    requires Bound(mi, a.binding)
    ensures r.Ok? <==> PickOperand(mi, 0, a, o).Ok?
    ensures r.Ok? && r.value.Some? ==>
      var w := r.value.value;
      PickOperand(mi, 0, a, o).value.Some?
      && var p := PickOperand(mi, 0, a, o).value.value;
      p.v in a.binding && w.alloc == Alloc(a.binding, a.locked + {p.v})
      && (w.code, w.at) == WrapCode(mi, p, a.binding)
      && !HasHazard(o.encode(mi, a.binding[p.v := p.safe]))
      && p.safe.family in {R13, R15, R14} && !UsesFamily(mi, a.binding, p.safe.family)
    ensures r.Ok? && r.value.None? ==> PickOperand(mi, 0, a, o) == Ok(None)
  {
    match PickOperand(mi, 0, a, o)
    case Fail(e) => Fail(e)
    case Ok(None) => Ok(None)
    case Ok(Some(p)) =>
      var (code, at) := WrapCode(mi, p, a.binding);
      Ok(Some(Wrapped(code, at, Alloc(a.binding, a.locked + {p.v}))))
  }

  // ---------------------------------------------------------------------
  // The pass over a block, over a function, and the fixpoint.

  /** The allocator's state only grows its lock set, keeps the set of bound
      registers, and never changes the binding of a locked register. */
  predicate Stable(a: Alloc, a2: Alloc) {
    a.locked <= a2.locked && a2.binding.Keys == a.binding.Keys
    && forall v :: v in a.locked && v in a.binding ==> a2.binding[v] == a.binding[v]
  }

  /**
   The block walk from instruction `k`. A hazardous instruction is first
   offered to the register search; a rebinding asks for another pass, -1
   moves on, 0 tries the code transformation, which asks for another pass
   when it wraps the instruction. The walk then continues after the
   wrapped instruction, so the MOV back and the POP are looked at too;
   `fuel` bounds the number of wraps, the source having no such bound.
   */
  function BlockPass(s: seq<Instr>, k: nat, a: Alloc, again: bool, fuel: nat, o: Oracles)
    : (r: Result<(seq<Instr>, Alloc, bool)>)
    requires AllBound(s, a.binding)
    ensures r.Ok? ==> Stable(a, r.value.1) && AllBound(r.value.0, r.value.1.binding)
    ensures r.Ok? && again ==> r.value.2
    decreases fuel, |s| - k
  {
    if k >= |s| then Ok((s, a, again))
    else
      var mi := s[k];
      if NeverEncodesRet(mi) || !HasHazard(o.encode(mi, a.binding)) then
        BlockPass(s, k + 1, a, again, fuel, o)
      else
        var (res, a1) := AllocateNewRegister(mi, a, o);
        if res == Reallocated then
          BlockPass(s, k + 1, a1, true, fuel, o)
        else if res == NothingToDo then
          BlockPass(s, k + 1, a, again, fuel, o)
        else match CodeTransformation(mi, a, o)
          case Fail(e) => Fail(e)
          case Ok(None) => BlockPass(s, k + 1, a, again, fuel, o)
          case Ok(Some(w)) =>
            if fuel == 0 then Fail("out of fuel")
            else
              var s1 := s[..k] + w.code + s[k + 1..];
              SpliceBound(s, k, w.code, a.binding);
              BlockPass(s1, k + w.at + 1, w.alloc, true, fuel - 1, o)
  }

  lemma SpliceBound(s: seq<Instr>, k: nat, code: seq<Instr>, b: Binding)
    requires k < |s| && AllBound(s, b) && AllBound(code, b)
    ensures AllBound(s[..k] + code + s[k + 1..], b)
  {
    var s1 := s[..k] + code + s[k + 1..];
    forall i | 0 <= i < |s1|
      ensures Bound(s1[i], b)
    {
      if i < k {
        assert s1[i] == s[i];
      } else if i < k + |code| {
        assert s1[i] == code[i - k];
      } else {
        assert s1[i] == s[i - |code| + 1];
      }
    }
  }

  /** Every instruction of every block is bound. */
  predicate FunctionBound(f: Function, b: Binding) {
    forall l :: l in f.blocks ==> AllBound(f.blocks[l].instrs, b)
  }

  /** One pass over the blocks in layout order; a block asks for another
      pass when any of its instructions was rebound or wrapped. */
  function FunctionPass(f: Function, i: nat, a: Alloc, again: bool, fuel: nat, o: Oracles)
    : (r: Result<(Function, Alloc, bool)>)
    requires FunctionBound(f, a.binding)
    ensures r.Ok? ==> Stable(a, r.value.1) && FunctionBound(r.value.0, r.value.1.binding)
    ensures r.Ok? ==> r.value.0.layout == f.layout && r.value.0.blocks.Keys == f.blocks.Keys
    ensures r.Ok? && again ==> r.value.2
    decreases |f.layout| - i
  {
    if i >= |f.layout| then Ok((f, a, again))
    else
      var l := f.layout[i];
      if l !in f.blocks then FunctionPass(f, i + 1, a, again, fuel, o)
      else match BlockPass(f.blocks[l].instrs, 0, a, false, fuel, o)
        case Fail(e) => Fail(e)
        case Ok((s, a1, ag)) =>
          var f1 := f.(blocks := f.blocks[l := f.blocks[l].(instrs := s)]);
          RebindKeepsBound(f, a.binding, a1.binding);
          FunctionPass(f1, i + 1, a1, again || ag, fuel, o)
  }

  lemma RebindKeepsBound(f: Function, b: Binding, b2: Binding)
    requires FunctionBound(f, b) && b2.Keys == b.Keys
    ensures FunctionBound(f, b2)
  {
    forall l, k, j | l in f.blocks && 0 <= k < |f.blocks[l].instrs| && 0 <= j < |f.blocks[l].instrs[k].ops|
                     && IsVirtOperand(f.blocks[l].instrs[k].ops[j])
      ensures f.blocks[l].instrs[k].ops[j].reg.vreg in b2
    {
      assert Bound(f.blocks[l].instrs[k], b);
    }
  }

  /**
   Whole-function passes until one of them asks for no other; `passes`
   bounds their number, the source having no such bound, and `fuel` the
   wraps in each block.
   */
  function Fixpoint(f: Function, a: Alloc, passes: nat, fuel: nat, o: Oracles): (r: Result<(Function, Alloc)>)
    requires FunctionBound(f, a.binding)
    ensures r.Ok? ==> Stable(a, r.value.1) && r.value.0.layout == f.layout
    decreases passes
  {
    if passes == 0 then Fail("out of fuel")
    else match FunctionPass(f, 0, a, false, fuel, o)
      case Fail(e) => Fail(e)
      case Ok((f1, a1, again)) =>
        if again then Fixpoint(f1, a1, passes - 1, fuel, o) else Ok((f1, a1))
  }

  // ---------------------------------------------------------------------
  // Properties of the passes.

  /** A block walk that asks for no other pass changed nothing. */
  lemma {:induction false} QuietBlockPassChangesNothing(s: seq<Instr>, k: nat, a: Alloc, again: bool,
                                                        fuel: nat, o: Oracles)
    requires AllBound(s, a.binding)
    requires BlockPass(s, k, a, again, fuel, o).Ok? && !BlockPass(s, k, a, again, fuel, o).value.2
    ensures BlockPass(s, k, a, again, fuel, o).value == (s, a, false)
    decreases fuel, |s| - k
  {
    if k < |s| {
      var mi := s[k];
      if NeverEncodesRet(mi) || !HasHazard(o.encode(mi, a.binding)) {
        QuietBlockPassChangesNothing(s, k + 1, a, again, fuel, o);
      } else {
        var (res, a1) := AllocateNewRegister(mi, a, o);
        if res == NothingToDo {
          QuietBlockPassChangesNothing(s, k + 1, a, again, fuel, o);
        } else if res == TryTransform {
          var t := CodeTransformation(mi, a, o);
          if t == Ok(None) {
            QuietBlockPassChangesNothing(s, k + 1, a, again, fuel, o);
          }
        }
      }
    }
  }

  /** A function pass that asks for no other changed nothing. */
  lemma {:induction false} QuietFunctionPassChangesNothing(f: Function, i: nat, a: Alloc, again: bool,
                                                           fuel: nat, o: Oracles)
    requires FunctionBound(f, a.binding)
    requires FunctionPass(f, i, a, again, fuel, o).Ok? && !FunctionPass(f, i, a, again, fuel, o).value.2
    ensures FunctionPass(f, i, a, again, fuel, o).value == (f, a, false)
    decreases |f.layout| - i
  {
    if i < |f.layout| {
      var l := f.layout[i];
      if l !in f.blocks {
        QuietFunctionPassChangesNothing(f, i + 1, a, again, fuel, o);
      } else {
        var bp := BlockPass(f.blocks[l].instrs, 0, a, false, fuel, o);
        var (s, a1, ag) := bp.value;
        var f1 := f.(blocks := f.blocks[l := f.blocks[l].(instrs := s)]);
        RebindKeepsBound(f, a.binding, a1.binding);
        QuietBlockPassChangesNothing(f.blocks[l].instrs, 0, a, false, fuel, o);
        assert f1 == f;
        QuietFunctionPassChangesNothing(f, i + 1, a, again, fuel, o);
      }
    }
  }

  /** What the fixpoint returns is a fixpoint: one more pass over it asks
      for no other and changes nothing. */
  lemma {:induction false} FixpointIsFixed(f: Function, a: Alloc, passes: nat, fuel: nat, o: Oracles)
    requires FunctionBound(f, a.binding)
    requires Fixpoint(f, a, passes, fuel, o).Ok?
    ensures var (g, b) := Fixpoint(f, a, passes, fuel, o).value;
      FunctionBound(g, b.binding) && FunctionPass(g, 0, b, false, fuel, o) == Ok((g, b, false))
    decreases passes
  {
    var (f1, a1, again) := FunctionPass(f, 0, a, false, fuel, o).value;
    if again {
      FixpointIsFixed(f1, a1, passes - 1, fuel, o);
    } else {
      QuietFunctionPassChangesNothing(f, 0, a, false, fuel, o);
    }
  }

  /** A block whose instructions are all left alone or hazard-free under
      the binding comes back as it was, asking for no other pass. */
  lemma {:induction false} CleanBlockUnchanged(s: seq<Instr>, k: nat, a: Alloc, fuel: nat, o: Oracles)
    requires AllBound(s, a.binding)
    requires forall i :: k <= i < |s| ==> NeverEncodesRet(s[i]) || !HasHazard(o.encode(s[i], a.binding))
    ensures BlockPass(s, k, a, false, fuel, o) == Ok((s, a, false))
    decreases |s| - k
  {
    if k < |s| {
      CleanBlockUnchanged(s, k + 1, a, fuel, o);
    }
  }
}

=== FILE: rap.dfy ===
/**
 Return-address protection.

 On entry the return address on top of the stack is XORed with the
 stack-protector canary; before every instruction that leaves the function
 (a return, a tail call, a branch into another function) it is XORed
 again, which restores it. An address overwritten in between comes back
 XORed with a canary the attacker does not know. The exit sequence is
 preceded by nine NOOPs, the landing pad the finalization pass relies on.
 R11 is the scratch register: free at entry and at every exit.
 */
module Rap {
  import opened Words
  import opened Machine
  import opened Cpu
  import Jcp

  function R11Op(): Operand { RegOp(P64(R11)) }

  /** `mov fs:[0x28], r11` */
  const LoadCanary: Instr := Instr(Op(MOV, 64, RM), [R11Op()] + CanaryOps)

  /** `xor r11, [rsp + 0]` */
  const MaskTop: Instr := Instr(Op(XOR, 64, MR), MemOps(RegOp(P64(RSP)), Zero) + [R11Op()])

  /** What the prologue block holds. */
  function Prologue(): seq<Instr> { [LoadCanary, MaskTop] }

  /** What goes before an exit: the nop sled, then the same two
      instructions. */
  function Epilogue(): seq<Instr> { Nops(9) + [LoadCanary, MaskTop] }

  function Last(s: seq<Instr>): Instr
    requires |s| > 0
  {
    s[|s| - 1]
  }

  // ---------------------------------------------------------------------
  // What the sequences compute.

  lemma StepLoadCanary(s: State)
    ensures Step(LoadCanary, s) == Some(s.(regs := s.regs[R11 := s.canary]))
  {
    DecodeLoadTo(R11, CanaryOps);
  }

  lemma StepMaskTop(s: State)
    requires |s.stack| > 0
    ensures Step(MaskTop, s)
         == Some(s.(stack := s.stack[0 := Xor(s.stack[0], Get(s, R11))], zf := Xor(s.stack[0], Get(s, R11)) == Zero))
  {
    MemOfRsp(Zero);
    DecodeXorStore(MemOps(RegOp(P64(RSP)), Zero), R11);
    assert StackIndex(Zero, s.stack, 0) == Some(0);
  }

  /** The state after `LoadCanary; MaskTop`, one step after the other. */
  function MaskedAfter(s: State): State
    requires |s.stack| > 0
  {
    var s1 := s.(regs := s.regs[R11 := s.canary]);
    s1.(stack := s1.stack[0 := Xor(s1.stack[0], Get(s1, R11))], zf := Xor(s1.stack[0], Get(s1, R11)) == Zero)
  }

  lemma PrologueRun(s: State)
    requires |s.stack| > 0
    ensures Run(Prologue(), s) == Some(MaskedAfter(s))
  {
    var s1 := s.(regs := s.regs[R11 := s.canary]);
    StepLoadCanary(s);
    StepMaskTop(s1);
    Run2(LoadCanary, MaskTop, s, s1, MaskedAfter(s));
  }

  /** The nop sled changes nothing: the epilogue computes what the
      prologue does. */
  lemma EpilogueRun(s: State)
    requires |s.stack| > 0
    ensures Run(Epilogue(), s) == Some(MaskedAfter(s))
  {
    RunAppend(Nops(9), Prologue(), s);
    NopsChangeNothing(9, s);
    PrologueRun(s);
  }

  /**
   The prologue XORs the return address with the canary and leaves the
   canary in R11; the rest of the stack, the other registers and the frame
   objects are as they were.
   */
  lemma PrologueMasks(s: State)
    requires |s.stack| > 0
    ensures var t := Run(Prologue(), s);
      t.Some? && t.value.stack == s.stack[0 := Xor(s.stack[0], s.canary)]
      && Get(t.value, R11) == s.canary
      && (forall g :: g != R11 ==> Get(t.value, g) == Get(s, g))
      && t.value.slots == s.slots && t.value.canary == s.canary
  {
    PrologueRun(s);
  }

  /**
   Whatever runs between entry and exit, if it leaves the top of the stack
   and the canary as the prologue left them, the epilogue hands the exit
   the original return address, and the cells below it are untouched.
   */
  lemma ReturnAddressRestored(s: State, u: State)
    requires |s.stack| > 0 && |u.stack| > 0
    requires u.canary == s.canary
    requires u.stack[0] == Xor(s.stack[0], s.canary)
    ensures Run(Epilogue(), u).Some? && Run(Epilogue(), u).value.stack == u.stack[0 := s.stack[0]]
  {
    EpilogueRun(u);
    XorTwice(s.stack[0], s.canary);
  }

  /**
   An overwritten return address is diverted: the epilogue leaves `x` on
   top exactly when the stack held `x` XORed with the canary, so reaching a
   chosen address needs the canary.
   */
  lemma EpilogueDiverts(u: State, x: Word)
    requires |u.stack| > 0
    ensures Run(Epilogue(), u).Some?
    ensures Run(Epilogue(), u).value.stack == u.stack[0 := x] <==> u.stack[0] == Xor(x, u.canary)
  {
    EpilogueRun(u);
    MaskedStack(u);
    var m := Xor(u.stack[0], u.canary);
    if u.stack[0 := m] == u.stack[0 := x] {
      assert u.stack[0 := m][0] == m;
    }
    XorSolve(u.stack[0], u.canary, x);
  }

  /** What the masking does to the stack. */
  lemma MaskedStack(s: State)
    requires |s.stack| > 0
    ensures MaskedAfter(s).stack == s.stack[0 := Xor(s.stack[0], s.canary)]
  {
  }

  // ---------------------------------------------------------------------
  // Where the sequences go.

  /**
   Whether the epilogue goes before a block's last instruction `i`: it
   leaves the function, by a return or by a branch into a block of another
   function. Indirect branches are skipped. Reading the target of a branch
   whose first operand is not a block fails, as the source's assertion
   does.
   */
  function Exits(number: nat, i: Instr): (r: Result<bool>)
    ensures r.Fail? ==> IsBranch(i)
    ensures r == Ok(true) ==> IsReturn(i) || IsBranch(i)
    ensures IsReturn(i) && !IsIndirectBranch(i) ==> r == Ok(true)
    ensures IsIndirectBranch(i) ==> r == Ok(false)
    ensures !IsIndirectBranch(i) && !IsReturn(i) && IsBranch(i) && |i.ops| > 0 && i.ops[0].BlockRef? ==>
      r == Ok(i.ops[0].owner != number)
  {
    if IsIndirectBranch(i) then Ok(false)
    else if IsReturn(i) then Ok(true)
    else if IsBranch(i) then
      if |i.ops| > 0 && i.ops[0].BlockRef? then Ok(i.ops[0].owner != number)
      else Fail("branch without a target block")
    else Ok(false)
  }

  /** A block's instructions with the epilogue before the last one when
      that one leaves the function. */
  function WithEpilogue(number: nat, s: seq<Instr>): (r: Result<seq<Instr>>)
    ensures r.Fail? <==> |s| > 0 && Exits(number, Last(s)).Fail?
    ensures r.Ok? ==> (|r.value| == 0 <==> |s| == 0)
    ensures r.Ok? && |s| > 0 ==> Last(r.value) == Last(s)
  {
    if |s| == 0 then Ok(s)
    else match Exits(number, Last(s))
      case Fail(e) => Fail(e)
      case Ok(x) => Ok(if x then s[..|s| - 1] + Epilogue() + [Last(s)] else s)
  }

  /** Some block in the layout ends in a branch whose target the pass
      cannot read. */
  predicate Broken(f: Function) {
    exists l :: l in f.layout && l in f.blocks && WithEpilogue(f.number, f.blocks[l].instrs).Fail?
  }

  /** Every block in the layout with its epilogue. */
  function WithEpilogues(f: Function): (g: Function)
    requires !Broken(f)
    ensures g.layout == f.layout && g.number == f.number && g.blocks.Keys == f.blocks.Keys
    ensures forall l :: l in f.blocks ==> g.blocks[l].succs == f.blocks[l].succs
  {
    f.(blocks := map l | l in f.blocks ::
         if l in f.layout then f.blocks[l].(instrs := WithEpilogue(f.number, f.blocks[l].instrs).value)
         else f.blocks[l])
  }

  /** The block at layout position `k` asks for the prologue: it got an
      epilogue, or it is the last block and ends in a call. */
  predicate Marks(f: Function, k: nat)
    requires k < |f.layout|
  {
    var l := f.layout[k];
    l in f.blocks && |f.blocks[l].instrs| > 0
    && var i := Last(f.blocks[l].instrs);
    Exits(f.number, i) == Ok(true) || (k == |f.layout| - 1 && !IsIndirectBranch(i) && IsCall(i))
  }

  predicate Inserted(f: Function) {
    exists k :: 0 <= k < |f.layout| && Marks(f, k)
  }

  /** A new block holding the prologue, placed in the layout at position
      `i` and falling through to the block that was there. */
  function WithPrologue(g: Function, i: nat, newBlock: nat): (h: Function)
    requires i < |g.layout|
    ensures h.number == g.number && h.blocks.Keys == g.blocks.Keys + {newBlock}
    ensures |h.layout| == |g.layout| + 1 && h.layout[i] == newBlock
    ensures h.layout[..i] == g.layout[..i] && h.layout[i + 1..] == g.layout[i..]
    ensures h.layout == g.layout[..i] + [newBlock] + g.layout[i..]
  {
    g.(layout := g.layout[..i] + [newBlock] + g.layout[i..],
       blocks := g.blocks[newBlock := Block(Prologue(), [g.layout[i]])])
  }

  /**
   The pass: an epilogue before every exit, and, when one was placed or
   the function ends in a call, the prologue in a new block `newBlock` before
   the first non-empty block.
   */
  function Protect(f: Function, newBlock: nat): (r: Result<Function>)
    requires newBlock !in f.blocks && newBlock !in f.layout
    ensures r.Fail? <==> Broken(f)
    ensures r.Ok? ==> r.value.number == f.number && r.value.blocks.Keys <= f.blocks.Keys + {newBlock}
    ensures r.Ok? ==> (newBlock in r.value.blocks <==> Inserted(f))
    ensures r.Ok? && !Inserted(f) ==> r.value.layout == f.layout
  {
    if Broken(f) then Fail("branch without a target block")
    else
      var g := WithEpilogues(f);
      var first := Jcp.FirstNonEmpty(f, 0);
      if !Inserted(f) || first.None? then Ok(g) else Ok(WithPrologue(g, first.value, newBlock))
  }

  /** `returnAddressProtection` as written: the loop over the leading
      empty blocks runs first, and reads past the last block when every
      block is empty. */
  function ReturnAddressProtectionAsWritten(f: Function, newBlock: nat): (r: Result<Function>)
    requires newBlock !in f.blocks && newBlock !in f.layout
    ensures Jcp.FirstNonEmpty(f, 0).None? ==> r.Fail?
    ensures Jcp.FirstNonEmpty(f, 0).Some? ==> r == Protect(f, newBlock)
  {
    match Jcp.FirstNonEmptyAsWritten(f)
    case Fail(e) => Fail(e)
    case Ok(_) => Protect(f, newBlock)
  }

  /** With the evident intent of the test after that loop: a function
      without instructions is left alone. */
  function ReturnAddressProtection(f: Function, newBlock: nat): (r: Result<Function>)
    requires newBlock !in f.blocks && newBlock !in f.layout
    ensures Jcp.FirstNonEmpty(f, 0).None? ==> r == Ok(f)
    ensures Jcp.FirstNonEmpty(f, 0).Some? ==> r == ReturnAddressProtectionAsWritten(f, newBlock)
  {
    if Jcp.FirstNonEmpty(f, 0).None? then Ok(f) else Protect(f, newBlock)
  }

  lemma AllEmptyProtection(newBlock: nat)
    requires newBlock != 0
    ensures ReturnAddressProtectionAsWritten(Jcp.AllEmpty(), newBlock).Fail?
    ensures ReturnAddressProtection(Jcp.AllEmpty(), newBlock) == Ok(Jcp.AllEmpty())
  {
    Jcp.AllEmptyFails();
  }

  // ---------------------------------------------------------------------
  // Properties of the placement.

  /** The last instruction is preceded by the epilogue. */
  predicate EndsWithEpilogue(s: seq<Instr>) {
    |s| >= 12 && s[|s| - 12..|s| - 1] == Epilogue()
  }

  lemma WithEpilogueEnds(number: nat, s: seq<Instr>)
    requires WithEpilogue(number, s).Ok? && |s| > 0 && Exits(number, Last(s)) == Ok(true)
    ensures EndsWithEpilogue(WithEpilogue(number, s).value)
  {
    var t := WithEpilogue(number, s).value;
    assert t == s[..|s| - 1] + Epilogue() + [Last(s)];
    assert t[|t| - 12..|t| - 1] == Epilogue();
  }

  /** The prologue block does not itself leave the function. */
  lemma PrologueStays(number: nat)
    ensures Exits(number, Last(Prologue())) == Ok(false)
  {
  }

  /** What the pass returns, in terms of its two halves. */
  lemma ProtectIs(f: Function, newBlock: nat)
    requires newBlock !in f.blocks && newBlock !in f.layout
    requires Protect(f, newBlock).Ok?
    ensures !Broken(f)
    ensures Inserted(f) ==> Jcp.FirstNonEmpty(f, 0).Some?
    ensures Protect(f, newBlock).value
         == if Inserted(f) then WithPrologue(WithEpilogues(f), Jcp.FirstNonEmpty(f, 0).value, newBlock)
            else WithEpilogues(f)
  {
    if Inserted(f) {
      InsertedHasFirst(f);
    }
  }

  /** A block that asks for the prologue is not empty. */
  lemma InsertedHasFirst(f: Function)
    requires Inserted(f)
    ensures Jcp.FirstNonEmpty(f, 0).Some?
  {
    var k :| 0 <= k < |f.layout| && Marks(f, k);
    assert f.layout[k] in f.blocks && |f.blocks[f.layout[k]].instrs| > 0;
  }

  /** A block of the function after the epilogues are placed. */
  lemma EpiloguesAt(f: Function, l: nat)
    requires !Broken(f) && l in f.blocks
    ensures WithEpilogues(f).blocks[l]
         == if l in f.layout then f.blocks[l].(instrs := WithEpilogue(f.number, f.blocks[l].instrs).value)
            else f.blocks[l]
  {
  }

  /** Conversely, a block of the layout whose last instruction does not
      leave the function is kept as it was. */
  lemma NonExitStays(f: Function, newBlock: nat, l: nat)
    requires newBlock !in f.blocks && newBlock !in f.layout
    requires Protect(f, newBlock).Ok?
    requires l in f.blocks && l in f.layout && |f.blocks[l].instrs| > 0
    requires Exits(f.number, Last(f.blocks[l].instrs)) == Ok(false)
    ensures l in Protect(f, newBlock).value.blocks && Protect(f, newBlock).value.blocks[l] == f.blocks[l]
  {
    ProtectIs(f, newBlock);
    EpiloguesAt(f, l);
  }

  /** In particular a block ending in an indirect branch gets no epilogue. */
  lemma IndirectBranchStays(f: Function, newBlock: nat, l: nat)
    requires newBlock !in f.blocks && newBlock !in f.layout
    requires Protect(f, newBlock).Ok?
    requires l in f.blocks && l in f.layout && |f.blocks[l].instrs| > 0
    requires IsIndirectBranch(Last(f.blocks[l].instrs))
    ensures l in Protect(f, newBlock).value.blocks && Protect(f, newBlock).value.blocks[l] == f.blocks[l]
  {
    NonExitStays(f, newBlock, l);
  }

  /**
   In the result, every block that leaves the function has the epilogue
   right before its exit, the prologue block included (it never exits).
   */
  lemma EveryExitUnmasks(f: Function, newBlock: nat, l: nat)
    requires newBlock !in f.blocks && newBlock !in f.layout
    requires Protect(f, newBlock).Ok?
    requires var g := Protect(f, newBlock).value;
      l in g.blocks && l in g.layout && |g.blocks[l].instrs| > 0 && Exits(g.number, Last(g.blocks[l].instrs)) == Ok(true)
    ensures EndsWithEpilogue(Protect(f, newBlock).value.blocks[l].instrs)
  {
    ProtectIs(f, newBlock);
    if l == newBlock {
      PrologueStays(f.number);
    } else {
      LayoutKept(f, newBlock, l);
      EpiloguesAt(f, l);
      WithEpilogueEnds(f.number, f.blocks[l].instrs);
    }
  }

  /** The old labels keep their places in the layout. */
  lemma InSplice(a: seq<nat>, b: seq<nat>, x: nat, l: nat)
    requires l != x
    ensures l in a + [x] + b <==> l in a + b
  {
    if l in a + [x] + b {
      var k :| 0 <= k < |a + [x] + b| && (a + [x] + b)[k] == l;
      if k < |a| { assert (a + b)[k] == l; } else { assert (a + b)[k - 1] == l; }
    }
    if l in a + b {
      var k :| 0 <= k < |a + b| && (a + b)[k] == l;
      if k < |a| { assert (a + [x] + b)[k] == l; } else { assert (a + [x] + b)[k + 1] == l; }
    }
  }

  lemma LayoutKept(f: Function, newBlock: nat, l: nat)
    requires newBlock !in f.blocks && newBlock !in f.layout
    requires Protect(f, newBlock).Ok? && l != newBlock
    ensures l in Protect(f, newBlock).value.layout <==> l in f.layout
    ensures l in Protect(f, newBlock).value.blocks <==> l in f.blocks
    ensures !Broken(f)
    ensures l in f.blocks ==> Protect(f, newBlock).value.blocks[l] == WithEpilogues(f).blocks[l]
  {
    ProtectIs(f, newBlock);
    var g := Protect(f, newBlock).value;
    if Inserted(f) {
      var i := Jcp.FirstNonEmpty(f, 0).value;
      assert g.layout == f.layout[..i] + [newBlock] + f.layout[i..];
      InSplice(f.layout[..i], f.layout[i..], newBlock, l);
      assert f.layout[..i] + f.layout[i..] == f.layout;
    }
  }

  /** Every block the layout puts before position `i` is empty. */
  predicate EmptyBefore(g: Function, i: nat) {
    forall j :: 0 <= j < i && j < |g.layout| && g.layout[j] in g.blocks ==> |g.blocks[g.layout[j]].instrs| == 0
  }

  /** The epilogues leave empty blocks empty. */
  lemma EpiloguesKeepEmpty(f: Function, i: nat)
    requires !Broken(f) && EmptyBefore(f, i)
    ensures EmptyBefore(WithEpilogues(f), i)
  {
    forall j | 0 <= j < i && j < |f.layout| && f.layout[j] in f.blocks
      ensures |WithEpilogues(f).blocks[f.layout[j]].instrs| == 0
    {
      EpiloguesAt(f, f.layout[j]);
    }
  }

  /**
   The prologue block is the first code in layout order: every block the
   layout puts before it is empty, and it falls through to the first
   non-empty block of the original function.
   */
  lemma PrologueFirst(f: Function, newBlock: nat)
    requires newBlock !in f.blocks && newBlock !in f.layout
    requires Protect(f, newBlock).Ok? && Inserted(f)
    ensures Jcp.FirstNonEmpty(f, 0).Some?
    ensures var i, g := Jcp.FirstNonEmpty(f, 0).value, Protect(f, newBlock).value;
      i + 1 < |g.layout| && g.layout[i] == newBlock && g.layout[i + 1] == f.layout[i]
      && g.blocks[newBlock] == Block(Prologue(), [f.layout[i]]) && EmptyBefore(g, i)
  {
    ProtectIs(f, newBlock);
    var i := Jcp.FirstNonEmpty(f, 0).value;
    var e := WithEpilogues(f);
    assert EmptyBefore(f, i);
    EpiloguesKeepEmpty(f, i);
    var g := WithPrologue(e, i, newBlock);
    assert g.layout[i + 1] == g.layout[i + 1..][0] == e.layout[i];
    forall j | 0 <= j < i && j < |g.layout| && g.layout[j] in g.blocks
      ensures |g.blocks[g.layout[j]].instrs| == 0
    {
      assert g.layout[j] == g.layout[..i][j] == e.layout[j];
    }
  }

  // ---------------------------------------------------------------------
  // Undoing the pass.

  /** `s` without the element `x`. */
  function Without(s: seq<nat>, x: nat): (r: seq<nat>)
    ensures x !in r
  {
    if |s| == 0 then [] else (if s[0] == x then [] else [s[0]]) + Without(s[1..], x)
  }

  lemma {:induction false} WithoutAbsent(s: seq<nat>, x: nat)
    requires x !in s
    ensures Without(s, x) == s
  {
    if |s| > 0 {
      WithoutAbsent(s[1..], x);
      assert s == [s[0]] + s[1..];
    }
  }

  lemma {:induction false} WithoutSplice(a: seq<nat>, b: seq<nat>, x: nat)
    requires x !in a && x !in b
    ensures Without(a + [x] + b, x) == a + b
  {
    if |a| == 0 {
      assert a + [x] + b == [x] + b;
      assert ([x] + b)[1..] == b;
      WithoutAbsent(b, x);
    } else {
      assert (a + [x] + b)[0] == a[0];
      assert (a + [x] + b)[1..] == a[1..] + [x] + b;
      WithoutSplice(a[1..], b, x);
      assert a + b == [a[0]] + (a[1..] + b);
    }
  }

  /** A block's instructions without the epilogue before an exit. */
  function WithoutEpilogue(number: nat, s: seq<Instr>): seq<Instr> {
    if |s| >= 12 && Exits(number, Last(s)) == Ok(true) then s[..|s| - 12] + [Last(s)] else s
  }

  lemma EpilogueRemoved(number: nat, s: seq<Instr>)
    requires WithEpilogue(number, s).Ok?
    ensures WithoutEpilogue(number, WithEpilogue(number, s).value) == s
  {
    var t := WithEpilogue(number, s).value;
    if |s| > 0 && Exits(number, Last(s)) == Ok(true) {
      assert t == s[..|s| - 1] + Epilogue() + [Last(s)];
      assert t[..|t| - 12] == s[..|s| - 1];
      assert s == s[..|s| - 1] + [Last(s)];
    }
  }

  /** The protected function with the prologue block and the epilogues
      taken out. */
  function Unprotect(g: Function, newBlock: nat): Function {
    g.(layout := Without(g.layout, newBlock),
       blocks := map l | l in g.blocks && l != newBlock ::
         if l in g.layout then g.blocks[l].(instrs := WithoutEpilogue(g.number, g.blocks[l].instrs))
         else g.blocks[l])
  }

  /** Taking the sequences out gives back the original function: the pass
      only adds. */
  lemma ProtectUndone(f: Function, newBlock: nat)
    requires newBlock !in f.blocks && newBlock !in f.layout
    requires Protect(f, newBlock).Ok?
    ensures Unprotect(Protect(f, newBlock).value, newBlock) == f
  {
    UnprotectLayout(f, newBlock);
    UnprotectBlocks(f, newBlock);
  }

  lemma UnprotectBlocks(f: Function, newBlock: nat)
    requires newBlock !in f.blocks && newBlock !in f.layout
    requires Protect(f, newBlock).Ok?
    ensures Unprotect(Protect(f, newBlock).value, newBlock).blocks == f.blocks
  {
    var u := Unprotect(Protect(f, newBlock).value, newBlock);
    forall l | l in f.blocks
      ensures l in u.blocks && u.blocks[l] == f.blocks[l]
    {
      UnprotectBlock(f, newBlock, l);
    }
    forall l | l in u.blocks
      ensures l in f.blocks
    {
      LayoutKept(f, newBlock, l);
    }
    SameMaps(u.blocks, f.blocks);
  }

  lemma SameMaps(a: map<nat, Block>, b: map<nat, Block>)
    requires forall l :: l in b ==> l in a && a[l] == b[l]
    requires forall l :: l in a ==> l in b
    ensures a == b
  {
  }

  lemma UnprotectLayout(f: Function, newBlock: nat)
    requires newBlock !in f.blocks && newBlock !in f.layout
    requires Protect(f, newBlock).Ok?
    ensures Unprotect(Protect(f, newBlock).value, newBlock).layout == f.layout
    ensures Unprotect(Protect(f, newBlock).value, newBlock).number == f.number
  {
    ProtectIs(f, newBlock);
    if Inserted(f) {
      var i := Jcp.FirstNonEmpty(f, 0).value;
      assert Protect(f, newBlock).value.layout == f.layout[..i] + [newBlock] + f.layout[i..];
      assert f.layout == f.layout[..i] + f.layout[i..];
      WithoutSplice(f.layout[..i], f.layout[i..], newBlock);
    } else {
      WithoutAbsent(f.layout, newBlock);
    }
  }

  lemma UnprotectBlock(f: Function, newBlock: nat, l: nat)
    requires newBlock !in f.blocks && newBlock !in f.layout
    requires Protect(f, newBlock).Ok? && l in f.blocks
    ensures var u := Unprotect(Protect(f, newBlock).value, newBlock);
      l in u.blocks && u.blocks[l] == f.blocks[l]
  {
    LayoutKept(f, newBlock, l);
    EpiloguesAt(f, l);
    if l in f.layout {
      EpilogueRemoved(f.number, f.blocks[l].instrs);
    }
  }

}

=== FILE: split.dfy ===
/**
 Splitting an immediate into two hazard-free halves.

 For an immediate of `size` bits, every byte that starts a hazard (read as
 part of the little-endian encoding of the field, with zero past the most
 significant byte) contributes its low nibble to a mask `low`. The immediate
 is then the bitwise OR of two disjoint words, `low` and `imm & ~low`; the
 split returns them as (signed minimum, signed maximum), or (0, 0) when no
 byte is hazardous.
 */
module Split {
  import opened Words
  import opened Hazard

  datatype SplitPair = SplitPair(first: Word, second: Word)

  const NoSplit: SplitPair := SplitPair(Zero, Zero)

  /** The field widths in bits that an immediate operand may have; 0 stands
      for an opcode without a known width and yields an empty field. */
  predicate ValidSize(size: nat) {
    size % 8 == 0 && size <= 64
  }

  /** Number of bytes of an immediate field of `size` bits. */
  function FieldBytes(size: nat): (n: nat)
    requires ValidSize(size)
    ensures n <= 8
  {
    size / 8
  }

  /** The contribution of byte `cur`, followed by `next`, to the mask. */
  function NibbleMask(cur: byte, next: byte): (m: byte)
    ensures HazardPair(cur, next) ==> m != 0 && m == cur & 0x0F
    ensures !HazardPair(cur, next) ==> m == 0
  {
    if HazardPair(cur, next) then cur & 0x0F else 0
  }

  /** The mask byte of the source's loop at position `k` of an `n`-byte
      field, for the byte `cur` there and the byte `next` above it: the
      byte above the most significant one of the field reads as zero, and
      positions outside the field contribute nothing. */
  function MaskByte(cur: byte, next: byte, k: nat, n: nat): byte {
    if k < n then NibbleMask(cur, if k + 1 < n then next else 0) else 0
  }

  /** The mask `low` of the source for the `n`-byte field holding `imm`:
      the low nibbles of the hazardous bytes of the field, in place. */
  function LowMask(imm: Word, n: nat): Word
    requires n <= 8
  {
    Word(MaskByte(imm.b0, imm.b1, 0, n), MaskByte(imm.b1, imm.b2, 1, n),
         MaskByte(imm.b2, imm.b3, 2, n), MaskByte(imm.b3, imm.b4, 3, n),
         MaskByte(imm.b4, imm.b5, 4, n), MaskByte(imm.b5, imm.b6, 5, n),
         MaskByte(imm.b6, imm.b7, 6, n), MaskByte(imm.b7, 0, 7, n))
  }

  /** The rest of the immediate once the mask is taken out: `imm & ~low`. */
  function Rest(imm: Word, n: nat): Word
    requires n <= 8
  {
    And(imm, Not(LowMask(imm, n)))
  }

  /** The halves of an immediate once its mask `low` is known: (0, 0) when
      the mask is empty, otherwise the mask and the rest of the immediate,
      smaller (as signed 64-bit integers) first. */
  function Arrange(low: Word, imm: Word): SplitPair {
    if low == Zero then NoSplit
    else
      var rest := And(imm, Not(low));
      if SignedLe(low, rest) then SplitPair(low, rest) else SplitPair(rest, low)
  }

  /** The split of the source. */
  function SplitInt(imm: Word, size: nat): SplitPair
    requires ValidSize(size)
  {
    Arrange(LowMask(imm, FieldBytes(size)), imm)
  }

  // ---------------------------------------------------------------------
  // Byte-level facts.

  /** A mask byte is never a return opcode nor FF. */
  lemma NibbleMaskSafe(cur: byte, next: byte)
    ensures !IsRetOpcode(NibbleMask(cur, next)) && NibbleMask(cur, next) != 0xFF
  {
  }

  // ---------------------------------------------------------------------
  // The mask and the rest, one byte at a time.

  /** The mask of a field, shifted right by a byte, is the mask of the
      shifted field, which is one byte shorter; its least significant byte
      is the contribution of the field's least significant byte. */
  lemma LowMaskShift(imm: Word, n: nat)
    requires 1 <= n <= 8
    ensures Shift(LowMask(imm, n)) == LowMask(Shift(imm), n - 1)
    ensures LowMask(imm, n).b0 == NibbleMask(imm.b0, if n > 1 then imm.b1 else 0)
  {
  }

  /** Shifting commutes with `a & ~b`. */
  lemma ShiftAndNot(a: Word, b: Word)
    ensures Shift(And(a, Not(b))) == And(Shift(a), Not(Shift(b)))
  {
  }

  /** The same for the rest of the immediate. */
  lemma RestShift(imm: Word, n: nat)
    requires 1 <= n <= 8
    ensures Shift(Rest(imm, n)) == Rest(Shift(imm), n - 1)
  {
    LowMaskShift(imm, n);
    ShiftAndNot(imm, LowMask(imm, n));
  }

  /** The least significant byte of the rest, with the byte above it, is
      not a hazard. */
  lemma RestHeadSafe(imm: Word, n: nat)
    requires 1 <= n <= 8
    ensures !HazardPair(Rest(imm, n).b0, if n > 1 then Rest(imm, n).b1 else 0)
  {
    LowMaskShift(imm, n);
    if n > 1 {
      LowMaskShift(Shift(imm), n - 1);
    }
    HeadSafe(imm, LowMask(imm, n), n);
  }

  /** The head of `imm & ~low` is safe when the two low bytes of `low` are
      the mask bytes of the two low bytes of `imm`. */
  lemma HeadSafe(imm: Word, low: Word, n: nat)
    requires 1 <= n <= 8
    requires low.b0 == NibbleMask(imm.b0, if n > 1 then imm.b1 else 0)
    requires n > 1 ==> low.b1 == NibbleMask(imm.b1, if n > 2 then imm.b2 else 0)
    ensures !HazardPair(And(imm, Not(low)).b0, if n > 1 then And(imm, Not(low)).b1 else 0)
  {
    var r := And(imm, Not(low));
    var after := if n > 2 then imm.b2 else 0;
    if n > 1 {
      RemainderSafe(imm.b0, imm.b1, after, false, r.b0, r.b1);
    } else {
      RemainderSafe(imm.b0, 0, after, true, r.b0, 0);
    }
  }

  /** A remainder byte `rc`, followed by the remainder `rn` of the next
      byte (or by zero at the end of the field), never starts a hazard: a
      hazardous byte keeps only its high nibble (C0 or F0), which is neither
      a return nor FF nor a dangerous ModRM byte, and a byte that was not
      hazardous is kept whole, with a successor that is either kept or
      becomes C0/F0. */
  lemma RemainderSafe(cur: byte, next: byte, after: byte, last: bool, rc: byte, rn: byte)
    requires rc == cur & !NibbleMask(cur, next)
    requires rn == if last then 0 else next & !NibbleMask(next, after)
    ensures !HazardPair(rc, rn)
  {
  }

  /** The mask, as an `n`-byte field, holds no hazard. */
  lemma {:induction false} LowIsSafe(imm: Word, n: nat)
    requires n <= 8
    ensures FieldSafe(LowMask(imm, n), n)
    decreases n
  {
    if n > 0 {
      LowMaskShift(imm, n);
      NibbleMaskSafe(imm.b0, if n > 1 then imm.b1 else 0);
      LowIsSafe(Shift(imm), n - 1);
    }
  }

  /** The rest of the immediate, as an `n`-byte field, holds no hazard. */
  lemma {:induction false} RestIsSafe(imm: Word, n: nat)
    requires n <= 8
    ensures FieldSafe(Rest(imm, n), n)
    decreases n
  {
    if n > 0 {
      RestHeadSafe(imm, n);
      RestShift(imm, n);
      RestIsSafe(Shift(imm), n - 1);
    }
  }

  /** The zero word is safe in any field. */
  lemma {:induction false} ZeroIsSafe(n: nat)
    requires n <= 8
    ensures FieldSafe(Zero, n)
    decreases n
  {
    if n > 0 {
      assert Shift(Zero) == Zero;
      ZeroIsSafe(n - 1);
    }
  }

  /** The mask is zero exactly when the field is hazard-free. */
  lemma {:induction false} LowMaskZeroIffSafe(imm: Word, n: nat)
    requires n <= 8
    ensures LowMask(imm, n) == Zero <==> FieldSafe(imm, n)
    decreases n
  {
    if n > 0 {
      var low := LowMask(imm, n);
      LowMaskShift(imm, n);
      LowMaskZeroIffSafe(Shift(imm), n - 1);
      assert low == Zero <==> low.b0 == 0 && Shift(low) == Zero;
    }
  }

  // ---------------------------------------------------------------------
  // The split.

  /** The mask only takes bits of the immediate. */
  lemma LowMaskIsSubmask(imm: Word, n: nat)
    requires n <= 8
    ensures And(LowMask(imm, n), Not(imm)) == Zero
  {
  }

  /** The three possible shapes of a split. */
  lemma SplitCases(imm: Word, size: nat)
    requires ValidSize(size)
    ensures var low := LowMask(imm, FieldBytes(size));
      var p := SplitInt(imm, size);
      (low == Zero && p == NoSplit)
      || (low != Zero && p == SplitPair(low, Rest(imm, FieldBytes(size))))
      || (low != Zero && p == SplitPair(Rest(imm, FieldBytes(size)), low))
  {
  }

  /** A sub-mask and the rest of the word are disjoint and together make
      up the word, in either order. */
  lemma SubmaskRest(low: Word, imm: Word)
    requires And(low, Not(imm)) == Zero
    ensures Or(low, And(imm, Not(low))) == imm && Or(And(imm, Not(low)), low) == imm
    ensures And(low, And(imm, Not(low))) == Zero && And(And(imm, Not(low)), low) == Zero
  {
  }

  /** The signed order is total. */
  lemma SignedLeTotal(a: Word, b: Word)
    ensures SignedLe(a, b) || SignedLe(b, a)
  {
  }

  /** Arranging a nonzero sub-mask and the rest of the word gives two
      disjoint halves whose union is the word, smaller one first. */
  lemma ArrangePartition(low: Word, imm: Word)
    requires And(low, Not(imm)) == Zero && low != Zero
    ensures Or(Arrange(low, imm).first, Arrange(low, imm).second) == imm
    ensures And(Arrange(low, imm).first, Arrange(low, imm).second) == Zero
    ensures SignedLe(Arrange(low, imm).first, Arrange(low, imm).second)
  {
    SubmaskRest(low, imm);
    SignedLeTotal(low, And(imm, Not(low)));
  }

  /** A nonzero split partitions the immediate into two disjoint halves,
      the first no greater than the second as signed 64-bit integers. */
  lemma SplitPartition(imm: Word, size: nat)
    requires ValidSize(size)
    requires SplitInt(imm, size) != NoSplit
    ensures Or(SplitInt(imm, size).first, SplitInt(imm, size).second) == imm
    ensures And(SplitInt(imm, size).first, SplitInt(imm, size).second) == Zero
    ensures SignedLe(SplitInt(imm, size).first, SplitInt(imm, size).second)
  {
    LowMaskIsSubmask(imm, FieldBytes(size));
    ArrangePartition(LowMask(imm, FieldBytes(size)), imm);
  }

  /** The split is (0, 0) exactly when the little-endian bytes of the field
      contain no hazard; both views read zero past the most significant
      byte. */
  lemma SplitZeroIffSafe(imm: Word, size: nat)
    requires ValidSize(size)
    ensures SplitInt(imm, size) == NoSplit <==> !HasHazard(LeBytes(imm, FieldBytes(size)))
  {
    LowMaskZeroIffSafe(imm, FieldBytes(size));
    FieldSafeIff(imm, FieldBytes(size));
    SplitCases(imm, size);
  }

  /** Neither half of a split contains a hazard in its field bytes. */
  lemma SplitHalvesSafe(imm: Word, size: nat)
    requires ValidSize(size)
    ensures !HasHazard(LeBytes(SplitInt(imm, size).first, FieldBytes(size)))
    ensures !HasHazard(LeBytes(SplitInt(imm, size).second, FieldBytes(size)))
  {
    var p := SplitInt(imm, size);
    var n := FieldBytes(size);
    SplitCases(imm, size);
    LowIsSafe(imm, n);
    RestIsSafe(imm, n);
    ZeroIsSafe(n);
    assert FieldSafe(p.first, n) && FieldSafe(p.second, n);
    FieldSafeIff(p.first, n);
    FieldSafeIff(p.second, n);
  }

  /** Whether a word, read as unsigned, is at most 0xFFFFFFFF. */
  predicate Fits32(x: Word) {
    x.b4 == 0 && x.b5 == 0 && x.b6 == 0 && x.b7 == 0
  }

  /** A mask byte is a low nibble, and the byte it was taken from keeps a
      nonzero high nibble. */
  lemma MaskByteNibble(cur: byte, next: byte, k: nat, n: nat)
    ensures MaskByte(cur, next, k, n) <= 0x0F
    ensures MaskByte(cur, next, k, n) != 0 ==> cur & !MaskByte(cur, next, k, n) != 0
  {
  }

  /** When the smaller half fits in 32 bits its bit 31 is clear, so an
      instruction that sign-extends a 32-bit immediate to 64 bits
      reproduces it. */
  lemma SmallHalfBelowSignBit(imm: Word, size: nat)
    requires ValidSize(size)
    requires Fits32(SplitInt(imm, size).first)
    ensures SplitInt(imm, size).first.b3 < 0x80
  {
    var n := FieldBytes(size);
    MaskByteNibble(imm.b3, imm.b4, 3, n);
    MaskByteNibble(imm.b4, imm.b5, 4, n);
    MaskByteNibble(imm.b5, imm.b6, 5, n);
    MaskByteNibble(imm.b6, imm.b7, 6, n);
    MaskByteNibble(imm.b7, 0, 7, n);
    SplitCases(imm, size);
  }

  /** A worked case: the RET byte C3 in the fourth byte of a 64-bit
      immediate is cut into 03 and C0. */
  lemma SplitExample()
    ensures SplitInt(Word(0x77, 0x66, 0x55, 0xC3, 0x44, 0x33, 0x22, 0x11), 64)
         == SplitPair(Word(0, 0, 0, 0x03, 0, 0, 0, 0), Word(0x77, 0x66, 0x55, 0xC0, 0x44, 0x33, 0x22, 0x11))
  {
  }
}

=== FILE: tables.dfy ===
/**
 The five opcode tables of the immediate-reconstruction pass.

 Each table maps an opcode that may carry a dangerous immediate or
 displacement to the opcode that replaces it and to the width, in bits, at
 which the immediate is split:

 - register/immediate forms go to the register/register form of the same
   operation and width (ADD32ri8 to ADD32rr, TEST8i8 to TEST8rr);
 - memory/immediate forms go to the memory/register form (ADD32mi8 to
   ADD32mr);
 - the loads, stores and address computations of the last three tables keep
   their opcode, and their displacement is always split as 64 bits.

 A lookup of an unlisted opcode yields opcode 0 and width 0 in the source;
 here it yields `None`.
 */
module Tables {
  import opened Machine

  datatype Entry = Entry(target: Opcode, size: nat)

  /** The immediate forms of the arithmetic rows: 8ri; 16ri and 16ri8;
      32ri and 32ri8; 64ri32 and 64ri8. */
  predicate ArithRI(w: nat, f: Form) {
    (w == 8 && f == RI) || ((w == 16 || w == 32) && (f == RI || f == RI8))
    || (w == 64 && (f == RI32 || f == RI8))
  }

  /** The disjoint-bits ADD variants: 16ri_DB, 16ri8_DB, 32ri_DB, 32ri8_DB,
      64ri8_DB and 64ri32_DB. */
  predicate AddDB(w: nat, f: Form) {
    ((w == 16 || w == 32) && (f == RI_DB || f == RI8_DB))
    || (w == 64 && (f == RI8_DB || f == RI32_DB))
  }

  /** MOV8ri, MOV16ri, MOV32ri, MOV32ri64, MOV64ri32 and MOV64ri. */
  predicate MovRI(w: nat, f: Form) {
    (f == RI && w in {8, 16, 32, 64}) || (w == 32 && f == RI64) || (w == 64 && f == RI32)
  }

  /** TEST8i8, TEST16i16, TEST32i32, TEST64i32, TEST8ri, TEST16ri, TEST32ri
      and TEST64ri32. */
  predicate TestRI(w: nat, f: Form) {
    (f == AI && w in {8, 16, 32, 64}) || (f == RI && w in {8, 16, 32}) || (w == 64 && f == RI32)
  }

  /** The memory forms of the arithmetic rows: 8mi; 16mi and 16mi8; 32mi
      and 32mi8; 64mi32 and 64mi8. */
  predicate ArithMI(w: nat, f: Form) {
    (w == 8 && f == MI) || ((w == 16 || w == 32) && (f == MI || f == MI8))
    || (w == 64 && (f == MI32 || f == MI8))
  }

  /** The register/immediate table. */
  function RItoRR(op: Opcode): Option<Entry> {
    var w, f := op.width, op.form;
    match op.mn
    case ADD =>
      if ArithRI(w, f) then Some(Entry(Op(ADD, w, RR), w))
      else if AddDB(w, f) then Some(Entry(Op(ADD, w, RR_DB), w))
      else None
    case MOV => if MovRI(w, f) then Some(Entry(Op(MOV, w, RR), w)) else None
    case TEST => if TestRI(w, f) then Some(Entry(Op(TEST, w, RR), w)) else None
    case _ =>
      if op.mn in {ADC, SBB, SUB, OR, XOR, AND, CMP} && ArithRI(w, f)
      then Some(Entry(Op(op.mn, w, RR), w)) else None
  }

  /** The memory/immediate table. ADC has only its 32- and 64-bit rows,
      MOV its 8mi, 16mi, 32mi and 64mi32 rows. */
  function MItoMR(op: Opcode): Option<Entry> {
    var w, f := op.width, op.form;
    match op.mn
    case ADC => if (w == 32 && (f == MI || f == MI8)) || (w == 64 && (f == MI32 || f == MI8))
                then Some(Entry(Op(ADC, w, MR), w)) else None
    case MOV => if (f == MI && w in {8, 16, 32}) || (w == 64 && f == MI32)
                then Some(Entry(Op(MOV, w, MR), w)) else None
    case _ =>
      if op.mn in {ADD, SBB, SUB, OR, XOR, AND, CMP} && ArithMI(w, f)
      then Some(Entry(Op(op.mn, w, MR), w)) else None
  }

  /** The loads: MOVSX32rm8, MOVSX64rm16, MOVZX32rm8 and MOV8rm .. MOV64rm. */
  function RMtoRM(op: Opcode): Option<Entry> {
    if op == Op(MOVSX, 32, RM8) || op == Op(MOVSX, 64, RM16) || op == Op(MOVZX, 32, RM8)
       || (op.mn == MOV && op.form == RM && op.width in {8, 16, 32, 64})
    then Some(Entry(op, 64)) else None
  }

  /** The stores: MOV8mr .. MOV64mr. */
  function MRtoMR(op: Opcode): Option<Entry> {
    if op.mn == MOV && op.form == MR && op.width in {8, 16, 32, 64}
    then Some(Entry(op, 64)) else None
  }

  /** The address computations: LEA64_32r, LEA16r, LEA32r and LEA64r. */
  function LeaTable(op: Opcode): Option<Entry> {
    if op == Op(LEA64_32, 32, R) || (op.mn == LEA && op.form == R && op.width in {16, 32, 64})
    then Some(Entry(op, 64)) else None
  }

  predicate IsRI(op: Opcode) { RItoRR(op).Some? }
  predicate IsMI(op: Opcode) { MItoMR(op).Some? }
  predicate IsRM(op: Opcode) { RMtoRM(op).Some? }
  predicate IsMR(op: Opcode) { MRtoMR(op).Some? }
  predicate IsLEA(op: Opcode) { LeaTable(op).Some? }

  /** The source ORs the five lookups together, relying on every opcode
      being listed in at most one table; here the first table that lists
      the opcode answers (`TablesDisjoint` shows the order is immaterial). */
  function Lookup(op: Opcode): (e: Option<Entry>)
    ensures e.Some? <==> IsRI(op) || IsMI(op) || IsRM(op) || IsMR(op) || IsLEA(op)
  {
    if IsRI(op) then RItoRR(op) else if IsMI(op) then MItoMR(op)
    else if IsRM(op) then RMtoRM(op) else if IsMR(op) then MRtoMR(op) else LeaTable(op)
  }

  /** The replacement opcode, opcode 0 being `None`. */
  function OpcodeFromMaps(op: Opcode): (r: Option<Opcode>)
    ensures r.Some? <==> Lookup(op).Some?
  {
    match Lookup(op)
    case None => None
    case Some(e) => Some(e.target)
  }

  /** The split width, 0 for an unlisted opcode. */
  function SizeFromMaps(op: Opcode): (n: nat)
    ensures n in {0, 8, 16, 32, 64}
    ensures n == 0 <==> Lookup(op).None?
  {
    match Lookup(op)
    case None => 0
    case Some(e) => e.size
  }

  /** No opcode is listed in two tables, so OR-ing the five lookups in the
      source yields the entry of the one table that lists it. */
  lemma TablesDisjoint(op: Opcode)
    ensures IsRI(op) ==> !IsMI(op) && !IsRM(op) && !IsMR(op) && !IsLEA(op)
    ensures IsMI(op) ==> !IsRM(op) && !IsMR(op) && !IsLEA(op)
    ensures IsRM(op) ==> !IsMR(op) && !IsLEA(op)
    ensures IsMR(op) ==> !IsLEA(op)
    ensures IsRI(op) ==> Lookup(op) == RItoRR(op)
    ensures IsMI(op) ==> Lookup(op) == MItoMR(op)
    ensures IsRM(op) ==> Lookup(op) == RMtoRM(op)
    ensures IsMR(op) ==> Lookup(op) == MRtoMR(op)
    ensures IsLEA(op) ==> Lookup(op) == LeaTable(op)
  {
  }

  /** What the register/immediate table does: it keeps the operation and
      the width, replaces the immediate form by the register form, and
      splits at the operand width. */
  lemma RItoRRShape(op: Opcode)
    requires IsRI(op)
    ensures RItoRR(op).value.target.mn == op.mn
    ensures RItoRR(op).value.target.width == op.width == RItoRR(op).value.size
    ensures RItoRR(op).value.target.form in {RR, RR_DB}
    ensures RItoRR(op).value.size in {8, 16, 32, 64}
    ensures RItoRR(op).value.target.form == RR_DB <==> op.form in {RI_DB, RI8_DB, RI32_DB}
  {
  }

  /** What the memory/immediate table does: the operation and width stay,
      the immediate becomes a register source. */
  lemma MItoMRShape(op: Opcode)
    requires IsMI(op)
    ensures MItoMR(op).value == Entry(Op(op.mn, op.width, MR), op.width)
    ensures op.width in {8, 16, 32, 64} && op.form in {MI, MI8, MI32}
  {
  }

  /** The last three tables keep the opcode and split displacements at 64
      bits. */
  lemma DisplacementTablesKeepOpcode(op: Opcode)
    requires IsRM(op) || IsMR(op) || IsLEA(op)
    ensures Lookup(op) == Some(Entry(op, 64))
  {
    TablesDisjoint(op);
  }

  /** Every listed opcode is an arithmetic, move, test or address
      operation, and its replacement performs the same operation. */
  lemma ListedOperations(op: Opcode)
    requires Lookup(op).Some?
    ensures op.mn in {ADC, ADD, SBB, SUB, OR, XOR, AND, CMP, MOV, TEST, MOVSX, MOVZX, LEA, LEA64_32}
    ensures OpcodeFromMaps(op).value.mn == op.mn
  {
  }

  /** Register-form rows as the source lists them. */
  lemma RegisterRows()
    ensures Lookup(Op(ADC, 8, RI)) == Some(Entry(Op(ADC, 8, RR), 8))
    ensures Lookup(Op(ADD, 16, RI8_DB)) == Some(Entry(Op(ADD, 16, RR_DB), 16))
    ensures Lookup(Op(TEST, 8, AI)) == Some(Entry(Op(TEST, 8, RR), 8))
    ensures Lookup(Op(MOV, 32, RI64)) == Some(Entry(Op(MOV, 32, RR), 32))
  {
  }

  lemma MemoryRows()
    ensures Lookup(Op(SBB, 8, MI)) == Some(Entry(Op(SBB, 8, MR), 8))
    ensures Lookup(Op(MOV, 64, MI32)) == Some(Entry(Op(MOV, 64, MR), 64))
  {
  }

  /** Rows the source leaves out: ADC has no 8-bit memory form while SBB
      has, and TEST has no memory form. */
  lemma UnlistedRows()
    ensures Lookup(Op(ADC, 8, MI)) == None
    ensures Lookup(Op(TEST, 32, MI)) == None
  {
  }

  lemma DisplacementRows()
    ensures Lookup(Op(MOVSX, 64, RM16)) == Some(Entry(Op(MOVSX, 64, RM16), 64))
    ensures Lookup(Op(LEA64_32, 32, R)) == Some(Entry(Op(LEA64_32, 32, R), 64))
  {
  }
}

=== FILE: values.dfy ===
/**
 What the code emitted by the immediate-reconstruction pass computes.

 Registers hold 64-bit words. An instruction of width `w` reads the low
 `w / 8` bytes of its register operands and writes its result into the low
 bytes of the destination, clearing the rest: the processor does so for
 32-bit writes, and the pass only ever reads a narrower fresh register at
 the width it was written with. An immediate operand holds the backend's
 64-bit value; the 32-bit immediate of a `ri32` form is sign-extended by
 the processor, which is why the pass needs the half it puts there to
 stay below the sign bit.
 */
module Values {
  import opened Words
  import opened Hazard
  import opened Split
  import opened Machine
  import opened Tables
  import opened ImmRecon

  type Regs = map<Reg, Word>

  /** A register's value; registers never written read as zero. */
  function Get(regs: Regs, r: Reg): Word {
    if r in regs then regs[r] else Zero
  }

  /** The low `n` bytes of `w`, for `n` in 1, 2, 4, 8; the rest cleared. */
  function Low(w: Word, n: nat): Word {
    Word(w.b0, if n > 1 then w.b1 else 0, if n > 2 then w.b2 else 0, if n > 2 then w.b3 else 0,
         if n > 4 then w.b4 else 0, if n > 4 then w.b5 else 0,
         if n > 4 then w.b6 else 0, if n > 4 then w.b7 else 0)
  }

  /** A 32-bit immediate as the processor widens it to 64 bits. */
  function SignExtend32(w: Word): Word {
    var fill: byte := if w.b3 < 0x80 then 0 else 0xFF;
    Word(w.b0, w.b1, w.b2, w.b3, fill, fill, fill, fill)
  }

  /** The value an immediate operand of `op` stands for. */
  function ImmValue(op: Opcode, v: Word): Word {
    if op.form == RI32 then SignExtend32(v) else Low(v, op.width / 8)
  }

  /** The value of operand `o` read by an instruction with opcode `op`. */
  function Read(op: Opcode, o: Operand, regs: Regs): Word {
    match o
    case RegOp(r) => Low(Get(regs, r), op.width / 8)
    case Imm(v) => ImmValue(op, v)
    case _ => Zero
  }

  /**
   One instruction of the kinds the pass emits — MOV of an immediate or a
   register, OR, and the 64-bit ADD and SUB of registers — on the
   registers; `None` for any other instruction, whose effect is not
   modelled. Addition and subtraction wrap around at 64 bits.
   */
  function Exec(i: Instr, regs: Regs): Option<Regs> {
    var w := i.op.width / 8;
    if |i.ops| == 0 || !i.ops[0].RegOp? then None
    else
      var dst := i.ops[0].reg;
      match i.op.mn
      case MOV =>
        if |i.ops| == 2 && i.op.form in {RI, RR}
        then Some(regs[dst := Low(Read(i.op, i.ops[1], regs), w)]) else None
      case OR =>
        if |i.ops| == 3 && i.op.form in {RI, RI32, RR}
        then Some(regs[dst := Low(Or(Read(i.op, i.ops[1], regs), Read(i.op, i.ops[2], regs)), w)])
        else None
      case ADD =>
        if |i.ops| == 3 && i.op == Op(ADD, 64, RR) && i.ops[1].RegOp? && i.ops[2].RegOp?
        then Some(regs[dst := Add(Get(regs, i.ops[1].reg), Get(regs, i.ops[2].reg))]) else None
      case SUB =>
        if |i.ops| == 3 && i.op == Op(SUB, 64, RR) && i.ops[1].RegOp? && i.ops[2].RegOp?
        then Some(regs[dst := Sub(Get(regs, i.ops[1].reg), Get(regs, i.ops[2].reg))]) else None
      case _ => None
  }

  /** A sequence of instructions run one after the other. */
  function ExecAll(s: seq<Instr>, regs: Regs): Option<Regs> {
    if |s| == 0 then Some(regs)
    else match Exec(s[0], regs)
      case None => None
      case Some(next) => ExecAll(s[1..], next)
  }

  lemma ExecPair(a: Instr, b: Instr, regs: Regs)
    ensures ExecAll([a, b], regs) ==
      match Exec(a, regs) case None => None case Some(r1) => ExecAll([b], r1)
  {
    assert [a, b][1..] == [b];
  }

  lemma ExecOne(a: Instr, regs: Regs)
    ensures ExecAll([a], regs) == Exec(a, regs)
  {
    assert [a][1..] == [];
  }

  lemma ExecTriple(a: Instr, b: Instr, c: Instr, regs: Regs)
    ensures ExecAll([a, b, c], regs) ==
      match Exec(a, regs) case None => None case Some(r1) => ExecAll([b, c], r1)
  {
    assert [a, b, c][1..] == [b, c];
  }

  // ---------------------------------------------------------------------
  // The loads.

  lemma LowOr(a: Word, b: Word, n: nat)
    ensures Low(Or(Low(a, n), Low(b, n)), n) == Low(Or(b, a), n)
  {
  }

  lemma LowLow(a: Word, n: nat)
    ensures Low(Low(a, n), n) == Low(a, n)
  {
  }

  /** A half that fits 32 bits and stays below the sign bit is what the
      processor makes of it as a sign-extended 32-bit immediate. */
  lemma SignExtendSmall(w: Word)
    requires Fits32(w) && w.b3 < 0x80
    ensures SignExtend32(w) == w && Low(w, 8) == w
  {
  }

  /** A MOV of an immediate of `w` bytes. */
  lemma MovImmStep(dst: Reg, v: Word, w: nat, regs: Regs)
    requires w in {1, 2, 4, 8}
    ensures Exec(Instr(MovRIOpcode(w).value, [RegOp(dst), Imm(v)]), regs) == Some(regs[dst := Low(v, w)])
  {
    LowLow(v, w);
  }

  /** An OR of a register and an immediate of `w` bytes; for eight bytes
      the immediate is sign-extended from 32 bits. */
  lemma OrImmStep(dst: Reg, src: Reg, v: Word, w: nat, regs: Regs)
    requires w in {1, 2, 4, 8}
    ensures Exec(Instr(OrRIOpcode(w).value, [RegOp(dst), RegOp(src), Imm(v)]), regs)
      == Some(regs[dst := Low(Or(Low(Get(regs, src), w), if w == 8 then SignExtend32(v) else Low(v, w)), w)])
  {
  }

  /** An OR of two registers of `w` bytes. */
  lemma OrRegStep(dst: Reg, a: Reg, b: Reg, w: nat, regs: Regs)
    requires w in {1, 2, 4, 8}
    ensures Exec(Instr(OrRROpcode(w).value, [RegOp(dst), RegOp(a), RegOp(b)]), regs)
      == Some(regs[dst := Low(Or(Low(Get(regs, a), w), Low(Get(regs, b), w)), w)])
  {
  }

  /** The loads of two halves whose OR is `v`, the first fitting 32 bits:
      MOV then OR of an immediate. */
  lemma LoadsRebuildShort(h: SplitPair, v: Word, size: nat, n: nat, regs: Regs)
    requires size in {8, 16, 32, 64}
    requires Or(h.first, h.second) == v && Fits32(h.first)
    requires size == 64 ==> h.first.b3 < 0x80
    ensures ExecAll(Loads(h, size, n), regs) ==
      Some(regs[Virt(n) := Low(h.second, size / 8)][Virt(n + 1) := Low(v, size / 8)])
  {
    var b := size / 8;
    var mov := Instr(MovRIOpcode(b).value, [RegOp(Virt(n)), Imm(h.second)]);
    var or := Instr(OrRIOpcode(b).value, [RegOp(Virt(n + 1)), RegOp(Virt(n)), Imm(h.first)]);
    assert Loads(h, size, n) == [mov, or];
    ExecPair(mov, or, regs);
    MovImmStep(Virt(n), h.second, b, regs);
    var regs1 := regs[Virt(n) := Low(h.second, b)];
    ExecOne(or, regs1);
    OrImmStep(Virt(n + 1), Virt(n), h.first, b, regs1);
    LowLow(h.second, b);
    if size == 64 {
      SignExtendSmall(h.first);
    }
    LowOr(h.second, h.first, b);
  }

  /** The loads of two halves whose OR is `v`, the first not fitting 32
      bits: two MOVs then OR of registers. */
  lemma LoadsRebuildLong(h: SplitPair, v: Word, size: nat, n: nat, regs: Regs)
    requires size in {8, 16, 32, 64}
    requires Or(h.first, h.second) == v && !Fits32(h.first)
    ensures ExecAll(Loads(h, size, n), regs) ==
      Some(regs[Virt(n) := Low(h.second, size / 8)][Virt(n + 2) := Low(h.first, size / 8)]
               [Virt(n + 1) := Low(v, size / 8)])
  {
    var b := size / 8;
    var mov := Instr(MovRIOpcode(b).value, [RegOp(Virt(n)), Imm(h.second)]);
    var mov2 := Instr(MovRIOpcode(b).value, [RegOp(Virt(n + 2)), Imm(h.first)]);
    var or := Instr(OrRROpcode(b).value, [RegOp(Virt(n + 1)), RegOp(Virt(n)), RegOp(Virt(n + 2))]);
    assert Loads(h, size, n) == [mov, mov2, or];
    ExecTriple(mov, mov2, or, regs);
    MovImmStep(Virt(n), h.second, b, regs);
    var regs1 := regs[Virt(n) := Low(h.second, b)];
    ExecPair(mov2, or, regs1);
    MovImmStep(Virt(n + 2), h.first, b, regs1);
    var regs2 := regs1[Virt(n + 2) := Low(h.first, b)];
    ExecOne(or, regs2);
    OrRegStep(Virt(n + 1), Virt(n), Virt(n + 2), b, regs2);
    LowLow(h.second, b);
    LowLow(h.first, b);
    LowOr(h.second, h.first, b);
  }

  /**
   The loads leave the value to rebuild, at the split width, in register
   `n + 1`, whichever of the two forms they take: the halves are disjoint
   parts whose OR is the value, and the half given to OR64ri32 is not
   changed by the sign extension. Only the three fresh registers change.
   */
  lemma LoadsRebuild(imm: Word, size: nat, n: nat, regs: Regs)
    requires size in {8, 16, 32, 64}
    requires SplitInt(imm, size) != NoSplit
    ensures ExecAll(Loads(SplitInt(imm, size), size, n), regs).Some?
    ensures var after := ExecAll(Loads(SplitInt(imm, size), size, n), regs).value;
      Get(after, Virt(n + 1)) == Low(imm, size / 8)
      && forall r :: r !in {Virt(n), Virt(n + 1), Virt(n + 2)} ==> Get(after, r) == Get(regs, r)
  {
    var h := SplitInt(imm, size);
    SplitPartition(imm, size);
    if Fits32(h.first) {
      if size == 64 {
        SmallHalfBelowSignBit(imm, size);
      }
      LoadsRebuildShort(h, imm, size, n, regs);
      FreshOnly(regs, n, Low(h.second, size / 8), Low(h.second, size / 8), Low(imm, size / 8), false);
    } else {
      LoadsRebuildLong(h, imm, size, n, regs);
      FreshOnly(regs, n, Low(h.second, size / 8), Low(h.first, size / 8), Low(imm, size / 8), true);
    }
  }

  /** The registers the loads write: `n`, then `n + 2` when there are
      three loads, and `n + 1` last; no other register changes. */
  lemma FreshOnly(regs: Regs, n: nat, a: Word, b: Word, c: Word, three: bool)
    ensures var after := if three then regs[Virt(n) := a][Virt(n + 2) := b][Virt(n + 1) := c]
                         else regs[Virt(n) := a][Virt(n + 1) := c];
      Get(after, Virt(n + 1)) == c
      && forall r :: r !in {Virt(n), Virt(n + 1), Virt(n + 2)} ==> Get(after, r) == Get(regs, r)
  {
  }

  // ---------------------------------------------------------------------
  // The register form.

  /** The backend's value of an immediate operand of `op` agrees with what
      the encoding stands for: a sign-extended 8- or 32-bit immediate is
      held sign-extended. */
  predicate Canonical(op: Opcode, v: Word) {
    ImmValue(op, v) == Low(v, op.width / 8)
  }

  /** The rebuilt value, read at the width of the register form, is the
      value the immediate stood for, and the loads touch only the fresh
      registers. */
  lemma RebuiltValueRead(mi: Instr, i: nat, n: nat, regs: Regs)
    requires IsRI(mi.op) && i < |mi.ops| && mi.ops[i].Imm?
    requires Dangerous(mi.ops[i].value, SplitWidth(mi.op, i))
    requires Canonical(mi.op, mi.ops[i].value)
    ensures var size := SplitWidth(mi.op, i);
      var after := ExecAll(Loads(SplitInt(mi.ops[i].value, size), size, n), regs);
      after.Some?
      && Read(OpcodeFromMaps(mi.op).value, RegOp(Virt(n + 1)), after.value) == Read(mi.op, mi.ops[i], regs)
      && forall r :: r !in {Virt(n), Virt(n + 1), Virt(n + 2)} ==> Get(after.value, r) == Get(regs, r)
  {
    var v := mi.ops[i].value;
    var size := SplitWidth(mi.op, i);
    TablesDisjoint(mi.op);
    RItoRRShape(mi.op);
    SplitZeroIffSafe(v, size);
    LoadsRebuild(v, size, n, regs);
    LowLow(v, size / 8);
  }

  /**
   The register form of an instruction reads, after the loads, what the
   immediate form read: the rebuilt value where the immediate was, and the
   same registers, untouched by the loads, before it.
   */
  lemma RegisterFormReadsSameValues(mi: Instr, i: nat, n: nat, regs: Regs)
    requires IsRI(mi.op) && i < |mi.ops| && mi.ops[i].Imm?
    requires Dangerous(mi.ops[i].value, SplitWidth(mi.op, i))
    requires Canonical(mi.op, mi.ops[i].value) && InstrBelow(mi, n)
    requires EmitRItoRR(mi, OpcodeFromMaps(mi.op).value, Virt(n + 1)).Ok?
    ensures var size := SplitWidth(mi.op, i);
      var newMI := EmitRItoRR(mi, OpcodeFromMaps(mi.op).value, Virt(n + 1)).value;
      var after := ExecAll(Loads(SplitInt(mi.ops[i].value, size), size, n), regs);
      after.Some? && |newMI.ops| >= 2
      && Read(newMI.op, newMI.ops[|newMI.ops| - 1], after.value) == Read(mi.op, mi.ops[i], regs)
      && forall j :: 0 <= j < |newMI.ops| - 1 ==>
           newMI.ops[j] == mi.ops[j] && Read(newMI.op, newMI.ops[j], after.value) == Read(mi.op, mi.ops[j], regs)
  {
    var size := SplitWidth(mi.op, i);
    var newOp := OpcodeFromMaps(mi.op).value;
    var newMI := EmitRItoRR(mi, newOp, Virt(n + 1)).value;
    var after := ExecAll(Loads(SplitInt(mi.ops[i].value, size), size, n), regs);
    RebuiltValueRead(mi, i, n, regs);
    RegisterFormShape(mi, newOp, Virt(n + 1));
    RegisterFormWidth(mi.op);
    assert newMI.op == newOp && newMI.ops[|newMI.ops| - 1] == RegOp(Virt(n + 1));
    assert after.Some? && Read(newOp, RegOp(Virt(n + 1)), after.value) == Read(mi.op, mi.ops[i], regs);
    KeptRegistersRead(mi, newMI, n, after.value, regs);
  }

  /** Register operands carried over from `mi` read the same when only
      registers from `n` on have changed. */
  lemma KeptRegistersRead(mi: Instr, newMI: Instr, n: nat, after: Regs, regs: Regs)
    requires InstrBelow(mi, n) && newMI.op.width == mi.op.width && 1 <= |newMI.ops| <= |mi.ops| + 1
    requires forall j :: 0 <= j < |newMI.ops| - 1 ==> newMI.ops[j] == mi.ops[j] && mi.ops[j].RegOp?
    requires forall r :: r !in {Virt(n), Virt(n + 1), Virt(n + 2)} ==> Get(after, r) == Get(regs, r)
    ensures forall j :: 0 <= j < |newMI.ops| - 1 ==>
      Read(newMI.op, newMI.ops[j], after) == Read(mi.op, mi.ops[j], regs)
  {
    forall j | 0 <= j < |newMI.ops| - 1
      ensures Read(newMI.op, newMI.ops[j], after) == Read(mi.op, mi.ops[j], regs)
    {
      var r := mi.ops[j].reg;
      assert r.Virt? ==> r.vreg < n;
      SameRegisterRead(newMI.op, mi.op, mi.ops[j], after, regs);
    }
  }

  /**
   The memory form of an instruction reads, after the loads, what the
   memory/immediate form read: the rebuilt value, at the operation's
   width, where the immediate was, and the same address, the loads writing
   no register the address is made of.
   */
  lemma MemoryFormReadsSameValues(mi: Instr, n: nat, regs: Regs)
    requires IsMI(mi.op) && |mi.ops| > 5 && mi.ops[5].Imm?
    requires Dangerous(mi.ops[5].value, SplitWidth(mi.op, 5)) && InstrBelow(mi, n)
    ensures var size := SplitWidth(mi.op, 5);
      var newMI := EmitMItoMR(mi, OpcodeFromMaps(mi.op).value, Virt(n + 1));
      var after := ExecAll(Loads(SplitInt(mi.ops[5].value, size), size, n), regs);
      after.Some? && newMI.op.width == mi.op.width
      && Read(newMI.op, newMI.ops[|newMI.ops| - 1], after.value) == ImmValue(mi.op, mi.ops[5].value)
      && Address(newMI.ops, 0, after.value) == Address(mi.ops, 0, regs)
  {
    var size := SplitWidth(mi.op, 5);
    var newMI := EmitMItoMR(mi, OpcodeFromMaps(mi.op).value, Virt(n + 1));
    MemoryRebuiltValue(mi, n, regs);
    var after := ExecAll(Loads(SplitInt(mi.ops[5].value, size), size, n), regs).value;
    forall j | 0 <= j < 4
      ensures newMI.ops[j] == mi.ops[j] && Val(newMI.ops[j], after) == Val(mi.ops[j], regs)
    {
      assert newMI.ops[j] == newMI.ops[..5][j];
      if mi.ops[j].RegOp? {
        var r := mi.ops[j].reg;
        assert r.Virt? ==> r.vreg < n;
      }
    }
    SameAddress(newMI.ops, mi.ops, 0, after, regs);
  }

  /** Operands that agree make the same address. */
  lemma SameAddress(ops1: seq<Operand>, ops2: seq<Operand>, m: nat, regs1: Regs, regs2: Regs)
    requires m + 5 <= |ops1| && m + 5 <= |ops2|
    requires forall j :: m <= j < m + 4 ==> ops1[j] == ops2[j] && Val(ops1[j], regs1) == Val(ops2[j], regs2)
    ensures Address(ops1, m, regs1) == Address(ops2, m, regs2)
  {
    assert m <= m + 1 < m + 4 && m <= m + 2 < m + 4 && m <= m + 3 < m + 4;
  }

  /** The rebuilt immediate of a memory/immediate instruction, read at the
      width of the memory form, is what the immediate stood for; the loads
      touch only the fresh registers. */
  lemma MemoryRebuiltValue(mi: Instr, n: nat, regs: Regs)
    requires IsMI(mi.op) && |mi.ops| > 5 && mi.ops[5].Imm?
    requires Dangerous(mi.ops[5].value, SplitWidth(mi.op, 5))
    ensures var size := SplitWidth(mi.op, 5);
      var newOp := OpcodeFromMaps(mi.op).value;
      var after := ExecAll(Loads(SplitInt(mi.ops[5].value, size), size, n), regs);
      after.Some? && newOp.width == mi.op.width
      && Read(newOp, RegOp(Virt(n + 1)), after.value) == ImmValue(mi.op, mi.ops[5].value)
      && forall r :: r !in {Virt(n), Virt(n + 1), Virt(n + 2)} ==> Get(after.value, r) == Get(regs, r)
  {
    var v := mi.ops[5].value;
    var size := SplitWidth(mi.op, 5);
    MItoMRShape(mi.op);
    TablesDisjoint(mi.op);
    SplitZeroIffSafe(v, size);
    LoadsRebuild(v, size, n, regs);
    LowLow(v, size / 8);
  }

  lemma RegisterFormWidth(op: Opcode)
    requires IsRI(op)
    ensures OpcodeFromMaps(op).value.width == op.width
  {
    RItoRRShape(op);
    TablesDisjoint(op);
  }

  /** A register read at the same width from registers that agree on it. */
  lemma SameRegisterRead(op1: Opcode, op2: Opcode, o: Operand, regs1: Regs, regs2: Regs)
    requires op1.width == op2.width && o.RegOp? && Get(regs1, o.reg) == Get(regs2, o.reg)
    ensures Read(op1, o, regs1) == Read(op2, o, regs2)
  {
  }

  /** The register form keeps the register operands before the immediate
      and reads the new register last. */
  lemma RegisterFormShape(mi: Instr, newOp: Opcode, immReg: Reg)
    requires EmitRItoRR(mi, newOp, immReg).Ok?
    ensures var m := EmitRItoRR(mi, newOp, immReg).value;
      m.op == newOp && |m.ops| >= 2 && m.ops[|m.ops| - 1] == RegOp(immReg)
      && forall j :: 0 <= j < |m.ops| - 1 ==> j < |mi.ops| && m.ops[j] == mi.ops[j] && mi.ops[j].RegOp?
  {
  }

  // ---------------------------------------------------------------------
  // The displacement.

  /** A 64-bit operand of a memory reference. */
  function Val(o: Operand, regs: Regs): Word {
    match o
    case RegOp(r) => Get(regs, r)
    case Imm(v) => v
    case _ => Zero
  }

  function Double(x: Word): Word { Add(x, x) }

  /** The index register scaled by the scale factor 1, 2, 4 or 8. */
  function Scaled(scale: Operand, x: Word): Word {
    if scale == Imm(Word(8, 0, 0, 0, 0, 0, 0, 0)) then Double(Double(Double(x)))
    else if scale == Imm(Word(4, 0, 0, 0, 0, 0, 0, 0)) then Double(Double(x))
    else if scale == Imm(Word(2, 0, 0, 0, 0, 0, 0, 0)) then Double(x)
    else x
  }

  /** The address of the memory reference at operands `m` .. `m + 4`:
      base plus displacement plus scaled index, wrapping around at 64 bits
      (addition modulo 2^64 being associative and commutative, the order
      is immaterial); the segment is not modelled. */
  function Address(ops: seq<Operand>, m: nat, regs: Regs): Word
    requires m + 5 <= |ops|
  {
    Add(Add(Val(ops[m], regs), Val(ops[m + 3], regs)), Scaled(ops[m + 1], Val(ops[m + 2], regs)))
  }

  /** The ADD of the displacement rewrite. */
  lemma AddStep(sum: Reg, base: Reg, imm: Reg, regs: Regs)
    ensures Exec(Instr(AddRROpcode(8).value, [RegOp(sum), RegOp(base), RegOp(imm)]), regs)
      == Some(regs[sum := Add(Get(regs, base), Get(regs, imm))])
  {
  }

  /** The SUB of the displacement rewrite. */
  lemma SubStep(dst: Reg, sum: Reg, imm: Reg, regs: Regs)
    ensures Exec(Instr(SubRROpcode(8).value, [RegOp(dst), RegOp(sum), RegOp(imm)]), regs)
      == Some(regs[dst := Sub(Get(regs, sum), Get(regs, imm))])
  {
  }

  /** The copy addresses through the sum what the original addressed
      through the base and the displacement. */
  lemma SumAddress(ops: seq<Operand>, m: nat, sum: Reg, regs: Regs)
    requires m + 5 <= |ops| && ops[m].RegOp? && ops[m + 3].Imm? && ops[m + 2] != RegOp(sum)
    ensures var r1 := regs[sum := Add(Get(regs, ops[m].reg), ops[m + 3].value)];
      Address(ops[m := RegOp(sum)][m + 3 := Imm(Zero)], m, r1) == Address(ops, m, regs)
  {
    var b, d := Get(regs, ops[m].reg), ops[m + 3].value;
    var r1 := regs[sum := Add(b, d)];
    var clone := ops[m := RegOp(sum)][m + 3 := Imm(Zero)];
    assert Val(clone[m], r1) == Add(b, d);
    assert Val(clone[m + 2], r1) == Val(ops[m + 2], regs);
    assert clone[m + 1] == ops[m + 1];
    assert Val(clone[m + 3], r1) == Zero;
    AddZero(Add(b, d));
  }

  /**
   The displacement rewrite, with the rebuilt displacement in `immReg` and
   the sum in register `s`: after the ADD the copy of the instruction
   addresses the memory the original did, and the SUB leaves the base in
   register `s + 1`, the base register itself never being written.
   */
  lemma DisplacementKeepsAddress(mi: Instr, immReg: Reg, m: nat, s: nat, regs: Regs)
    requires m + 5 <= |mi.ops| && mi.ops[m + 3].Imm? && mi.ops[m].RegOp?
    requires Get(regs, immReg) == mi.ops[m + 3].value
    requires immReg != Virt(s) && mi.ops[m + 2] != RegOp(Virt(s))
    ensures var parts := EmitAddInstSub(mi, immReg, m, m + 3, s).value;
      var r1 := Exec(parts.0, regs);
      r1.Some? && Address(parts.1.ops, m, r1.value) == Address(mi.ops, m, regs)
      && var r2 := Exec(parts.2, r1.value);
         r2.Some? && Get(r2.value, Virt(s + 1)) == Get(regs, mi.ops[m].reg)
  {
    var b, d := Get(regs, mi.ops[m].reg), mi.ops[m + 3].value;
    AddStep(Virt(s), mi.ops[m].reg, immReg, regs);
    var r1 := regs[Virt(s) := Add(b, d)];
    SumAddress(mi.ops, m, Virt(s), regs);
    SubStep(Virt(s + 1), Virt(s), immReg, r1);
    SubAdd(b, d);
  }
}

=== FILE: words.dfy ===
/**
 64-bit machine words.

 A word (an `int64_t` immediate or displacement, a register value, a memory
 cell) is represented by its eight bytes in little-endian order: `b0` is the
 least significant byte, and an `n`-byte immediate field of an instruction
 holds `b0 .. b(n-1)`. Bitwise operators act byte by byte, and so do
 addition and subtraction, which carry from one byte into the next.
 */
module Words {

  type byte = bv8

  datatype Word = Word(b0: byte, b1: byte, b2: byte, b3: byte,
                       b4: byte, b5: byte, b6: byte, b7: byte)

  const Zero: Word := Word(0, 0, 0, 0, 0, 0, 0, 0)

  /** The eight bytes of `w`, least significant first. */
  function Bytes(w: Word): (bs: seq<byte>)
    ensures |bs| == 8
  {
    [w.b0, w.b1, w.b2, w.b3, w.b4, w.b5, w.b6, w.b7]
  }

  function FromBytes(bs: seq<byte>): (w: Word)
    requires |bs| == 8
    ensures Bytes(w) == bs
  {
    Word(bs[0], bs[1], bs[2], bs[3], bs[4], bs[5], bs[6], bs[7])
  }

  /** `w >> 8` as an unsigned shift: the byte after the least significant
      one becomes the least significant, and a zero byte comes in at the top. */
  function Shift(w: Word): Word {
    Word(w.b1, w.b2, w.b3, w.b4, w.b5, w.b6, w.b7, 0)
  }

  /** The `n` low bytes of `w`: how an `n`-byte immediate field holding `w`
      appears in the instruction stream. */
  function LeBytes(w: Word, n: nat): (bs: seq<byte>)
    requires n <= 8
    ensures |bs| == n
    ensures n > 0 ==> bs[0] == w.b0
    decreases n
  {
    if n == 0 then [] else [w.b0] + LeBytes(Shift(w), n - 1)
  }

  function Or(a: Word, b: Word): Word {
    Word(a.b0 | b.b0, a.b1 | b.b1, a.b2 | b.b2, a.b3 | b.b3,
         a.b4 | b.b4, a.b5 | b.b5, a.b6 | b.b6, a.b7 | b.b7)
  }

  function And(a: Word, b: Word): Word {
    Word(a.b0 & b.b0, a.b1 & b.b1, a.b2 & b.b2, a.b3 & b.b3,
         a.b4 & b.b4, a.b5 & b.b5, a.b6 & b.b6, a.b7 & b.b7)
  }

  function Xor(a: Word, b: Word): Word {
    Word(a.b0 ^ b.b0, a.b1 ^ b.b1, a.b2 ^ b.b2, a.b3 ^ b.b3,
         a.b4 ^ b.b4, a.b5 ^ b.b5, a.b6 ^ b.b6, a.b7 ^ b.b7)
  }

  function Not(a: Word): Word {
    Word(!a.b0, !a.b1, !a.b2, !a.b3, !a.b4, !a.b5, !a.b6, !a.b7)
  }

  /** Two's-complement `a <= b`: the most significant byte decides first,
      with its sign bit flipped, then the lower bytes as unsigned values. */
  predicate SignedLe(a: Word, b: Word) {
    if a.b7 != b.b7 then a.b7 ^ 0x80 < b.b7 ^ 0x80
    else if a.b6 != b.b6 then a.b6 < b.b6
    else if a.b5 != b.b5 then a.b5 < b.b5
    else if a.b4 != b.b4 then a.b4 < b.b4
    else if a.b3 != b.b3 then a.b3 < b.b3
    else if a.b2 != b.b2 then a.b2 < b.b2
    else if a.b1 != b.b1 then a.b1 < b.b1
    else a.b0 <= b.b0
  }

  // 64-bit addition and subtraction, wrapping around, done byte by byte
  // from the least significant byte with a carry (a borrow) between bytes.

  /** A byte of a sum, with the carry from the byte below. */
  function SumByte(x: byte, y: byte, carry: bool): byte {
    x + y + (if carry then 1 else 0)
  }

  /** Whether `x + y + carry` overflows a byte. */
  predicate CarryOut(x: byte, y: byte, carry: bool) {
    var s := SumByte(x, y, carry);
    s < x || (carry && s == x)
  }

  /** A byte of a difference, with the borrow from the byte below. */
  function DiffByte(x: byte, y: byte, borrow: bool): byte {
    x - y - (if borrow then 1 else 0)
  }

  /** Whether `x - y - borrow` goes below zero. */
  predicate BorrowOut(x: byte, y: byte, borrow: bool) {
    x < y || (borrow && x == y)
  }

  /** `a + b` modulo 2^64. */
  function Add(a: Word, b: Word): Word {
    var c1 := CarryOut(a.b0, b.b0, false);
    var c2 := CarryOut(a.b1, b.b1, c1);
    var c3 := CarryOut(a.b2, b.b2, c2);
    var c4 := CarryOut(a.b3, b.b3, c3);
    var c5 := CarryOut(a.b4, b.b4, c4);
    var c6 := CarryOut(a.b5, b.b5, c5);
    var c7 := CarryOut(a.b6, b.b6, c6);
    Word(SumByte(a.b0, b.b0, false), SumByte(a.b1, b.b1, c1), SumByte(a.b2, b.b2, c2),
         SumByte(a.b3, b.b3, c3), SumByte(a.b4, b.b4, c4), SumByte(a.b5, b.b5, c5),
         SumByte(a.b6, b.b6, c6), SumByte(a.b7, b.b7, c7))
  }

  /** `a - b` modulo 2^64. */
  function Sub(a: Word, b: Word): Word {
    var c1 := BorrowOut(a.b0, b.b0, false);
    var c2 := BorrowOut(a.b1, b.b1, c1);
    var c3 := BorrowOut(a.b2, b.b2, c2);
    var c4 := BorrowOut(a.b3, b.b3, c3);
    var c5 := BorrowOut(a.b4, b.b4, c4);
    var c6 := BorrowOut(a.b5, b.b5, c5);
    var c7 := BorrowOut(a.b6, b.b6, c6);
    Word(DiffByte(a.b0, b.b0, false), DiffByte(a.b1, b.b1, c1), DiffByte(a.b2, b.b2, c2),
         DiffByte(a.b3, b.b3, c3), DiffByte(a.b4, b.b4, c4), DiffByte(a.b5, b.b5, c5),
         DiffByte(a.b6, b.b6, c6), DiffByte(a.b7, b.b7, c7))
  }

  /** Subtracting `y` with the same incoming borrow undoes adding it with
      that carry, and the borrow out is the carry out. */
  lemma ByteRoundTrip(x: byte, y: byte, c: bool)
    ensures DiffByte(SumByte(x, y, c), y, c) == x
    ensures BorrowOut(SumByte(x, y, c), y, c) == CarryOut(x, y, c)
  {
  }

  /** Subtraction undoes addition. */
  lemma SubAdd(a: Word, d: Word)
    ensures Sub(Add(a, d), d) == a
  {
    var c1 := CarryOut(a.b0, d.b0, false);
    var c2 := CarryOut(a.b1, d.b1, c1);
    var c3 := CarryOut(a.b2, d.b2, c2);
    var c4 := CarryOut(a.b3, d.b3, c3);
    var c5 := CarryOut(a.b4, d.b4, c4);
    var c6 := CarryOut(a.b5, d.b5, c5);
    var c7 := CarryOut(a.b6, d.b6, c6);
    ByteRoundTrip(a.b0, d.b0, false);
    ByteRoundTrip(a.b1, d.b1, c1);
    ByteRoundTrip(a.b2, d.b2, c2);
    ByteRoundTrip(a.b3, d.b3, c3);
    ByteRoundTrip(a.b4, d.b4, c4);
    ByteRoundTrip(a.b5, d.b5, c5);
    ByteRoundTrip(a.b6, d.b6, c6);
    ByteRoundTrip(a.b7, d.b7, c7);
    var s := Add(a, d);
    assert s == Word(SumByte(a.b0, d.b0, false), SumByte(a.b1, d.b1, c1), SumByte(a.b2, d.b2, c2),
                     SumByte(a.b3, d.b3, c3), SumByte(a.b4, d.b4, c4), SumByte(a.b5, d.b5, c5),
                     SumByte(a.b6, d.b6, c6), SumByte(a.b7, d.b7, c7));
  }

  /** Zero is the identity of addition. */
  lemma AddZero(a: Word)
    ensures Add(a, Zero) == a
  {
    ZeroByte(a.b0); ZeroByte(a.b1); ZeroByte(a.b2); ZeroByte(a.b3);
    ZeroByte(a.b4); ZeroByte(a.b5); ZeroByte(a.b6); ZeroByte(a.b7);
  }

  lemma ZeroByte(x: byte)
    ensures SumByte(x, 0, false) == x && !CarryOut(x, 0, false)
  {
  }

  /** The carry crosses bytes, and the sum wraps around at 2^64. */
  lemma AddCarries()
    ensures Add(Word(0xFF, 0, 0, 0, 0, 0, 0, 0), Word(1, 0, 0, 0, 0, 0, 0, 0)) == Word(0, 1, 0, 0, 0, 0, 0, 0)
    ensures Add(Not(Zero), Word(1, 0, 0, 0, 0, 0, 0, 0)) == Zero
    ensures Sub(Zero, Word(1, 0, 0, 0, 0, 0, 0, 0)) == Not(Zero)
  {
  }

  lemma XorByte(x: byte, y: byte)
    ensures (x ^ y) ^ y == x
    ensures x ^ y == y ^ x
    ensures x ^ y == 0 <==> x == y
  {
  }

  /** XOR-ing the same mask twice restores the word. */
  lemma XorTwice(a: Word, b: Word)
    ensures Xor(Xor(a, b), b) == a
  {
    XorByte(a.b0, b.b0); XorByte(a.b1, b.b1); XorByte(a.b2, b.b2); XorByte(a.b3, b.b3);
    XorByte(a.b4, b.b4); XorByte(a.b5, b.b5); XorByte(a.b6, b.b6); XorByte(a.b7, b.b7);
  }

  lemma XorComm(a: Word, b: Word)
    ensures Xor(a, b) == Xor(b, a)
  {
    XorByte(a.b0, b.b0); XorByte(a.b1, b.b1); XorByte(a.b2, b.b2); XorByte(a.b3, b.b3);
    XorByte(a.b4, b.b4); XorByte(a.b5, b.b5); XorByte(a.b6, b.b6); XorByte(a.b7, b.b7);
  }

  /** Solving `a ^ b == c` for `a`. */
  lemma XorSolve(a: Word, b: Word, c: Word)
    ensures Xor(a, b) == c <==> a == Xor(c, b)
  {
    XorTwice(a, b);
    XorTwice(c, b);
  }

  /** Two words XOR to zero exactly when they are equal. */
  lemma XorZeroIffEqual(a: Word, b: Word)
    ensures Xor(a, b) == Zero <==> a == b
  {
    if Xor(a, b) == Zero {
      var x := Xor(a, b);
      assert x.b0 == 0 && x.b1 == 0 && x.b2 == 0 && x.b3 == 0 && x.b4 == 0 && x.b5 == 0 && x.b6 == 0 && x.b7 == 0;
      XorByte(a.b0, b.b0); XorByte(a.b1, b.b1); XorByte(a.b2, b.b2); XorByte(a.b3, b.b3);
      XorByte(a.b4, b.b4); XorByte(a.b5, b.b5); XorByte(a.b6, b.b6); XorByte(a.b7, b.b7);
    } else if a == b {
      XorByte(a.b0, b.b0); XorByte(a.b1, b.b1); XorByte(a.b2, b.b2); XorByte(a.b3, b.b3);
      XorByte(a.b4, b.b4); XorByte(a.b5, b.b5); XorByte(a.b6, b.b6); XorByte(a.b7, b.b7);
    }
  }
}
